=== FILE: README.md ===
# soundwave, modelled in Dafny

A Dafny model of the logic inside the soundwave music player: a React/TypeScript web app, plus one Supabase edge function that resolves YouTube audio streams. The model covers the parts of the app that are pure logic. Each part is written as immutable records with pure transition functions:

- the player's queue state machine and the queue panel;
- the recommendation scorer and radio mode;
- video-id parsing, the edge function's mirror search and request handling;
- the client-side streaming helper, the YouTube search wrapper and the YouTube page;
- the sound controller's source choice and progress sync;
- the URL downloader;
- the two browser databases (the `soundwave-db` store and the offline store), the local-history view and the download manager;
- the playlist editor and the home page's playlist list;
- settings, the sleep timer, crossfade and the equalizer;
- the lyrics highlight, the sign-in form and the listening charts.

Some inputs are not under the model's control: clocks, random draws, network answers, the browser's JSON parser and the results of database calls. Each of these becomes a parameter of the function that uses it. An IndexedDB object store is a key-sorted sequence of entries (`OrderedStore`). Strings are sequences of characters.

Modules, one per source file, on shared foundations:

| module | file | source |
|---|---|---|
| `Wrappers`, `Text`, `Lists`, `Music`, `OrderedStore` | wrappers, text, lists, music, ordered_store | shared types and JavaScript string, array and IndexedDB semantics |
| `Player` | player.dfy | src/context/PlayerContext.tsx |
| `QueuePanel` | queue_panel.dfy | src/components/player/QueuePanel.tsx |
| `Recommend` | recommend.dfy | src/lib/recommendationEngine.ts |
| `Radio` | radio.dfy | src/hooks/useRadioMode.ts |
| `VideoId` | video_id.dfy | the three `extractVideoId`s |
| `StreamResolver` | stream_resolver.dfy | supabase/functions/youtube-audio/index.ts |
| `StreamingClient` | streaming_client.dfy | src/hooks/useYouTubeStreaming.ts |
| `YouTubeApi` | youtube_api.dfy | src/lib/youtubeApi.ts |
| `YouTubePage` | youtube_page.dfy | src/pages/YouTube.tsx |
| `SoundController` | sound_controller.dfy | src/components/SoundController.tsx |
| `UrlDownloader` | url_downloader.dfy | src/components/download/URLDownloader.tsx |
| `LocalDb` | local_db.dfy | src/lib/db.ts |
| `OfflineStorage` | offline_storage.dfy | src/lib/offlineStorage.ts |
| `LocalHistory` | local_history.dfy | src/hooks/useLocalMusic.ts |
| `DownloadManager` | download_manager.dfy | src/components/offline/DownloadManager.tsx |
| `PlaylistEditor` | playlist_editor.dfy | src/components/playlist/PlaylistEditor.tsx |
| `IndexPage` | index_page.dfy | src/pages/Index.tsx |
| `Settings` | settings.dfy | src/context/SettingsContext.tsx |
| `SleepTimer` | sleep_timer.dfy | src/components/player/SleepTimer.tsx |
| `Crossfade` | crossfade.dfy | src/hooks/useCrossfade.ts |
| `Equalizer` | equalizer.dfy | src/components/player/AudioEqualizer.tsx |
| `Lyrics` | lyrics.dfy | src/components/player/LyricsView.tsx |
| `Auth` | auth.dfy | src/pages/Auth.tsx |
| `ListeningCharts` | listening_charts.dfy | src/components/profile/ListeningCharts.tsx |

## Model

| member | source | states |
|---|---|---|
| Player.Initial | src/context/PlayerContext.tsx:27-37 | The provider starts with no current song, paused, progress 0, volume 80, shuffle off, repeat "none", the demo songs queued at index 0 and radio mode off |
| Player.PlaySong | src/context/PlayerContext.tsx:55-64 | The song becomes current and plays from 0. The index moves to the first queued song with its id, or to 0 when it is not queued. The queue and the settings are untouched |
| Player.PauseSong | src/context/PlayerContext.tsx:66-68 | Pausing clears only the playing flag |
| Player.ResumeSong | src/context/PlayerContext.tsx:70-72 | Resuming sets only the playing flag |
| Player.NextIndex | src/context/PlayerContext.tsx:76-82 | Under shuffle the next index is `floor(r * n)` for the draw r in [0, 1) and the queue length n > 0: the index i with i <= r·n < i + 1, so each index takes a slice of width 1/n of the draw's range. Otherwise it is one step forward; at the end it wraps to 0 only under repeat "all" and otherwise stays put |
| Player.NextSong | src/context/PlayerContext.tsx:74-90 | After `nextSong` the current song is the queue entry at the new index (none outside the queue) and progress is 0. Playback continues exactly when the index moved or repeat is "all". Queue and settings are unchanged |
| Player.PrevSong | src/context/PlayerContext.tsx:92-102 | One step back, wrapping from 0 to the last position. The current song follows the index; the play state, queue and settings are unchanged |
| Player.SetProgress | src/context/PlayerContext.tsx:104-106 | Only the progress changes |
| Player.SetVolume | src/context/PlayerContext.tsx:108-110 | Only the volume changes |
| Player.ToggleShuffle | src/context/PlayerContext.tsx:112-114 | Only the shuffle flag flips |
| Player.NextRepeat | src/context/PlayerContext.tsx:116-121 | The repeat mode always changes: none→all→one→none |
| Player.ToggleRepeat | src/context/PlayerContext.tsx:116-121 | Only the repeat mode changes, along the none→all→one cycle |
| Player.ToggleRadioMode | src/context/PlayerContext.tsx:163-165 | Only the radio flag flips |
| Player.AddToQueue | src/context/PlayerContext.tsx:123-125 | Exactly one song is appended; index, current song and everything else are unchanged |
| Player.RemoveFromQueueAsWritten | src/context/PlayerContext.tsx:127-137 | As written: every song with the id is removed, and removing an id that is not queued still steps the index back. For a queued id the index steps back by one exactly when its first match lies before the index, and otherwise stays |
| Player.RemoveAbsentIdMovesIndex | src/context/PlayerContext.tsx:131-134 | Counterexample: on queue [a, b] at index 1, removing an absent id keeps the queue but moves the index from b to a |
| Player.RemoveFromQueue | src/context/PlayerContext.tsx:127-137 | Corrected removal: every song with the id is removed. The index steps back only when the first match lies before it. An absent id changes nothing |
| Player.RemoveKeepsCurrentSong | src/context/PlayerContext.tsx:127-137 | With distinct ids, removing any song other than the current one keeps the index on the same song |
| Player.RemoveLastCurrentLeavesIndexOutOfRange | src/context/PlayerContext.tsx:127-137 | For every queue of distinct ids whose index is on its last song, removing that song, in both the as-written and the corrected version, drops it from the end and leaves the index equal to the new length: out of range whenever two songs or more were queued (one song leaves the empty queue at index 0) |
| Player.SetQueue | src/context/PlayerContext.tsx:139-150 | The new list replaces the queue. The index is the current song's first position in it, or 0 when there is no current song or it is absent |
| Player.PlayPlaylist | src/context/PlayerContext.tsx:152-161 | The list replaces the queue, the index is the start index, the current song is the entry there (none past the end), playback starts at 0 |
| Player.RadioAutoQueue | src/context/PlayerContext.tsx:39-53 | With radio mode on and the index at the last queued song, the fetched recommendations are appended when there are any; otherwise nothing changes; the old queue is always a prefix |
| Player.ToggleRepeatCycle | src/context/PlayerContext.tsx:116-121 | Three repeat toggles are the identity, and one or two are not |
| Player.ToggleShuffleInvolution | src/context/PlayerContext.tsx:112-114 | Two shuffle toggles are the identity |
| Player.TransitionsKeepIndexInRange | src/context/PlayerContext.tsx:55-161 | next, play, add, set-queue, pause and resume keep the index inside a non-empty queue (0 for an empty one); so does prev on a non-empty queue |
| Player.PrevOnEmptyQueue | src/context/PlayerContext.tsx:94 | On an empty queue `prevSong` moves the index to -1 |
| Player.NextThenPrev | src/context/PlayerContext.tsx:74-102 | Without shuffle, forward then back returns to the same index and song |
| Player.NextStopsPlayback | src/context/PlayerContext.tsx:77-88 | `nextSong` stops playback exactly when repeat is not "all" and either the shuffle pick is the current index or, without shuffle, the queue is at its end |
| Player.AddThenRemove | src/context/PlayerContext.tsx:123-137 | Appending a song with a fresh id and removing it again gives back the same state |
| QueuePanel.SplitAroundCurrent | src/components/player/QueuePanel.tsx:57-58 | With the index inside the queue, the previously-played list, the song at the index and the up-next list rebuild the queue, and the first list holds exactly `queueIndex` songs |
| QueuePanel.HandlePlaySong | src/components/player/QueuePanel.tsx:39-49 | A row's button toggles pause/resume when its song is the current one and plays the song otherwise |
| QueuePanel.HandlePlaySongTwice | src/components/player/QueuePanel.tsx:39-49 | Pressing the current song's button twice restores the state |
| QueuePanel.AtIndex | src/components/player/QueuePanel.tsx:57-58 | The slot between the two lists: the song at the index when the index lies in the queue, nothing otherwise |
| QueuePanel.ReorderListAsWritten | src/components/player/QueuePanel.tsx:169-171 | The list the drop handler builds: the played-before songs, then `currentSong` itself (which may be null), then the new order, entry by entry |
| QueuePanel.ReorderAtStartLosesFirstSong | src/components/player/QueuePanel.tsx:161-171 | In the start state with two or more distinct demo songs the Up Next list is shown, and a drop hands `setQueue` a list whose first entry is null and which no longer holds the first demo song |
| QueuePanel.Reorder | src/components/player/QueuePanel.tsx:35-37 | Corrected drop: the queue becomes played-before + the song at the index + the new up-next order, through `setQueue`, for every state |
| QueuePanel.ReorderAgreesWhenPlaying | src/components/player/QueuePanel.tsx:169-171 | When the playing song is the one at the index, the corrected queue is entry for entry the list the source builds |
| QueuePanel.ReorderAtStartKeepsQueue | src/components/player/QueuePanel.tsx:161-171 | In the start state the corrected drop of Up Next in its own order leaves the demo queue whole, at index 0 |
| QueuePanel.ReorderIsPermutation | src/components/player/QueuePanel.tsx:166-171 | For any index inside the queue, reordering a permutation of up-next permutes the queue and keeps the songs before the index in place. With distinct ids and the playing song at the index, the index stays on it |
| QueuePanel.ClearQueue | src/components/player/QueuePanel.tsx:266-275 | Clear Queue on a non-empty queue with a current song leaves only that song, at index 0; otherwise nothing changes |
| QueuePanel.ClearQueueLeavesOnlyCurrent | src/components/player/QueuePanel.tsx:266-275 | After clearing, the index names the playing song and nothing is left up next or before it |
| Text.FormatMinSecRoundTrip | src/components/player/QueuePanel.tsx:51-55 | The `m:ss` duration label reads back as the same number of seconds |
| Recommend.Round | src/lib/recommendationEngine.ts:157 | `Math.round`: the result is the integer nearest the real, with halves rounded up. The mood ranking rounds the same way at line 189 of that file |
| Recommend.Ratio | src/lib/recommendationEngine.ts:51-59 | The ratio `a/b` of two counts times `b` gives back `a`. It is non-negative, at most 1 when `a ≤ b`, 1 exactly when `a = b` and 0 exactly when `a = 0` |
| Recommend.EntriesFor | src/lib/recommendationEngine.ts:44-64 | The history entries of a song are entries carrying its id, and every such entry is among them |
| Recommend.EntriesForCount | src/lib/recommendationEngine.ts:44-64 | A song's entries hold each entry carrying its id exactly as often as the history does, and no other entry |
| Recommend.Plays | src/lib/recommendationEngine.ts:44 | A song has a positive play count exactly when some history entry names it, and never more plays than entries |
| Recommend.PlaysAppend | src/lib/recommendationEngine.ts:44 | The play count counts entries: an empty history has none, and appending one entry adds a play exactly for the song it names |
| Recommend.Completions | src/lib/recommendationEngine.ts:58 | A song never has more completed plays than plays |
| Recommend.CompletionsAppend | src/lib/recommendationEngine.ts:56-58 | The completed count counts entries: none in an empty history, and appending one entry adds one exactly when it names the song and was completed |
| Recommend.MaxPlays | src/lib/recommendationEngine.ts:45-50 | The divisor is at least 1, bounds every catalog song's play count, and is reached by one of them unless it is 1 |
| Recommend.PlayFrequency | src/lib/recommendationEngine.ts:43-52 | Play frequency is the song's play count divided by the catalog maximum. It is non-negative, and at most 1 for a catalog song |
| Recommend.MostPlayedHasFrequencyOne | src/lib/recommendationEngine.ts:43-52 | The catalog's most played song (played at least once) has frequency exactly 1 |
| Recommend.CompletionRate | src/lib/recommendationEngine.ts:55-60 | For a played song the rate is completed plays divided by plays; it is the neutral 0.5 for an unplayed song; it always lies in [0, 1] |
| Recommend.MostRecent | src/lib/recommendationEngine.ts:67 | `Math.max` of the timestamps: no entry is later, and one entry has it |
| Recommend.Recency | src/lib/recommendationEngine.ts:63-73 | For a played song, recency is the larger of 0 and `1 − days since the latest play / 30`. It is 0.3 for an unplayed song, and at most 1 when no play lies in the future |
| Recommend.RecencyEndpoints | src/lib/recommendationEngine.ts:69-72 | A play at `now` gives recency 1. A latest play 30 or more days back gives 0 |
| Recommend.GenreSimilarity | src/lib/recommendationEngine.ts:76-88 | 0.5 exactly when nothing was played recently. Otherwise: 1 when both the artist and the source were heard recently, 0.6 for the artist alone, 0.4 for the source alone, 0 for neither |
| Recommend.TimeContext | src/lib/recommendationEngine.ts:91-112 | Morning: 0.8 for short songs and 0.4 otherwise. Afternoon: 0.6. Evening: 0.8 for long songs and 0.5 otherwise. Night: 0.9 for long songs and 0.3 otherwise |
| Recommend.WeightsSumToOne | src/lib/recommendationEngine.ts:25-31 | The five weights sum to 1 |
| Recommend.WeightedInUnitInterval | src/lib/recommendationEngine.ts:132-137 | The weighted sum of five sub-scores in [0, 1] lies in [0, 1] |
| Recommend.RecentSongs | src/lib/recommendationEngine.ts:119-121 | The recent songs are exactly the catalog songs whose id appears among the first 20 history entries |
| Recommend.RankedReason | src/lib/recommendationEngine.ts:140-144 | The reason of each rank has that rank |
| Recommend.Reasons | src/lib/recommendationEngine.ts:139-144 | Each of the five reasons is present exactly when its sub-score passes its threshold (0.5, 0.7, 0.7, 0.5, 0.6). The reasons present appear once each, in the order of the checks. None is present exactly when every sub-score is at or below its threshold |
| Recommend.ReasonsFrom | src/lib/recommendationEngine.ts:139-144 | The passing reasons from a given rank on, each once, in rank order |
| Recommend.ScoreSong | src/lib/recommendationEngine.ts:125-147 | A candidate's score is the weighted sum of its five sub-scores (weights 0.3, 0.25, 0.2, 0.15, 0.1). Its reasons are those the sub-scores trigger. The score lies in [0, 1] when no play is in the future |
| Recommend.ReasonsBoundScore | src/lib/recommendationEngine.ts:132-157 | A candidate that triggers no reason scores at most 0.6 and is shown with "Recommended for you" and a confidence of at most 60. One that triggers all five reasons scores above 0.6 |
| Recommend.MorePlaysScoreHigher | src/lib/recommendationEngine.ts:43-52 | More plays never lower a song: its play frequency is at least that of a less-played song, and of two catalogue songs equal on the other four sub-scores the more played one scores at least as high |
| Recommend.Candidates | src/lib/recommendationEngine.ts:123-124 | The candidates are exactly the catalog songs whose ids are not excluded |
| Recommend.ScoreEach | src/lib/recommendationEngine.ts:125-147 | One entry per candidate, in order, each the candidate's own score |
| Recommend.ScoreAll | src/lib/recommendationEngine.ts:119-147 | Each non-excluded catalog song, in catalog order, scored against the recent songs |
| Recommend.FindById | src/lib/recommendationEngine.ts:154 | The catalog lookup finds a song with that id |
| Recommend.ToRecommendation | src/lib/recommendationEngine.ts:153-165 | The recommendation keeps the score. Its reason is the text of the first reason, or "Recommended for you". Its confidence is 95 exactly when 100·score is at least 94.5; otherwise it is 100·score rounded half up |
| Recommend.TopOf | src/lib/recommendationEngine.ts:150-153 | The ranking is a prefix of the descending sort, ordered by score, with exactly `min(count, n)` entries for a non-negative `count` |
| Recommend.TopOfScoreAll | src/lib/recommendationEngine.ts:123-153 | Every ranked entry is a non-excluded catalog song with a score in [0, 1] |
| Recommend.ToRecommendations | src/lib/recommendationEngine.ts:153-165 | One recommendation per ranked entry, in order, keeping song id and score, confidence at most 95 |
| Recommend.RecommendRanked | src/lib/recommendationEngine.ts:153-165 | Each ranked entry becomes one recommendation with the same song id and score, in rank order |
| Recommend.GetRecommendations | src/lib/recommendationEngine.ts:115-166 | Exactly `min(count, candidates)` recommendations for a non-negative `count`. Each is a non-excluded catalog song, with best scores first and confidence at most 95; when no play lies in the future, scores lie in [0, 1] |
| Recommend.GetRecommendationsScored | src/lib/recommendationEngine.ts:115-166 | Every recommendation carries the combined score of the candidate it recommends |
| Recommend.TopOfKeepsBest | src/lib/recommendationEngine.ts:150-153 | An entry left out of the ranking scores no higher than any entry kept |
| Recommend.RecommendationsKeepBest | src/lib/recommendationEngine.ts:150-165 | After the ranked entries are mapped to recommendations, an entry left out still scores no higher than every recommendation, or its song is among them |
| Recommend.GetRecommendationsKeepsBest | src/lib/recommendationEngine.ts:115-166 | A candidate not recommended scores no higher than every recommendation given |
| Recommend.GetRecommendationsComplete | src/lib/recommendationEngine.ts:115-166 | With room for all candidates, every candidate is recommended |
| Recommend.MoodScore | src/lib/recommendationEngine.ts:174-183 | energetic: 0.8 under 200 s, else 0.4. chill: 0.8 over 240 s, else 0.4. focus: 0.7 for online songs, else 0.5. party: 0.7 for YouTube songs, else 0.5. sad: 0.7 over 250 s, else 0.4. happy: 0.7 under 220 s, else 0.4. Any other mood: 0.5 |
| Recommend.MoodRecommendation | src/lib/recommendationEngine.ts:185-190 | A mood recommendation carries the mood score, the reason "Matches your … mood" and a confidence of 100 times the score |
| Recommend.MoodCandidates | src/lib/recommendationEngine.ts:185-190 | One mood recommendation per catalog song, in catalog order |
| Recommend.MoodCandidatesFit | src/lib/recommendationEngine.ts:185-190 | Every mood candidate is a catalog song with its own mood score |
| Recommend.GetMoodRecommendations | src/lib/recommendationEngine.ts:169-195 | Exactly `min(count, catalog size)` catalog songs for a non-negative `count`, ranked by mood score, best first, each with its own mood score |
| Recommend.MoodKeepsBest | src/lib/recommendationEngine.ts:192-194 | A catalog song left out of the mood ranking fits the mood no better than any song on it |
| Recommend.Similarity | src/lib/recommendationEngine.ts:201-207 | Likeness is 0.5 for the same artist, plus 0.3 for the same source, plus 0.2 for durations less than a minute apart. It lies in [0, 1] and is 1 exactly when all three hold |
| Recommend.SimilaritySymmetric | src/lib/recommendationEngine.ts:203-206 | Likeness is symmetric, and every song is fully like itself |
| Recommend.OtherSongs | src/lib/recommendationEngine.ts:199-200 | The other songs are exactly the catalog songs with a different id |
| Recommend.GetSimilarSongs | src/lib/recommendationEngine.ts:198-211 | Exactly `min(count, other songs)` catalog songs other than the given one for a non-negative `count`, most similar first |
| Recommend.SimilarSongsKeepsBest | src/lib/recommendationEngine.ts:198-211 | A song left out of the similar list is no more similar than any song on it |
| Recommend.DiscoveryRecommendation | src/lib/recommendationEngine.ts:221-228 | An unplayed song gets 0.8, confidence 85 and "You haven't played this yet". A song played once gets 0.5, confidence 60 and "Give this another listen" |
| Recommend.RareSongs | src/lib/recommendationEngine.ts:216-220 | The rare songs are exactly the catalog songs played fewer than twice |
| Recommend.DiscoveryCandidates | src/lib/recommendationEngine.ts:221-228 | One discovery recommendation per rare song, in order |
| Recommend.DiscoveryCandidatesFit | src/lib/recommendationEngine.ts:216-228 | Every discovery candidate is a rarely played catalog song with its discovery recommendation |
| Recommend.GetDiscoveryRecommendations | src/lib/recommendationEngine.ts:214-231 | The first `min(count, rare songs)` discovery candidates, in catalog order, for a non-negative `count`; each is a catalog song played fewer than twice, with its discovery score |
| Recommend.DiscoveryComplete | src/lib/recommendationEngine.ts:214-231 | With room for all, every song played fewer than twice is offered |
| Radio.EnableRadioMode | src/hooks/useRadioMode.ts:116-133 | The seed is the given song, else the playing song. With neither, the call fails with "No song selected for radio mode" and nothing changes. Otherwise radio mode is on with empty upcoming and history lists |
| Radio.DisableRadioMode | src/hooks/useRadioMode.ts:135-144 | Radio mode is off, with no seed and empty lists |
| Radio.ToggleRadioMode | src/hooks/useRadioMode.ts:146-152 | Toggling disables when on, and otherwise enables from the playing song |
| Radio.ExcludedIds | src/hooks/useRadioMode.ts:45-70 | A song is outside the exclusion list exactly when it is fresh: not in the history, not upcoming, and not the playing song |
| Radio.FreshAmong | src/hooks/useRadioMode.ts:49-53 | The fresh songs of a list are exactly its songs that are fresh |
| Radio.FreshSimilar | src/hooks/useRadioMode.ts:42-57 | The first `min(3, n)` of the `n` fresh songs among the five most similar, each a fresh catalog song |
| Radio.FreshRecommended | src/hooks/useRadioMode.ts:66-73 | The songs of the first three (or fewer) of five general recommendations that exclude the radio's ids, each a fresh catalog song |
| Radio.FirstSongs | src/hooks/useRadioMode.ts:73 | The songs of the first `min(k, n)` recommendations, in order |
| Radio.QueueSimilarSongs | src/hooks/useRadioMode.ts:33-92 | Nothing happens while radio mode is off, no song plays, or three tracks wait. Otherwise the first three fresh songs among the five most similar are queued, or, when none of those is fresh, the first three general recommendations. They are appended to the upcoming list and to the player queue alike |
| Radio.QueueFillsWhenFreshExists | src/hooks/useRadioMode.ts:36-81 | While radio mode runs low on a playing song, some song is queued whenever the catalog holds a fresh song |
| Radio.QueueKeepsHistory | src/hooks/useRadioMode.ts:60-79 | Queueing leaves the history and the seed alone |
| Radio.OnSongChange | src/hooks/useRadioMode.ts:95-114 | The playing song becomes the seed and leaves the upcoming list. A different previous seed moves to the end of the history, with any earlier copy removed, and the history keeps the last 20 songs of that list; otherwise it keeps the last 20 of the old history |
| Radio.RemoveIdKeepsDistinct | src/hooks/useRadioMode.ts:103 | Filtering out one id keeps a list free of repeated ids |
| Radio.SuffixKeepsDistinct | src/hooks/useRadioMode.ts:110 | The last 20 of a list with distinct ids have distinct ids |
| Radio.SongChangeKeepsHistoryDistinct | src/hooks/useRadioMode.ts:101-110 | The song-change effect never puts an id into the history twice |
| Radio.SkipToNextSimilar | src/hooks/useRadioMode.ts:154-172 | At most one song is queued, as `find` picks it: it is one of the three songs most similar to the playing one, every song ranked before it among those three is in the history or is the playing song, and it is itself a catalog song outside the history and not the playing song. Nothing is queued only when every one of the three is in the history (or no song plays) |
| Radio.AutoQueueAppendsSongs | src/context/PlayerContext.tsx:39-53 | At the end of the queue with radio mode on, the songs of the recommendations are appended after the queue, in rank order, and the queue before them is kept |
| Radio.AutoQueueAppendsRecommendations | src/context/PlayerContext.tsx:41-48 | Fed with the engine's answer to `getRecommendations(5)`, the auto-queue appends at most five songs, the recommended ones in rank order |
| VideoId.FirstMarker | supabase/functions/youtube-audio/index.ts:20 | The alternative chosen at a position is the first of the three markers that matches there, followed by an id character |
| VideoId.Leftmost | supabase/functions/youtube-audio/index.ts:26 | The match position is the leftmost one where some marker matches. None is found only when no position matches |
| VideoId.RunLength | supabase/functions/youtube-audio/index.ts:20 | The captured run is maximal: all its characters are outside `&`, `?`, `#` and newline, and it stops at one of those or at the end |
| VideoId.CaptureAt | supabase/functions/youtube-audio/index.ts:20-27 | The captured group is the maximal run of id characters right after the first alternative that matches at the position: non-empty, made of id characters, and ending at the end of the input or before a stop character |
| VideoId.MatchMarkers | supabase/functions/youtube-audio/index.ts:20-27 | The first pattern fails exactly when no marker matches anywhere. Otherwise it yields the capture at the leftmost position where a marker matches |
| VideoId.ExtractVideoId | supabase/functions/youtube-audio/index.ts:18-29 | Extraction fails exactly when no marker matches and the input is not an 11-character bare id. When some marker matches, the result is the capture at the leftmost match; otherwise a bare id is returned as given |
| VideoId.ExtractFromUrlTab | src/pages/YouTube.tsx:97 | The URL tab finds an id exactly when the watch or short marker matches somewhere, and then it is the capture at the leftmost such match |
| VideoId.NoMarkerInBareId | supabase/functions/youtube-audio/index.ts:21-22 | No marker can occur inside an 11-character bare id |
| VideoId.BareIdRoundTrip | supabase/functions/youtube-audio/index.ts:18-29 | An 11-character bare id is extracted unchanged. The URL tab refuses it |
| VideoId.RunToEnd | supabase/functions/youtube-audio/index.ts:20 | When no stop character follows, the run reaches the end of the input |
| VideoId.DiffersAt | supabase/functions/youtube-audio/index.ts:20 | A marker does not match where one of its characters differs from the input |
| VideoId.MatchesAtStart | supabase/functions/youtube-audio/index.ts:20 | A marker followed by an id character matches at the start |
| VideoId.ShortIsNotWatch | supabase/functions/youtube-audio/index.ts:20 | At the start of a short link the watch alternative does not match |
| VideoId.EmbedIsNeitherWatchNorShort | supabase/functions/youtube-audio/index.ts:20 | At the start of an embed link neither earlier alternative matches |
| VideoId.FirstMarkerIs | supabase/functions/youtube-audio/index.ts:20 | The alternative picked is the one that matches when none before it does |
| VideoId.FirstMarkerAtStart | supabase/functions/youtube-audio/index.ts:20 | At the start of marker + id, the alternative picked is that marker |
| VideoId.RunStops | supabase/functions/youtube-audio/index.ts:20 | The run ends at the first character that is not an id character |
| VideoId.MarkerWithTailRoundTrip | supabase/functions/youtube-audio/index.ts:18-29 | Each of the three URL forms, with the id followed by a query, fragment or new line, yields exactly the id |
| VideoId.MarkerRoundTrip | supabase/functions/youtube-audio/index.ts:18-29 | Each of the three URL forms followed by an id of id characters yields exactly that id |
| VideoId.NarrowIsPrefixOfFull | src/pages/YouTube.tsx:97 | The URL tab's alternatives are the first two alternatives of the full pattern |
| VideoId.MatchesAlike | src/pages/YouTube.tsx:97 | Where the embed marker does not match, the two patterns match alike |
| VideoId.UrlTabMatchIsFullMatch | src/pages/YouTube.tsx:97 | Every URL-tab match position is a match position of the full pattern |
| VideoId.UrlTabNarrower | src/pages/YouTube.tsx:97 | Whatever the URL tab accepts, the edge function accepts too |
| VideoId.FirstMarkerAlike | src/pages/YouTube.tsx:97 | Where the URL tab matches, both patterns pick the same alternative |
| VideoId.UrlTabAgreesWithoutEmbed | src/hooks/useYouTubeStreaming.ts:31-42 | Without an embed marker, the URL tab and the full extraction give the same id |
| VideoId.UrlTabRejectsEmbed | src/pages/YouTube.tsx:97 | An embed link is accepted by the full pattern and refused by the URL tab |
| StreamResolver.GetVideoInfo | supabase/functions/youtube-audio/index.ts:32-63 | Video info never fails and has duration 0. On an oEmbed error it is the placeholder with the high-quality thumbnail. Otherwise the title and author are used when truthy, else "Unknown Title" and "Unknown Artist", with the max-resolution thumbnail |
| StreamResolver.ThumbnailNamesVideo | supabase/functions/youtube-audio/index.ts:49-59 | Cutting the fixed prefix and suffix from the thumbnail URL gives the video id back |
| StreamResolver.BestByBitrate | supabase/functions/youtube-audio/index.ts:105-106 | The first entry after sorting by descending bitrate comes from the list. No entry has a higher bitrate, and a missing bitrate counts as 0. The Piped answer is sorted the same way at lines 159-161 of that file |
| StreamResolver.FindFirst | supabase/functions/youtube-audio/index.ts:112-114 | `find` returns the first index satisfying the test, or none when no entry does |
| StreamResolver.InvidiousStep | supabase/functions/youtube-audio/index.ts:95-120 | An unreachable or non-2xx mirror is skipped. When some adaptive format has audio, the search always stops, with the URL of a highest-bitrate audio format. Otherwise the answer is the muxed fallback |
| StreamResolver.MuxedFallback | supabase/functions/youtube-audio/index.ts:111-119 | The search stops exactly when the first muxed stream with audio or an mp4 container has a truthy URL, and then with that URL |
| StreamResolver.AdaptiveWins | supabase/functions/youtube-audio/index.ts:98-119 | While an audio-only format is listed, the muxed streams do not affect the answer; without one, the adaptive list does not either |
| StreamResolver.PipedStep | supabase/functions/youtube-audio/index.ts:152-163 | A Piped mirror stops the search exactly when it answers with a non-empty audio stream list. The URL is then that of a highest-bitrate stream |
| StreamResolver.FirstStop | supabase/functions/youtube-audio/index.ts:79-126 | The first mirror that stops decides the answer. When all go on, the answer is null. The Piped loop at lines 136-172 of that file stops in the same way |
| StreamResolver.FirstStopAppend | supabase/functions/youtube-audio/index.ts:126-136 | The second host list is consulted only when every host of the first went on |
| StreamResolver.Steps | supabase/functions/youtube-audio/index.ts:70-79 | One step per host, in the listed order. The Piped hosts are listed at lines 129-136 of that file |
| StreamResolver.GetAudioStreamUrl | supabase/functions/youtube-audio/index.ts:66-173 | With no mirror stopping, the answer is null |
| StreamResolver.InvidiousFirst | supabase/functions/youtube-audio/index.ts:79-126 | The first Invidious host that stops decides, whatever later hosts and all Piped hosts answer |
| StreamResolver.PipedOnlyAfterInvidious | supabase/functions/youtube-audio/index.ts:128-172 | When every Invidious host goes on, the first Piped host that stops decides |
| StreamResolver.ResolveVideoId | supabase/functions/youtube-audio/index.ts:186-190 | A truthy `videoId` is used as given. Otherwise a truthy `url` is parsed. Otherwise there is no id |
| StreamResolver.Handle | supabase/functions/youtube-audio/index.ts:175-263 | OPTIONS, and only OPTIONS, gets the preflight. A body that fails to parse gets a 500 with the details text. The status is 400 exactly when no id resolves. With a resolved id, "info" returns only the info and every other action returns a stream response: the info, the stream URL and `streamAvailable` = the URL is truthy |
| StreamResolver.NoMirrorAnswers | supabase/functions/youtube-audio/index.ts:171-247 | When no mirror yields a stream, a stream request still answers 200 with the video's details, no URL and `streamAvailable` false |
| StreamResolver.FirstHostAnswers | supabase/functions/youtube-audio/index.ts:79-247 | When the first Invidious host offers an audio URL, a stream request returns it with `streamAvailable` true, whatever the other hosts say |
| StreamResolver.VideoIdTakesPrecedence | supabase/functions/youtube-audio/index.ts:187-188 | With a truthy `videoId` the `url` field changes nothing |
| StreamResolver.StreamIsDefault | supabase/functions/youtube-audio/index.ts:211-247 | "stream" and any other action that is not "info" answer alike |
| StreamResolver.BareUrlResolves | supabase/functions/youtube-audio/index.ts:21 | A bare 11-character id sent as `url` resolves to itself. The handler calls the extractor at line 189 of that file |
| StreamingClient.GetStreamInfo | src/hooks/useYouTubeStreaming.ts:44-82 | An input naming no video fails with "Invalid YouTube URL or video ID" before any call. A function error fails with its message or the default. A missing or unsuccessful body fails with its error or "Failed to get stream info". Otherwise the result is the stream info. The error message is never empty |
| StreamingClient.PlayableUrl | src/hooks/useYouTubeStreaming.ts:105-110 | The song gets a stream URL exactly when the answer's URL is truthy and the stream is available |
| StreamingClient.SongFromStream | src/hooks/useYouTubeStreaming.ts:93-103 | The song is `yt-` + the video id, with the answer's title, author and thumbnail. Its album is "YouTube" and it is not downloaded. The duration is defaulted to 180 when falsy |
| StreamingClient.PlayYouTubeVideo | src/hooks/useYouTubeStreaming.ts:84-117 | A song is produced exactly when stream info was obtained, and it is built from that info |
| StreamingClient.PlayedSongIsRequestedVideo | src/hooks/useYouTubeStreaming.ts:31-42 | A bare id whose stream info names it gives the song `yt-` + that id, with that YouTube id. Playing goes through `playYouTubeVideo` at lines 84-103 of that file |
| StreamingClient.UnresolvableInputFails | src/hooks/useYouTubeStreaming.ts:49-53 | An input with no marker that is not a bare id fails without a song |
| YouTubeApi.YtSongId | src/lib/youtubeApi.ts:100 | The song id is `yt-` followed by the video id, so stripping the prefix gives the video id back |
| YouTubeApi.YtSongIdInjective | src/lib/youtubeApi.ts:100 | Distinct videos get distinct song ids |
| YouTubeApi.DurationOrDefault | src/lib/youtubeApi.ts:104 | An unknown (0) duration becomes 180 seconds. A known one is kept |
| YouTubeApi.ConvertToSong | src/lib/youtubeApi.ts:98-110 | The song carries the result's title, artist and thumbnail and the video id as its YouTube id. Its album is "YouTube Music" and it is not downloaded |
| YouTubeApi.Query | src/lib/youtubeApi.ts:37-96 | Without an API key no request is made and the list is empty. A failed request gives an empty list. Otherwise the result is the mapped items |
| YouTubeApi.SearchHook | src/lib/youtubeApi.ts:123-141 | A blank query clears the results without asking the API. Otherwise the results are what the query returned |
| YouTubeApi.SearchShowsOnlyFetched | src/lib/youtubeApi.ts:123-141 | Any result shown was returned by a request that was made |
| YouTubeApi.ConvertKeepsVideo | src/lib/youtubeApi.ts:100-108 | The song id's suffix and the YouTube id name the same video |
| YouTubePage.HandleSearch | src/pages/YouTube.tsx:56-62 | A query is searched exactly when it is not blank. It is then searched as typed and the trending list is hidden. A blank query changes nothing |
| YouTubePage.HandlePlay | src/pages/YouTube.tsx:64-81 | A song always plays and the queue is unchanged. It is the streamed song when stream info was obtained, else the result's own song |
| YouTubePage.PlayedResultNamesVideo | src/pages/YouTube.tsx:64-81 | Whatever the edge function answers, the song the handler plays is `yt-` + the result's video id, and the sound controller derives that video from it whenever the song reaches it (under the page's own provider it does not: see Findings) |
| YouTubePage.PlayOnPageAsWritten | src/pages/YouTube.tsx:599-605 | As mounted, a play on the page changes the page's own player state and leaves the app's state untouched |
| YouTubePage.PlayOnPage | src/App.tsx:35-40 | Corrected, with the page under the app's provider: the page's state and the app's are one, and it plays the handler's song |
| YouTubePage.PagePlayNeverReachesController | src/App.tsx:35-40 | As mounted, with no song in the app's player, a result played on the page shows as playing while the sound controller loads nothing |
| YouTubePage.PagePlayReachesController | src/App.tsx:35-40 | Under one provider the sound controller loads the song the page played |
| YouTubePage.HandleAddToQueue | src/pages/YouTube.tsx:83-87 | The result's song is appended to the queue. The playing song and index are kept |
| YouTubePage.HandleAnalyzeUrl | src/pages/YouTube.tsx:89-119 | A blank input is ignored. No watch or short link gives "Invalid YouTube URL". A video is found exactly when the streaming hook returns a song for the id the URL tab extracted, and it carries that id. Otherwise the message is "Could not analyze video" |
| YouTubePage.EmbedLinkIsRefused | src/pages/YouTube.tsx:97-112 | An embed link is refused with "Invalid YouTube URL" before the edge function is asked |
| YouTubePage.AnalyzedSong | src/pages/YouTube.tsx:129-139 | The fallback song is `yt-` + the video id with the analysed title, author and thumbnail. Its duration is always 180, because the analysed record has none |
| YouTubePage.HandlePlayAnalyzed | src/pages/YouTube.tsx:121-150 | Nothing happens without an analysed video. Otherwise a song always plays: the streamed one, or the analysed fallback |
| YouTubePage.AddAnalyzedToQueue | src/pages/YouTube.tsx:450-463 | The analysed song is appended to the queue. The playing song and index are kept |
| YouTubePage.AnalyzedSongNamesVideo | src/pages/YouTube.tsx:129-139 | Even without its YouTube id, an analysed song is recognised as its video by the sound controller |
| YouTubePage.DownloadResult | src/pages/YouTube.tsx:336-359 | The database changes only on "Downloaded for offline play!". That requires stream info with a truthy audio URL whose blob was fetched. The song is then stored, marked downloaded, with that blob |
| YouTubePage.DownloadedResultPlaysOffline | src/pages/YouTube.tsx:346-347 | When the sound controller is later handed a downloaded result's song (from the app's player, not the page's own provider), it loads it from the stored blob |
| SoundController.DerivedVideoId | src/components/SoundController.tsx:124-127 | The video id is the song's `youtubeId` when truthy. Otherwise, for an id starting with `yt-`, it is the rest of the id, so that `yt-` + it is the song id. Otherwise there is none |
| SoundController.DerivedIdOfSearchResult | src/components/SoundController.tsx:124-127 | A song converted from a search result gives back its video, even after losing its `youtubeId` |
| SoundController.DerivedIdOfStreamedSong | src/components/SoundController.tsx:124-127 | A song built from stream info gives back its video, even after losing its `youtubeId` |
| SoundController.StoredBlob | src/components/SoundController.tsx:100-113 | A stored blob is used exactly when the lookup succeeds and the record holds a blob. A failing lookup falls through |
| SoundController.LoadSource | src/components/SoundController.tsx:97-150 | The stored blob is used exactly for a song marked downloaded whose blob is found. Otherwise a truthy `streamUrl` is used. Otherwise the edge function's audio URL for the derived video id is used, when both are truthy. A remote URL is never empty |
| SoundController.SavedAudioPlaysOffline | src/components/SoundController.tsx:100-104 | A downloaded song saved with its blob loads from that blob, whatever the network says |
| SoundController.StreamUrlNeedsNoFetch | src/components/SoundController.tsx:116-118 | A song with a stream URL never depends on the edge function's answer |
| SoundController.LoadSong | src/components/SoundController.tsx:89-183 | With no current song nothing is loaded. Otherwise the source is the one chosen above. The player is either left alone or paused, and it keeps playing only with a real source and an accepted `play()` |
| SoundController.SyncPlaying | src/components/SoundController.tsx:59-79 | The player keeps playing exactly when it was playing and `play()` was not rejected. Either rejection pauses it |
| SoundController.OnError | src/components/SoundController.tsx:40-43 | An audio error pauses the player and changes nothing else |
| SoundController.ErrorLeavesPlayerPaused | src/components/SoundController.tsx:40-47 | After an error the play/pause effect leaves the paused state as it is, and a second error changes nothing |
| SoundController.ElementVolume | src/components/SoundController.tsx:82-86 | The element volume is the player volume divided by 100, within [0, 1] for a volume in [0, 100] |
| SoundController.TimeUpdateAsWritten | src/components/SoundController.tsx:30-38 | As written, the element's time is stored when it is more than a second from the progress captured at mount, and not while seeking |
| SoundController.Distance | src/components/SoundController.tsx:33 | `Math.abs` of a difference: non-negative and equal to one of the two differences |
| SoundController.TimeUpdate | src/components/SoundController.tsx:30-38 | Corrected: comparing with the current progress keeps the displayed time within a second of the element's when not seeking. Within a second, or while seeking, nothing changes |
| SoundController.StaleProgressIsNotCorrected | src/components/SoundController.tsx:30-38 | With progress 100 and the element at 0.5 seconds, the handler as written leaves 100. The corrected one stores 0.5 |
| SoundController.OnEndedAsWritten | src/components/SoundController.tsx:25-28 | As written, the song recorded is the one captured at mount. The player moves on to the next song |
| SoundController.OnEnded | src/components/SoundController.tsx:25-28 | Corrected: the song that just ended is appended to the history, the player moves on, and songs and favourites are untouched |
| SoundController.EndedSongIsNotRecorded | src/components/SoundController.tsx:20-28 | At mount the player has no song, so as written nothing is recorded when a track ends. The corrected handler appends the finished song |
| UrlDownloader.QueryGet | src/components/download/URLDownloader.tsx:60-65 | `searchParams.get` gives the value of the first pair with that key, and none when no pair has it |
| UrlDownloader.LastSegment | src/components/download/URLDownloader.tsx:82 | The last path segment contains no "/" |
| UrlDownloader.LastSegmentIsSuffix | src/components/download/URLDownloader.tsx:82 | The last segment is the text after the path's last "/", or the whole path when it has none |
| UrlDownloader.ParseUrl | src/components/download/URLDownloader.tsx:54-98 | Text that is not a URL gives null. A YouTube host is a playlist exactly when `list` is given, and then the id is its value; otherwise the id is `v` or the path without its first character. A SoundCloud host gives the path, a playlist exactly when it contains "/sets/". A Spotify host gives the last path segment, a playlist exactly when the path contains "/playlist/". Any other host is a single item named by the whole text. The hosts are tried in that order: the platform is SoundCloud exactly when the host names SoundCloud and not YouTube, Spotify exactly when it names Spotify and neither earlier one, and "other" exactly when it names none |
| UrlDownloader.HandleUrlChange | src/components/download/URLDownloader.tsx:114-123 | The input is always stored. Inputs longer than 10 characters are parsed and keep the detected tracks. Shorter ones clear the parse and the tracks |
| UrlDownloader.HandleAnalyze | src/components/download/URLDownloader.tsx:125-149 | Nothing happens without a parse. Otherwise the analysis reports five tracks for a playlist and one for a single item |
| UrlDownloader.DownloadId | src/components/download/URLDownloader.tsx:168 | Every download id starts with `download-` |
| UrlDownloader.DownloadIdInjective | src/components/download/URLDownloader.tsx:166-168 | Tracks of one download get distinct ids |
| UrlDownloader.SimulatedDuration | src/components/download/URLDownloader.tsx:172 | The simulated duration lies in [180, 299] seconds |
| UrlDownloader.DownloadedSong | src/components/download/URLDownloader.tsx:167-176 | The song has the track's title, artist and thumbnail, album "Downloaded", and is marked downloaded. Its source is YouTube exactly when the link was a YouTube one, and local otherwise |
| UrlDownloader.DownloadedSongs | src/components/download/URLDownloader.tsx:166-184 | One song per detected track, in track order |
| UrlDownloader.SaveAll | src/components/download/URLDownloader.tsx:181-186 | Saving songs keeps the database well formed and leaves the history and favourites alone |
| UrlDownloader.SaveAllStoresEach | src/components/download/URLDownloader.tsx:181-186 | After saving songs with distinct ids, each is stored without a blob, and every other id reads as before |
| UrlDownloader.DownloadedSongsDistinct | src/components/download/URLDownloader.tsx:168 | The songs of one download have distinct ids |
| UrlDownloader.HandleDownload | src/components/download/URLDownloader.tsx:151-193 | Nothing is saved without detected tracks. Otherwise one song per track is stored, marked downloaded but with no audio, and reported in track order. No id outside the `download-` range changes |
| LocalDb.Upgrade | src/lib/db.ts:32-51 | Below version 2 the songs store is recreated empty. The history store is created when missing and recreated empty below version 3. Favourites are created only when missing. Every store is then present |
| LocalDb.Open | src/lib/db.ts:30-53 | Opening at version 3 runs the upgrade exactly for an older stored version, opens version 3 as it is, and fails with a version error exactly when the stored version is newer |
| LocalDb.OpenYieldsAllStores | src/lib/db.ts:28-53 | From any stored version up to 3 (with the stores earlier upgrades left) opening succeeds with all three stores; the songs store starts empty below version 2 and the history below version 3; opening the result again at version 3 changes nothing |
| LocalDb.SaveSongData | src/lib/db.ts:57-66 | The record (song, blob, time) is stored under the song's id. The history and favourites are unchanged |
| LocalDb.GetSongData | src/lib/db.ts:68-71 | The lookup finds nothing exactly when no record has that id |
| LocalDb.SaveThenGet | src/lib/db.ts:57-71 | Reading back a save gives the same song and blob. Other ids are untouched |
| LocalDb.SaveOverwrites | src/lib/db.ts:59 | A second save of the same id replaces the first |
| LocalDb.GetAllDownloadedSongs | src/lib/db.ts:73-77 | The song of every stored record, in key order, whether or not it holds audio |
| LocalDb.SavedWithoutBlobIsListed | src/lib/db.ts:73-77 | A song saved without audio is still listed as downloaded |
| LocalDb.DeleteSongData | src/lib/db.ts:79-82 | The id no longer reads. Every other id reads as before |
| LocalDb.IsFavorite | src/lib/db.ts:103-107 | A song is a favourite exactly when the favourites store holds its id |
| LocalDb.ToggleFavorite | src/lib/db.ts:84-94 | A present favourite is removed and the result is false. An absent one is added and the result is true. The result says whether the song is now a favourite. No other id changes |
| LocalDb.ToggleTwice | src/lib/db.ts:84-94 | Toggling twice restores whether the song is a favourite |
| LocalDb.GetFavorites | src/lib/db.ts:96-101 | The favourites in the reverse of the store's key order |
| LocalDb.SaveHistory | src/lib/db.ts:109-111 | One local entry is appended, whatever the remote mirror does. Songs and favourites are untouched |
| LocalHistory.IndexOfRecord | src/hooks/useLocalMusic.ts:26-30 | The position of an id's first record, or -1 exactly when no record has that id |
| LocalHistory.FirstPerId | src/hooks/useLocalMusic.ts:19-30 | The `forEach` over the records keeps at most one song per record, and none whose id was already in the map |
| LocalHistory.IndexOfRecordTail | src/hooks/useLocalMusic.ts:26-30 | Past a first record of another id, first positions shift by one |
| LocalHistory.FirstPerIdSources | src/hooks/useLocalMusic.ts:26-30 | Each song kept is the song of its id's first record |
| LocalHistory.FirstPerIdOrdered | src/hooks/useLocalMusic.ts:26-32 | Songs come out in the order of their ids' first records, as the map's insertion order gives them |
| LocalHistory.FirstPerIdComplete | src/hooks/useLocalMusic.ts:26-30 | Every id of a record not already in the map is kept |
| LocalHistory.RecentlyPlayed | src/hooks/useLocalMusic.ts:15-33 | The recently played list has at most one song per history record. Its meaning is stated by the three lemmas that follow |
| LocalHistory.LatestPlay | src/hooks/useLocalMusic.ts:24 | The latest play of a song: no record of it is later, and one record has it |
| LocalHistory.FirstInSortedIsLatest | src/hooks/useLocalMusic.ts:24-30 | After the newest-first sort, an id's first record carries its latest play |
| LocalHistory.RecentlyPlayedComplete | src/hooks/useLocalMusic.ts:15-33 | Every song that was ever played is listed |
| LocalHistory.RecentlyPlayedDistinct | src/hooks/useLocalMusic.ts:21-30 | No song id is listed twice |
| LocalHistory.RecentlyPlayedNewestFirst | src/hooks/useLocalMusic.ts:21-33 | Each listed song is the one recorded at its latest play, and songs are ordered by latest play, newest first |
| OfflineStorage.SaveSong | src/lib/offlineStorage.ts:93-103 | The song is stored under its id with its blobs. The stored flag says whether audio was given, whatever the caller's record said. The other stores are unchanged |
| OfflineStorage.GetSong | src/lib/offlineStorage.ts:105-110 | The lookup finds nothing exactly when no song has that id |
| OfflineStorage.SavedFlagFollowsAudio | src/lib/offlineStorage.ts:97-102 | A song read back after saving is downloaded exactly when audio was saved with it |
| OfflineStorage.DeleteSong | src/lib/offlineStorage.ts:126-131 | The id no longer reads. Every other id reads as before |
| OfflineStorage.AllSongs | src/lib/offlineStorage.ts:270 | The stored songs, in key order |
| OfflineStorage.AsKey | src/lib/offlineStorage.ts:56-57 | An index files a record under the value at its key path only when that value is a valid IndexedDB key: numbers and strings are, booleans and `undefined` are not |
| OfflineStorage.FromIndex | src/lib/offlineStorage.ts:116 | `getAllFromIndex`: exactly the stored songs the index files under the query key |
| OfflineStorage.DownloadedIndexKey | src/lib/offlineStorage.ts:101 | `saveSong` stores `isDownloaded` as a boolean, so the "by-downloaded" index files no record under any key |
| OfflineStorage.NumberFlagLookupIsCorrected | src/lib/offlineStorage.ts:11 | Had the flag been stored as the number its declared index type asks for, the lookup under 1 would give exactly the corrected result |
| OfflineStorage.GetDownloadedSongsAsWritten | src/lib/offlineStorage.ts:112-117 | As written, the result holds only stored songs that the index files under the number 1 |
| OfflineStorage.GetDownloadedSongs | src/lib/offlineStorage.ts:112-117 | Corrected: exactly the stored songs whose flag is set |
| OfflineStorage.DownloadedLookupAlwaysEmpty | src/lib/offlineStorage.ts:112-117 | As written, the downloaded lookup finds nothing. The index it reads is declared on the boolean flag at line 57 of that file |
| OfflineStorage.SavedWithAudioIsDownloaded | src/lib/offlineStorage.ts:93-117 | A song saved with audio is found by the corrected lookup and missed by the lookup as written |
| OfflineStorage.GetSongsBySource | src/lib/offlineStorage.ts:119-124 | The "by-source" index lookup gives exactly the stored songs whose source has that name |
| OfflineStorage.SavePlaylist | src/lib/offlineStorage.ts:134-139 | The playlist is stored under its id. Every other id reads as before |
| OfflineStorage.GetPlaylistsByType | src/lib/offlineStorage.ts:155-160 | Exactly the stored playlists whose type has that name |
| OfflineStorage.DeletePlaylist | src/lib/offlineStorage.ts:162-167 | The id no longer reads. Every other id reads as before |
| OfflineStorage.AddToHistory | src/lib/offlineStorage.ts:170-184 | One entry (song, clock, duration, completed) is appended. The other stores are unchanged |
| OfflineStorage.GetListeningHistory | src/lib/offlineStorage.ts:186-194 | Stored entries, newest first. There are exactly `min(limit, count)` of them for a non-negative limit, and none for limit 0 |
| OfflineStorage.HistoryShowsNewest | src/lib/offlineStorage.ts:193 | An entry left out of a limited listing is no newer than any entry shown |
| OfflineStorage.SetPreference | src/lib/offlineStorage.ts:197-202 | Every other key reads as before. Songs and history are untouched |
| OfflineStorage.GetPreference | src/lib/offlineStorage.ts:204-210 | The lookup finds nothing exactly when the key was never set |
| OfflineStorage.PreferenceRoundTrip | src/lib/offlineStorage.ts:197-210 | Reading a preference just set gives the value back |
| OfflineStorage.AddToDownloadQueue | src/lib/offlineStorage.ts:213-223 | A fresh pending entry with progress 0, replacing any earlier one. Other entries are unchanged |
| OfflineStorage.UpdateDownloadProgress | src/lib/offlineStorage.ts:225-237 | An absent id changes nothing. Otherwise only the progress and status of that entry change |
| OfflineStorage.RemoveFromDownloadQueue | src/lib/offlineStorage.ts:253-258 | The entry no longer reads. Other entries are unchanged |
| OfflineStorage.EstimateIgnoresNotDownloaded | src/lib/offlineStorage.ts:272-283 | The size estimate counts the blobs of downloaded records only |
| OfflineStorage.GetStorageStats | src/lib/offlineStorage.ts:261-291 | The counts are those of the stores. The downloaded count is the number of flagged songs, at most the song count. The estimate is the blob size of the flagged records |
| OfflineStorage.ClearAll | src/lib/offlineStorage.ts:294-302 | Songs, playlists, history and the download queue are emptied. Preferences are kept |
| OfflineStorage.ClearKeepsPreferences | src/lib/offlineStorage.ts:294-302 | Every preference still reads after clearing, and the statistics are all zero |
| OfflineStorage.DownloadSong | src/lib/offlineStorage.ts:331-356 | The result is true exactly when saving succeeds. The queue entry is then gone and the song is stored, but flagged not downloaded, because no audio is saved. A failed save leaves the entry "failed" at progress 0 and the songs unchanged |
| DownloadManager.Split | src/components/offline/DownloadManager.tsx:39-42 | Each section holds only queue items of its own status |
| DownloadManager.SplitIsPartition | src/components/offline/DownloadManager.tsx:39-42 | The four sections together hold the queue's items, each as often as the queue does |
| DownloadManager.Headings | src/components/offline/DownloadManager.tsx:46-102 | Downloading, waiting and failed headings appear, with their counts, exactly when their section has items. Downloading comes first and failed last. Completed items get no section |
| DownloadManager.RenderedAreUnfinished | src/components/offline/DownloadManager.tsx:46-102 | The list shows exactly the queue items that are not completed |
| DownloadManager.AllCompletedShowsNothing | src/components/offline/DownloadManager.tsx:46-113 | A queue of completed items only shows no section, no item and not even the empty state |
| DownloadManager.SectionHandlers | src/components/offline/DownloadManager.tsx:55-98 | Only the downloading section passes a pause handler and only the failed section a retry handler. Every section but completed passes cancel |
| DownloadManager.Buttons | src/components/offline/DownloadManager.tsx:194-219 | Pause shows for a running download with a pause handler. Retry shows for a failed one with a retry handler. Cancel shows for any unfinished item with a cancel handler |
| DownloadManager.PanelButtons | src/components/offline/DownloadManager.tsx:46-102 | On the panel every listed item can be cancelled, only running ones paused and only failed ones retried. The buttons are drawn at lines 194-219 of that file |
| DownloadManager.StorageColorOf | src/components/offline/DownloadManager.tsx:238-246 | The bar is green below half full and red from 80% on. With no capacity the percentage is not a finite number and the bar is red |
| OrderedStore.Get | src/lib/db.ts:70 | A key reads a value exactly when the store holds that key, and the value is the one stored with it |
| OrderedStore.GetFindsEntry | src/lib/db.ts:70 | In a store with unique keys, each entry's key reads its own value |
| OrderedStore.Put | src/lib/db.ts:59 | `put` keeps keys unique and ordered. It replaces the entry of an existing key, adds one for a new key, and keeps every other entry |
| OrderedStore.GetAfterPut | src/lib/db.ts:59-70 | Reading a key just put gives the value put |
| OrderedStore.GetAfterPutOther | src/lib/db.ts:59-70 | Putting one key leaves every other key's value unchanged |
| OrderedStore.Delete | src/lib/db.ts:81 | `delete` removes the key and keeps every other entry, in order |
| OrderedStore.GetAfterDelete | src/lib/db.ts:70-81 | A deleted key reads nothing. Every other key reads as before |
| OrderedStore.GetAll | src/lib/db.ts:75 | `getAll` lists the values in key order |
| PlaylistEditor.Open | src/components/playlist/PlaylistEditor.tsx:37-39 | At mount, a new playlist starts with empty fields. An edited one starts from its name, description and songs |
| PlaylistEditor.AddSong | src/components/playlist/PlaylistEditor.tsx:43-47 | After adding, the song's id is listed. A song already listed leaves the list unchanged; otherwise it is appended. Distinct ids stay distinct |
| PlaylistEditor.RemoveSong | src/components/playlist/PlaylistEditor.tsx:49-51 | After removal the id is gone. A song remains exactly when it was listed under another id |
| PlaylistEditor.RemoveSongKeepsOrder | src/components/playlist/PlaylistEditor.tsx:50 | Removal keeps the other songs in their order |
| PlaylistEditor.RemoveUndoesAdd | src/components/playlist/PlaylistEditor.tsx:43-51 | Removing the song just added gives back the list before the add |
| PlaylistEditor.FreshId | src/components/playlist/PlaylistEditor.tsx:64 | A new playlist's id `playlist-<now>` is never empty |
| PlaylistEditor.Cover | src/components/playlist/PlaylistEditor.tsx:67 | The cover is the first song's thumbnail when it is non-empty, else the default picture. It is never empty |
| PlaylistEditor.Save | src/components/playlist/PlaylistEditor.tsx:53-80 | Saving fails with "Name required" exactly when the name is blank. Otherwise the name and description are trimmed, and the songs, their count and the custom type are set. An edited playlist keeps its creation time, and its id when that is non-empty. A new one gets `playlist-<now>` and `now` |
| PlaylistEditor.SaveIsStable | src/components/playlist/PlaylistEditor.tsx:37-80 | A saved playlist has an id. Reopening it and saving again at any later time gives the same playlist |
| PlaylistEditor.Picker | src/components/playlist/PlaylistEditor.tsx:82-87 | A song is offered exactly when it is available, not yet in the playlist, and its lower-cased title or artist contains the lower-cased query |
| PlaylistEditor.EmptyQueryOffersAllNotAdded | src/components/playlist/PlaylistEditor.tsx:82-87 | With an empty query every available song not yet added is offered |
| PlaylistEditor.PickedSongLeavesPicker | src/components/playlist/PlaylistEditor.tsx:43-87 | A song picked from the picker is appended and is no longer offered |
| IndexPage.PlaylistsFor | src/pages/Index.tsx:63-69 | A visitor sees the demo playlists. A signed-in user starts with none |
| IndexPage.SavePlaylist | src/pages/Index.tsx:110-118 | A known id is replaced where it stands, keeping the length. A new playlist is appended. Other playlists keep their places, and the saved playlist is listed |
| IndexPage.SavePlaylistKeepsIdsDistinct | src/pages/Index.tsx:110-118 | Saving keeps playlist ids distinct, and saving the same playlist twice is saving it once |
| IndexPage.DownloadedCount | src/pages/Index.tsx:121 | The count is at most the number of demo songs. It is 0 exactly when none is downloaded, and all of them when all are |
| IndexPage.DownloadedCountAdds | src/pages/Index.tsx:121 | The count adds up over the parts of a list |
| Settings.MergeLaws | src/context/SettingsContext.tsx:113 | The shallow merge with no keys changes nothing. A full record replaces everything. The same update twice is the update once |
| Settings.UpdateSettings | src/context/SettingsContext.tsx:112-114 | A key the update leaves out keeps its value. A key it gives takes the new value |
| Settings.UpdateThemeColors | src/context/SettingsContext.tsx:116-121 | Only the colours change. Each colour the update gives replaces the old one, and the others stay |
| Settings.UpdateBackgroundStyle | src/context/SettingsContext.tsx:123-128 | Only the background changes. Its kind and intensity are replaced when given |
| Settings.UpdatePlayerLayout | src/context/SettingsContext.tsx:130-135 | Only the layout changes. Each of its four fields is replaced when given |
| Settings.SubUpdatesCommute | src/context/SettingsContext.tsx:116-135 | The colour, background and layout updates commute, because they write disjoint parts |
| Settings.Load | src/context/SettingsContext.tsx:71-78 | Nothing saved, an empty string, or text the parser rejects gives the defaults. A parsed record is merged over the defaults at the top level only: each of the nine keys takes the saved value when present and the default otherwise, so a saved colour record replaces the default colours whole |
| Settings.SavedSettingsReload | src/context/SettingsContext.tsx:71-110 | A whole record that was saved, and that the parser reads back, is what the next start-up loads |
| Settings.Reset | src/context/SettingsContext.tsx:137-140 | Reset gives the defaults and removes the saved record |
| Settings.ResetSurvivesReload | src/context/SettingsContext.tsx:33-55 | After a reset, a start-up with nothing saved loads the same defaults: dark theme, gradient at 50, high quality, no auto-download, not offline. The reset itself is at lines 137-140 of that file |
| Settings.ThemeClassOf | src/context/SettingsContext.tsx:95-105 | Dark and light put their own class on the root. The system theme gives dark exactly when the media query prefers dark |
| Settings.OnlySystemFollowsMediaQuery | src/context/SettingsContext.tsx:99-104 | Only the system theme depends on the media query |
| Settings.CssVariables | src/context/SettingsContext.tsx:81-92 | Nine variables are set, each to the primary or the accent colour, including `--primary` and `--accent` themselves |
| Settings.BackgroundColorIsNotApplied | src/context/SettingsContext.tsx:81-92 | The theme's background colour is stored but never applied: the variables do not depend on it |
| SleepTimer.Start | src/components/player/SleepTimer.tsx:53-62 | Choosing a duration starts a fresh, unpaused countdown of 60 seconds per minute, with that duration selected. It ticks for any positive duration |
| SleepTimer.Tick | src/components/player/SleepTimer.tsx:29-51 | Without a running interval nothing happens. The last second sets the count to 0, ends the timer, clears the selection and pauses the player. Any other second takes one off the count and leaves the player alone. The count never goes negative |
| SleepTimer.CountsDown | src/components/player/SleepTimer.tsx:32-45 | Before the last second, each second only counts down, and the player is left alone |
| SleepTimer.PausesAfterExactly | src/components/player/SleepTimer.tsx:29-62 | A timer started for m minutes and left running pauses a playing player after exactly 60·m seconds, and not a second earlier |
| SleepTimer.TicksSplit | src/components/player/SleepTimer.tsx:33-47 | Running n + 1 seconds is running n and then one more |
| SleepTimer.PausedTimerStandsStill | src/components/player/SleepTimer.tsx:32 | While paused, the count and the player stay as they are for any number of seconds |
| SleepTimer.Cancel | src/components/player/SleepTimer.tsx:64-70 | Cancelling returns to the idle timer: inactive, unpaused, nothing selected, count 0 |
| SleepTimer.TogglePause | src/components/player/SleepTimer.tsx:72-74 | Pause/resume flips the paused flag and nothing else |
| SleepTimer.ToggleTwiceIsIdentity | src/components/player/SleepTimer.tsx:72-74 | Toggling twice gives back the same timer. Resuming a paused active timer with time left makes it tick again |
| SleepTimer.Label | src/components/player/SleepTimer.tsx:76-85 | The remaining-time label reads back as the remaining seconds |
| Text.FormatClockRoundTrip | src/components/player/SleepTimer.tsx:76-85 | `h:mm:ss` from an hour up and `m:ss` below read back as the same number of seconds |
| Crossfade.InitialSettings | src/hooks/useCrossfade.ts:9-15 | Nothing saved gives crossfade off at 5 seconds. Saved text is read as the parser reads it, and unreadable text makes the hook throw |
| Crossfade.StartTime | src/hooks/useCrossfade.ts:91-97 | With crossfade off the fade starts at the song's end. Otherwise it starts `duration` seconds before the end, never before 0. It lies within the song for non-negative lengths |
| Crossfade.FadeEndsWithSong | src/hooks/useCrossfade.ts:91-97 | A fade started then ends exactly at the song's end when the song is long enough, and otherwise runs past it |
| Crossfade.StepMillis | src/hooks/useCrossfade.ts:40-41 | The 20 steps together take `duration` seconds |
| Crossfade.Volumes | src/hooks/useCrossfade.ts:49-60 | During the 20 steps both volumes lie in [0, 1] and add up to 1. From step 20 on, the current track is at 0 and the next at 1 |
| Crossfade.StartFade | src/hooks/useCrossfade.ts:30-47 | With crossfade off the completion callback runs at once and nothing else happens. Otherwise the next track plays at volume 0 and the interval starts |
| Crossfade.FadeTick | src/hooks/useCrossfade.ts:48-72 | Each firing raises the step and sets both volumes from the schedule. At step 20 the interval stops, the current track is paused at full volume and the callback runs once |
| Crossfade.FadeFollowsSchedule | src/hooks/useCrossfade.ts:30-72 | After k < 20 steps the fade still runs, the callback has not run, and the two volumes follow the schedule and add up to 1 |
| Crossfade.Schedule | src/hooks/useCrossfade.ts:48-72 | After k < 20 firings both decks hold the scheduled volumes |
| Crossfade.FadeTicksSplit | src/hooks/useCrossfade.ts:48 | Running n + 1 firings is running n and then one more |
| Crossfade.FadeCompletesOnce | src/hooks/useCrossfade.ts:30-75 | After 20 firings or more the old track is paused at full volume and the new one plays at full volume. The callback has run exactly once |
| Crossfade.StoppedStaysStopped | src/hooks/useCrossfade.ts:62-65 | Once the interval is cleared, nothing changes any more |
| Crossfade.FadeTicksAdd | src/hooks/useCrossfade.ts:48 | Running m + n firings is running m and then n |
| Crossfade.CancelFade | src/hooks/useCrossfade.ts:77-88 | Cancelling stops the interval and restores both tracks to full volume, playing or not as they were |
| Equalizer.BuiltInPresetsWellFormed | src/components/player/AudioEqualizer.tsx:15-30 | The ten built-in presets each hold eight gains within the -12..12 dB slider range. Their ids are distinct and none is "custom". The first one is Flat with all zero gains |
| Equalizer.BandChange | src/components/player/AudioEqualizer.tsx:49-55 | Moving one slider sets that band only and marks the setting custom. Eight valid bands stay eight valid bands |
| Equalizer.SelectPreset | src/components/player/AudioEqualizer.tsx:57-62 | Choosing a preset copies its bands and highlights its id. The saved presets are untouched |
| Equalizer.Reset | src/components/player/AudioEqualizer.tsx:64-68 | Reset gives flat bands with Flat highlighted, keeping the saved presets |
| Equalizer.ResetIsFlatPreset | src/components/player/AudioEqualizer.tsx:19-68 | Reset is the same as pressing the built-in Flat preset |
| Equalizer.SavePreset | src/components/player/AudioEqualizer.tsx:70-77 | Saving appends a copy of the current bands named "Custom n", where n is its place in the list. The bands and highlight stay |
| Equalizer.AllPresets | src/components/player/AudioEqualizer.tsx:79 | The buttons list the built-ins first, then the saved presets in saving order |
| Equalizer.CustomNamesDistinct | src/components/player/AudioEqualizer.tsx:73 | No two saved presets share a name |
| Equalizer.EditedBandsHighlightNoPreset | src/components/player/AudioEqualizer.tsx:53 | After a slider moves, no preset button is highlighted. The highlight is drawn at lines 124-138 of that file |
| Equalizer.BarHeight | src/components/player/AudioEqualizer.tsx:186 | A bar's height for an in-range gain lies between 0 and 100 percent, with 0 dB at half height |
| Equalizer.BarHeightMonotonic | src/components/player/AudioEqualizer.tsx:186 | More gain never gives a shorter bar |
| Lyrics.LyricsFor | src/components/player/LyricsView.tsx:18-51 | Song "1" shows its own lyrics and every other song the default ones. Either way the list is not empty and starts at time 0 |
| Lyrics.DemoLyricsIncrease | src/components/player/LyricsView.tsx:18-43 | Both demo lyric lists have strictly increasing line times |
| Lyrics.FindCurrentFrom | src/components/player/LyricsView.tsx:53-56 | The search returns the first line from the start point on that has started while the next line has not, or -1 when there is none |
| Lyrics.CurrentLine | src/components/player/LyricsView.tsx:53-56 | The highlighted index is a line whose time has come and whose successor's has not. When it is -1, no line qualifies |
| Lyrics.SomeLineOnceStarted | src/components/player/LyricsView.tsx:53-56 | With increasing times, no line is highlighted exactly when playback is before the first line |
| Lyrics.LastStarted | src/components/player/LyricsView.tsx:53-56 | Once a line has started, some line at or after it is current |
| Lyrics.CurrentLineIsUnique | src/components/player/LyricsView.tsx:53-97 | With increasing times, at most one line is current at any moment |
| Lyrics.StartsOrdered | src/components/player/LyricsView.tsx:18-43 | In an increasing list an earlier line never starts later |
| Lyrics.HighlightMovesForward | src/components/player/LyricsView.tsx:53-56 | As playback advances, the highlight never moves back up |
| Lyrics.Shown | src/components/player/LyricsView.tsx:102 | A line shows its own text, and an empty line shows the dots, so no row is blank |
| Auth.Validate | src/pages/Auth.tsx:12-41 | The e-mail message appears exactly when the e-mail check fails. The password message appears exactly when the password is under 6 characters. The name message appears exactly in sign-up mode with a blank name. Each carries its fixed text |
| Auth.PassesIff | src/pages/Auth.tsx:34-41 | The form passes exactly when the e-mail is valid, the password has at least 6 characters and, in sign-up mode, the name has a non-whitespace character |
| Auth.LoginIgnoresName | src/pages/Auth.tsx:38 | In login mode the name field has no effect on validation |
| Auth.ErrorMessage | src/pages/Auth.tsx:78-86 | A missing or empty message becomes the generic one. One mentioning "Invalid login" becomes the credentials message. One mentioning "already registered" becomes the log-in hint and switches to login mode. Anything else is shown as is. The shown text is never empty |
| Auth.NotContainsByFirstChar | src/pages/Auth.tsx:81-82 | A text cannot contain a phrase when the phrase's first letter appears nowhere it could start |
| Auth.IncorrectLacksRegistered | src/pages/Auth.tsx:81-85 | The credentials message does not trigger the second rewrite |
| Auth.UnexpectedLacksBoth | src/pages/Auth.tsx:80-85 | The generic message triggers neither rewrite |
| Auth.Submit | src/pages/Auth.tsx:43-90 | An invalid form records its errors and sends nothing. A valid one always ends loading. It goes home only after a successful request: with "Welcome back!" after a sign-in, and with "Account created successfully!" after a sign-up that needs no confirmation. A sign-up whose user awaits confirmation shows the notice and switches to login. A rejected request shows the mapped message and switches to login only for an already-registered e-mail |
| Auth.ToggleMode | src/pages/Auth.tsx:235 | The mode link flips between sign-in and sign-up and clears every error |
| Auth.ToggleTwice | src/pages/Auth.tsx:235 | Toggling twice gives back the same mode, with the errors cleared |
| ListeningCharts.HourLabel | src/components/profile/ListeningCharts.tsx:67 | Midnight and noon are labelled 12AM and 12PM. Morning hours keep their number with AM, and afternoon hours drop 12 and take PM |
| ListeningCharts.HourLabelRoundTrip | src/components/profile/ListeningCharts.tsx:67 | Every hour label reads back as its hour |
| ListeningCharts.HourLabelsDistinct | src/components/profile/ListeningCharts.tsx:64-76 | The 24 hour labels are all different |
| ListeningCharts.Scaled | src/components/profile/ListeningCharts.tsx:45-72 | Flooring a random draw times n gives a whole number below n |
| ListeningCharts.DrawBelowScale | src/components/profile/ListeningCharts.tsx:45 | A draw in [0, 1) scaled by a positive n lies in [0, n) |
| ListeningCharts.BaseValue | src/components/profile/ListeningCharts.tsx:69 | Evening hours 18-22 have a base of 40 plays, morning hours 6-9 have 25, and all others 10 |
| ListeningCharts.HourlyData | src/components/profile/ListeningCharts.tsx:64-76 | 24 entries, each labelled with its hour, with plays between that hour's base and base + 19 |
| ListeningCharts.WeeklyData | src/components/profile/ListeningCharts.tsx:41-48 | Seven days Mon..Sun, each with 20-199 minutes and 5-44 songs |
| ListeningCharts.MonthlyData | src/components/profile/ListeningCharts.tsx:51-61 | Thirty days "Day 1".."Day 30", each with 10-209 minutes and 5-54 songs |
| ListeningCharts.TotalMinutesBounds | src/components/profile/ListeningCharts.tsx:98 | The total minutes lie between the per-day bounds times the number of days |
| ListeningCharts.AverageDaily | src/components/profile/ListeningCharts.tsx:100 | The daily average is the nearest whole number to total/days, with halves rounded up. No days gives no number |
| ListeningCharts.WeeklyAverageInRange | src/components/profile/ListeningCharts.tsx:41-48 | The weekly daily average is a number between 20 and 199. The average is computed at lines 98-100 of that file |
| ListeningCharts.EveryThird | src/components/profile/ListeningCharts.tsx:257 | The bar chart keeps the entries at indexes 0, 3, 6, … in order |
| ListeningCharts.HourlyChartHasEightBars | src/components/profile/ListeningCharts.tsx:64-76 | The listening-pattern chart has eight bars, labelled 12AM, 3AM, …, 9PM. Every third bar is drawn, at line 257 of that file |
| ListeningCharts.GenreSharesSumToHundred | src/components/profile/ListeningCharts.tsx:79-85 | The five genre shares add up to 100 percent |

## Left out

- Rendering, animation, toasts and console logging. These are presentation only: toasts and logs appear at most as an effect tag (for example `Auth.Effect`).
- Timers. `setInterval` and `setTimeout` become one step function per firing. Examples are the sleep timer's tick, the crossfade step and radio mode's 5-second check (src/hooks/useRadioMode.ts:26-30, 88-91). Time passing is a count of firings. Simulated delays (the URL downloader's fake progress loop, src/components/download/URLDownloader.tsx:159-163, and the offline download simulation) are left out because they change nothing but the clock.
- Network, clock and randomness. Each becomes a parameter:
  - fetch answers and Supabase responses;
  - `Date.now`, `getHours` and `toISOString` strings;
  - `Math.random` draws in [0, 1);
  - the browser's `JSON.parse` (an `Option` result) and the schema library's e-mail check.
- The Supabase status codes. How a thrown edge-function error becomes an HTTP status code outside the function body is not modelled.
- Floating point. Volumes, progress, bitrates, crossfade steps and the recommendation scores are exact reals, and the confidence percentage is rounded from the exact score, where JavaScript rounds a double that may differ from it in the last bits. Song durations are whole seconds, so fractional durations in the clock labels are not modelled.
- Strings:
  - Lower-casing is ASCII only.
  - Strings are ordered by code point, where IndexedDB compares UTF-16 code units; the two differ only for characters outside the Basic Multilingual Plane.
  - Lengths count characters, where JavaScript counts UTF-16 code units: the password length, and the URL downloader's `value.length > 10` gate (`UrlDownloader.HandleUrlChange`, src/components/download/URLDownloader.tsx:116). They differ only for characters outside the Basic Multilingual Plane.
- Lists.SortDesc: its contract states the order and the contents. It does not state stability, although the definition is the stable insertion sort that `Array.prototype.sort` is specified to be.
- Prototype keys. Looking up a mood name or a song id that collides with a built-in object property (such as `constructor`) in the mood table or the demo lyrics table is not modelled. Such keys are treated as absent.
- `playSong`'s closure over the queue (src/context/PlayerContext.tsx:55-64). It is modelled as reading the current state, which is what it does whenever the provider has re-rendered since the queue changed.
- `getHistory` (src/lib/db.ts:140-143): the list it reads through the `by-date` index is the input of the recently-played view, which sorts it by date itself, so the index order is not modelled.
- The legacy `streamUrl` branch of the sound controller (src/components/SoundController.tsx:119-121). No song built by the modelled code carries that field.
- Two `catch` blocks of the YouTube page: the URL analysis one (src/pages/YouTube.tsx:114-116) and the download button's outer "Failed to download" one (src/pages/YouTube.tsx:356-357). The only calls inside those blocks cannot throw in the model.
- URL downloader:
  - the clock: each id reads `Date.now()` separately inside the map callback (src/components/download/URLDownloader.tsx:168), and the database stamps its own `new Date()` (src/lib/db.ts:59); the model uses one `now` for the whole batch, so ids of one batch differ only by their index;
  - the dialog reset after a download (src/components/download/URLDownloader.tsx:200-204) only clears inputs.
- Offline storage:
  - opening and upgrading the database (src/lib/offlineStorage.ts:46-90) and the online/offline listeners;
  - `getStorageStats` is modelled over `getAll` in key order;
  - `getPlaylist`, `getAllPlaylists` and `getDownloadQueue` are plain store reads (`OrderedStore.Get` and `OrderedStore.GetAll`).
- `saveHistory`'s remote mirror (src/lib/db.ts:113-137). It writes to the remote database and never reads back.
- DownloadManager's `onResume` handler, which no control calls.
- Playlist editor: the fields kept across openings. The editor's fields are set once, at mount (src/components/playlist/PlaylistEditor.tsx:37-39), and the index page keeps it mounted and never passes a playlist (src/pages/Index.tsx:372-377), so reopening the dialog shows whatever the fields held when it was last closed. `PlaylistEditor.Open` models the mount only; a later opening is not modelled as a separate step.
- Settings:
  - partial patches that carry an explicit `undefined` value;
  - saved settings whose nested objects are partial or of the wrong JSON type;
  - the effect that writes the defaults back to storage after a reset, which re-saves the value the model already holds;
  - the DOM writes of the CSS variables (the model returns the variable list instead).
- Index page: its mount effect (src/pages/Index.tsx:71-75), which only loads data through the modelled database functions.
- Auth: the session check and navigation on mount (src/pages/Auth.tsx:27-32).
- Crossfade:
  - `updateSettings` and the persistence effect (src/hooks/useCrossfade.ts:17-28), plain state writes;
  - `play().catch`, browser autoplay rejection.
- Equalizer: the `onBandsChange` and `onPresetChange` callbacks (the model's state carries the values they would receive) and the dB label text.
- Listening charts:
  - the genre colours;
  - `totalSongs`, the same sum as `totalMinutes` taken over the song counts.
- YouTube API: `getTrending`'s hook wrapper and the view-count formatting.
- LocalHistory.RecentlyPlayed: its own contract states only a length bound. Its content, order and distinctness are stated by `RecentlyPlayedComplete`, `RecentlyPlayedDistinct` and `RecentlyPlayedNewestFirst`.

## Findings

| source | as written | input that shows it | evidently intended | confidence | as-written member | corrected member |
|---|---|---|---|---|---|---|
| src/context/PlayerContext.tsx:127-137 | The index steps back whenever `findIndex` is below the current index, and `findIndex` gives -1 for an id that is not queued | Queue [a, b] at index 1; remove the absent id "z": the queue is unchanged but the index moves to 0 | Step back only when a removed song lies before the current one | not executed | Player.RemoveFromQueueAsWritten, Player.RemoveAbsentIdMovesIndex | Player.RemoveFromQueue |
| src/lib/offlineStorage.ts:112-117 | `getDownloadedSongs` looks up the `by-downloaded` index with key 1, but the index is on the boolean `isDownloaded`, and IndexedDB never indexes a boolean | Save any song with audio, then ask for the downloaded songs: the answer is empty | Every stored song whose `isDownloaded` flag is set | not executed | OfflineStorage.GetDownloadedSongsAsWritten, OfflineStorage.DownloadedLookupAlwaysEmpty | OfflineStorage.GetDownloadedSongs |
| src/components/SoundController.tsx:20-28 | `handleEnded` is created once at mount and reads the `currentSong` captured then | Start with no song, play a song to its end: nothing is added to the history | The song that just ended is recorded | not executed | SoundController.OnEndedAsWritten, SoundController.EndedSongIsNotRecorded | SoundController.OnEnded |
| src/components/SoundController.tsx:30-38 | `handleTimeUpdate` compares the element's time with the `progress` captured at mount (0) | Progress 100 (after a seek) and the element at 0.5 seconds: no update, the display stays at 100 | Compare with the current progress | not executed | SoundController.TimeUpdateAsWritten, SoundController.StaleProgressIsNotCorrected | SoundController.TimeUpdate |
| src/components/player/QueuePanel.tsx:166-171 | The drop handler puts `currentSong!` between the two lists, and in the start state no song is playing while the demo songs are queued | Demo queue [a, b] and no song playing; drag within Up Next: the queue becomes [null, b] and a is gone | Keep the song at the index between the two lists | not executed | QueuePanel.ReorderListAsWritten, QueuePanel.ReorderAtStartLosesFirstSong | QueuePanel.Reorder, QueuePanel.ReorderIsPermutation |
| src/pages/YouTube.tsx:599-605 | The page mounts its own `PlayerProvider`, while the only sound controller sits under the app's provider (src/App.tsx:35-40) | No song playing in the app; play any search result on the YouTube page: the page shows it playing and no audio source is ever loaded | The page uses the app's player state, so its songs reach the sound controller | not executed | YouTubePage.PlayOnPageAsWritten, YouTubePage.PagePlayNeverReachesController | YouTubePage.PlayOnPage, YouTubePage.PagePlayReachesController |

=== FILE: auth.dfy ===
/** The sign-in / sign-up page: form validation, what a submission does
    with the authentication service's answer, and the mapping of its error
    messages to the ones shown. */
module Auth {
  import opened Wrappers
  import opened Text

  datatype Form = Form(email: string, password: string, displayName: string)

  /** The error record: one optional message per field. */
  datatype Errors = Errors(email: Option<string>, password: Option<string>, displayName: Option<string>)

  const NoErrors: Errors := Errors(None, None, None)

  const MinPasswordLength: nat := 6
  const EmailMessage: string := "Please enter a valid email address"
  const PasswordMessage: string := "Password must be at least 6 characters"
  const NameMessage: string := "Please enter your name"

  /** `validateForm`'s error record. `validEmail` stands for the schema
      library's e-mail check. */
  function Validate(f: Form, isLogin: bool, validEmail: string -> bool): (r: Errors)
    ensures r.email.Some? <==> !validEmail(f.email)
    ensures r.password.Some? <==> |f.password| < MinPasswordLength
    ensures r.displayName.Some? <==> !isLogin && IsBlank(f.displayName)
    ensures r.email.Some? ==> r.email.value == EmailMessage
    ensures r.password.Some? ==> r.password.value == PasswordMessage
    ensures r.displayName.Some? ==> r.displayName.value == NameMessage
  {
    Errors(
      if validEmail(f.email) then None else Some(EmailMessage),
      if |f.password| >= MinPasswordLength then None else Some(PasswordMessage),
      if !isLogin && IsBlank(f.displayName) then Some(NameMessage) else None)
  }

  /** The form passes when the error record is empty. */
  predicate Passes(f: Form, isLogin: bool, validEmail: string -> bool) {
    Validate(f, isLogin, validEmail) == NoErrors
  }

  /** Passing means a valid e-mail, a long enough password, and in sign-up
      mode a name with something other than whitespace. */
  lemma PassesIff(f: Form, isLogin: bool, validEmail: string -> bool)
    ensures Passes(f, isLogin, validEmail) <==>
      && validEmail(f.email)
      && |f.password| >= MinPasswordLength
      && (!isLogin ==> exists i | 0 <= i < |f.displayName| :: !IsWhitespace(f.displayName[i]))
  {
    BlankIffAllWhitespace(f.displayName);
  }

  /** The login mode never asks for a name. */
  lemma LoginIgnoresName(f: Form, name: string, validEmail: string -> bool)
    ensures Passes(f, true, validEmail) == Passes(f.(displayName := name), true, validEmail)
  {
  }

  // ---------------------------------------------------------------------
  // Error messages
  // ---------------------------------------------------------------------

  const UnexpectedMessage: string := "An unexpected error occurred"
  const IncorrectMessage: string := "Incorrect email or password"
  const RegisteredMessage: string := "Email already registered. Please log in."

  /** The message shown for a failed request, and whether the page switches
      to login mode. The two rewrites apply in order, the second to the
      result of the first. */
  function ErrorMessage(raw: Option<string>): (r: (string, bool))
    ensures r.0 != ""
    ensures Truthy(raw) && !Contains(raw.value, "Invalid login") && !Contains(raw.value, "already registered")
      ==> r == (raw.value, false)
    ensures Contains(OrElse(raw, UnexpectedMessage), "Invalid login") ==> r == (IncorrectMessage, false)
    ensures !Contains(OrElse(raw, UnexpectedMessage), "Invalid login")
            && Contains(OrElse(raw, UnexpectedMessage), "already registered")
      ==> r == (RegisteredMessage, true)
    ensures !Truthy(raw) ==> r == (UnexpectedMessage, false)
  {
    var msg := OrElse(raw, UnexpectedMessage);
    var msg1 := if Contains(msg, "Invalid login") then IncorrectMessage else msg;
    IncorrectLacksRegistered();
    UnexpectedLacksBoth();
    if Contains(msg1, "already registered") then (RegisteredMessage, true) else (msg1, false)
  }

  /** A string cannot contain `sub` when no place where `sub` would fit
      starts with its first character. */
  lemma NotContainsByFirstChar(s: string, sub: string)
    requires |sub| > 0
    requires forall i | 0 <= i <= |s| - |sub| :: s[i] != sub[0]
    ensures !Contains(s, sub)
  {
    forall i | 0 <= i <= |s| - |sub| ensures !(sub <= s[i..]) {
      assert s[i..][0] != sub[0];
    }
  }

  lemma IncorrectLacksRegistered()
    ensures !Contains(IncorrectMessage, "already registered")
  {
    var s := IncorrectMessage;
    assert s[..10] == "Incorrect ";
    assert forall i | 0 <= i < 10 :: s[i] == s[..10][i];
    NotContainsByFirstChar(s, "already registered");
  }

  lemma UnexpectedLacksBoth()
    ensures !Contains(UnexpectedMessage, "already registered")
    ensures !Contains(UnexpectedMessage, "Invalid login")
  {
    var s := UnexpectedMessage;
    assert s[..16] == "An unexpected er";
    assert forall i | 0 <= i < 16 :: s[i] == s[..16][i];
    NotContainsByFirstChar(s, "already registered");
    NotContainsByFirstChar(s, "Invalid login");
  }

  // ---------------------------------------------------------------------
  // Submitting
  // ---------------------------------------------------------------------

  /** What the authentication service answered. */
  datatype Outcome =
    | SignedIn
    | SignedUp(hasUser: bool, hasSession: bool)
    | Rejected(message: Option<string>)

  /** What the user sees after a submission. */
  datatype Effect =
    | NotSubmitted
    | GoHome(toast: string)
    | Notice(toast: string)
    | ErrorToast(toast: string)

  datatype Page = Page(isLogin: bool, errors: Errors, loading: bool)

  const ConfirmMessage: string := "Account created! Please check your email to confirm."

  /** `handleSubmit`. An invalid form records its errors and sends nothing;
      otherwise the request's `outcome` decides: home after a sign-in or an
      immediate sign-up session, a notice and login mode when the new
      account awaits e-mail confirmation, a mapped error otherwise. */
  function Submit(p: Page, f: Form, validEmail: string -> bool, outcome: Outcome): (r: (Page, Effect))
    ensures r.0.errors == Validate(f, p.isLogin, validEmail)
    ensures Passes(f, p.isLogin, validEmail) ==> !r.0.loading
    ensures !Passes(f, p.isLogin, validEmail) ==> r == (p.(errors := r.0.errors), NotSubmitted)
    ensures Passes(f, p.isLogin, validEmail) ==> r.1 != NotSubmitted
    ensures r.1.GoHome? ==> Passes(f, p.isLogin, validEmail) && !outcome.Rejected?
    ensures Passes(f, p.isLogin, validEmail) && outcome.Rejected? ==> (
      && r.1 == ErrorToast(ErrorMessage(outcome.message).0)
      && r.0.isLogin == (p.isLogin || ErrorMessage(outcome.message).1))
    ensures Passes(f, p.isLogin, validEmail) && !p.isLogin && outcome == SignedUp(true, false) ==> (
      && r.1 == Notice(ConfirmMessage) && r.0.isLogin)
    ensures Passes(f, p.isLogin, validEmail) && p.isLogin && !outcome.Rejected? ==> (
      && r.1 == GoHome("Welcome back!") && r.0.isLogin)
    ensures Passes(f, p.isLogin, validEmail) && !p.isLogin && !outcome.Rejected? && outcome != SignedUp(true, false) ==> (
      && r.1 == GoHome("Account created successfully!") && !r.0.isLogin)
  {
    var errors := Validate(f, p.isLogin, validEmail);
    var p1 := p.(errors := errors);
    if errors != NoErrors then (p1, NotSubmitted)
    else
      match outcome
      case Rejected(m) =>
        var (msg, toLogin) := ErrorMessage(m);
        (p1.(isLogin := p.isLogin || toLogin, loading := false), ErrorToast(msg))
      case SignedIn =>
        if p.isLogin then (p1.(loading := false), GoHome("Welcome back!"))
        else (p1.(loading := false), GoHome("Account created successfully!"))
      case SignedUp(hasUser, hasSession) =>
        if p.isLogin then (p1.(loading := false), GoHome("Welcome back!"))
        else if hasUser && !hasSession then (p1.(isLogin := true, loading := false), Notice(ConfirmMessage))
        else (p1.(loading := false), GoHome("Account created successfully!"))
  }

  /** Switching between sign-in and sign-up clears every error. */
  function ToggleMode(p: Page): (r: Page)
    ensures r.isLogin != p.isLogin && r.errors == NoErrors && r.loading == p.loading
  {
    p.(isLogin := !p.isLogin, errors := NoErrors)
  }

  /** Toggling twice returns to the starting mode with the errors cleared. */
  lemma ToggleTwice(p: Page)
    ensures ToggleMode(ToggleMode(p)) == p.(errors := NoErrors)
  {
  }
}

=== FILE: crossfade.dfy ===
/** Crossfading between two tracks: the saved setting, the moment a fade
    should begin, and the twenty-step volume schedule that fades the current
    track out while the next fades in. */
module Crossfade {
  import opened Wrappers

  datatype CrossfadeSettings = CrossfadeSettings(enabled: bool, duration: real)

  const DefaultCrossfade: CrossfadeSettings := CrossfadeSettings(false, 5.0)
  const FadeSteps: nat := 20

  /** The settings at start-up from the saved text, read by `parse` (which
      stands for `JSON.parse`). The hook does not catch a parse error, so an
      unreadable saved text is `None`: the component fails to render. */
  function InitialSettings(saved: Option<string>, parse: string -> Option<CrossfadeSettings>)
    : (r: Option<CrossfadeSettings>)
    ensures (saved.None? || saved.value == "") ==> r == Some(DefaultCrossfade)
    ensures saved.Some? && saved.value != "" ==> r == parse(saved.value)
  {
    if saved.Some? && saved.value != "" then parse(saved.value) else Some(DefaultCrossfade)
  }

  /** When, in a song of the given length, the fade should begin: at the
      very end when crossfading is off, otherwise `duration` seconds before
      the end but never before the start. */
  function StartTime(c: CrossfadeSettings, songDuration: real): (r: real)
    ensures !c.enabled ==> r == songDuration
    ensures c.enabled ==> r >= 0.0
    ensures songDuration >= 0.0 && c.duration >= 0.0 ==> 0.0 <= r <= songDuration
  {
    if !c.enabled then songDuration
    else if songDuration - c.duration > 0.0 then songDuration - c.duration else 0.0
  }

  /** A fade that begins at the start time ends exactly at the end of the
      song when the song is long enough, and otherwise runs past it. */
  lemma FadeEndsWithSong(c: CrossfadeSettings, songDuration: real)
    requires c.enabled
    ensures c.duration <= songDuration ==> StartTime(c, songDuration) + c.duration == songDuration
    ensures StartTime(c, songDuration) + c.duration >= songDuration
  {
  }

  /** The interval between fade steps, in milliseconds: the whole fade takes
      `duration` seconds. */
  function StepMillis(c: CrossfadeSettings): (r: real)
    ensures r * FadeSteps as real == c.duration * 1000.0
  {
    c.duration * 1000.0 / FadeSteps as real
  }

  // ---------------------------------------------------------------------
  // The volume schedule
  // ---------------------------------------------------------------------

  /** An audio element as far as the fade sees it. */
  datatype Deck = Deck(volume: real, playing: bool)

  /** A fade in progress: both decks, the steps taken, whether the interval
      still runs and how often the completion callback has been called. */
  datatype Fade = Fade(current: Deck, next: Deck, step: nat, running: bool, completions: nat)

  function Max(a: real, b: real): real { if a >= b then a else b }
  function Min(a: real, b: real): real { if a <= b then a else b }

  /** The two volumes after step `k`. */
  function Volumes(k: nat): (r: (real, real))
    ensures 1 <= k <= FadeSteps ==> (
      && 0.0 <= r.0 <= 1.0 && 0.0 <= r.1 <= 1.0
      && r.0 + r.1 == 1.0)
    ensures k >= FadeSteps ==> r == (0.0, 1.0)
  {
    var progress := k as real / FadeSteps as real;
    (Max(0.0, 1.0 - progress), Min(1.0, progress))
  }

  /** Starting a fade. When crossfading is off the completion callback runs
      at once and no volume changes; otherwise the next track starts playing
      at volume zero and the interval begins. */
  function StartFade(c: CrossfadeSettings, current: Deck, next: Deck): (r: Fade)
    ensures !c.enabled ==> r == Fade(current, next, 0, false, 1)
    ensures c.enabled ==> (
      && r.current == current && r.next == Deck(0.0, true)
      && r.step == 0 && r.running && r.completions == 0)
  {
    if !c.enabled then Fade(current, next, 0, false, 1)
    else Fade(current, Deck(0.0, true), 0, true, 0)
  }

  /** One firing of the interval: the step count goes up and both volumes
      follow the schedule; at the last step the interval stops, the current
      track is paused with its volume restored, and the completion callback
      runs. */
  function FadeTick(f: Fade): (r: Fade)
    ensures !f.running ==> r == f
    ensures f.running ==> r.step == f.step + 1 && r.next.volume == Volumes(r.step).1
    ensures f.running && r.step < FadeSteps ==> (
      && r.running && r.current == f.current.(volume := Volumes(r.step).0)
      && r.completions == f.completions)
    ensures f.running && r.step >= FadeSteps ==> (
      && !r.running && r.current == Deck(1.0, false)
      && r.completions == f.completions + 1)
  {
    if !f.running then f
    else
      var k := f.step + 1;
      var v := Volumes(k);
      var next := f.next.(volume := v.1);
      if k >= FadeSteps then Fade(Deck(1.0, false), next, k, false, f.completions + 1)
      else Fade(f.current.(volume := v.0), next, k, true, f.completions)
  }

  function FadeTicks(f: Fade, n: nat): Fade
    decreases n
  {
    if n == 0 then f else FadeTicks(FadeTick(f), n - 1)
  }

  /** During the fade, after `k` steps, the two volumes are those of the
      schedule: they stay in [0, 1] and add up to one. */
  lemma {:induction false} FadeFollowsSchedule(c: CrossfadeSettings, current: Deck, next: Deck, k: nat)
    requires c.enabled && 1 <= k < FadeSteps
    ensures var f := FadeTicks(StartFade(c, current, next), k);
            && f.running && f.step == k && f.completions == 0
            && f.current.volume == Volumes(k).0 && f.next.volume == Volumes(k).1
            && f.current.volume + f.next.volume == 1.0
            && f.current.playing == current.playing && f.next.playing
  {
    Schedule(StartFade(c, current, next), k);
  }

  lemma {:induction false} Schedule(f: Fade, k: nat)
    requires f.running && f.step == 0 && f.completions == 0 && f.next.playing
    requires 1 <= k < FadeSteps
    ensures var g := FadeTicks(f, k);
            && g.running && g.step == k && g.completions == 0
            && g.current == f.current.(volume := Volumes(k).0)
            && g.next == f.next.(volume := Volumes(k).1)
    decreases k
  {
    if k > 1 {
      Schedule(f, k - 1);
      FadeTicksSplit(f, k - 1);
    }
  }

  lemma {:induction false} FadeTicksSplit(f: Fade, n: nat)
    ensures FadeTicks(f, n + 1) == FadeTick(FadeTicks(f, n))
    decreases n
  {
    if n > 0 {
      FadeTicksSplit(FadeTick(f), n - 1);
    }
  }

  /** After the twentieth step the fade is over for good: the old track is
      paused at full volume, the new one plays at full volume, and the
      completion callback has run exactly once, however long the interval
      would have kept firing. */
  lemma {:induction false} FadeCompletesOnce(c: CrossfadeSettings, current: Deck, next: Deck, extra: nat)
    requires c.enabled
    ensures var f := FadeTicks(StartFade(c, current, next), FadeSteps + extra);
            && !f.running && f.completions == 1
            && f.current == Deck(1.0, false) && f.next == Deck(1.0, true)
  {
    var s := StartFade(c, current, next);
    Schedule(s, FadeSteps - 1);
    FadeTicksSplit(s, FadeSteps - 1);
    var done := FadeTicks(s, FadeSteps);
    StoppedStaysStopped(done, extra);
    FadeTicksAdd(s, FadeSteps, extra);
  }

  lemma {:induction false} StoppedStaysStopped(f: Fade, n: nat)
    requires !f.running
    ensures FadeTicks(f, n) == f
    decreases n
  {
    if n > 0 {
      StoppedStaysStopped(f, n - 1);
    }
  }

  lemma {:induction false} FadeTicksAdd(f: Fade, m: nat, n: nat)
    ensures FadeTicks(f, m + n) == FadeTicks(FadeTicks(f, m), n)
    decreases m
  {
    if m > 0 {
      FadeTicksAdd(FadeTick(f), m - 1, n);
    }
  }

  /** Cancelling stops the interval and puts both tracks back at full
      volume. */
  function CancelFade(f: Fade): (r: Fade)
    ensures !r.running
    ensures r.current.volume == 1.0 && r.next.volume == 1.0
    ensures r.current.playing == f.current.playing && r.next.playing == f.next.playing
    ensures r.completions == f.completions
  {
    f.(running := false, current := f.current.(volume := 1.0), next := f.next.(volume := 1.0))
  }
}

=== FILE: download_manager.dfy ===
/** The download manager panel: the queue split by status into sections,
    the buttons each item offers, the empty state, and the storage bar's
    colour. */
module DownloadManager {

  import opened Lists
  import OfflineStorage

  type Status = OfflineStorage.DownloadStatus

  datatype Item = Item(songId: string, songTitle: string, artist: string, thumbnail: string, status: Status, progress: real)

  predicate IsDownloading(d: Item) { d.status.Downloading? }
  predicate IsPending(d: Item) { d.status.Pending? }
  predicate IsCompleted(d: Item) { d.status.Completed? }
  predicate IsFailed(d: Item) { d.status.Failed? }

  /** The four status filters. */
  datatype Sections = Sections(active: seq<Item>, pending: seq<Item>, completed: seq<Item>, failed: seq<Item>)

  function Split(queue: seq<Item>): (r: Sections)
    ensures forall i | 0 <= i < |r.active| :: r.active[i] in queue && r.active[i].status.Downloading?
    ensures forall i | 0 <= i < |r.pending| :: r.pending[i] in queue && r.pending[i].status.Pending?
    ensures forall i | 0 <= i < |r.completed| :: r.completed[i] in queue && r.completed[i].status.Completed?
    ensures forall i | 0 <= i < |r.failed| :: r.failed[i] in queue && r.failed[i].status.Failed?
  {
    Sections(Filter(queue, IsDownloading), Filter(queue, IsPending), Filter(queue, IsCompleted), Filter(queue, IsFailed))
  }

  /** Every item lands in exactly one section: the four sections together
      hold the queue's items, each as often as the queue does. */
  lemma SplitIsPartition(queue: seq<Item>)
    ensures var r := Split(queue);
      multiset(r.active) + multiset(r.pending) + multiset(r.completed) + multiset(r.failed) == multiset(queue)
  {
    FiltersPartition(queue);
  }

  /** The items of the four filters, counted together. */
  function Spread(q: seq<Item>): multiset<Item> {
    multiset(Filter(q, IsDownloading)) + multiset(Filter(q, IsPending)) +
    multiset(Filter(q, IsCompleted)) + multiset(Filter(q, IsFailed))
  }

  /** Each item passes exactly one of the four filters, so each is counted
      once. */
  lemma FiltersPartition(queue: seq<Item>)
    ensures Spread(queue) == multiset(queue)
  {
    forall y ensures Spread(queue)[y] == multiset(queue)[y] {
      FilterCount(queue, IsDownloading, y);
      FilterCount(queue, IsPending, y);
      FilterCount(queue, IsCompleted, y);
      FilterCount(queue, IsFailed, y);
    }
  }

  /** A section heading shown on the panel, with its count. */
  datatype Heading = Downloading(n: nat) | Waiting(n: nat) | FailedHeading(n: nat)

  /** The sections shown: each of downloading, waiting and failed when it
      has items, in that order; completed items have no section. */
  function Headings(queue: seq<Item>): (r: seq<Heading>)
    ensures |r| <= 3
    ensures Downloading(|Split(queue).active|) in r <==> |Split(queue).active| > 0
    ensures Waiting(|Split(queue).pending|) in r <==> |Split(queue).pending| > 0
    ensures FailedHeading(|Split(queue).failed|) in r <==> |Split(queue).failed| > 0
    ensures |Split(queue).active| > 0 ==> r[0] == Downloading(|Split(queue).active|)
    ensures |Split(queue).failed| > 0 ==> r[|r| - 1] == FailedHeading(|Split(queue).failed|)
  {
    var s := Split(queue);
    HeadingsOf(|s.active|, |s.pending|, |s.failed|)
  }

  /** The headings for the three section sizes. */
  function HeadingsOf(active: nat, pending: nat, failed: nat): (r: seq<Heading>)
    ensures |r| <= 3
    ensures Downloading(active) in r <==> active > 0
    ensures Waiting(pending) in r <==> pending > 0
    ensures FailedHeading(failed) in r <==> failed > 0
    ensures active > 0 ==> r[0] == Downloading(active)
    ensures failed > 0 ==> r[|r| - 1] == FailedHeading(failed)
  {
    (if active > 0 then [Downloading(active)] else []) +
    (if pending > 0 then [Waiting(pending)] else []) +
    (if failed > 0 then [FailedHeading(failed)] else [])
  }

  /** The items listed, section by section. */
  function Rendered(queue: seq<Item>): (r: seq<Item>)
  {
    var s := Split(queue);
    s.active + s.pending + s.failed
  }

  /** The list shows every item that is not completed, and none that is. */
  lemma RenderedAreUnfinished(queue: seq<Item>, d: Item)
    ensures d in Rendered(queue) <==> d in queue && !d.status.Completed?
  {
    var s := Split(queue);
    if d in queue && !d.status.Completed? {
      var i :| 0 <= i < |queue| && queue[i] == d;
      match d.status
      case Downloading => assert IsDownloading(queue[i]);
      case Pending => assert IsPending(queue[i]);
      case Failed => assert IsFailed(queue[i]);
    }
  }

  /** "No downloads" is shown exactly for an empty queue. */
  predicate ShowsEmptyState(queue: seq<Item>) {
    |queue| == 0
  }

  /** An empty-looking list is not the empty state when everything has
      completed: the panel then shows nothing at all. */
  lemma AllCompletedShowsNothing(queue: seq<Item>)
    requires |queue| > 0 && forall i | 0 <= i < |queue| :: queue[i].status.Completed?
    ensures Rendered(queue) == [] && Headings(queue) == [] && !ShowsEmptyState(queue)
  {
    FilterNoneIsEmpty(queue, IsDownloading);
    FilterNoneIsEmpty(queue, IsPending);
    FilterNoneIsEmpty(queue, IsFailed);
  }

  /** The handlers a section hands its items. */
  datatype Handlers = Handlers(pause: bool, retry: bool, cancel: bool)

  function SectionHandlers(status: Status): (h: Handlers)
    ensures h.pause <==> status.Downloading?
    ensures h.retry <==> status.Failed?
    ensures h.cancel <==> !status.Completed?
  {
    match status
    case Downloading => Handlers(true, false, true)
    case Pending => Handlers(false, false, true)
    case Failed => Handlers(false, true, true)
    case Completed => Handlers(false, false, false)
  }

  datatype Button = PauseButton | RetryButton | CancelButton

  /** An item's buttons given the handlers it received: pause for a running
      download, retry for a failed one, cancel for any unfinished one. */
  function Buttons(d: Item, h: Handlers): (r: set<Button>)
    ensures PauseButton in r <==> d.status.Downloading? && h.pause
    ensures RetryButton in r <==> d.status.Failed? && h.retry
    ensures CancelButton in r <==> h.cancel && !d.status.Completed?
  {
    (if d.status.Downloading? && h.pause then {PauseButton} else {}) +
    (if d.status.Failed? && h.retry then {RetryButton} else {}) +
    (if h.cancel && !d.status.Completed? then {CancelButton} else {})
  }

  /** On the panel, every listed item can be cancelled, only running ones
      paused and only failed ones retried. */
  lemma PanelButtons(d: Item)
    requires !d.status.Completed?
    ensures var b := Buttons(d, SectionHandlers(d.status));
      CancelButton in b && (PauseButton in b <==> d.status.Downloading?) && (RetryButton in b <==> d.status.Failed?)
  {
  }

  datatype StorageColor = Green | YellowOrange | Red

  /** The storage bar: green below half full, yellow to orange below 80%,
      red otherwise. With no capacity the percentage is not a number (or
      infinite), both comparisons fail, and the bar is red. */
  function StorageColorOf(usedBytes: nat, totalBytes: nat): (c: StorageColor)
    ensures totalBytes == 0 ==> c == Red
    ensures totalBytes > 0 ==> (c == Green <==> (usedBytes as real) * 100.0 < 50.0 * (totalBytes as real))
    ensures totalBytes > 0 ==> (c == Red <==> (usedBytes as real) * 100.0 >= 80.0 * (totalBytes as real))
  {
    if totalBytes == 0 then Red
    else
      var usedPercent := (usedBytes as real / totalBytes as real) * 100.0;
      var t := totalBytes as real;
      assert usedPercent * t == (usedBytes as real) * 100.0;
      ScaleKeepsOrder(usedPercent, 50.0, t);
      ScaleKeepsOrder(usedPercent, 80.0, t);
      if usedPercent < 50.0 then Green
      else if usedPercent < 80.0 then YellowOrange
      else Red
  }

  /** Multiplying by a positive number keeps `<`. */
  lemma ScaleKeepsOrder(x: real, y: real, t: real)
    requires t > 0.0
    ensures x < y <==> x * t < y * t
  {
    if x < y {
      assert (y - x) * t > 0.0;
    } else {
      assert (x - y) * t >= 0.0;
    }
  }
}

=== FILE: equalizer.dfy ===
/** The eight-band equalizer panel: its built-in presets, the band sliders,
    and the custom presets saved during a session. */
module Equalizer {
  import opened Text

  datatype Preset = Preset(id: string, name: string, bands: seq<int>)

  const BandCount: nat := 8
  /** The slider range of every band, in decibels. */
  const MinGain: int := -12
  const MaxGain: int := 12

  const FlatBands: seq<int> := [0, 0, 0, 0, 0, 0, 0, 0]
  /** The id shown while the bands match no preset. */
  const CustomId: string := "custom"
  const FlatId: string := "flat"

  const BuiltInPresets: seq<Preset> := [
    Preset("flat", "Flat", [0, 0, 0, 0, 0, 0, 0, 0]),
    Preset("bass-boost", "Bass Boost", [6, 5, 4, 2, 0, 0, 0, 0]),
    Preset("vocal", "Vocal", [-2, -1, 0, 3, 4, 3, 1, 0]),
    Preset("rock", "Rock", [4, 3, 1, 0, -1, 1, 3, 4]),
    Preset("pop", "Pop", [-1, 1, 3, 4, 3, 1, -1, -2]),
    Preset("jazz", "Jazz", [3, 2, 1, 2, -1, -1, 0, 2]),
    Preset("classical", "Classical", [4, 3, 2, 1, -1, 0, 2, 3]),
    Preset("electronic", "Electronic", [4, 3, 0, -2, -1, 2, 4, 5]),
    Preset("acoustic", "Acoustic", [3, 2, 1, 1, 2, 2, 3, 2]),
    Preset("r-and-b", "R&B", [3, 5, 4, 1, -1, 1, 2, 3])]

  /** A band setting the sliders can show: eight gains within range. */
  predicate GoodBands(bands: seq<int>) {
    |bands| == BandCount && forall i | 0 <= i < |bands| :: MinGain <= bands[i] <= MaxGain
  }

  /** Every built-in preset is a good band setting, and their ids are
      distinct and differ from the custom marker. */
  lemma BuiltInPresetsWellFormed()
    ensures forall i | 0 <= i < |BuiltInPresets| :: GoodBands(BuiltInPresets[i].bands)
    ensures forall i, j | 0 <= i < j < |BuiltInPresets| :: BuiltInPresets[i].id != BuiltInPresets[j].id
    ensures forall i | 0 <= i < |BuiltInPresets| :: BuiltInPresets[i].id != CustomId
    ensures BuiltInPresets[0] == Preset(FlatId, "Flat", FlatBands)
  {
  }

  /** The panel's state: the current bands, the highlighted preset id and
      the presets saved in this session. */
  datatype Panel = Panel(bands: seq<int>, selected: string, custom: seq<Preset>)

  const Initial: Panel := Panel(FlatBands, FlatId, [])

  const CustomPrefix: string := "custom-"

  /** The id and name of the `n`-th saved preset (counting from one). */
  function CustomName(n: nat): string {
    "Custom " + NatToString(n)
  }

  /** What the panel keeps true: eight bands, and every saved preset is a
      copy of eight bands, numbered in saving order, with a `custom-` id. */
  predicate Valid(e: Panel) {
    && |e.bands| == BandCount
    && forall i | 0 <= i < |e.custom| ::
      && |e.custom[i].bands| == BandCount
      && e.custom[i].name == CustomName(i + 1)
      && CustomPrefix < e.custom[i].id
  }

  /** Moving one slider sets that band alone and marks the setting custom. */
  function BandChange(e: Panel, index: nat, value: int): (r: Panel)
    requires index < |e.bands|
    ensures |r.bands| == |e.bands| && r.bands[index] == value
    ensures forall i | 0 <= i < |e.bands| && i != index :: r.bands[i] == e.bands[i]
    ensures r.selected == CustomId && r.custom == e.custom
    ensures Valid(e) ==> Valid(r)
    ensures GoodBands(e.bands) && MinGain <= value <= MaxGain ==> GoodBands(r.bands)
  {
    e.(bands := e.bands[index := value], selected := CustomId)
  }

  /** Choosing a preset copies its bands and highlights it. */
  function SelectPreset(e: Panel, p: Preset): (r: Panel)
    ensures r.bands == p.bands && r.selected == p.id && r.custom == e.custom
    ensures Valid(e) && |p.bands| == BandCount ==> Valid(r)
  {
    e.(bands := p.bands, selected := p.id)
  }

  /** Reset: flat bands, the flat preset highlighted. */
  function Reset(e: Panel): (r: Panel)
    ensures r.bands == FlatBands && r.selected == FlatId && r.custom == e.custom
    ensures Valid(e) ==> Valid(r)
  {
    e.(bands := FlatBands, selected := FlatId)
  }

  /** Reset is the same as choosing the built-in flat preset. */
  lemma ResetIsFlatPreset(e: Panel)
    ensures Reset(e) == SelectPreset(e, BuiltInPresets[0])
  {
    BuiltInPresetsWellFormed();
  }

  /** Saving appends one preset holding the current bands, named after its
      place in the saved list; `now` stands for the clock. */
  function SavePreset(e: Panel, now: nat): (r: Panel)
    ensures r.bands == e.bands && r.selected == e.selected
    ensures |r.custom| == |e.custom| + 1 && r.custom[..|e.custom|] == e.custom
    ensures r.custom[|e.custom|].bands == e.bands
    ensures r.custom[|e.custom|].name == CustomName(|e.custom| + 1)
    ensures Valid(e) ==> Valid(r)
  {
    var p := Preset(CustomPrefix + NatToString(now), CustomName(|e.custom| + 1), e.bands);
    assert CustomPrefix < p.id;
    e.(custom := e.custom + [p])
  }

  /** The preset buttons: built-ins first, then the saved ones. */
  function AllPresets(e: Panel): (r: seq<Preset>)
    ensures |r| == |BuiltInPresets| + |e.custom|
    ensures r[..|BuiltInPresets|] == BuiltInPresets && r[|BuiltInPresets|..] == e.custom
  {
    BuiltInPresets + e.custom
  }

  /** Saved presets get distinct names. */
  lemma CustomNamesDistinct(e: Panel)
    requires Valid(e)
    ensures forall i, j | 0 <= i < j < |e.custom| :: e.custom[i].name != e.custom[j].name
  {
    forall i, j | 0 <= i < j < |e.custom| ensures e.custom[i].name != e.custom[j].name {
      var pre := "Custom ";
      assert CustomName(i + 1)[|pre|..] == NatToString(i + 1);
      assert CustomName(j + 1)[|pre|..] == NatToString(j + 1);
      ParseNatToString(i + 1);
      ParseNatToString(j + 1);
    }
  }

  /** After a slider moves, no preset button is highlighted: neither a
      built-in nor a saved preset has the custom marker as its id. */
  lemma EditedBandsHighlightNoPreset(e: Panel, index: nat, value: int)
    requires Valid(e) && index < |e.bands|
    ensures var r := BandChange(e, index, value);
            forall i | 0 <= i < |AllPresets(r)| :: AllPresets(r)[i].id != r.selected
  {
    BuiltInPresetsWellFormed();
    var r := BandChange(e, index, value);
    var all := AllPresets(r);
    forall i | 0 <= i < |all| ensures all[i].id != CustomId {
      if i >= |BuiltInPresets| {
        var p := e.custom[i - |BuiltInPresets|];
        assert all[i] == p;
        assert |p.id| > |CustomId|;
      } else {
        assert all[i] == BuiltInPresets[i];
      }
    }
  }

  /** The visualiser bar of a band, as a percentage of the full height. */
  function BarHeight(value: int): (r: real)
    ensures MinGain <= value <= MaxGain ==> 0.0 <= r <= 100.0
    ensures value == 0 ==> r == 50.0
  {
    ((value + 12) as real / 24.0) * 100.0
  }

  /** Taller bars mean more gain. */
  lemma BarHeightMonotonic(a: int, b: int)
    requires a <= b
    ensures BarHeight(a) <= BarHeight(b)
  {
  }
}

=== FILE: index_page.dfy ===
/** The home page's own state: its playlist list, which the playlist editor
    saves into, and the count of downloaded demo songs it displays. */
module IndexPage {
  import opened Music
  import opened Lists

  predicate HasPlaylist(ps: seq<Playlist>, id: string) {
    exists i | 0 <= i < |ps| :: ps[i].id == id
  }

  /** No two playlists of the list share an id. */
  predicate DistinctPlaylistIds(ps: seq<Playlist>) {
    forall i, j | 0 <= i < j < |ps| :: ps[i].id != ps[j].id
  }

  /** The page's playlists follow the login state: the demo playlists for a
      visitor, an empty list once a user is signed in. */
  function PlaylistsFor(signedIn: bool, demoPlaylists: seq<Playlist>): (r: seq<Playlist>)
    ensures signedIn ==> r == []
    ensures !signedIn ==> r == demoPlaylists
  {
    if signedIn then [] else demoPlaylists
  }

  /** Saving from the editor: a playlist whose id is already listed replaces
      every entry with that id where it stands; a new one goes at the end. */
  function SavePlaylist(prev: seq<Playlist>, p: Playlist): (r: seq<Playlist>)
    ensures HasPlaylist(prev, p.id) ==> |r| == |prev|
    ensures !HasPlaylist(prev, p.id) ==> r == prev + [p]
    ensures forall i | 0 <= i < |prev| && prev[i].id != p.id :: i < |r| && r[i] == prev[i]
    ensures forall i | 0 <= i < |r| && r[i].id == p.id :: r[i] == p
    ensures p in r
  {
    if HasPlaylist(prev, p.id) then
      var r := seq(|prev|, i requires 0 <= i < |prev| => if prev[i].id == p.id then p else prev[i]);
      var k :| 0 <= k < |prev| && prev[k].id == p.id;
      assert r[k] == p;
      r
    else
      var r := prev + [p];
      assert r[|prev|] == p;
      r
  }

  /** Saving keeps playlist ids distinct, and saving the same playlist twice
      is the same as saving it once. */
  lemma SavePlaylistKeepsIdsDistinct(prev: seq<Playlist>, p: Playlist)
    requires DistinctPlaylistIds(prev)
    ensures DistinctPlaylistIds(SavePlaylist(prev, p))
    ensures SavePlaylist(SavePlaylist(prev, p), p) == SavePlaylist(prev, p)
  {
    var r := SavePlaylist(prev, p);
    assert HasPlaylist(r, p.id) by {
      var k :| 0 <= k < |r| && r[k] == p;
    }
    var r2 := SavePlaylist(r, p);
    assert |r2| == |r|;
    forall i | 0 <= i < |r| ensures r2[i] == r[i] {
      if r[i].id == p.id {
        assert r2[i] == p;
      }
    }
  }

  /** The page's downloaded count: how many demo songs are marked as
      downloaded. */
  function DownloadedCount(demoSongs: seq<Song>): (r: nat)
    ensures r <= |demoSongs|
    ensures r == 0 <==> forall i | 0 <= i < |demoSongs| :: !demoSongs[i].isDownloaded
    ensures (forall i | 0 <= i < |demoSongs| :: demoSongs[i].isDownloaded) ==> r == |demoSongs|
  {
    var d := Filter(demoSongs, (s: Song) => s.isDownloaded);
    if forall i | 0 <= i < |demoSongs| :: !demoSongs[i].isDownloaded then
      FilterNoneIsEmpty(demoSongs, (s: Song) => s.isDownloaded);
      |d|
    else
      var i :| 0 <= i < |demoSongs| && demoSongs[i].isDownloaded;
      assert demoSongs[i] in d;
      |d|
  }

  /** The count adds up over the parts of a list. */
  lemma DownloadedCountAdds(a: seq<Song>, b: seq<Song>)
    ensures DownloadedCount(a + b) == DownloadedCount(a) + DownloadedCount(b)
  {
    FilterAppend(a, b, (s: Song) => s.isDownloaded);
  }
}

=== FILE: listening_charts.dfy ===
/** The profile page's listening charts: the hour labels, the mock data
    drawn for each chart, and the totals and daily average shown above
    them. Every random draw is a parameter in [0, 1). */
module ListeningCharts {
  import opened Wrappers
  import opened Text

  // ---------------------------------------------------------------------
  // Hour labels
  // ---------------------------------------------------------------------

  /** The twelve-hour label of an hour of the day: midnight and noon are
      "12AM" and "12PM". */
  function HourLabel(h: nat): (r: string)
    requires h < 24
    ensures h == 0 ==> r == "12AM"
    ensures 1 <= h < 12 ==> r == NatToString(h) + "AM"
    ensures h == 12 ==> r == "12PM"
    ensures 13 <= h ==> r == NatToString(h - 12) + "PM"
  {
    if h < 12 then NatToString(if h == 0 then 12 else h) + "AM"
    else NatToString(if h == 12 then 12 else h - 12) + "PM"
  }

  /** Reads an hour label back into the hour of the day. */
  function ParseHourLabel(text: string): Option<nat> {
    if |text| < 3 then None
    else
      var digits := text[..|text| - 2];
      var suffix := text[|text| - 2..];
      if !AllDigits(digits) then None
      else
        var n := ParseNat(digits);
        if suffix == "AM" then Some(if n == 12 then 0 else n)
        else if suffix == "PM" then Some(if n == 12 then 12 else n + 12)
        else None
  }

  /** Every label names its hour, so the 24 labels are distinct. */
  lemma HourLabelRoundTrip(h: nat)
    requires h < 24
    ensures ParseHourLabel(HourLabel(h)) == Some(h)
  {
    var n := if h < 12 then (if h == 0 then 12 else h) else (if h == 12 then 12 else h - 12);
    var d := NatToString(n);
    ParseNatToString(n);
    var t := HourLabel(h);
    assert t[..|t| - 2] == d;
  }

  lemma HourLabelsDistinct(h1: nat, h2: nat)
    requires h1 < 24 && h2 < 24 && h1 != h2
    ensures HourLabel(h1) != HourLabel(h2)
  {
    HourLabelRoundTrip(h1);
    HourLabelRoundTrip(h2);
  }

  // ---------------------------------------------------------------------
  // Mock data
  // ---------------------------------------------------------------------

  /** A random draw. */
  predicate IsDraw(x: real) {
    0.0 <= x < 1.0
  }

  /** `Math.floor(draw * n)`: a whole number in [0, n - 1]. */
  function Scaled(draw: real, n: nat): (r: nat)
    requires IsDraw(draw) && n > 0
    ensures r < n
  {
    DrawBelowScale(draw, n as real);
    (draw * n as real).Floor
  }

  lemma DrawBelowScale(draw: real, n: real)
    requires IsDraw(draw) && n > 0.0
    ensures 0.0 <= draw * n < n
  {
    assert (1.0 - draw) * n > 0.0;
  }

  /** The evening hours get the most plays, the morning hours the next
      most. */
  function BaseValue(h: nat): (r: nat)
    ensures 18 <= h <= 22 ==> r == 40
    ensures (6 <= h <= 9) ==> r == 25
    ensures !(18 <= h <= 22) && !(6 <= h <= 9) ==> r == 10
  {
    if 18 <= h <= 22 then 40 else if 6 <= h <= 9 then 25 else 10
  }

  datatype HourlyPlays = HourlyPlays(hour: string, plays: nat)

  function HourlyData(draws: seq<real>): (r: seq<HourlyPlays>)
    requires |draws| == 24 && forall i | 0 <= i < 24 :: IsDraw(draws[i])
    ensures |r| == 24
    ensures forall h | 0 <= h < 24 ::
      r[h].hour == HourLabel(h) && BaseValue(h) <= r[h].plays <= BaseValue(h) + 19
  {
    seq(24, h requires 0 <= h < 24 => HourlyPlays(HourLabel(h), Scaled(draws[h], 20) + BaseValue(h)))
  }

  /** One day of listening. */
  datatype DayData = DayData(date: string, minutes: nat, songs: nat)

  const WeekDays: seq<string> := ["Mon", "Tue", "Wed", "Thu", "Fri", "Sat", "Sun"]

  function WeeklyData(minuteDraws: seq<real>, songDraws: seq<real>): (r: seq<DayData>)
    requires |minuteDraws| == 7 && |songDraws| == 7
    requires forall i | 0 <= i < 7 :: IsDraw(minuteDraws[i]) && IsDraw(songDraws[i])
    ensures |r| == 7
    ensures forall i | 0 <= i < 7 ::
      && r[i].date == WeekDays[i]
      && 20 <= r[i].minutes <= 199
      && 5 <= r[i].songs <= 44
  {
    seq(7, i requires 0 <= i < 7 =>
      DayData(WeekDays[i], Scaled(minuteDraws[i], 180) + 20, Scaled(songDraws[i], 40) + 5))
  }

  function MonthlyData(minuteDraws: seq<real>, songDraws: seq<real>): (r: seq<DayData>)
    requires |minuteDraws| == 30 && |songDraws| == 30
    requires forall i | 0 <= i < 30 :: IsDraw(minuteDraws[i]) && IsDraw(songDraws[i])
    ensures |r| == 30
    ensures forall i | 0 <= i < 30 ::
      && r[i].date == "Day " + NatToString(i + 1)
      && 10 <= r[i].minutes <= 209
      && 5 <= r[i].songs <= 54
  {
    seq(30, i requires 0 <= i < 30 =>
      DayData("Day " + NatToString(i + 1), Scaled(minuteDraws[i], 200) + 10, Scaled(songDraws[i], 50) + 5))
  }

  // ---------------------------------------------------------------------
  // Totals
  // ---------------------------------------------------------------------

  function TotalMinutes(data: seq<DayData>): nat {
    if |data| == 0 then 0 else TotalMinutes(data[..|data| - 1]) + data[|data| - 1].minutes
  }

  /** The totals are bounded by the per-day bounds. */
  lemma {:induction false} TotalMinutesBounds(data: seq<DayData>, lo: nat, hi: nat)
    requires forall i | 0 <= i < |data| :: lo <= data[i].minutes <= hi
    ensures lo * |data| <= TotalMinutes(data) <= hi * |data|
  {
    if |data| > 0 {
      var n := |data|;
      var init := data[..n - 1];
      assert forall i | 0 <= i < |init| :: init[i] == data[i];
      TotalMinutesBounds(init, lo, hi);
      assert lo * n == lo * (n - 1) + lo;
      assert hi * n == hi * (n - 1) + hi;
    }
  }

  /** `Math.round(total / days)`, the nearest whole number with halves
      rounded up; `None` stands for the NaN an empty range would give. */
  function AverageDaily(total: nat, days: nat): (r: Option<int>)
    ensures days == 0 <==> r.None?
    ensures r.Some? ==> 2 * total - days < 2 * r.value * days <= 2 * total + days
  {
    if days == 0 then None
    else
      var a := (2 * total + days) / (2 * days);
      assert (2 * days) * a <= 2 * total + days < (2 * days) * (a + 1);
      Some(a)
  }

  /** The weekly average lies within the per-day bounds. */
  lemma WeeklyAverageInRange(minuteDraws: seq<real>, songDraws: seq<real>)
    requires |minuteDraws| == 7 && |songDraws| == 7
    requires forall i | 0 <= i < 7 :: IsDraw(minuteDraws[i]) && IsDraw(songDraws[i])
    ensures var data := WeeklyData(minuteDraws, songDraws);
            var avg := AverageDaily(TotalMinutes(data), |data|);
            avg.Some? && 20 <= avg.value <= 199
  {
    var data := WeeklyData(minuteDraws, songDraws);
    TotalMinutesBounds(data, 20, 199);
  }

  /** The hourly bar chart keeps every third hour, starting at midnight. */
  function EveryThird<T>(s: seq<T>): (r: seq<T>)
    ensures |r| == (|s| + 2) / 3
    ensures forall k | 0 <= k < |r| :: 3 * k < |s| && r[k] == s[3 * k]
    decreases |s|
  {
    if |s| == 0 then []
    else
      var rest := EveryThird(if |s| <= 3 then [] else s[3..]);
      [s[0]] + rest
  }

  /** Eight bars: 12AM, 3AM, …, 9PM. */
  lemma HourlyChartHasEightBars(draws: seq<real>)
    requires |draws| == 24 && forall i | 0 <= i < 24 :: IsDraw(draws[i])
    ensures var bars := EveryThird(HourlyData(draws));
            |bars| == 8 && forall k | 0 <= k < 8 :: bars[k].hour == HourLabel(3 * k)
  {
  }

  // ---------------------------------------------------------------------
  // Genres
  // ---------------------------------------------------------------------

  datatype GenreShare = GenreShare(name: string, value: nat)

  const Genres: seq<GenreShare> := [
    GenreShare("Electronic", 35), GenreShare("Pop", 25), GenreShare("Rock", 20),
    GenreShare("Hip Hop", 12), GenreShare("Classical", 8)]

  function ShareTotal(g: seq<GenreShare>): nat {
    if |g| == 0 then 0 else g[0].value + ShareTotal(g[1..])
  }

  /** The genre shares are percentages that add up to a whole. */
  lemma GenreSharesSumToHundred()
    ensures ShareTotal(Genres) == 100
  {
  }
}

=== FILE: lists.dfy ===
/** JavaScript array helpers the player relies on: `slice` with its clamping
    of out-of-range and negative bounds, and the descending sort every
    ranking uses:
    `list.sort((a, b) => key(b) - key(a))`. JavaScript's `Array.prototype.sort`
    is stable, so entries with equal keys keep their input order; the model is
    an insertion sort that places each element before the first later one
    whose key is not larger. */
module Lists {

  /** Keys never increase along the sequence. */
  predicate SortedDesc<T>(s: seq<T>, key: T -> real) {
    forall i, j | 0 <= i < j < |s| :: key(s[i]) >= key(s[j])
  }

  /** Puts `x` in front of the first element whose key is at most `key(x)`:
      `x` came first in the input, so it stays ahead of its equals. */
  function InsertDesc<T>(x: T, s: seq<T>, key: T -> real): (r: seq<T>)
    requires SortedDesc(s, key)
    ensures SortedDesc(r, key)
    ensures multiset(r) == multiset(s) + multiset{x}
    ensures |r| == |s| + 1
    ensures forall i | 0 <= i < |r| :: r[i] == x || r[i] in s
  {
    if |s| == 0 then [x]
    else if key(s[0]) <= key(x) then [x] + s
    else
      var t := InsertDesc(x, s[1..], key);
      HeadIsLargest(s, key);
      ConsSorted(s[0], t, key);
      MultisetOfCons(s);
      [s[0]] + t
  }

  /** In a descending sequence no later key exceeds the head's. */
  lemma HeadIsLargest<T>(s: seq<T>, key: T -> real)
    requires SortedDesc(s, key) && |s| > 0
    ensures forall y | y in s[1..] :: key(y) <= key(s[0])
  {
  }

  /** A head no smaller than any key of a descending tail keeps it
      descending. */
  lemma ConsSorted<T>(h: T, t: seq<T>, key: T -> real)
    requires SortedDesc(t, key)
    requires forall i | 0 <= i < |t| :: key(t[i]) <= key(h)
    ensures SortedDesc([h] + t, key)
  {
  }

  /** The stable descending sort. */
  function SortDesc<T>(s: seq<T>, key: T -> real): (r: seq<T>)
    ensures SortedDesc(r, key)
    ensures multiset(r) == multiset(s)
    ensures |r| == |s|
    ensures forall i | 0 <= i < |r| :: r[i] in s
  {
    if |s| == 0 then []
    else
      assert s == [s[0]] + s[1..];
      InsertDesc(s[0], SortDesc(s[1..], key), key)
  }

  /** A descending sort followed by `slice(0, count)`: the best `count`
      entries, best first. */
  function Top<T>(s: seq<T>, key: T -> real, count: int): (r: seq<T>)
    ensures r <= SortDesc(s, key)
    ensures |r| <= |s|
    ensures count >= 0 ==> |r| <= count
    ensures count >= 0 ==> |r| == if count < |s| then count else |s|
    ensures SortedDesc(r, key)
    ensures forall i | 0 <= i < |r| :: r[i] in s
  {
    var t := SortDesc(s, key);
    var r := Slice(t, 0, count);
    assert forall i | 0 <= i < |r| :: r[i] == t[i];
    r
  }

  /** The `slice(0, k)` of a sequence: at most `k` elements, clamped. */
  function Take<T>(s: seq<T>, k: nat): (r: seq<T>)
    ensures |r| == if k < |s| then k else |s|
    ensures r <= s
  {
    if k < |s| then s[..k] else s
  }

  /** A `slice` bound: negative values count from the end, and the result
      is clamped to `[0, len]`. */
  function SliceBound(b: int, len: nat): (r: nat)
    ensures r <= len
    ensures 0 <= b <= len ==> r == b
    ensures b > len ==> r == len
    ensures b < 0 && len + b >= 0 ==> r == len + b
    ensures len + b < 0 ==> r == 0
  {
    if b < 0 then (if len + b < 0 then 0 else len + b)
    else if b > len then len
    else b
  }

  /** `s.slice(start, end)`. */
  function Slice<T>(s: seq<T>, start: int, end: int): (r: seq<T>)
    ensures SliceBound(start, |s|) <= SliceBound(end, |s|) ==>
      r == s[SliceBound(start, |s|)..SliceBound(end, |s|)]
    ensures SliceBound(start, |s|) > SliceBound(end, |s|) ==> r == []
  {
    var a := SliceBound(start, |s|);
    var b := SliceBound(end, |s|);
    if a <= b then s[a..b] else []
  }

  /** `s.slice(start)`. */
  function SliceFrom<T>(s: seq<T>, start: int): (r: seq<T>)
    ensures r == s[SliceBound(start, |s|)..]
  {
    Slice(s, start, |s|)
  }

  /** `slice(-n)` for `n > 0`: the last `n` elements, or all of them. */
  lemma SliceLast<T>(s: seq<T>, n: nat)
    requires n > 0
    ensures |SliceFrom(s, -(n as int))| == if n < |s| then n else |s|
    ensures SliceFrom(s, -(n as int)) == s[|s| - |SliceFrom(s, -(n as int))|..]
  {
  }

  /** `s.filter(p)`: the elements satisfying `p`, in their order. */
  function Filter<T>(s: seq<T>, p: T -> bool): (r: seq<T>)
    ensures |r| <= |s|
    ensures forall i | 0 <= i < |r| :: r[i] in s && p(r[i])
    ensures forall i | 0 <= i < |s| && p(s[i]) :: s[i] in r
    ensures (forall i | 0 <= i < |s| :: p(s[i])) ==> r == s
  {
    if |s| == 0 then []
    else if p(s[0]) then [s[0]] + Filter(s[1..], p)
    else Filter(s[1..], p)
  }

  /** In a descending sort, every element a prefix leaves out has a key no
      larger than every element the prefix keeps: the prefix holds the
      best `k`. */
  lemma {:induction false} SortDescPrefixIsBest<T>(s: seq<T>, key: T -> real, k: nat)
    requires k <= |s|
    ensures var t := SortDesc(s, key);
      forall x | x in s && x !in t[..k] :: forall y | y in t[..k] :: key(x) <= key(y)
  {
    var t := SortDesc(s, key);
    forall x | x in s && x !in t[..k]
      ensures forall y | y in t[..k] :: key(x) <= key(y)
    {
      assert x in multiset(t);
      var m :| 0 <= m < |t| && t[m] == x;
      forall y | y in t[..k] ensures key(x) <= key(y) {
        var n :| 0 <= n < k && t[..k][n] == y;
      }
    }
  }

  /** Elements drawn from `all` keep every property all of its elements
      have. */
  lemma ElementsKeep<T>(all: seq<T>, sub: seq<T>, p: T -> bool)
    requires forall i | 0 <= i < |all| :: p(all[i])
    requires forall i | 0 <= i < |sub| :: sub[i] in all
    ensures forall i | 0 <= i < |sub| :: p(sub[i])
  {
    forall i | 0 <= i < |sub| ensures p(sub[i]) {
      var j :| 0 <= j < |all| && all[j] == sub[i];
    }
  }

  /** Sorting loses no element: each one has a position in the result. */
  lemma SortDescHas<T>(s: seq<T>, key: T -> real, x: T) returns (m: nat)
    requires x in s
    ensures m < |SortDesc(s, key)| && SortDesc(s, key)[m] == x
  {
    var t := SortDesc(s, key);
    assert x in multiset(t);
    m :| 0 <= m < |t| && t[m] == x;
  }

  /** A filter keeps every copy of an element that passes and none of
      one that does not. */
  lemma {:induction false} FilterCount<T>(s: seq<T>, p: T -> bool, y: T)
    ensures multiset(Filter(s, p))[y] == if p(y) then multiset(s)[y] else 0
  {
    if |s| > 0 {
      FilterCount(s[1..], p, y);
      MultisetOfCons(s);
      if p(s[0]) {
        assert Filter(s, p) == [s[0]] + Filter(s[1..], p);
      }
    }
  }

  /** The elements of a non-empty sequence: its head and those of its
      tail. */
  lemma MultisetOfCons<T>(s: seq<T>)
    requires |s| > 0
    ensures multiset(s) == multiset{s[0]} + multiset(s[1..])
  {
    assert s == [s[0]] + s[1..];
  }

  /** A filter nothing passes keeps nothing. */
  lemma {:induction false} FilterNoneIsEmpty<T>(s: seq<T>, p: T -> bool)
    requires forall i | 0 <= i < |s| :: !p(s[i])
    ensures Filter(s, p) == []
  {
    if |s| > 0 {
      FilterNoneIsEmpty(s[1..], p);
    }
  }

  /** Filtering a concatenation filters each part. */
  lemma {:induction false} FilterAppend<T>(a: seq<T>, b: seq<T>, p: T -> bool)
    ensures Filter(a + b, p) == Filter(a, p) + Filter(b, p)
  {
    if |a| > 0 {
      assert (a + b)[1..] == a[1..] + b;
      FilterAppend(a[1..], b, p);
    } else {
      assert a + b == b;
    }
  }

  /** Two tests that agree on every element keep the same elements. */
  lemma {:induction false} FilterSame<T>(s: seq<T>, p: T -> bool, q: T -> bool)
    requires forall i | 0 <= i < |s| :: p(s[i]) == q(s[i])
    ensures Filter(s, p) == Filter(s, q)
  {
    if |s| > 0 {
      FilterSame(s[1..], p, q);
    }
  }

  /** The first element a filter keeps is the first element that passes:
      every element before it fails the test. This is `find`. */
  lemma {:induction false} FilterHeadIsFirst<T>(s: seq<T>, p: T -> bool)
    requires |Filter(s, p)| > 0
    ensures exists k | 0 <= k < |s| ::
      Filter(s, p)[0] == s[k] && p(s[k]) && (forall j | 0 <= j < k :: !p(s[j]))
  {
    if !p(s[0]) {
      FilterHeadIsFirst(s[1..], p);
      var k :| 0 <= k < |s[1..]| && Filter(s[1..], p)[0] == s[1..][k] && p(s[1..][k]) &&
        forall j | 0 <= j < k :: !p(s[1..][j]);
      assert Filter(s, p)[0] == s[k + 1];
      forall j | 0 <= j < k + 1 ensures !p(s[j]) {
        if j > 0 {
          assert s[j] == s[1..][j - 1];
        }
      }
    } else {
      assert Filter(s, p)[0] == s[0];
    }
  }
}

=== FILE: local_db.dfy ===
/** The `soundwaves-db` IndexedDB database: downloaded songs with their
    audio, favourites and a local play history. Dates are the clock value
    passed in; the remote history mirror is left out. */
module LocalDb {

  import opened Wrappers
  import opened Music
  import OS = OrderedStore

  const DbVersion := 3

  datatype SongRecord = SongRecord(song: Song, blob: Option<Blob>, savedAt: int)
  datatype Favorite = Favorite(song: Song, likedAt: int)
  datatype HistoryRecord = HistoryRecord(song: Song, playedAt: int)

  /** The object stores as found when the database is opened: a missing
      store is `None`. */
  datatype Schema = Schema(
    songs: Option<seq<OS.Entry<SongRecord>>>,
    history: Option<seq<HistoryRecord>>,
    favorites: Option<seq<OS.Entry<Favorite>>>)

  /** The `upgrade` callback for a database at `oldVersion`: the songs store
      is recreated empty below version 2; the history store is created when
      missing and recreated empty below version 3; favourites is created
      only when missing. */
  function Upgrade(oldVersion: nat, schema: Schema): (r: Schema)
    ensures oldVersion < 2 ==> r.songs == Some([])
    ensures oldVersion >= 2 ==> r.songs == schema.songs
    ensures r.history.Some?
    ensures schema.history.Some? && oldVersion >= 3 ==> r.history == schema.history
    ensures schema.history.None? || oldVersion < 3 ==> r.history == Some([])
    ensures r.favorites.Some?
    ensures schema.favorites.Some? ==> r.favorites == schema.favorites
    ensures schema.favorites.None? ==> r.favorites == Some([])
  {
    Schema(
      if oldVersion < 2 then Some([]) else schema.songs,
      if schema.history.None? || oldVersion < 3 then Some([]) else schema.history,
      if schema.favorites.None? then Some([]) else schema.favorites)
  }

  /** Why opening the database fails: the stored version is newer than the
      one asked for, which the Indexed Database API refuses with a
      `VersionError`. */
  datatype OpenError = VersionError

  /** `openDB` at version 3: an older stored version is upgraded, version 3
      is opened as it is, and a newer one is refused. */
  function Open(oldVersion: nat, schema: Schema): (r: Result<Schema, OpenError>)
    ensures r.Failure? <==> oldVersion > DbVersion
    ensures oldVersion == DbVersion ==> r == Success(schema)
    ensures oldVersion < DbVersion ==> r == Success(Upgrade(oldVersion, schema))
  {
    if oldVersion > DbVersion then Failure(VersionError)
    else if oldVersion < DbVersion then Success(Upgrade(oldVersion, schema))
    else Success(schema)
  }

  /** Every store exists. */
  predicate Complete(schema: Schema) {
    schema.songs.Some? && schema.history.Some? && schema.favorites.Some?
  }

  /** Opening from any version up to 3 yields all three stores, given what
      the earlier upgrades left: the songs store from version 2 on and every
      store at version 3. Opening the result again at version 3 changes
      nothing. Below version 2 the songs store starts empty, and below
      version 3 so does the history. */
  lemma OpenYieldsAllStores(oldVersion: nat, schema: Schema)
    requires oldVersion <= DbVersion
    requires oldVersion >= 2 ==> schema.songs.Some?
    requires oldVersion == DbVersion ==> Complete(schema)
    ensures Open(oldVersion, schema).Success? && Complete(Open(oldVersion, schema).value)
    ensures Open(DbVersion, Open(oldVersion, schema).value) == Open(oldVersion, schema)
    ensures oldVersion < 2 ==> Open(oldVersion, schema).value.songs == Some([])
    ensures oldVersion < DbVersion ==> Open(oldVersion, schema).value.history == Some([])
  {
  }

  /** The opened database, with every store present. */
  datatype Db = Db(
    songs: seq<OS.Entry<SongRecord>>,
    history: seq<HistoryRecord>,
    favorites: seq<OS.Entry<Favorite>>)

  predicate Valid(db: Db) {
    OS.Valid(db.songs) && OS.Valid(db.favorites)
  }

  /** `saveSongData(song, blob)`: stores the record under the song's id. */
  function SaveSongData(db: Db, song: Song, blob: Option<Blob>, now: int): (r: Db)
    requires Valid(db)
    ensures Valid(r)
    ensures r.history == db.history && r.favorites == db.favorites
    ensures OS.Get(r.songs, song.id) == Some(SongRecord(song, blob, now))
  {
    OS.GetAfterPut(db.songs, song.id, SongRecord(song, blob, now));
    db.(songs := OS.Put(db.songs, song.id, SongRecord(song, blob, now)))
  }

  /** `getSongData(id)`. */
  function GetSongData(db: Db, id: string): (r: Option<SongRecord>)
    ensures r.None? <==> !OS.HasKey(db.songs, id)
  {
    OS.Get(db.songs, id)
  }

  /** Saving and reading back gives the same song and blob; a later save of
      the same id wins; other ids are untouched. */
  lemma SaveThenGet(db: Db, song: Song, blob: Option<Blob>, now: int, other: string)
    requires Valid(db)
    ensures GetSongData(SaveSongData(db, song, blob, now), song.id).value.song == song
    ensures GetSongData(SaveSongData(db, song, blob, now), song.id).value.blob == blob
    ensures other != song.id ==> GetSongData(SaveSongData(db, song, blob, now), other) == GetSongData(db, other)
  {
    if other != song.id {
      OS.GetAfterPutOther(db.songs, song.id, SongRecord(song, blob, now), other);
    }
  }

  /** A second save of the same id overwrites the first. */
  lemma SaveOverwrites(db: Db, a: Song, b: Song, blobA: Option<Blob>, blobB: Option<Blob>, t1: int, t2: int)
    requires Valid(db) && a.id == b.id
    ensures GetSongData(SaveSongData(SaveSongData(db, a, blobA, t1), b, blobB, t2), a.id) == Some(SongRecord(b, blobB, t2))
  {
  }

  /** `getAllDownloadedSongs`: the song of every stored record, in key order,
      whether or not the record holds audio. */
  function GetAllDownloadedSongs(db: Db): (r: seq<Song>)
    ensures |r| == |db.songs|
    ensures forall i | 0 <= i < |db.songs| :: r[i] == db.songs[i].value.song
  {
    var records := OS.GetAll(db.songs);
    seq(|records|, i requires 0 <= i < |records| => records[i].song)
  }

  /** A song saved without audio is still listed. */
  lemma SavedWithoutBlobIsListed(db: Db, song: Song, now: int)
    requires Valid(db)
    ensures song in GetAllDownloadedSongs(SaveSongData(db, song, None, now))
  {
    var r := SaveSongData(db, song, None, now);
    var i :| 0 <= i < |r.songs| && r.songs[i] == OS.Entry(song.id, SongRecord(song, None, now));
    assert GetAllDownloadedSongs(r)[i] == song;
  }

  /** `deleteSongData(id)`. */
  function DeleteSongData(db: Db, id: string): (r: Db)
    requires Valid(db)
    ensures Valid(r) && r.history == db.history && r.favorites == db.favorites
    ensures GetSongData(r, id).None?
    ensures forall other | other != id :: GetSongData(r, other) == GetSongData(db, other)
  {
    forall other | other != id ensures OS.Get(OS.Delete(db.songs, id), other) == OS.Get(db.songs, other) {
      OS.GetAfterDelete(db.songs, id, other);
    }
    db.(songs := OS.Delete(db.songs, id))
  }

  /** `isFavorite(id)`. */
  function IsFavorite(db: Db, id: string): (r: bool)
    ensures r <==> OS.HasKey(db.favorites, id)
  {
    OS.Get(db.favorites, id).Some?
  }

  /** `toggleFavorite(song)`: removes a present song and reports `false`,
      adds an absent one and reports `true`. */
  function ToggleFavorite(db: Db, song: Song, now: int): (r: (Db, bool))
    requires Valid(db)
    ensures Valid(r.0) && r.0.songs == db.songs && r.0.history == db.history
    ensures r.1 <==> !IsFavorite(db, song.id)
    ensures IsFavorite(r.0, song.id) == r.1
    ensures forall other | other != song.id :: IsFavorite(r.0, other) == IsFavorite(db, other)
  {
    if IsFavorite(db, song.id) then
      var favs := OS.Delete(db.favorites, song.id);
      forall other | other != song.id ensures OS.Get(favs, other) == OS.Get(db.favorites, other) {
        OS.GetAfterDelete(db.favorites, song.id, other);
      }
      (db.(favorites := favs), false)
    else
      var favs := OS.Put(db.favorites, song.id, Favorite(song, now));
      forall other | other != song.id ensures OS.Get(favs, other) == OS.Get(db.favorites, other) {
        OS.GetAfterPutOther(db.favorites, song.id, Favorite(song, now), other);
      }
      (db.(favorites := favs), true)
  }

  /** Toggling twice restores whether the song is a favourite. */
  lemma ToggleTwice(db: Db, song: Song, t1: int, t2: int)
    requires Valid(db)
    ensures IsFavorite(ToggleFavorite(ToggleFavorite(db, song, t1).0, song, t2).0, song.id) == IsFavorite(db, song.id)
  {
  }

  /** `getFavorites`: the stored favourites in the reverse of the store's
      key order. */
  function GetFavorites(db: Db): (r: seq<Favorite>)
    ensures |r| == |db.favorites|
    ensures forall i | 0 <= i < |r| :: r[i] == db.favorites[|db.favorites| - 1 - i].value
  {
    var all := OS.GetAll(db.favorites);
    seq(|all|, i requires 0 <= i < |all| => all[|all| - 1 - i])
  }

  /** `saveHistory(song)`: one local entry is appended whatever the remote
      mirror does. */
  function SaveHistory(db: Db, song: Song, now: int): (r: Db)
    ensures r.history == db.history + [HistoryRecord(song, now)]
    ensures r.songs == db.songs && r.favorites == db.favorites
  {
    db.(history := db.history + [HistoryRecord(song, now)])
  }
}

=== FILE: local_history.dfy ===
/** The "recently played" view of the local history (`useLocalMusic`): the
    history records sorted newest first, then one song per id, the first
    met, in the order met. Play times are milliseconds. */
module LocalHistory {

  import opened Music
  import opened Lists
  import LocalDb

  type Record = LocalDb.HistoryRecord

  /** The position of the first record of song `id`, or -1. */
  function IndexOfRecord(s: seq<Record>, id: string): (r: int)
    ensures -1 <= r < |s|
    ensures r >= 0 ==> s[r].song.id == id && forall j | 0 <= j < r :: s[j].song.id != id
    ensures r == -1 <==> forall j | 0 <= j < |s| :: s[j].song.id != id
  {
    if |s| == 0 then -1
    else if s[0].song.id == id then 0
    else
      var k := IndexOfRecord(s[1..], id);
      if k < 0 then -1 else k + 1
  }

  /** The `forEach` over the sorted records: a record whose id is already in
      the map (`seen`) is skipped, any other adds its song. */
  function FirstPerId(s: seq<Record>, seen: set<string>): (r: seq<Song>)
    ensures |r| <= |s|
    ensures forall k | 0 <= k < |r| :: r[k].id !in seen
    decreases |s|
  {
    if |s| == 0 then []
    else if s[0].song.id in seen then FirstPerId(s[1..], seen)
    else [s[0].song] + FirstPerId(s[1..], seen + {s[0].song.id})
  }

  /** Past a first record of another id, positions shift by one. */
  lemma IndexOfRecordTail(s: seq<Record>, id: string)
    requires |s| > 0 && s[0].song.id != id
    ensures IndexOfRecord(s, id) == (if IndexOfRecord(s[1..], id) < 0 then -1 else IndexOfRecord(s[1..], id) + 1)
  {
  }

  /** Each song of `r` is the song of its id's first record in `s`. */
  predicate FromFirstRecords(s: seq<Record>, r: seq<Song>) {
    forall k | 0 <= k < |r| :: 0 <= IndexOfRecord(s, r[k].id) && s[IndexOfRecord(s, r[k].id)].song == r[k]
  }

  /** Each song kept is the one of its id's first record. */
  lemma {:induction false} FirstPerIdSources(s: seq<Record>, seen: set<string>)
    ensures FromFirstRecords(s, FirstPerId(s, seen))
    decreases |s|
  {
    if |s| > 0 {
      var x := s[0];
      var seen' := if x.song.id in seen then seen else seen + {x.song.id};
      var t := FirstPerId(s[1..], seen');
      FirstPerIdSources(s[1..], seen');
      assert FromFirstRecords(s[1..], t);
      assert x.song.id in seen';
      forall k | 0 <= k < |t|
        ensures 0 <= IndexOfRecord(s, t[k].id) && s[IndexOfRecord(s, t[k].id)].song == t[k]
      {
        assert t[k].id != x.song.id;
        IndexOfRecordTail(s, t[k].id);
      }
      var r := FirstPerId(s, seen);
      if x.song.id !in seen {
        assert forall k | 1 <= k < |r| :: r[k] == t[k - 1];
      }
    }
  }

  /** The songs of `r` come in the order of their ids' first records. */
  predicate InFirstRecordOrder(s: seq<Record>, r: seq<Song>) {
    forall k1, k2 | 0 <= k1 < k2 < |r| :: IndexOfRecord(s, r[k1].id) < IndexOfRecord(s, r[k2].id)
  }

  /** Songs are kept in the order of their ids' first records. */
  lemma {:induction false} FirstPerIdOrdered(s: seq<Record>, seen: set<string>)
    ensures InFirstRecordOrder(s, FirstPerId(s, seen))
    decreases |s|
  {
    if |s| > 0 {
      var x := s[0];
      var seen' := if x.song.id in seen then seen else seen + {x.song.id};
      var t := FirstPerId(s[1..], seen');
      FirstPerIdOrdered(s[1..], seen');
      FirstPerIdSources(s[1..], seen');
      assert InFirstRecordOrder(s[1..], t) && FromFirstRecords(s[1..], t);
      assert x.song.id in seen';
      forall k | 0 <= k < |t| ensures IndexOfRecord(s, t[k].id) == IndexOfRecord(s[1..], t[k].id) + 1 {
        assert t[k].id != x.song.id;
        assert 0 <= IndexOfRecord(s[1..], t[k].id);
        IndexOfRecordTail(s, t[k].id);
      }
      var r := FirstPerId(s, seen);
      if x.song.id !in seen {
        assert forall k | 1 <= k < |r| :: r[k] == t[k - 1];
        assert IndexOfRecord(s, r[0].id) == 0;
      }
    }
  }

  /** Every id of a record not already seen is kept. */
  lemma {:induction false} FirstPerIdComplete(s: seq<Record>, seen: set<string>)
    ensures var r := FirstPerId(s, seen);
      forall j | 0 <= j < |s| && s[j].song.id !in seen :: HasId(r, s[j].song.id)
    decreases |s|
  {
    if |s| > 0 {
      var x := s[0];
      var seen' := if x.song.id in seen then seen else seen + {x.song.id};
      var t := FirstPerId(s[1..], seen');
      FirstPerIdComplete(s[1..], seen');
      var r := FirstPerId(s, seen);
      forall j | 0 <= j < |s| && s[j].song.id !in seen ensures HasId(r, s[j].song.id) {
        if s[j].song.id == x.song.id {
          assert r[0].id == x.song.id;
        } else {
          assert s[1..][j - 1] == s[j];
          var k :| 0 <= k < |t| && t[k].id == s[j].song.id;
          if x.song.id in seen {
            assert r[k] == t[k];
          } else {
            assert r[k + 1] == t[k];
          }
        }
      }
    }
  }

  function PlayedAtKey(rec: Record): real {
    rec.playedAt as real
  }

  /** The deduplicated, newest-first history. */
  function RecentlyPlayed(hist: seq<Record>): (r: seq<Song>)
    ensures |r| <= |hist|
  {
    FirstPerId(SortDesc(hist, PlayedAtKey), {})
  }

  /** Whether some record plays song `id`. */
  predicate Played(hist: seq<Record>, id: string) {
    exists j | 0 <= j < |hist| :: hist[j].song.id == id
  }

  /** The latest time song `id` was played. */
  function LatestPlay(hist: seq<Record>, id: string): (t: int)
    requires Played(hist, id)
    ensures forall j | 0 <= j < |hist| && hist[j].song.id == id :: hist[j].playedAt <= t
    ensures exists j | 0 <= j < |hist| :: hist[j].song.id == id && hist[j].playedAt == t
  {
    var rest := hist[1..];
    if hist[0].song.id == id && !Played(rest, id) then
      assert forall j | 1 <= j < |hist| :: hist[j] == rest[j - 1];
      hist[0].playedAt
    else if hist[0].song.id == id then
      var u := LatestPlay(rest, id);
      assert forall j | 1 <= j < |hist| :: hist[j] == rest[j - 1];
      if hist[0].playedAt >= u then hist[0].playedAt else u
    else
      assert Played(rest, id) by {
        var j :| 0 <= j < |hist| && hist[j].song.id == id;
        assert rest[j - 1] == hist[j];
      }
      var u := LatestPlay(rest, id);
      assert forall j | 1 <= j < |hist| :: hist[j] == rest[j - 1];
      u
  }

  /** The first record of an id in the sorted history carries its latest
      play. */
  lemma FirstInSortedIsLatest(hist: seq<Record>, id: string)
    requires Played(hist, id)
    ensures var s := SortDesc(hist, PlayedAtKey);
      IndexOfRecord(s, id) >= 0 && s[IndexOfRecord(s, id)] in hist &&
      s[IndexOfRecord(s, id)].playedAt == LatestPlay(hist, id)
  {
    var s := SortDesc(hist, PlayedAtKey);
    var t := LatestPlay(hist, id);
    var j :| 0 <= j < |hist| && hist[j].song.id == id && hist[j].playedAt == t;
    var m := SortDescHas(hist, PlayedAtKey, hist[j]);
    var i := IndexOfRecord(s, id);
    assert 0 <= i <= m;
    assert PlayedAtKey(s[i]) >= PlayedAtKey(s[m]);
    assert s[i] in hist;
    var n :| 0 <= n < |hist| && hist[n] == s[i];
    assert s[i].playedAt <= t;
  }

  /** Every song id that was ever played is listed. */
  lemma RecentlyPlayedComplete(hist: seq<Record>, j: nat)
    requires j < |hist|
    ensures HasId(RecentlyPlayed(hist), hist[j].song.id)
  {
    var s := SortDesc(hist, PlayedAtKey);
    var m := SortDescHas(hist, PlayedAtKey, hist[j]);
    FirstPerIdComplete(s, {});
  }

  /** No song is listed twice. */
  lemma RecentlyPlayedDistinct(hist: seq<Record>)
    ensures DistinctIds(RecentlyPlayed(hist))
  {
    var s := SortDesc(hist, PlayedAtKey);
    var r := RecentlyPlayed(hist);
    FirstPerIdOrdered(s, {});
    assert InFirstRecordOrder(s, r);
    forall i, j | 0 <= i < j < |r| ensures r[i].id != r[j].id {
      assert IndexOfRecord(s, r[i].id) < IndexOfRecord(s, r[j].id);
    }
  }

  /** Each listed song is the one of its id's most recent play, and songs
      are ordered by their latest play, newest first. */
  lemma RecentlyPlayedNewestFirst(hist: seq<Record>)
    ensures var r := RecentlyPlayed(hist);
      forall k | 0 <= k < |r| :: Played(hist, r[k].id) &&
        LocalDb.HistoryRecord(r[k], LatestPlay(hist, r[k].id)) in hist
    ensures var r := RecentlyPlayed(hist);
      forall k1, k2 | 0 <= k1 < k2 < |r| ::
        Played(hist, r[k1].id) && Played(hist, r[k2].id) &&
        LatestPlay(hist, r[k1].id) >= LatestPlay(hist, r[k2].id)
  {
    var s := SortDesc(hist, PlayedAtKey);
    var r := RecentlyPlayed(hist);
    FirstPerIdSources(s, {});
    FirstPerIdOrdered(s, {});
    assert FromFirstRecords(s, r) && InFirstRecordOrder(s, r);
    forall k | 0 <= k < |r|
      ensures Played(hist, r[k].id) && LocalDb.HistoryRecord(r[k], LatestPlay(hist, r[k].id)) in hist
    {
      var i := IndexOfRecord(s, r[k].id);
      assert s[i] in hist;
      var n :| 0 <= n < |hist| && hist[n] == s[i];
      FirstInSortedIsLatest(hist, r[k].id);
      assert s[i] == LocalDb.HistoryRecord(r[k], LatestPlay(hist, r[k].id));
    }
    forall k1, k2 | 0 <= k1 < k2 < |r|
      ensures Played(hist, r[k1].id) && Played(hist, r[k2].id) &&
        LatestPlay(hist, r[k1].id) >= LatestPlay(hist, r[k2].id)
    {
      var i1 := IndexOfRecord(s, r[k1].id);
      var i2 := IndexOfRecord(s, r[k2].id);
      assert 0 <= i1 < i2;
      assert s[i1] in hist && s[i2] in hist;
      var n1 :| 0 <= n1 < |hist| && hist[n1] == s[i1];
      var n2 :| 0 <= n2 < |hist| && hist[n2] == s[i2];
      FirstInSortedIsLatest(hist, r[k1].id);
      FirstInSortedIsLatest(hist, r[k2].id);
      assert PlayedAtKey(s[i1]) >= PlayedAtKey(s[i2]);
    }
  }
}

=== FILE: lyrics.dfy ===
/** The lyrics overlay: which demo lyrics a song shows, and which line is
    highlighted at the current playback time. */
module Lyrics {

  datatype LyricLine = LyricLine(time: real, text: string)

  const SongOneLyrics: seq<LyricLine> := [
    LyricLine(0.0, "In the midnight hour"),
    LyricLine(4.0, "I close my eyes"),
    LyricLine(8.0, "Dreaming of a world"),
    LyricLine(12.0, "Where the stars align"),
    LyricLine(16.0, ""),
    LyricLine(18.0, "Cosmic waves are calling"),
    LyricLine(22.0, "Through the endless night"),
    LyricLine(26.0, "I'm floating, I'm falling"),
    LyricLine(30.0, "Into the light"),
    LyricLine(34.0, ""),
    LyricLine(36.0, "Midnight dreams"),
    LyricLine(40.0, "Take me away"),
    LyricLine(44.0, "To a place where"),
    LyricLine(48.0, "I can stay")]

  const DefaultLyrics: seq<LyricLine> := [
    LyricLine(0.0, "♪ ♫ ♪"),
    LyricLine(5.0, "Music plays"),
    LyricLine(10.0, "Rhythm sways"),
    LyricLine(15.0, "In the groove"),
    LyricLine(20.0, "We move"),
    LyricLine(25.0, "♪ ♫ ♪")]

  /** The lyrics shown for a song: its own when it has some, the default
      lyrics otherwise. */
  function LyricsFor(songId: string): (r: seq<LyricLine>)
    ensures |r| > 0 && r[0].time == 0.0
    ensures songId == "1" ==> r == SongOneLyrics
    ensures songId != "1" ==> r == DefaultLyrics
  {
    if songId == "1" then SongOneLyrics else DefaultLyrics
  }

  /** Line times strictly increase down the list. */
  predicate Increasing(lyrics: seq<LyricLine>) {
    forall i | 0 <= i < |lyrics| - 1 :: lyrics[i].time < lyrics[i + 1].time
  }

  lemma DemoLyricsIncrease(songId: string)
    ensures Increasing(LyricsFor(songId))
  {
  }

  /** Line `i` is the one being sung at time `t`: it has started, and the
      next line (if any) has not. */
  predicate IsCurrent(lyrics: seq<LyricLine>, t: real, i: int)
    requires 0 <= i < |lyrics|
  {
    t >= lyrics[i].time && (i + 1 == |lyrics| || t < lyrics[i + 1].time)
  }

  /** The first line from `from` on that is current at `t`, or -1. */
  function FindCurrentFrom(lyrics: seq<LyricLine>, t: real, from: nat): (r: int)
    requires from <= |lyrics|
    ensures r == -1 || from <= r < |lyrics|
    ensures r != -1 ==> IsCurrent(lyrics, t, r)
    ensures r != -1 ==> forall j | from <= j < r :: !IsCurrent(lyrics, t, j)
    ensures r == -1 ==> forall j | from <= j < |lyrics| :: !IsCurrent(lyrics, t, j)
    decreases |lyrics| - from
  {
    if from == |lyrics| then -1
    else if IsCurrent(lyrics, t, from) then from
    else FindCurrentFrom(lyrics, t, from + 1)
  }

  /** `currentLineIndex`: the index of the highlighted line, or -1. */
  function CurrentLine(lyrics: seq<LyricLine>, t: real): (r: int)
    ensures r == -1 || 0 <= r < |lyrics|
    ensures r != -1 ==> IsCurrent(lyrics, t, r)
    ensures r == -1 ==> forall j | 0 <= j < |lyrics| :: !IsCurrent(lyrics, t, j)
  {
    FindCurrentFrom(lyrics, t, 0)
  }

  /** With increasing times, some line is current exactly when the first
      line has started. */
  lemma {:induction false} SomeLineOnceStarted(lyrics: seq<LyricLine>, t: real)
    requires |lyrics| > 0 && Increasing(lyrics)
    ensures CurrentLine(lyrics, t) == -1 <==> t < lyrics[0].time
  {
    if t >= lyrics[0].time {
      var k := LastStarted(lyrics, t, 0);
      assert IsCurrent(lyrics, t, k);
    } else {
      forall j | 0 <= j < |lyrics| ensures !IsCurrent(lyrics, t, j) {
        StartsOrdered(lyrics, 0, j);
      }
    }
  }

  /** The last line, from `from` on, whose time has come: it is current. */
  lemma {:induction false} LastStarted(lyrics: seq<LyricLine>, t: real, from: nat) returns (k: nat)
    requires from < |lyrics| && t >= lyrics[from].time
    ensures from <= k < |lyrics| && IsCurrent(lyrics, t, k)
    decreases |lyrics| - from
  {
    if from + 1 == |lyrics| || t < lyrics[from + 1].time {
      k := from;
    } else {
      k := LastStarted(lyrics, t, from + 1);
    }
  }

  /** With increasing times at most one line is current, so the highlighted
      line is the only line whose interval holds `t`. */
  lemma CurrentLineIsUnique(lyrics: seq<LyricLine>, t: real, i: nat, j: nat)
    requires Increasing(lyrics)
    requires i < |lyrics| && j < |lyrics|
    requires IsCurrent(lyrics, t, i) && IsCurrent(lyrics, t, j)
    ensures i == j
  {
    if i < j {
      StartsOrdered(lyrics, i + 1, j);
    } else if j < i {
      StartsOrdered(lyrics, j + 1, i);
    }
  }

  /** In an increasing list, an earlier line never starts later. */
  lemma {:induction false} StartsOrdered(lyrics: seq<LyricLine>, a: nat, b: nat)
    requires Increasing(lyrics) && a <= b < |lyrics|
    ensures lyrics[a].time <= lyrics[b].time
    decreases b - a
  {
    if a < b {
      StartsOrdered(lyrics, a + 1, b);
    }
  }

  /** As time passes the highlight never moves back up. */
  lemma HighlightMovesForward(lyrics: seq<LyricLine>, t1: real, t2: real)
    requires Increasing(lyrics) && t1 <= t2
    requires CurrentLine(lyrics, t1) != -1
    ensures CurrentLine(lyrics, t1) <= CurrentLine(lyrics, t2)
  {
    var i := CurrentLine(lyrics, t1);
    assert t2 >= lyrics[i].time;
    var k := LastStarted(lyrics, t2, i);
    var j := CurrentLine(lyrics, t2);
    CurrentLineIsUnique(lyrics, t2, j, k);
  }

  /** What a line shows: its text, or a row of dots for an instrumental
      gap. */
  function Shown(line: LyricLine): (r: string)
    ensures r != ""
    ensures line.text != "" ==> r == line.text
  {
    if line.text != "" then line.text else "•••"
  }
}

=== FILE: music.dfy ===
/** The shared records of the player (`Song`, `Playlist`) and the id-based
    list helpers every component uses: `findIndex(s => s.id === id)`,
    `filter(s => s.id !== id)` and `find(s => s.id === id)`. */
module Music {

  import opened Wrappers

  datatype Source = YouTubeSource | OnlineSource | LocalSource

  /** A track. `duration` is in whole seconds; `youtubeId` and `streamUrl`
      are the optional fields of the record. */
  datatype Song = Song(
    id: string,
    title: string,
    artist: string,
    album: string,
    duration: nat,
    thumbnail: string,
    source: Source,
    youtubeId: Option<string>,
    isDownloaded: bool,
    streamUrl: Option<string>)

  /** Downloaded audio or image data; only its size in bytes matters here. */
  datatype Blob = Blob(size: nat)

  datatype PlaylistType = YouTubeList | OnlineList | OfflineList | CustomList | SmartList

  datatype Playlist = Playlist(
    id: string,
    name: string,
    description: string,
    thumbnail: string,
    songs: seq<Song>,
    kind: PlaylistType,
    createdAt: int,
    songCount: nat)

  /** Some song of `songs` has this id. */
  predicate HasId(songs: seq<Song>, id: string) {
    exists i | 0 <= i < |songs| :: songs[i].id == id
  }

  /** `songs.findIndex(s => s.id === id)`: the first position holding the id,
      or -1. */
  function IndexOfId(songs: seq<Song>, id: string): (r: int)
    ensures -1 <= r < |songs|
    ensures r >= 0 ==> songs[r].id == id && forall j | 0 <= j < r :: songs[j].id != id
    ensures r == -1 <==> !HasId(songs, id)
  {
    if |songs| == 0 then -1
    else if songs[0].id == id then 0
    else
      var k := IndexOfId(songs[1..], id);
      assert forall j | 1 <= j < |songs| :: songs[j] == songs[1..][j - 1];
      if k == -1 then -1 else k + 1
  }

  /** `songs.filter(s => s.id !== id)`. */
  function RemoveId(songs: seq<Song>, id: string): (r: seq<Song>)
    ensures |r| <= |songs|
    ensures !HasId(r, id)
    ensures HasId(songs, id) ==> |r| < |songs|
    ensures !HasId(songs, id) ==> r == songs
  {
    if |songs| == 0 then []
    else if songs[0].id == id then RemoveId(songs[1..], id)
    else
      assert !HasId(songs[1..], id) ==> !HasId(songs, id);
      [songs[0]] + RemoveId(songs[1..], id)
  }

  /** The songs kept are exactly those of another id. */
  lemma {:induction false} RemoveIdMembers(songs: seq<Song>, id: string)
    ensures forall s :: s in RemoveId(songs, id) <==> s in songs && s.id != id
  {
    if |songs| > 0 {
      RemoveIdMembers(songs[1..], id);
      assert songs == [songs[0]] + songs[1..];
    }
  }

  /** No two songs of the list share an id. */
  predicate DistinctIds(songs: seq<Song>) {
    forall i, j | 0 <= i < j < |songs| :: songs[i].id != songs[j].id
  }

  function Ids(songs: seq<Song>): (r: seq<string>)
    ensures |r| == |songs|
    ensures forall i | 0 <= i < |songs| :: r[i] == songs[i].id
  {
    seq(|songs|, i requires 0 <= i < |songs| => songs[i].id)
  }

  /** Removing the id of `x` from `a + [x] + b`, when only `x` carries it,
      cuts `x` out. */
  lemma {:induction false} RemoveIdSplit(a: seq<Song>, x: Song, b: seq<Song>)
    requires !HasId(a, x.id) && !HasId(b, x.id)
    ensures RemoveId(a + [x] + b, x.id) == a + b
  {
    if |a| == 0 {
      assert a + [x] + b == [x] + b;
      assert ([x] + b)[1..] == b;
    } else {
      assert (a + [x] + b)[1..] == a[1..] + [x] + b;
      assert !HasId(a[1..], x.id) by {
        forall i | 0 <= i < |a[1..]| ensures a[1..][i].id != x.id {
          assert a[1..][i] == a[i + 1];
        }
      }
      RemoveIdSplit(a[1..], x, b);
      assert a + b == [a[0]] + (a[1..] + b);
    }
  }

  /** The first occurrence of `x`'s id in `a + [x] + b`, when `a` does not
      hold it, is right after `a`. */
  lemma {:induction false} IndexOfIdAfter(a: seq<Song>, x: Song, b: seq<Song>)
    requires !HasId(a, x.id)
    ensures IndexOfId(a + [x] + b, x.id) == |a|
  {
    if |a| > 0 {
      assert (a + [x] + b)[1..] == a[1..] + [x] + b;
      assert !HasId(a[1..], x.id) by {
        forall i | 0 <= i < |a[1..]| ensures a[1..][i].id != x.id {
          assert a[1..][i] == a[i + 1];
        }
      }
      IndexOfIdAfter(a[1..], x, b);
    }
  }
}

=== FILE: offline_storage.dfy ===
/** The `music-player-db` database behind `OfflineStorage`: songs with
    their audio and thumbnail blobs, playlists, listening history, user
    preferences and the download queue, plus the hook's `downloadSong`
    flow. Clock values are parameters; the one-second simulated download
    delay is left out. */
module OfflineStorage {

  import opened Wrappers
  import opened Music
  import opened Lists
  import OS = OrderedStore
  import Recommend

  /** A stored song: the record with its blobs. The stored `isDownloaded`
      is whatever `saveSong` computed. */
  datatype StoredSong = StoredSong(song: Song, audioBlob: Option<Blob>, thumbnailBlob: Option<Blob>)

  datatype DownloadStatus = Pending | Downloading | Completed | Failed

  datatype QueueItem = QueueItem(songId: string, status: DownloadStatus, progress: real, addedAt: int)

  /** A preference value, kept opaque. */
  datatype Preference = Preference(json: string)

  datatype Storage = Storage(
    songs: seq<OS.Entry<StoredSong>>,
    playlists: seq<OS.Entry<Playlist>>,
    history: seq<Recommend.HistoryEntry>,
    preferences: seq<OS.Entry<Preference>>,
    downloadQueue: seq<OS.Entry<QueueItem>>)

  predicate Valid(st: Storage) {
    OS.Valid(st.songs) && OS.Valid(st.playlists) && OS.Valid(st.preferences) && OS.Valid(st.downloadQueue)
  }

  const Empty := Storage([], [], [], [], [])

  // ---------------------------------------------------------------------------
  // Songs

  /** `saveSong(song, audioBlob?, thumbnailBlob?)`: the stored flag says
      whether audio was given, whatever the caller's record said. */
  function SaveSong(st: Storage, song: Song, audioBlob: Option<Blob>, thumbnailBlob: Option<Blob>): (r: Storage)
    requires Valid(st)
    ensures Valid(r) && r.playlists == st.playlists && r.history == st.history
    ensures r.preferences == st.preferences && r.downloadQueue == st.downloadQueue
    ensures OS.Get(r.songs, song.id) ==
      Some(StoredSong(song.(isDownloaded := audioBlob.Some?), audioBlob, thumbnailBlob))
  {
    var rec := StoredSong(song.(isDownloaded := audioBlob.Some?), audioBlob, thumbnailBlob);
    OS.GetAfterPut(st.songs, song.id, rec);
    st.(songs := OS.Put(st.songs, song.id, rec))
  }

  /** `getSong(id)`. */
  function GetSong(st: Storage, id: string): (r: Option<Song>)
    ensures r.None? <==> !OS.HasKey(st.songs, id)
  {
    match OS.Get(st.songs, id)
    case None => None
    case Some(rec) => Some(rec.song)
  }

  /** A song read back after saving is downloaded exactly when audio was
      saved with it. */
  lemma SavedFlagFollowsAudio(st: Storage, song: Song, audioBlob: Option<Blob>, thumbnailBlob: Option<Blob>)
    requires Valid(st)
    ensures GetSong(SaveSong(st, song, audioBlob, thumbnailBlob), song.id) ==
      Some(song.(isDownloaded := audioBlob.Some?))
    ensures GetSong(SaveSong(st, song, audioBlob, thumbnailBlob), song.id).value.isDownloaded <==> audioBlob.Some?
  {
  }

  /** `deleteSong(id)`. */
  function DeleteSong(st: Storage, id: string): (r: Storage)
    requires Valid(st)
    ensures Valid(r) && GetSong(r, id).None?
    ensures forall other | other != id :: GetSong(r, other) == GetSong(st, other)
  {
    forall other | other != id ensures OS.Get(OS.Delete(st.songs, id), other) == OS.Get(st.songs, other) {
      OS.GetAfterDelete(st.songs, id, other);
    }
    st.(songs := OS.Delete(st.songs, id))
  }

  /** The stored songs, in key order. */
  function AllSongs(st: Storage): (r: seq<Song>)
    ensures |r| == |st.songs|
    ensures forall i | 0 <= i < |r| :: r[i] == st.songs[i].value.song
  {
    seq(|st.songs|, i requires 0 <= i < |st.songs| => st.songs[i].value.song)
  }

  // ---------------------------------------------------------------------------
  // Index lookups

  /** An IndexedDB key as the songs' indexes see it. */
  datatype IndexKey = NumberKey(n: real) | StringKey(s: string)

  /** A field of a stored record as JavaScript holds it. */
  datatype JsValue = JsUndefined | JsBool(b: bool) | JsNumber(n: real) | JsString(str: string)

  /** The key an index files a record under: the value at the index's key
      path when it is a valid key in the Indexed Database API's sense.
      Numbers and strings are keys; booleans and `undefined` are not, and a
      record whose value is not a key is left out of the index. */
  function AsKey(v: JsValue): (k: Option<IndexKey>)
    ensures k.Some? <==> v.JsNumber? || v.JsString?
    ensures v.JsNumber? ==> k == Some(NumberKey(v.n))
    ensures v.JsString? ==> k == Some(StringKey(v.str))
  {
    match v
    case JsNumber(n) => Some(NumberKey(n))
    case JsString(t) => Some(StringKey(t))
    case _ => None
  }

  function SourceName(s: Source): string {
    match s
    case YouTubeSource => "youtube"
    case OnlineSource => "online"
    case LocalSource => "local"
  }

  /** The value at the "by-source" key path `source`. */
  function SourceField(s: Song): JsValue {
    JsString(SourceName(s.source))
  }

  /** The value at the "by-downloaded" key path `isDownloaded`: the boolean
      `saveSong` stored. */
  function DownloadedField(s: Song): JsValue {
    JsBool(s.isDownloaded)
  }

  /** `getAllFromIndex("songs", index, query)`: the stored songs, in primary
      key order, that the index with the given key path files under `query`. */
  function FromIndex(st: Storage, field: Song -> JsValue, query: IndexKey): (r: seq<Song>)
    ensures forall i | 0 <= i < |r| :: r[i] in AllSongs(st) && AsKey(field(r[i])) == Some(query)
    ensures forall i | 0 <= i < |st.songs| && AsKey(field(st.songs[i].value.song)) == Some(query) ::
      st.songs[i].value.song in r
  {
    Filter(AllSongs(st), FiledUnder(field, query))
  }

  /** Whether the index with the given key path files a song under `query`. */
  function FiledUnder(field: Song -> JsValue, query: IndexKey): Song -> bool {
    (s: Song) => AsKey(field(s)) == Some(query)
  }

  /** The key the "by-downloaded" index files a song under: none, since the
      field holds a boolean. */
  function DownloadedIndexKey(s: Song): (k: Option<IndexKey>)
    ensures k.None?
  {
    AsKey(DownloadedField(s))
  }

  /** `getDownloadedSongs` as written: the songs the "by-downloaded" index
      files under the number 1. */
  function GetDownloadedSongsAsWritten(st: Storage): (r: seq<Song>)
    ensures forall i | 0 <= i < |r| :: r[i] in AllSongs(st) && DownloadedIndexKey(r[i]) == Some(NumberKey(1.0))
  {
    FromIndex(st, DownloadedField, NumberKey(1.0))
  }

  /** What the lookup evidently means: the songs whose stored flag is set. */
  function GetDownloadedSongs(st: Storage): (r: seq<Song>)
    ensures forall i | 0 <= i < |r| :: r[i] in AllSongs(st) && r[i].isDownloaded
    ensures forall i | 0 <= i < |st.songs| && st.songs[i].value.song.isDownloaded ::
      st.songs[i].value.song in r
  {
    Filter(AllSongs(st), IsDownloaded)
  }

  predicate IsDownloaded(s: Song) {
    s.isDownloaded
  }

  /** As written the lookup finds nothing, however many songs were saved
      with audio. */
  lemma DownloadedLookupAlwaysEmpty(st: Storage)
    ensures GetDownloadedSongsAsWritten(st) == []
  {
    var all := AllSongs(st);
    forall i | 0 <= i < |all| ensures !FiledUnder(DownloadedField, NumberKey(1.0))(all[i]) {
      assert DownloadedIndexKey(all[i]).None?;
    }
    FilterNoneIsEmpty(all, FiledUnder(DownloadedField, NumberKey(1.0)));
  }

  /** The flag stored as the number 1 or 0, which is what the schema's
      declared index type (`number`) asks for. */
  function DownloadedAsNumber(s: Song): JsValue {
    JsNumber(if s.isDownloaded then 1.0 else 0.0)
  }

  /** Had the flag been stored as a number, the lookup under 1 would find
      exactly the songs the corrected definition returns. */
  lemma NumberFlagLookupIsCorrected(st: Storage)
    ensures FromIndex(st, DownloadedAsNumber, NumberKey(1.0)) == GetDownloadedSongs(st)
  {
    var all := AllSongs(st);
    var p := FiledUnder(DownloadedAsNumber, NumberKey(1.0));
    forall i | 0 <= i < |all| ensures p(all[i]) == IsDownloaded(all[i]) {
      assert AsKey(DownloadedAsNumber(all[i])) == Some(NumberKey(if all[i].isDownloaded then 1.0 else 0.0));
    }
    FilterSame(all, p, IsDownloaded);
  }

  /** A song saved with audio is found by the corrected lookup and missed by
      the lookup as written. */
  lemma SavedWithAudioIsDownloaded(st: Storage, song: Song, audio: Blob, thumb: Option<Blob>)
    requires Valid(st)
    ensures var r := SaveSong(st, song, Some(audio), thumb);
      song.(isDownloaded := true) in GetDownloadedSongs(r) && GetDownloadedSongsAsWritten(r) == []
  {
    var r := SaveSong(st, song, Some(audio), thumb);
    var i :| 0 <= i < |r.songs| && r.songs[i] == OS.Entry(song.id, StoredSong(song.(isDownloaded := true), Some(audio), thumb));
    assert r.songs[i].value.song.isDownloaded;
    DownloadedLookupAlwaysEmpty(r);
  }

  /** `getSongsBySource(source)`: the "by-source" index under the string
      `source`, which is exactly the stored songs whose source has that name. */
  function GetSongsBySource(st: Storage, source: string): (r: seq<Song>)
    ensures forall i | 0 <= i < |r| :: r[i] in AllSongs(st) && SourceName(r[i].source) == source
    ensures forall i | 0 <= i < |st.songs| && SourceName(st.songs[i].value.song.source) == source ::
      st.songs[i].value.song in r
  {
    FromIndex(st, SourceField, StringKey(source))
  }

  // ---------------------------------------------------------------------------
  // Playlists

  function PlaylistTypeName(t: PlaylistType): string {
    match t
    case YouTubeList => "youtube"
    case OnlineList => "online"
    case OfflineList => "offline"
    case CustomList => "custom"
    case SmartList => "smart"
  }

  /** `savePlaylist(playlist)`: stored under its id. */
  function SavePlaylist(st: Storage, p: Playlist): (r: Storage)
    requires Valid(st)
    ensures Valid(r) && r.songs == st.songs && OS.Get(r.playlists, p.id) == Some(p)
    ensures forall other | other != p.id :: OS.Get(r.playlists, other) == OS.Get(st.playlists, other)
  {
    OS.GetAfterPut(st.playlists, p.id, p);
    forall other | other != p.id ensures OS.Get(OS.Put(st.playlists, p.id, p), other) == OS.Get(st.playlists, other) {
      OS.GetAfterPutOther(st.playlists, p.id, p, other);
    }
    st.(playlists := OS.Put(st.playlists, p.id, p))
  }

  /** `getPlaylistsByType(type)`. */
  function GetPlaylistsByType(st: Storage, kind: string): (r: seq<Playlist>)
    ensures forall i | 0 <= i < |r| :: r[i] in OS.GetAll(st.playlists) && PlaylistTypeName(r[i].kind) == kind
    ensures forall i | 0 <= i < |st.playlists| && PlaylistTypeName(st.playlists[i].value.kind) == kind ::
      st.playlists[i].value in r
  {
    var all := OS.GetAll(st.playlists);
    assert forall i | 0 <= i < |st.playlists| :: st.playlists[i].value == all[i];
    Filter(all, (p: Playlist) => PlaylistTypeName(p.kind) == kind)
  }

  /** `deletePlaylist(id)`. */
  function DeletePlaylist(st: Storage, id: string): (r: Storage)
    requires Valid(st)
    ensures Valid(r) && OS.Get(r.playlists, id).None?
    ensures forall other | other != id :: OS.Get(r.playlists, other) == OS.Get(st.playlists, other)
  {
    forall other | other != id ensures OS.Get(OS.Delete(st.playlists, id), other) == OS.Get(st.playlists, other) {
      OS.GetAfterDelete(st.playlists, id, other);
    }
    st.(playlists := OS.Delete(st.playlists, id))
  }

  // ---------------------------------------------------------------------------
  // Listening history

  /** `addToHistory`: auto-increment keys list entries in insertion order. */
  function AddToHistory(st: Storage, songId: string, duration: nat, completed: bool, now: int): (r: Storage)
    ensures r.history == st.history + [Recommend.HistoryEntry(songId, now, duration, completed)]
    ensures r.songs == st.songs && r.playlists == st.playlists && r.downloadQueue == st.downloadQueue
  {
    st.(history := st.history + [Recommend.HistoryEntry(songId, now, duration, completed)])
  }

  function TimestampKey(e: Recommend.HistoryEntry): real {
    e.timestamp as real
  }

  const DefaultHistoryLimit := 50

  /** `getListeningHistory(limit)`: newest first, at most `limit` entries. */
  function GetListeningHistory(st: Storage, limit: int): (r: seq<Recommend.HistoryEntry>)
    ensures |r| <= |st.history| && (limit >= 0 ==> |r| <= limit) && (limit == 0 ==> r == [])
    ensures limit >= 0 ==> |r| == if limit < |st.history| then limit else |st.history|
    ensures forall i | 0 <= i < |r| :: r[i] in st.history
    ensures forall i, j | 0 <= i < j < |r| :: r[i].timestamp >= r[j].timestamp
  {
    var sorted := SortDesc(st.history, TimestampKey);
    var r := Slice(sorted, 0, limit);
    assert forall i | 0 <= i < |r| :: r[i] == sorted[i];
    r
  }

  /** Every entry left out of a limited listing is no newer than every
      entry shown. */
  lemma HistoryShowsNewest(st: Storage, limit: nat)
    ensures var shown := GetListeningHistory(st, limit);
      var sorted := SortDesc(st.history, TimestampKey);
      forall i, j | 0 <= i < |shown| && |shown| <= j < |sorted| :: sorted[j].timestamp <= shown[i].timestamp
  {
    var shown := GetListeningHistory(st, limit);
    var sorted := SortDesc(st.history, TimestampKey);
    assert shown == sorted[..|shown|];
    forall i, j | 0 <= i < |shown| && |shown| <= j < |sorted| ensures sorted[j].timestamp <= shown[i].timestamp {
      assert shown[i] == sorted[i];
      assert TimestampKey(sorted[i]) >= TimestampKey(sorted[j]);
    }
  }

  // ---------------------------------------------------------------------------
  // Preferences

  /** `setPreference(key, value)`. */
  function SetPreference(st: Storage, key: string, value: Preference): (r: Storage)
    requires Valid(st)
    ensures Valid(r) && r.songs == st.songs && r.history == st.history
    ensures forall other | other != key :: OS.Get(r.preferences, other) == OS.Get(st.preferences, other)
  {
    forall other | other != key ensures OS.Get(OS.Put(st.preferences, key, value), other) == OS.Get(st.preferences, other) {
      OS.GetAfterPutOther(st.preferences, key, value, other);
    }
    st.(preferences := OS.Put(st.preferences, key, value))
  }

  /** `getPreference(key)`. */
  function GetPreference(st: Storage, key: string): (r: Option<Preference>)
    ensures r.None? <==> !OS.HasKey(st.preferences, key)
  {
    OS.Get(st.preferences, key)
  }

  /** Setting and then getting a preference gives the value back. */
  lemma PreferenceRoundTrip(st: Storage, key: string, value: Preference)
    requires Valid(st)
    ensures GetPreference(SetPreference(st, key, value), key) == Some(value)
  {
    OS.GetAfterPut(st.preferences, key, value);
  }

  // ---------------------------------------------------------------------------
  // Download queue

  /** `addToDownloadQueue(songId)`: a fresh pending entry, replacing any. */
  function AddToDownloadQueue(st: Storage, songId: string, now: int): (r: Storage)
    requires Valid(st)
    ensures Valid(r) && r.songs == st.songs
    ensures OS.Get(r.downloadQueue, songId) == Some(QueueItem(songId, Pending, 0.0, now))
    ensures forall other | other != songId :: OS.Get(r.downloadQueue, other) == OS.Get(st.downloadQueue, other)
  {
    var item := QueueItem(songId, Pending, 0.0, now);
    OS.GetAfterPut(st.downloadQueue, songId, item);
    forall other | other != songId ensures OS.Get(OS.Put(st.downloadQueue, songId, item), other) == OS.Get(st.downloadQueue, other) {
      OS.GetAfterPutOther(st.downloadQueue, songId, item, other);
    }
    st.(downloadQueue := OS.Put(st.downloadQueue, songId, item))
  }

  /** `updateDownloadProgress`: nothing for an absent id; otherwise only
      progress and status change. */
  function UpdateDownloadProgress(st: Storage, songId: string, progress: real, status: DownloadStatus): (r: Storage)
    requires Valid(st)
    ensures Valid(r) && r.songs == st.songs
    ensures !OS.HasKey(st.downloadQueue, songId) ==> r == st
    ensures OS.HasKey(st.downloadQueue, songId) ==>
      OS.Get(r.downloadQueue, songId) == Some(OS.Get(st.downloadQueue, songId).value.(progress := progress, status := status))
    ensures forall other | other != songId :: OS.Get(r.downloadQueue, other) == OS.Get(st.downloadQueue, other)
  {
    match OS.Get(st.downloadQueue, songId)
    case None => st
    case Some(item) =>
      var updated := item.(progress := progress, status := status);
      OS.GetAfterPut(st.downloadQueue, songId, updated);
      forall other | other != songId ensures OS.Get(OS.Put(st.downloadQueue, songId, updated), other) == OS.Get(st.downloadQueue, other) {
        OS.GetAfterPutOther(st.downloadQueue, songId, updated, other);
      }
      st.(downloadQueue := OS.Put(st.downloadQueue, songId, updated))
  }

  /** `removeFromDownloadQueue(songId)`. */
  function RemoveFromDownloadQueue(st: Storage, songId: string): (r: Storage)
    requires Valid(st)
    ensures Valid(r) && r.songs == st.songs && OS.Get(r.downloadQueue, songId).None?
    ensures forall other | other != songId :: OS.Get(r.downloadQueue, other) == OS.Get(st.downloadQueue, other)
  {
    forall other | other != songId ensures OS.Get(OS.Delete(st.downloadQueue, songId), other) == OS.Get(st.downloadQueue, other) {
      OS.GetAfterDelete(st.downloadQueue, songId, other);
    }
    st.(downloadQueue := OS.Delete(st.downloadQueue, songId))
  }

  // ---------------------------------------------------------------------------
  // Statistics and clearing

  /** The bytes a stored song's blobs take. */
  function BlobBytes(rec: StoredSong): nat {
    (if rec.audioBlob.Some? then rec.audioBlob.value.size else 0) +
    (if rec.thumbnailBlob.Some? then rec.thumbnailBlob.value.size else 0)
  }

  /** The summed blob size of the downloaded records. */
  function EstimatedSize(recs: seq<StoredSong>): (n: nat)
  {
    if |recs| == 0 then 0
    else (if recs[0].song.isDownloaded then BlobBytes(recs[0]) else 0) + EstimatedSize(recs[1..])
  }

  /** Records not marked downloaded add nothing: the estimate over all
      records equals the estimate over the downloaded ones. */
  lemma {:induction false} EstimateIgnoresNotDownloaded(recs: seq<StoredSong>)
    ensures EstimatedSize(recs) == EstimatedSize(Filter(recs, (r: StoredSong) => r.song.isDownloaded))
  {
    if |recs| > 0 {
      EstimateIgnoresNotDownloaded(recs[1..]);
      var p := (r: StoredSong) => r.song.isDownloaded;
      if p(recs[0]) {
        assert Filter(recs, p) == [recs[0]] + Filter(recs[1..], p);
        assert ([recs[0]] + Filter(recs[1..], p))[1..] == Filter(recs[1..], p);
      }
    }
  }

  datatype Stats = Stats(songsCount: nat, playlistsCount: nat, downloadedCount: nat, estimatedSize: nat)

  /** `getStorageStats`. */
  function GetStorageStats(st: Storage): (r: Stats)
    ensures r.songsCount == |st.songs| && r.playlistsCount == |st.playlists|
    ensures r.downloadedCount <= r.songsCount
    ensures r.downloadedCount == |GetDownloadedSongs(st)|
    ensures r.estimatedSize == EstimatedSize(OS.GetAll(st.songs))
  {
    Stats(|st.songs|, |st.playlists|, |GetDownloadedSongs(st)|, EstimatedSize(OS.GetAll(st.songs)))
  }

  /** `clearAll`: every store emptied except the preferences. */
  function ClearAll(st: Storage): (r: Storage)
    ensures r.songs == [] && r.playlists == [] && r.history == [] && r.downloadQueue == []
    ensures r.preferences == st.preferences
  {
    Empty.(preferences := st.preferences)
  }

  /** Clearing keeps every preference readable. */
  lemma ClearKeepsPreferences(st: Storage, key: string)
    ensures GetPreference(ClearAll(st), key) == GetPreference(st, key)
    ensures GetStorageStats(ClearAll(st)) == Stats(0, 0, 0, 0)
  {
  }

  // ---------------------------------------------------------------------------
  // downloadSong

  /** The hook's `downloadSong`: queue the song, mark it downloading, save
      its metadata (without audio), mark it completed and drop the queue
      entry, reporting `true`. When saving fails (`saveFails`), the entry
      is marked failed with progress 0 and the result is `false`. */
  function DownloadSong(st: Storage, song: Song, now: int, saveFails: bool): (r: (Storage, bool))
    requires Valid(st)
    ensures Valid(r.0)
    ensures r.1 <==> !saveFails
    ensures r.1 ==> (OS.Get(r.0.downloadQueue, song.id).None? &&
                     GetSong(r.0, song.id) == Some(song.(isDownloaded := false)))
    ensures !r.1 ==> (OS.Get(r.0.downloadQueue, song.id) == Some(QueueItem(song.id, Failed, 0.0, now)) &&
                      r.0.songs == st.songs)
  {
    var queued := AddToDownloadQueue(st, song.id, now);
    var downloading := UpdateDownloadProgress(queued, song.id, 0.0, Downloading);
    if saveFails then
      (UpdateDownloadProgress(downloading, song.id, 0.0, Failed), false)
    else
      var saved := SaveSong(downloading, song.(isDownloaded := true), None, None);
      var completed := UpdateDownloadProgress(saved, song.id, 100.0, Completed);
      (RemoveFromDownloadQueue(completed, song.id), true)
  }
}

=== FILE: ordered_store.dfy ===
/** An IndexedDB object store with string keys, as the player's databases
    use it: `put` inserts or overwrites, `get` looks a key up, `delete`
    removes one key, and `getAll` lists the values in ascending key order.
    The store is a list of entries kept strictly sorted by key; keys compare
    character by character. */
module OrderedStore {

  import opened Wrappers

  /** Strict lexicographic order on keys. */
  predicate KeyLess(a: string, b: string)
    decreases |a|
  {
    if |b| == 0 then false
    else if |a| == 0 then true
    else a[0] < b[0] || (a[0] == b[0] && KeyLess(a[1..], b[1..]))
  }

  lemma {:induction false} KeyLessIrreflexive(a: string)
    ensures !KeyLess(a, a)
    decreases |a|
  {
    if |a| > 0 {
      KeyLessIrreflexive(a[1..]);
    }
  }

  lemma {:induction false} KeyLessTransitive(a: string, b: string, c: string)
    requires KeyLess(a, b) && KeyLess(b, c)
    ensures KeyLess(a, c)
    decreases |a|
  {
    if |a| > 0 && a[0] == b[0] && b[0] == c[0] {
      KeyLessTransitive(a[1..], b[1..], c[1..]);
    }
  }

  lemma {:induction false} KeyLessTotal(a: string, b: string)
    ensures a == b || KeyLess(a, b) || KeyLess(b, a)
    decreases |a|
  {
    if |a| > 0 && |b| > 0 && a[0] == b[0] {
      KeyLessTotal(a[1..], b[1..]);
      if a[1..] == b[1..] {
        assert a == [a[0]] + a[1..] && b == [b[0]] + b[1..];
      }
    }
  }

  datatype Entry<V> = Entry(key: string, value: V)

  /** Keys strictly increase along the list, so no key occurs twice. */
  predicate Valid<V>(s: seq<Entry<V>>) {
    forall i, j | 0 <= i < j < |s| :: KeyLess(s[i].key, s[j].key)
  }

  predicate HasKey<V>(s: seq<Entry<V>>, k: string) {
    exists i | 0 <= i < |s| :: s[i].key == k
  }

  /** `get(key)`: the value stored under `k`, if any. */
  function Get<V>(s: seq<Entry<V>>, k: string): (r: Option<V>)
    ensures r.None? <==> !HasKey(s, k)
    ensures r.Some? ==> exists i | 0 <= i < |s| :: s[i] == Entry(k, r.value)
  {
    if |s| == 0 then None
    else if s[0].key == k then Some(s[0].value)
    else
      var rest := Get(s[1..], k);
      assert forall i | 1 <= i < |s| :: s[i] == s[1..][i - 1];
      rest
  }

  /** In a valid store the entry with key `k` is the only one. */
  lemma GetFindsEntry<V>(s: seq<Entry<V>>, i: nat)
    requires Valid(s) && i < |s|
    ensures Get(s, s[i].key) == Some(s[i].value)
  {
    var r := Get(s, s[i].key);
    var j :| 0 <= j < |s| && s[j] == Entry(s[i].key, r.value);
    if j < i {
      KeyLessIrreflexive(s[i].key);
    } else if i < j {
      KeyLessIrreflexive(s[i].key);
    }
  }

  /** `put(value, key)`: overwrite in place, or insert before the first
      larger key. */
  function Put<V>(s: seq<Entry<V>>, k: string, v: V): (r: seq<Entry<V>>)
    requires Valid(s)
    ensures Valid(r)
    ensures HasKey(s, k) ==> |r| == |s|
    ensures !HasKey(s, k) ==> |r| == |s| + 1
    ensures forall i | 0 <= i < |r| :: r[i] == Entry(k, v) || (r[i].key != k && r[i] in s)
    ensures forall i | 0 <= i < |s| && s[i].key != k :: s[i] in r
    ensures Entry(k, v) in r
  {
    if |s| == 0 then [Entry(k, v)]
    else if s[0].key == k then
      PutOverwrites(s, v);
      [Entry(k, v)] + s[1..]
    else if KeyLess(k, s[0].key) then
      PutInFront(s, k, v);
      [Entry(k, v)] + s
    else
      KeyLessTotal(k, s[0].key);
      var rest := Put(s[1..], k, v);
      PutFurther(s, k, v, rest);
      [s[0]] + rest
  }

  /** Overwriting the first entry keeps the keys in order. */
  lemma PutOverwrites<V>(s: seq<Entry<V>>, v: V)
    requires Valid(s) && |s| > 0
    ensures Valid([Entry(s[0].key, v)] + s[1..])
    ensures forall i | 0 < i < |s| :: s[i].key != s[0].key
  {
    assert forall i | 0 < i < |s| :: KeyLess(s[0].key, s[i].key);
    KeyLessIrreflexive(s[0].key);
  }

  /** A key below the first one is absent, and goes in front. */
  lemma PutInFront<V>(s: seq<Entry<V>>, k: string, v: V)
    requires Valid(s) && |s| > 0 && KeyLess(k, s[0].key)
    ensures !HasKey(s, k)
    ensures Valid([Entry(k, v)] + s)
  {
    forall i | 0 <= i < |s| ensures KeyLess(k, s[i].key) {
      if i > 0 {
        KeyLessTransitive(k, s[0].key, s[i].key);
      }
    }
    KeyLessIrreflexive(k);
  }

  /** A key above the first one is written into the rest of the store; the
      first entry stays in front. */
  lemma PutFurther<V>(s: seq<Entry<V>>, k: string, v: V, rest: seq<Entry<V>>)
    requires Valid(s) && |s| > 0 && KeyLess(s[0].key, k)
    requires Valid(rest)
    requires HasKey(s[1..], k) ==> |rest| == |s| - 1
    requires !HasKey(s[1..], k) ==> |rest| == |s|
    requires forall i | 0 <= i < |rest| :: rest[i] == Entry(k, v) || (rest[i].key != k && rest[i] in s[1..])
    requires forall i | 0 <= i < |s[1..]| && s[1..][i].key != k :: s[1..][i] in rest
    requires Entry(k, v) in rest
    ensures Valid([s[0]] + rest)
    ensures HasKey(s, k) ==> |[s[0]] + rest| == |s|
    ensures !HasKey(s, k) ==> |[s[0]] + rest| == |s| + 1
    ensures forall i | 0 <= i < |[s[0]] + rest| ::
      ([s[0]] + rest)[i] == Entry(k, v) || (([s[0]] + rest)[i].key != k && ([s[0]] + rest)[i] in s)
    ensures forall i | 0 <= i < |s| && s[i].key != k :: s[i] in [s[0]] + rest
    ensures Entry(k, v) in [s[0]] + rest
  {
    KeyLessIrreflexive(k);
    HasKeyPastHead(s, k);
    FrontStaysFirst(s, k, v, rest);
    forall i | 0 < i < |s| && s[i].key != k ensures s[i] in [s[0]] + rest {
      assert s[1..][i - 1] == s[i];
    }
  }

  /** A key other than the first one is stored at all exactly when it is
      stored in the rest of the list. */
  lemma HasKeyPastHead<V>(s: seq<Entry<V>>, k: string)
    requires |s| > 0 && s[0].key != k
    ensures HasKey(s, k) <==> HasKey(s[1..], k)
  {
    if HasKey(s, k) {
      var i :| 0 <= i < |s| && s[i].key == k;
      assert s[1..][i - 1].key == k;
    }
    if HasKey(s[1..], k) {
      var i :| 0 <= i < |s[1..]| && s[1..][i].key == k;
      assert s[i + 1].key == k;
    }
  }

  /** Every entry of the rewritten rest has a key above the first one. */
  lemma FrontStaysFirst<V>(s: seq<Entry<V>>, k: string, v: V, rest: seq<Entry<V>>)
    requires Valid(s) && |s| > 0 && KeyLess(s[0].key, k)
    requires forall i | 0 <= i < |rest| :: rest[i] == Entry(k, v) || rest[i] in s[1..]
    ensures forall i | 0 <= i < |rest| :: KeyLess(s[0].key, rest[i].key)
  {
    forall i | 0 <= i < |rest| ensures KeyLess(s[0].key, rest[i].key) {
      if rest[i] != Entry(k, v) {
        var j :| 0 <= j < |s[1..]| && s[1..][j] == rest[i];
        assert s[j + 1] == rest[i];
      }
    }
  }

  /** A key just written reads back the value written. */
  lemma GetAfterPut<V>(s: seq<Entry<V>>, k: string, v: V)
    requires Valid(s)
    ensures Get(Put(s, k, v), k) == Some(v)
  {
    var r := Put(s, k, v);
    var i :| 0 <= i < |r| && r[i] == Entry(k, v);
    GetFindsEntry(r, i);
  }

  /** Writing one key leaves every other key's value as it was. */
  lemma GetAfterPutOther<V>(s: seq<Entry<V>>, k: string, v: V, other: string)
    requires Valid(s) && other != k
    ensures Get(Put(s, k, v), other) == Get(s, other)
  {
    var r := Put(s, k, v);
    if HasKey(s, other) {
      var i :| 0 <= i < |s| && s[i].key == other;
      GetFindsEntry(s, i);
      assert s[i] in r;
      var j :| 0 <= j < |r| && r[j] == s[i];
      GetFindsEntry(r, j);
    }
  }

  /** `delete(key)`: every other entry stays, in order. */
  function Delete<V>(s: seq<Entry<V>>, k: string): (r: seq<Entry<V>>)
    requires Valid(s)
    ensures Valid(r)
    ensures !HasKey(r, k)
    ensures forall i | 0 <= i < |r| :: r[i] in s
    ensures forall i | 0 <= i < |s| && s[i].key != k :: s[i] in r
    ensures |r| <= |s|
  {
    if |s| == 0 then []
    else
      var rest := Delete(s[1..], k);
      forall i | 0 <= i < |rest| ensures KeyLess(s[0].key, rest[i].key) {
        var j :| 0 <= j < |s[1..]| && s[1..][j] == rest[i];
        assert s[j + 1] == rest[i];
      }
      if s[0].key == k then rest else [s[0]] + rest
  }

  /** Deleting a key makes it read as absent and leaves the others alone. */
  lemma GetAfterDelete<V>(s: seq<Entry<V>>, k: string, other: string)
    requires Valid(s)
    ensures Get(Delete(s, k), k).None?
    ensures other != k ==> Get(Delete(s, k), other) == Get(s, other)
  {
    var r := Delete(s, k);
    if other != k {
      if HasKey(s, other) {
        var i :| 0 <= i < |s| && s[i].key == other;
        GetFindsEntry(s, i);
        var j :| 0 <= j < |r| && r[j] == s[i];
        GetFindsEntry(r, j);
      }
    }
  }

  /** `getAll()`: the values in ascending key order. */
  function GetAll<V>(s: seq<Entry<V>>): (r: seq<V>)
    ensures |r| == |s|
    ensures forall i | 0 <= i < |s| :: r[i] == s[i].value
  {
    seq(|s|, i requires 0 <= i < |s| => s[i].value)
  }
}

=== FILE: player.dfy ===
/** The player's queue state machine (`PlayerProvider`): one record, one pure
    transition per action. `currentSong` is `None` both for `null` and for the
    `undefined` that reading `queue[i]` past the end yields. Randomness (the
    shuffle pick) is passed in as a real `r` with `0 <= r < 1`. */
module Player {

  import opened Wrappers
  import opened Music

  datatype Repeat = RepeatNone | RepeatAll | RepeatOne

  datatype PlayerState = PlayerState(
    currentSong: Option<Song>,
    isPlaying: bool,
    progress: real,
    volume: real,
    shuffle: bool,
    repeat: Repeat,
    queue: seq<Song>,
    queueIndex: int,
    radioMode: bool)

  /** `queue[i]`, which is `undefined` outside the list. */
  function At(queue: seq<Song>, i: int): (r: Option<Song>)
    ensures r.Some? <==> 0 <= i < |queue|
    ensures r.Some? ==> r.value in queue
  {
    if 0 <= i < |queue| then Some(queue[i]) else None
  }

  /** The state the provider starts in, over the bundled demo songs. */
  function Initial(demoSongs: seq<Song>): (st: PlayerState)
    ensures st.currentSong == None && !st.isPlaying && st.progress == 0.0
    ensures st.volume == 80.0 && !st.shuffle && st.repeat == RepeatNone
    ensures st.queue == demoSongs && st.queueIndex == 0 && !st.radioMode
  {
    PlayerState(None, false, 0.0, 80.0, false, RepeatNone, demoSongs, 0, false)
  }

  /** The index points into a non-empty queue, and is 0 for an empty one. */
  predicate IndexInRange(st: PlayerState) {
    if |st.queue| == 0 then st.queueIndex == 0 else 0 <= st.queueIndex < |st.queue|
  }

  /** Everything but the fields a transition may touch is equal. */
  predicate SameSettings(a: PlayerState, b: PlayerState) {
    a.volume == b.volume && a.shuffle == b.shuffle && a.repeat == b.repeat && a.radioMode == b.radioMode
  }

  // ---------------------------------------------------------------------------
  // Playback

  /** Plays `song`; the index moves to its first occurrence in the queue, or
      to 0 when it is not queued. The queue itself is left alone. */
  function PlaySong(st: PlayerState, song: Song): (r: PlayerState)
    ensures r.currentSong == Some(song) && r.isPlaying && r.progress == 0.0
    ensures r.queue == st.queue && SameSettings(st, r)
    ensures HasId(st.queue, song.id) ==>
      0 <= r.queueIndex < |r.queue| && r.queue[r.queueIndex].id == song.id &&
      forall j | 0 <= j < r.queueIndex :: r.queue[j].id != song.id
    ensures !HasId(st.queue, song.id) ==> r.queueIndex == 0
  {
    var index := IndexOfId(st.queue, song.id);
    st.(currentSong := Some(song), isPlaying := true, progress := 0.0,
        queueIndex := if index >= 0 then index else 0)
  }

  function PauseSong(st: PlayerState): (r: PlayerState)
    ensures !r.isPlaying && r == st.(isPlaying := false)
  {
    st.(isPlaying := false)
  }

  function ResumeSong(st: PlayerState): (r: PlayerState)
    ensures r.isPlaying && r == st.(isPlaying := true)
  {
    st.(isPlaying := true)
  }

  /** A draw in [0, 1) scaled by a length `n` floors to an index of a list
      of that length. */
  lemma ScaledDrawBelow(r: real, n: nat)
    requires 0.0 <= r < 1.0
    ensures 0 <= (r * n as real).Floor
    ensures n > 0 ==> (r * n as real).Floor < n
  {
    var m := r * n as real;
    assert 0.0 <= m;
    if n > 0 {
      assert n as real - m == (1.0 - r) * n as real;
      assert (1.0 - r) * n as real > 0.0;
      assert m < n as real;
    }
  }

  /** The index `nextSong` moves to: under shuffle `floor(r * length)`, so
      each index takes a slice of width `1 / length` of the draw's range;
      else one step forward, wrapping at the end only under repeat "all"
      and otherwise staying put. */
  function NextIndex(st: PlayerState, r: real): (i: int)
    requires 0.0 <= r < 1.0
    ensures st.shuffle && |st.queue| > 0 ==> 0 <= i < |st.queue|
    ensures st.shuffle && |st.queue| > 0 ==>
      i as real <= r * (|st.queue| as real) < i as real + 1.0
    ensures st.shuffle && |st.queue| == 0 ==> i == 0
    ensures !st.shuffle && st.queueIndex + 1 < |st.queue| ==> i == st.queueIndex + 1
    ensures !st.shuffle && st.queueIndex + 1 >= |st.queue| ==>
      i == (if st.repeat == RepeatAll then 0 else st.queueIndex)
  {
    if st.shuffle then
      var n := |st.queue| as real;
      ScaledDrawBelow(r, |st.queue|);
      (r * n).Floor
    else if st.queueIndex + 1 >= |st.queue| then
      (if st.repeat == RepeatAll then 0 else st.queueIndex)
    else st.queueIndex + 1
  }

  /** `nextSong`: playback continues exactly when the index moved or repeat is
      "all"; so repeat "one" at the end of the queue, or a shuffle pick of the
      current index, stops it. */
  function NextSong(st: PlayerState, r: real): (s: PlayerState)
    requires 0.0 <= r < 1.0
    ensures s.queueIndex == NextIndex(st, r)
    ensures s.currentSong == At(st.queue, s.queueIndex)
    ensures s.progress == 0.0
    ensures s.isPlaying <==> s.queueIndex != st.queueIndex || st.repeat == RepeatAll
    ensures s.queue == st.queue && SameSettings(st, s)
  {
    var next := NextIndex(st, r);
    st.(currentSong := At(st.queue, next), queueIndex := next, progress := 0.0,
        isPlaying := next != st.queueIndex || st.repeat == RepeatAll)
  }

  /** `prevSong`: one step back, wrapping from 0 to the last position (which
      is -1 for an empty queue). Play state is kept. */
  function PrevSong(st: PlayerState): (s: PlayerState)
    ensures st.queueIndex > 0 ==> s.queueIndex == st.queueIndex - 1
    ensures st.queueIndex <= 0 ==> s.queueIndex == |st.queue| - 1
    ensures s.currentSong == At(st.queue, s.queueIndex)
    ensures s.progress == 0.0
    ensures s.queue == st.queue && s.isPlaying == st.isPlaying && SameSettings(st, s)
  {
    var prev := if st.queueIndex > 0 then st.queueIndex - 1 else |st.queue| - 1;
    st.(currentSong := At(st.queue, prev), queueIndex := prev, progress := 0.0)
  }

  function SetProgress(st: PlayerState, progress: real): (s: PlayerState)
    ensures s.progress == progress && s == st.(progress := progress)
  {
    st.(progress := progress)
  }

  /** The volume is stored as given (0 to 100 from the slider); the audio
      element's mapping lives in the sound controller. */
  function SetVolume(st: PlayerState, volume: real): (s: PlayerState)
    ensures s.volume == volume && s == st.(volume := volume)
  {
    st.(volume := volume)
  }

  function ToggleShuffle(st: PlayerState): (s: PlayerState)
    ensures s.shuffle == !st.shuffle && s == st.(shuffle := !st.shuffle)
  {
    st.(shuffle := !st.shuffle)
  }

  function NextRepeat(m: Repeat): (n: Repeat)
    ensures n != m
  {
    match m
    case RepeatNone => RepeatAll
    case RepeatAll => RepeatOne
    case RepeatOne => RepeatNone
  }

  /** `toggleRepeat` cycles none, all, one. */
  function ToggleRepeat(st: PlayerState): (s: PlayerState)
    ensures s.repeat != st.repeat && s == st.(repeat := s.repeat)
    ensures st.repeat == RepeatNone ==> s.repeat == RepeatAll
    ensures st.repeat == RepeatAll ==> s.repeat == RepeatOne
    ensures st.repeat == RepeatOne ==> s.repeat == RepeatNone
  {
    st.(repeat := NextRepeat(st.repeat))
  }

  function ToggleRadioMode(st: PlayerState): (s: PlayerState)
    ensures s.radioMode == !st.radioMode && s == st.(radioMode := !st.radioMode)
  {
    st.(radioMode := !st.radioMode)
  }

  // ---------------------------------------------------------------------------
  // Queue editing

  /** `addToQueue` appends one song; what is playing does not change. */
  function AddToQueue(st: PlayerState, song: Song): (s: PlayerState)
    ensures s.queue == st.queue + [song]
    ensures s == st.(queue := s.queue)
  {
    st.(queue := st.queue + [song])
  }

  /** `removeFromQueue` AS WRITTEN: every song with the id is filtered out,
      and the index steps back whenever `findIndex` is below it; an id that is
      not queued gives `findIndex == -1`, which is below every index. */
  function RemoveFromQueueAsWritten(st: PlayerState, songId: string): (s: PlayerState)
    ensures s.queue == RemoveId(st.queue, songId)
    ensures s == st.(queue := s.queue, queueIndex := s.queueIndex)
    ensures !HasId(st.queue, songId) && st.queueIndex >= 1 ==> s.queueIndex == st.queueIndex - 1
    ensures HasId(st.queue, songId) ==>
      (s.queueIndex == st.queueIndex - 1 <==> IndexOfId(st.queue, songId) < st.queueIndex)
    ensures HasId(st.queue, songId) ==> s.queueIndex == st.queueIndex || s.queueIndex == st.queueIndex - 1
  {
    var removedIndex := IndexOfId(st.queue, songId);
    var newIndex := if removedIndex < st.queueIndex then
      (if st.queueIndex - 1 > 0 then st.queueIndex - 1 else 0)
    else st.queueIndex;
    st.(queue := RemoveId(st.queue, songId), queueIndex := newIndex)
  }

  /** Removing an id that is not queued leaves the queue as it was but moves
      the index to another song. */
  lemma RemoveAbsentIdMovesIndex(a: Song, b: Song)
    requires a.id != b.id && a.id != "z" && b.id != "z"
    ensures var st := Initial([a, b]).(currentSong := Some(b), queueIndex := 1);
      var s := RemoveFromQueueAsWritten(st, "z");
      s.queue == st.queue && s.queue[s.queueIndex] != st.queue[st.queueIndex]
  {
    var st := Initial([a, b]).(currentSong := Some(b), queueIndex := 1);
    assert !HasId(st.queue, "z");
  }

  /** `removeFromQueue` as evidently intended: the index steps back only when
      a song before it was actually removed. */
  function RemoveFromQueue(st: PlayerState, songId: string): (s: PlayerState)
    ensures s.queue == RemoveId(st.queue, songId)
    ensures s == st.(queue := s.queue, queueIndex := s.queueIndex)
    ensures !HasId(st.queue, songId) ==> s == st
    ensures 0 <= IndexOfId(st.queue, songId) < st.queueIndex ==>
      s.queueIndex == st.queueIndex - 1
    ensures IndexOfId(st.queue, songId) >= st.queueIndex ==> s.queueIndex == st.queueIndex
  {
    var removedIndex := IndexOfId(st.queue, songId);
    var newIndex := if 0 <= removedIndex < st.queueIndex then
      (if st.queueIndex - 1 > 0 then st.queueIndex - 1 else 0)
    else st.queueIndex;
    st.(queue := RemoveId(st.queue, songId), queueIndex := newIndex)
  }

  /** Filtering out an id that occurs exactly once, at `p`, cuts out position
      `p`. */
  lemma RemoveIdUnique(q: seq<Song>, p: nat)
    requires p < |q|
    requires forall j | 0 <= j < |q| && j != p :: q[j].id != q[p].id
    ensures RemoveId(q, q[p].id) == q[..p] + q[p + 1..]
  {
    var a, x, b := q[..p], q[p], q[p + 1..];
    OnlyAtPosition(q, p);
    RemoveIdSplit(a, x, b);
  }

  /** An id that occurs only at `p` is on neither side of it. */
  lemma OnlyAtPosition(q: seq<Song>, p: nat)
    requires p < |q|
    requires forall j | 0 <= j < |q| && j != p :: q[j].id != q[p].id
    ensures !HasId(q[..p], q[p].id) && !HasId(q[p + 1..], q[p].id)
    ensures q[..p] + [q[p]] + q[p + 1..] == q
  {
    var id, a, b := q[p].id, q[..p], q[p + 1..];
    forall j | 0 <= j < |a| ensures a[j].id != id {
      assert a[j] == q[j];
    }
    forall j | 0 <= j < |b| ensures b[j].id != id {
      assert b[j] == q[p + 1 + j];
    }
  }

  /** With distinct ids, removing any song other than the current one keeps
      the index on the same song. */
  lemma RemoveKeepsCurrentSong(st: PlayerState, songId: string)
    requires DistinctIds(st.queue)
    requires 0 <= st.queueIndex < |st.queue|
    requires st.queue[st.queueIndex].id != songId
    ensures var s := RemoveFromQueue(st, songId);
      0 <= s.queueIndex < |s.queue| && s.queue[s.queueIndex] == st.queue[st.queueIndex]
  {
    var q, i := st.queue, st.queueIndex;
    var p := IndexOfId(q, songId);
    var s := RemoveFromQueue(st, songId);
    if p >= 0 {
      forall j | 0 <= j < |q| && j != p ensures q[j].id != q[p].id {
        if j < p { assert q[j].id != q[p].id; } else { assert q[p].id != q[j].id; }
      }
      RemoveIdUnique(q, p);
      var a, b := q[..p], q[p + 1..];
      assert s.queue == a + b;
      if p < i {
        assert s.queue[i - 1] == b[i - 1 - p] == q[i];
      } else {
        assert s.queue[i] == a[i] == q[i];
      }
    }
  }

  /** Removing the song at the index when it is last in a queue of distinct
      ids leaves the index one past the end of the shorter queue, in both
      versions: neither moves the index back, since the removed position is
      not below it. With two songs or more the index is then out of range;
      a queue of one becomes empty, where index 0 counts as in range. */
  lemma RemoveLastCurrentLeavesIndexOutOfRange(st: PlayerState, songId: string)
    requires DistinctIds(st.queue)
    requires 0 <= st.queueIndex == |st.queue| - 1
    requires songId == st.queue[st.queueIndex].id
    ensures var s := RemoveFromQueue(st, songId);
      s.queue == st.queue[..st.queueIndex] && s.queueIndex == |s.queue| &&
      (|st.queue| >= 2 ==> !IndexInRange(s))
    ensures var s := RemoveFromQueueAsWritten(st, songId);
      s.queue == st.queue[..st.queueIndex] && s.queueIndex == |s.queue| &&
      (|st.queue| >= 2 ==> !IndexInRange(s))
  {
    var q, i := st.queue, st.queueIndex;
    assert q == q[..i] + [q[i]] + [];
    IndexOfIdAfter(q[..i], q[i], []);
    forall j | 0 <= j < |q| && j != i ensures q[j].id != q[i].id {
      assert j < i;
    }
    RemoveIdUnique(q, i);
    assert q[i + 1..] == [];
  }

  /** `setQueue`: the playing song's position in the new list, or 0. */
  function SetQueue(st: PlayerState, songs: seq<Song>): (s: PlayerState)
    ensures s.queue == songs
    ensures s == st.(queue := songs, queueIndex := s.queueIndex)
    ensures st.currentSong.Some? && HasId(songs, st.currentSong.value.id) ==>
      s.queueIndex == IndexOfId(songs, st.currentSong.value.id) &&
      songs[s.queueIndex].id == st.currentSong.value.id
    ensures st.currentSong.None? || !HasId(songs, st.currentSong.value.id) ==> s.queueIndex == 0
  {
    var currentIndex := if st.currentSong.Some? then IndexOfId(songs, st.currentSong.value.id) else 0;
    st.(queue := songs, queueIndex := if currentIndex >= 0 then currentIndex else 0)
  }

  /** `playPlaylist`: replace the queue and start at `startIndex` (0 when the
      caller gives none); a start past the end plays nothing. */
  function PlayPlaylist(st: PlayerState, songs: seq<Song>, startIndex: int): (s: PlayerState)
    ensures s.queue == songs && s.queueIndex == startIndex
    ensures s.currentSong == At(songs, startIndex)
    ensures s.isPlaying && s.progress == 0.0 && SameSettings(st, s)
  {
    st.(queue := songs, currentSong := At(songs, startIndex), queueIndex := startIndex,
        isPlaying := true, progress := 0.0)
  }

  /** The radio-mode effect: at the last queued song with radio mode on, the
      recommendations fetched (an input here) are appended when there are
      any. */
  function RadioAutoQueue(st: PlayerState, recs: seq<Song>): (s: PlayerState)
    ensures st.radioMode && |st.queue| > 0 && st.queueIndex >= |st.queue| - 1 && |recs| > 0 ==>
      s == st.(queue := st.queue + recs)
    ensures !(st.radioMode && |st.queue| > 0 && st.queueIndex >= |st.queue| - 1) ==> s == st
    ensures |s.queue| >= |st.queue| && s.queue[..|st.queue|] == st.queue
  {
    if st.radioMode && |st.queue| > 0 && st.queueIndex >= |st.queue| - 1 && |recs| > 0 then
      st.(queue := st.queue + recs)
    else st
  }

  // ---------------------------------------------------------------------------
  // Properties across transitions

  /** Three repeat toggles return to the starting state. */
  lemma ToggleRepeatCycle(st: PlayerState)
    ensures ToggleRepeat(ToggleRepeat(ToggleRepeat(st))) == st
    ensures ToggleRepeat(st) != st && ToggleRepeat(ToggleRepeat(st)) != st
  {
  }

  /** Two shuffle toggles return to the starting state. */
  lemma ToggleShuffleInvolution(st: PlayerState)
    ensures ToggleShuffle(ToggleShuffle(st)) == st
  {
  }

  /** Every transition but removal, and a step back in an empty queue, keeps
      the index in range. */
  lemma TransitionsKeepIndexInRange(st: PlayerState, song: Song, songs: seq<Song>, r: real)
    requires IndexInRange(st)
    requires 0.0 <= r < 1.0
    ensures IndexInRange(NextSong(st, r))
    ensures |st.queue| > 0 ==> IndexInRange(PrevSong(st))
    ensures IndexInRange(PlaySong(st, song))
    ensures IndexInRange(AddToQueue(st, song))
    ensures IndexInRange(SetQueue(st, songs))
    ensures IndexInRange(PauseSong(st)) && IndexInRange(ResumeSong(st))
  {
  }

  /** A step back in an empty queue leaves the index at -1. */
  lemma PrevOnEmptyQueue(st: PlayerState)
    requires |st.queue| == 0 && IndexInRange(st)
    ensures PrevSong(st).queueIndex == -1 && !IndexInRange(PrevSong(st))
  {
  }

  /** Moving forward without shuffle and then back returns to the same index
      and song. */
  lemma NextThenPrev(st: PlayerState, r: real)
    requires 0.0 <= r < 1.0
    requires !st.shuffle && 0 <= st.queueIndex && st.queueIndex + 1 < |st.queue|
    ensures PrevSong(NextSong(st, r)).queueIndex == st.queueIndex
    ensures PrevSong(NextSong(st, r)).currentSong == Some(st.queue[st.queueIndex])
  {
  }

  /** `nextSong` stops playback exactly when the index stays and repeat is not
      "all": at the end of the queue under repeat "none" or "one", or when the
      shuffle pick lands on the current index. */
  lemma NextStopsPlayback(st: PlayerState, r: real)
    requires 0.0 <= r < 1.0
    ensures !NextSong(st, r).isPlaying <==>
      st.repeat != RepeatAll &&
      (if st.shuffle then NextIndex(st, r) == st.queueIndex
       else st.queueIndex + 1 >= |st.queue|)
  {
  }

  /** Appending a song with a fresh id and then removing it gives the queue
      back unchanged. */
  lemma AddThenRemove(st: PlayerState, song: Song)
    requires IndexInRange(st)
    requires !HasId(st.queue, song.id)
    ensures RemoveFromQueue(AddToQueue(st, song), song.id) == st
  {
    var e: seq<Song> := [];
    assert st.queue + [song] == st.queue + [song] + e;
    IndexOfIdAfter(st.queue, song, e);
    RemoveIdSplit(st.queue, song, e);
    assert st.queue + e == st.queue;
  }
}

=== FILE: playlist_editor.dfy ===
/** The playlist editor dialog: the song list being edited, the song picker
    and the save action that builds the custom playlist handed back to the
    page. */
module PlaylistEditor {
  import opened Wrappers
  import opened Text
  import opened Music
  import opened Lists

  /** The dialog's state: the playlist being edited (absent when creating
      one) and the three editable fields. */
  datatype Editor = Editor(
    original: Option<Playlist>,
    name: string,
    description: string,
    songs: seq<Song>)

  /** Mounting the editor: the `useState` initialisers set the fields from
      the edited playlist, or empty when a new playlist is being created.
      They run once, at mount, not at each opening of the dialog. */
  function Open(playlist: Option<Playlist>): (e: Editor)
    ensures e.original == playlist
    ensures playlist.None? ==> e.name == "" && e.description == "" && e.songs == []
    ensures playlist.Some? ==> (
      && e.name == playlist.value.name
      && e.description == playlist.value.description
      && e.songs == playlist.value.songs)
  {
    match playlist
    case None => Editor(None, "", "", [])
    case Some(p) =>
      Editor(playlist, OrElse(Some(p.name), ""), OrElse(Some(p.description), ""), p.songs)
  }

  // ---------------------------------------------------------------------
  // Adding and removing songs
  // ---------------------------------------------------------------------

  /** Adding a song appends it unless a song with its id is already listed. */
  function AddSong(songs: seq<Song>, song: Song): (r: seq<Song>)
    ensures HasId(r, song.id)
    ensures HasId(songs, song.id) ==> r == songs
    ensures !HasId(songs, song.id) ==> |r| == |songs| + 1 && r[..|songs|] == songs && r[|songs|] == song
    ensures DistinctIds(songs) ==> DistinctIds(r)
  {
    if HasId(songs, song.id) then songs
    else
      var r := songs + [song];
      assert r[|songs|] == song;
      r
  }

  /** Removing drops every song carrying the id. */
  function RemoveSong(songs: seq<Song>, id: string): (r: seq<Song>)
    ensures !HasId(r, id)
    ensures forall s :: s in r <==> s in songs && s.id != id
  {
    RemoveIdMembers(songs, id);
    RemoveId(songs, id)
  }

  /** Removal keeps the other songs in their order: it is the filter that
      keeps every song whose id differs. */
  lemma {:induction false} RemoveSongKeepsOrder(songs: seq<Song>, id: string)
    ensures RemoveSong(songs, id) == Filter(songs, (s: Song) => s.id != id)
  {
    if |songs| > 0 {
      RemoveSongKeepsOrder(songs[1..], id);
    }
  }

  /** Removing the song just added gives back the list before the add. */
  lemma {:induction false} RemoveUndoesAdd(songs: seq<Song>, song: Song)
    requires !HasId(songs, song.id)
    ensures RemoveSong(AddSong(songs, song), song.id) == songs
  {
    var added := AddSong(songs, song);
    assert added == songs + [song];
    RemoveSongKeepsOrder(added, song.id);
    FilterAppend(songs, [song], (s: Song) => s.id != song.id);
    assert Filter([song], (s: Song) => s.id != song.id) == [];
  }

  // ---------------------------------------------------------------------
  // Saving
  // ---------------------------------------------------------------------

  const NameRequired: string := "Name required"
  const DefaultThumbnail: string := "https://picsum.photos/seed/playlist/400/400"

  /** The id given to a playlist created at time `now`. */
  function FreshId(now: nat): (r: string)
    ensures r != ""
  {
    "playlist-" + NatToString(now)
  }

  /** The cover: the first song's thumbnail, or the default picture. */
  function Cover(songs: seq<Song>): (r: string)
    ensures r != ""
    ensures |songs| > 0 && songs[0].thumbnail != "" ==> r == songs[0].thumbnail
    ensures |songs| == 0 ==> r == DefaultThumbnail
  {
    if |songs| > 0 then OrElse(Some(songs[0].thumbnail), DefaultThumbnail)
    else DefaultThumbnail
  }

  /** Saving: a name that is blank after trimming is refused; otherwise the
      editor builds a custom playlist from the trimmed fields, keeping the
      id and creation time of the playlist being edited. `now` stands for
      the clock. */
  function Save(e: Editor, now: nat): (r: Result<Playlist, string>)
    ensures r.Failure? <==> IsBlank(e.name)
    ensures r.Failure? ==> r.error == NameRequired
    ensures r.Success? ==> (
      && r.value.name == Trim(e.name)
      && r.value.name != ""
      && r.value.description == Trim(e.description)
      && r.value.songs == e.songs
      && r.value.songCount == |e.songs|
      && r.value.kind == CustomList
      && r.value.thumbnail == Cover(e.songs))
    ensures r.Success? && e.original.Some? ==> r.value.createdAt == e.original.value.createdAt
    ensures r.Success? && e.original.Some? && e.original.value.id != "" ==> r.value.id == e.original.value.id
    ensures r.Success? && e.original.None? ==> r.value.id == FreshId(now) && r.value.createdAt == now
  {
    if IsBlank(e.name) then Failure(NameRequired)
    else
      var id := if e.original.Some? then OrElse(Some(e.original.value.id), FreshId(now)) else FreshId(now);
      var createdAt := if e.original.Some? then e.original.value.createdAt else now;
      Success(Playlist(id, Trim(e.name), Trim(e.description), Cover(e.songs), e.songs,
                       CustomList, createdAt, |e.songs|))
  }

  /** A saved playlist always has an id, and reopening it in the editor and
      saving again at any later time gives the same playlist back. */
  lemma SaveIsStable(e: Editor, now: nat, later: nat)
    requires Save(e, now).Success?
    ensures Save(e, now).value.id != ""
    ensures Save(Open(Some(Save(e, now).value)), later) == Save(e, now)
  {
    TrimIdempotent(e.name);
    TrimIdempotent(e.description);
  }

  // ---------------------------------------------------------------------
  // Song picker
  // ---------------------------------------------------------------------

  /** The search box matches a song when its lower-cased title or artist
      contains the lower-cased query. */
  predicate Matches(song: Song, query: string) {
    || Contains(ToLower(song.title), ToLower(query))
    || Contains(ToLower(song.artist), ToLower(query))
  }

  /** The songs the picker offers: available, not yet added, matching the
      query, in the order they are available. */
  function Picker(available: seq<Song>, songs: seq<Song>, query: string): (r: seq<Song>)
    ensures |r| <= |available|
    ensures forall s :: s in r <==> s in available && !HasId(songs, s.id) && Matches(s, query)
  {
    var r := Filter(available, (s: Song) => !HasId(songs, s.id) && Matches(s, query));
    assert forall s | s in r :: s in available && !HasId(songs, s.id) && Matches(s, query) by {
      forall s | s in r ensures s in available && !HasId(songs, s.id) && Matches(s, query) {
        var i :| 0 <= i < |r| && r[i] == s;
      }
    }
    assert forall s | s in available && !HasId(songs, s.id) && Matches(s, query) :: s in r by {
      forall s | s in available && !HasId(songs, s.id) && Matches(s, query) ensures s in r {
        var i :| 0 <= i < |available| && available[i] == s;
      }
    }
    r
  }

  /** The empty query matches every song, so the picker then offers every
      available song that is not yet in the playlist. */
  lemma EmptyQueryOffersAllNotAdded(available: seq<Song>, songs: seq<Song>)
    ensures forall s :: s in Picker(available, songs, "") <==> s in available && !HasId(songs, s.id)
  {
    forall s: Song ensures Matches(s, "") {
      ContainsPrefix(ToLower(s.title), "");
    }
  }

  /** A song picked from the picker is no longer offered once added. */
  lemma PickedSongLeavesPicker(available: seq<Song>, songs: seq<Song>, query: string, song: Song)
    requires song in Picker(available, songs, query)
    ensures AddSong(songs, song) == songs + [song]
    ensures song !in Picker(available, AddSong(songs, song), query)
  {
  }
}

=== FILE: queue_panel.dfy ===
/** The queue panel: its split of the queue around the playing song, the
    drag-to-reorder of the songs up next, the Clear Queue button and the
    play button of each row. */
module QueuePanel {

  import opened Wrappers
  import opened Music
  import opened Lists
  import opened Player

  /** `queue.slice(queueIndex + 1)`. */
  function UpNext(st: PlayerState): seq<Song> {
    SliceFrom(st.queue, st.queueIndex + 1)
  }

  /** `queue.slice(0, queueIndex)`. */
  function PreviouslyPlayed(st: PlayerState): seq<Song> {
    Slice(st.queue, 0, st.queueIndex)
  }

  /** The two lists and the song at the index rebuild the queue. */
  lemma SplitAroundCurrent(st: PlayerState)
    requires 0 <= st.queueIndex < |st.queue|
    ensures PreviouslyPlayed(st) + [st.queue[st.queueIndex]] + UpNext(st) == st.queue
    ensures |PreviouslyPlayed(st)| == st.queueIndex
  {
    var q := st.queue;
    var i := st.queueIndex;
    assert PreviouslyPlayed(st) == q[..i];
    assert UpNext(st) == q[i + 1..];
    assert q[..i] + [q[i]] + q[i + 1..] == q;
  }

  /** A row's play button: pause or resume the song that is already playing,
      start any other one. */
  function HandlePlaySong(st: PlayerState, song: Song): (s: PlayerState)
    ensures st.currentSong.Some? && st.currentSong.value.id == song.id ==>
      s == st.(isPlaying := !st.isPlaying)
    ensures !(st.currentSong.Some? && st.currentSong.value.id == song.id) ==>
      s == PlaySong(st, song)
  {
    if st.currentSong.Some? && st.currentSong.value.id == song.id then
      (if st.isPlaying then PauseSong(st) else ResumeSong(st))
    else PlaySong(st, song)
  }

  /** Clicking the same row twice restores the play state. */
  lemma HandlePlaySongTwice(st: PlayerState, song: Song)
    requires st.currentSong.Some? && st.currentSong.value.id == song.id
    ensures HandlePlaySong(HandlePlaySong(st, song), song) == st
  {
  }

  /** The song at the index, as a list of one, or nothing when the index is
      outside the queue. */
  function AtIndex(st: PlayerState): (r: seq<Song>)
    ensures 0 <= st.queueIndex < |st.queue| ==> r == [st.queue[st.queueIndex]]
    ensures !(0 <= st.queueIndex < |st.queue|) ==> r == []
  {
    if 0 <= st.queueIndex < |st.queue| then [st.queue[st.queueIndex]] else []
  }

  /** The list the drop handler builds as written: the songs played before,
      then `currentSong!`, then the new order. The `!` only silences the type
      checker, so with no song playing the middle entry is `null` (`None`). */
  function ReorderListAsWritten(st: PlayerState, newUpNext: seq<Song>): (r: seq<Option<Song>>)
    ensures |r| == |PreviouslyPlayed(st)| + 1 + |newUpNext|
    ensures r[|PreviouslyPlayed(st)|] == st.currentSong
    ensures forall i | 0 <= i < |PreviouslyPlayed(st)| :: r[i] == Some(PreviouslyPlayed(st)[i])
    ensures forall i | 0 <= i < |newUpNext| ::
      r[|PreviouslyPlayed(st)| + 1 + i] == Some(newUpNext[i])
  {
    var pre := PreviouslyPlayed(st);
    seq(|pre|, i requires 0 <= i < |pre| => Some(pre[i])) + [st.currentSong]
      + seq(|newUpNext|, i requires 0 <= i < |newUpNext| => Some(newUpNext[i]))
  }

  /** In the start state (the demo songs queued, none playing) the Up Next
      list is shown, and dropping it, even in its own order, hands `setQueue`
      a list that starts with `null` and no longer holds the first song. */
  lemma ReorderAtStartLosesFirstSong(demoSongs: seq<Song>)
    requires |demoSongs| >= 2 && DistinctIds(demoSongs)
    ensures |UpNext(Initial(demoSongs))| > 0
    ensures ReorderListAsWritten(Initial(demoSongs), UpNext(Initial(demoSongs)))[0] == None
    ensures Some(demoSongs[0]) !in ReorderListAsWritten(Initial(demoSongs), UpNext(Initial(demoSongs)))
  {
    var st := Initial(demoSongs);
    var r := ReorderListAsWritten(st, UpNext(st));
    assert PreviouslyPlayed(st) == [];
    assert UpNext(st) == demoSongs[1..];
    forall i | 0 <= i < |r| ensures r[i] != Some(demoSongs[0]) {
      if i > 0 {
        assert r[i] == Some(demoSongs[1..][i - 1]);
        assert demoSongs[i].id != demoSongs[0].id;
      }
    }
  }

  /** Dropping Up Next into a new order, corrected: the queue becomes the
      songs played before, the song at the index, then the reordered list,
      through `setQueue`. With a song playing at the index this is the list
      the source builds; with none playing it keeps the song at the index
      where the source puts `null`. */
  function Reorder(st: PlayerState, newUpNext: seq<Song>): (s: PlayerState)
    ensures s.queue == PreviouslyPlayed(st) + AtIndex(st) + newUpNext
    ensures s == SetQueue(st, s.queue)
  {
    SetQueue(st, PreviouslyPlayed(st) + AtIndex(st) + newUpNext)
  }

  /** Where a song is playing at the index, the corrected list is the one the
      source builds, with no `null` in it. */
  lemma ReorderAgreesWhenPlaying(st: PlayerState, newUpNext: seq<Song>)
    requires 0 <= st.queueIndex < |st.queue|
    requires st.currentSong == Some(st.queue[st.queueIndex])
    ensures |Reorder(st, newUpNext).queue| == |ReorderListAsWritten(st, newUpNext)|
    ensures forall i | 0 <= i < |Reorder(st, newUpNext).queue| ::
      ReorderListAsWritten(st, newUpNext)[i] == Some(Reorder(st, newUpNext).queue[i])
  {
    var pre := PreviouslyPlayed(st);
    var q := Reorder(st, newUpNext).queue;
    var r := ReorderListAsWritten(st, newUpNext);
    assert q == pre + [st.queue[st.queueIndex]] + newUpNext;
    forall i | 0 <= i < |q| ensures r[i] == Some(q[i]) {
      if i < |pre| {
      } else if i == |pre| {
      } else {
        assert q[i] == newUpNext[i - |pre| - 1];
      }
    }
  }

  /** In the start state the corrected drop of Up Next in its own order
      leaves the demo queue whole. */
  lemma ReorderAtStartKeepsQueue(demoSongs: seq<Song>)
    requires |demoSongs| >= 1
    ensures Reorder(Initial(demoSongs), UpNext(Initial(demoSongs))).queue == demoSongs
    ensures Reorder(Initial(demoSongs), UpNext(Initial(demoSongs))).queueIndex == 0
  {
    var st := Initial(demoSongs);
    SplitAroundCurrent(st);
  }

  /** A corrected reorder that permutes Up Next permutes the queue, keeps
      the songs before the index in place and, with distinct ids and the
      playing song at the index, keeps the index on it. */
  lemma ReorderIsPermutation(st: PlayerState, newUpNext: seq<Song>)
    requires 0 <= st.queueIndex < |st.queue|
    requires multiset(newUpNext) == multiset(UpNext(st))
    ensures multiset(Reorder(st, newUpNext).queue) == multiset(st.queue)
    ensures Reorder(st, newUpNext).queue[..st.queueIndex] == st.queue[..st.queueIndex]
    ensures DistinctIds(st.queue) && st.currentSong == Some(st.queue[st.queueIndex]) ==>
      Reorder(st, newUpNext).queueIndex == st.queueIndex
  {
    SplitAroundCurrent(st);
    var pre := PreviouslyPlayed(st);
    var cur := st.queue[st.queueIndex];
    var q := pre + [cur] + newUpNext;
    assert q[..st.queueIndex] == pre;
    calc {
      multiset(q);
      multiset(pre) + multiset{cur} + multiset(newUpNext);
      multiset(pre) + multiset{cur} + multiset(UpNext(st));
      multiset(pre + [cur] + UpNext(st));
    }
    if DistinctIds(st.queue) && st.currentSong == Some(cur) {
      assert !HasId(pre, cur.id) by {
        forall i | 0 <= i < |pre| ensures pre[i].id != cur.id {
          assert pre[i] == st.queue[i];
        }
      }
      IndexOfIdAfter(pre, cur, newUpNext);
    }
  }

  /** Clear Queue: shown only for a non-empty queue; it keeps just the
      playing song, and does nothing when none is playing. */
  function ClearQueue(st: PlayerState): (s: PlayerState)
    ensures |st.queue| > 0 && st.currentSong.Some? ==>
      s.queue == [st.currentSong.value] && s.queueIndex == 0 &&
      s == st.(queue := s.queue, queueIndex := 0)
    ensures |st.queue| == 0 || st.currentSong.None? ==> s == st
  {
    if |st.queue| > 0 && st.currentSong.Some? then SetQueue(st, [st.currentSong.value])
    else st
  }

  /** After clearing, the index is in range and names the playing song, and
      nothing is left up next or played before. */
  lemma ClearQueueLeavesOnlyCurrent(st: PlayerState)
    requires |st.queue| > 0 && st.currentSong.Some?
    ensures var s := ClearQueue(st);
      IndexInRange(s) && At(s.queue, s.queueIndex) == s.currentSong &&
      UpNext(s) == [] && PreviouslyPlayed(s) == []
  {
  }
}

=== FILE: radio.dfy ===
/** Radio mode: a seed song, the tracks radio mode has queued and not yet
    reached, and a short history of songs already played in this session.
    Each transition returns the new state together with the songs it handed
    to the player's `addToQueue`, in order. */
module Radio {

  import opened Wrappers
  import opened Music
  import opened Lists
  import Recommend
  import Player

  datatype RadioState = RadioState(
    isEnabled: bool,
    seedSong: Option<Song>,
    upcomingTracks: seq<Song>,
    history: seq<Song>)

  /** A new state and the songs appended to the player queue on the way. */
  datatype RadioStep = RadioStep(state: RadioState, queued: seq<Song>)

  const HistoryLimit := 20
  const LowWater := 3

  const Disabled := RadioState(false, None, [], [])

  /** `enableRadioMode(seedSong?)`: the given seed, else the playing song;
      with neither the call fails and the state is unchanged. */
  function EnableRadioMode(st: RadioState, seedSong: Option<Song>, currentSong: Option<Song>): (r: Result<RadioState, string>)
    ensures seedSong.None? && currentSong.None? <==> r.Failure?
    ensures r.Failure? ==> r.error == "No song selected for radio mode"
    ensures r.Success? ==> r.value.isEnabled && r.value.upcomingTracks == [] && r.value.history == []
    ensures r.Success? ==> r.value.seedSong == (if seedSong.Some? then seedSong else currentSong)
  {
    var seed := if seedSong.Some? then seedSong else currentSong;
    if seed.None? then Failure("No song selected for radio mode")
    else Success(RadioState(true, seed, [], []))
  }

  /** `disableRadioMode`: everything cleared. */
  function DisableRadioMode(st: RadioState): (r: RadioState)
    ensures !r.isEnabled && r.seedSong.None? && r.upcomingTracks == [] && r.history == []
  {
    Disabled
  }

  /** `toggleRadioMode`: disables when on, otherwise enables from the
      playing song (no explicit seed). */
  function ToggleRadioMode(st: RadioState, currentSong: Option<Song>): (r: Result<RadioState, string>)
    ensures st.isEnabled ==> r == Success(Disabled)
    ensures !st.isEnabled ==> r == EnableRadioMode(st, None, currentSong)
  {
    if st.isEnabled then Success(DisableRadioMode(st)) else EnableRadioMode(st, None, currentSong)
  }

  /** A track radio mode may add: not played in this session, not already
      queued by radio mode, and not the playing song. */
  predicate Fresh(st: RadioState, current: Song, s: Song) {
    !HasId(st.history, s.id) && !HasId(st.upcomingTracks, s.id) && s.id != current.id
  }

  /** The ids handed to `getRecommendations` as its exclusion list. */
  function ExcludedIds(st: RadioState, current: Song): (ids: seq<string>)
    ensures forall s: Song :: s.id !in ids <==> Fresh(st, current, s)
  {
    [current.id] + Ids(st.history) + Ids(st.upcomingTracks)
  }

  /** The fresh songs of `songs`, in their order. */
  function FreshAmong(st: RadioState, current: Song, songs: seq<Song>): (r: seq<Song>)
    ensures forall i | 0 <= i < |r| :: r[i] in songs && Fresh(st, current, r[i])
    ensures forall i | 0 <= i < |songs| && Fresh(st, current, songs[i]) :: songs[i] in r
  {
    Filter(songs, (s: Song) => Fresh(st, current, s))
  }

  /** The first three of the fresh songs among the five most similar. */
  function FreshSimilar(st: RadioState, current: Song, e: Recommend.Engine): (r: seq<Song>)
    ensures |r| <= 3
    ensures r <= FreshAmong(st, current, Recommend.GetSimilarSongs(e, current, 5))
    ensures |r| == if |FreshAmong(st, current, Recommend.GetSimilarSongs(e, current, 5))| < 3
                   then |FreshAmong(st, current, Recommend.GetSimilarSongs(e, current, 5))| else 3
    ensures forall i | 0 <= i < |r| :: r[i] in e.songs && Fresh(st, current, r[i])
  {
    var similar := Recommend.GetSimilarSongs(e, current, 5);
    FirstThree(FreshAmong(st, current, similar))
  }

  /** `slice(0, 3)`: a prefix of at most three songs. */
  function FirstThree(songs: seq<Song>): (r: seq<Song>)
    ensures r <= songs
    ensures |r| == if |songs| < 3 then |songs| else 3
    ensures forall i | 0 <= i < |r| :: r[i] in songs
  {
    Slice(songs, 0, 3)
  }

  /** The songs of the first three of five general recommendations, with
      the radio's ids excluded. */
  function FreshRecommended(st: RadioState, current: Song, e: Recommend.Engine, now: int, hour: int): (r: seq<Song>)
    ensures |r| <= 3
    ensures var recs := Recommend.GetRecommendations(e, 5, ExcludedIds(st, current), now, hour);
      |r| == (if |recs| < 3 then |recs| else 3) && forall i | 0 <= i < |r| :: r[i] == recs[i].song
    ensures forall i | 0 <= i < |r| :: r[i] in e.songs && Fresh(st, current, r[i])
  {
    var ids := ExcludedIds(st, current);
    FirstSongs(Recommend.GetRecommendations(e, 5, ids, now, hour), 3)
  }

  /** The songs of the first `k` recommendations (`slice(0, k).map(r => r.song)`). */
  function FirstSongs(recs: seq<Recommend.Recommendation>, k: nat): (r: seq<Song>)
    ensures |r| == if k < |recs| then k else |recs|
    ensures forall i | 0 <= i < |r| :: r[i] == recs[i].song
  {
    var top := Slice(recs, 0, k);
    seq(|top|, i requires 0 <= i < |top| => top[i].song)
  }

  /** One run of `queueSimilarSongs`: nothing while radio mode is off, no
      song plays, or three tracks are already waiting; otherwise up to three
      fresh songs from the five most similar, or, when none of those is
      fresh, up to three general recommendations excluding the same ids. */
  function QueueSimilarSongs(st: RadioState, currentSong: Option<Song>, e: Recommend.Engine, now: int, hour: int): (r: RadioStep)
    ensures !st.isEnabled || currentSong.None? || |st.upcomingTracks| >= LowWater ==> r == RadioStep(st, [])
    ensures |r.queued| <= 3
    ensures forall i | 0 <= i < |r.queued| :: r.queued[i] in e.songs && Fresh(st, currentSong.value, r.queued[i])
    ensures r.state == st.(upcomingTracks := st.upcomingTracks + r.queued)
    ensures st.isEnabled && currentSong.Some? && |st.upcomingTracks| < LowWater ==>
      r.queued == if |FreshSimilar(st, currentSong.value, e)| > 0 then FreshSimilar(st, currentSong.value, e)
                  else FreshRecommended(st, currentSong.value, e, now, hour)
  {
    if !st.isEnabled || currentSong.None? || |st.upcomingTracks| >= LowWater then RadioStep(st, [])
    else
      var current := currentSong.value;
      var similar := FreshSimilar(st, current, e);
      var toAdd := if |similar| > 0 then similar else FreshRecommended(st, current, e, now, hour);
      RadioStep(st.(upcomingTracks := st.upcomingTracks + toAdd), toAdd)
  }

  /** While radio mode runs low, a catalog song that is fresh guarantees
      that something is queued: the similar songs, or else the general
      recommendations, which cannot all be excluded. */
  lemma QueueFillsWhenFreshExists(st: RadioState, current: Song, e: Recommend.Engine, now: int, hour: int, s: Song)
    requires st.isEnabled && |st.upcomingTracks| < LowWater
    requires s in e.songs && Fresh(st, current, s)
    ensures |QueueSimilarSongs(st, Some(current), e, now, hour).queued| > 0
  {
    if |FreshSimilar(st, current, e)| == 0 {
      var ids := ExcludedIds(st, current);
      assert s.id !in ids;
      assert s in Recommend.Candidates(e, ids);
      assert |Recommend.GetRecommendations(e, 5, ids, now, hour)| > 0;
    }
  }

  /** Filtering out songs with one id keeps the rest free of repeated ids. */
  lemma {:induction false} RemoveIdKeepsDistinct(h: seq<Song>, id: string)
    requires DistinctIds(h)
    ensures DistinctIds(RemoveId(h, id))
  {
    if |h| > 0 {
      assert DistinctIds(h[1..]) by {
        forall i, j | 0 <= i < j < |h[1..]| ensures h[1..][i].id != h[1..][j].id {
          assert h[1..][i] == h[i + 1] && h[1..][j] == h[j + 1];
        }
      }
      RemoveIdKeepsDistinct(h[1..], id);
      if h[0].id != id {
        var rest := RemoveId(h[1..], id);
        RemoveIdMembers(h[1..], id);
        forall k | 0 <= k < |rest| ensures rest[k].id != h[0].id {
          assert rest[k] in h[1..];
        }
      }
    }
  }

  /** The song-change effect: the playing song leaves the upcoming list; the
      previous seed, if it differs, moves to the end of the history (any
      earlier copy removed); only the last 20 are kept; the playing song
      becomes the seed. */
  function OnSongChange(st: RadioState, currentSong: Option<Song>): (r: RadioState)
    ensures !st.isEnabled || currentSong.None? ==> r == st
    ensures st.isEnabled && currentSong.Some? ==>
      r.seedSong == currentSong && r.isEnabled &&
      r.upcomingTracks == RemoveId(st.upcomingTracks, currentSong.value.id) &&
      |r.history| <= HistoryLimit
    ensures (st.isEnabled && currentSong.Some? && st.seedSong.Some? &&
             st.seedSong.value.id != currentSong.value.id) ==>
      |r.history| > 0 && r.history[|r.history| - 1] == st.seedSong.value &&
      r.history == SliceFrom(RemoveId(st.history, st.seedSong.value.id) + [st.seedSong.value], -HistoryLimit)
    ensures (st.isEnabled && currentSong.Some? &&
             (st.seedSong.None? || st.seedSong.value.id == currentSong.value.id)) ==>
      r.history == SliceFrom(st.history, -HistoryLimit)
  {
    if !st.isEnabled || currentSong.None? then st
    else
      var current := currentSong.value;
      var newUpcoming := RemoveId(st.upcomingTracks, current.id);
      var newHistory := if st.seedSong.Some? && st.seedSong.value.id != current.id
        then RemoveId(st.history, st.seedSong.value.id) + [st.seedSong.value]
        else st.history;
      SliceLast(newHistory, HistoryLimit);
      st.(seedSong := currentSong, upcomingTracks := newUpcoming,
          history := SliceFrom(newHistory, -HistoryLimit))
  }

  /** A suffix of a list with distinct ids has distinct ids. */
  lemma SuffixKeepsDistinct(h: seq<Song>, k: nat)
    requires DistinctIds(h) && k <= |h|
    ensures DistinctIds(h[k..])
  {
    forall i, j | 0 <= i < j < |h[k..]| ensures h[k..][i].id != h[k..][j].id {
      assert h[k..][i] == h[k + i] && h[k..][j] == h[k + j];
    }
  }

  /** The song-change effect never lets an id into the history twice, so a
      history that starts empty (as enabling makes it) stays duplicate-free. */
  lemma SongChangeKeepsHistoryDistinct(st: RadioState, currentSong: Option<Song>)
    requires DistinctIds(st.history)
    ensures DistinctIds(OnSongChange(st, currentSong).history)
  {
    if st.isEnabled && currentSong.Some? {
      var current := currentSong.value;
      var newHistory := if st.seedSong.Some? && st.seedSong.value.id != current.id
        then RemoveId(st.history, st.seedSong.value.id) + [st.seedSong.value]
        else st.history;
      if st.seedSong.Some? && st.seedSong.value.id != current.id {
        var seed := st.seedSong.value;
        var kept := RemoveId(st.history, seed.id);
        RemoveIdKeepsDistinct(st.history, seed.id);
        forall i, j | 0 <= i < j < |newHistory| ensures newHistory[i].id != newHistory[j].id {
          if j == |kept| {
            assert newHistory[i] == kept[i];
            assert kept[i] in kept;
          } else {
            assert newHistory[i] == kept[i] && newHistory[j] == kept[j];
          }
        }
      }
      SliceLast(newHistory, HistoryLimit);
      SuffixKeepsDistinct(newHistory, |newHistory| - |SliceFrom(newHistory, -HistoryLimit)|);
    }
  }

  /** Queueing similar songs leaves the history alone. */
  lemma QueueKeepsHistory(st: RadioState, currentSong: Option<Song>, e: Recommend.Engine, now: int, hour: int)
    ensures QueueSimilarSongs(st, currentSong, e, now, hour).state.history == st.history
    ensures QueueSimilarSongs(st, currentSong, e, now, hour).state.seedSong == st.seedSong
  {
  }

  /** `skipToNextSimilar`: the first of the three most similar songs that was
      not played in this session and is not the playing song is queued. */
  function SkipToNextSimilar(st: RadioState, currentSong: Option<Song>, e: Recommend.Engine): (r: RadioStep)
    ensures currentSong.None? ==> r == RadioStep(st, [])
    ensures |r.queued| <= 1
    ensures r.state == st.(upcomingTracks := st.upcomingTracks + r.queued)
    ensures |r.queued| == 1 ==>
      r.queued[0] in e.songs && !HasId(st.history, r.queued[0].id) && r.queued[0].id != currentSong.value.id
    ensures currentSong.Some? && |r.queued| == 0 ==>
      forall i | 0 <= i < |Recommend.GetSimilarSongs(e, currentSong.value, 3)| ::
        HasId(st.history, Recommend.GetSimilarSongs(e, currentSong.value, 3)[i].id)
    ensures |r.queued| == 1 ==>
      var sim := Recommend.GetSimilarSongs(e, currentSong.value, 3);
      exists k | 0 <= k < |sim| ::
        r.queued[0] == sim[k] &&
        (forall j | 0 <= j < k :: HasId(st.history, sim[j].id) || sim[j].id == currentSong.value.id)
  {
    if currentSong.None? then RadioStep(st, [])
    else
      var current := currentSong.value;
      var similar := Recommend.GetSimilarSongs(e, current, 3);
      var eligible := (s: Song) => !HasId(st.history, s.id) && s.id != current.id;
      var candidates := Filter(similar, eligible);
      if |candidates| == 0 then RadioStep(st, [])
      else
        assert candidates[0] in similar;
        FilterHeadIsFirst(similar, eligible);
        RadioStep(st.(upcomingTracks := st.upcomingTracks + [candidates[0]]), [candidates[0]])
  }

  /** The player's radio auto-queue fed with the songs of some
      recommendations: at the end of the queue with radio mode on, they are
      appended after the queue in rank order. */
  lemma AutoQueueAppendsSongs(st: Player.PlayerState, recs: seq<Recommend.Recommendation>)
    requires st.radioMode && |st.queue| > 0 && st.queueIndex >= |st.queue| - 1
    ensures var s := Player.RadioAutoQueue(st, FirstSongs(recs, |recs|));
      && |s.queue| == |st.queue| + |recs|
      && s.queue[..|st.queue|] == st.queue
      && (forall i | 0 <= i < |recs| :: s.queue[|st.queue| + i] == recs[i].song)
  {
    var songs := FirstSongs(recs, |recs|);
    if |recs| > 0 {
      assert Player.RadioAutoQueue(st, songs).queue == st.queue + songs;
    }
  }

  /** With the engine's answer to `getRecommendations(5)`, at most five
      songs are appended, in rank order. */
  lemma AutoQueueAppendsRecommendations(st: Player.PlayerState, e: Recommend.Engine, now: int, hour: int)
    requires st.radioMode && |st.queue| > 0 && st.queueIndex >= |st.queue| - 1
    ensures var recs := Recommend.GetRecommendations(e, 5, [], now, hour);
      var s := Player.RadioAutoQueue(st, FirstSongs(recs, |recs|));
      && |recs| <= 5 && |s.queue| == |st.queue| + |recs|
      && (forall i | 0 <= i < |recs| :: s.queue[|st.queue| + i] == recs[i].song)
  {
    AutoQueueAppendsSongs(st, Recommend.GetRecommendations(e, 5, [], now, hour));
  }
}

=== FILE: recommend.dfy ===
/** The recommendation engine: five sub-scores in [0, 1] combined with fixed
    weights, a stable descending sort and a truncation to `count`, plus the
    mood, similarity and discovery rankings. The clock (`now`, in
    milliseconds) and the hour of day are parameters. */
module Recommend {

  import opened Wrappers
  import opened Music
  import opened Lists

  datatype HistoryEntry = HistoryEntry(songId: string, timestamp: int, duration: nat, completed: bool)

  /** The engine's loaded state: the catalog and the listening history. */
  datatype Engine = Engine(songs: seq<Song>, history: seq<HistoryEntry>)

  datatype Recommendation = Recommendation(song: Song, score: real, reason: string, confidence: int)

  /** The weight of each sub-score in the combined score. */
  const PlayFrequencyWeight: real := 0.3
  const CompletionRateWeight: real := 0.25
  const RecencyWeight: real := 0.2
  const GenreSimilarityWeight: real := 0.15
  const TimeContextWeight: real := 0.1

  const DefaultReason := "Recommended for you"
  const MillisPerDay: real := 86400000.0

  /** `Math.round` on a real: halves round up. */
  function Round(x: real): (n: int)
    ensures n as real <= x + 0.5 < n as real + 1.0
  {
    (x + 0.5).Floor
  }

  /** The ratio of counts `a / b`: in [0, 1] when `a <= b`. */
  function Ratio(a: nat, b: nat): (r: real)
    requires 0 < b
    ensures r == a as real / b as real
    ensures r * b as real == a as real
    ensures 0.0 <= r
    ensures a <= b ==> r <= 1.0
    ensures r == 1.0 <==> a == b
    ensures r == 0.0 <==> a == 0
  {
    var q := a as real / b as real;
    assert q * b as real == a as real;
    assert q == 1.0 ==> a as real == b as real;
    assert a == b ==> (q - 1.0) * b as real == 0.0;
    q
  }

  // ---------------------------------------------------------------------------
  // Sub-scores

  /** The test `h.songId === songId`. */
  function ForSong(songId: string): HistoryEntry -> bool {
    (h: HistoryEntry) => h.songId == songId
  }

  function IsCompleted(h: HistoryEntry): bool {
    h.completed
  }

  /** The history entries of one song. */
  function EntriesFor(history: seq<HistoryEntry>, songId: string): (r: seq<HistoryEntry>)
    ensures forall i | 0 <= i < |r| :: r[i].songId == songId && r[i] in history
    ensures forall i | 0 <= i < |history| && history[i].songId == songId :: history[i] in r
  {
    Filter(history, ForSong(songId))
  }

  /** A song's entries hold every entry carrying its id as often as the
      history does, and nothing else. */
  lemma EntriesForCount(history: seq<HistoryEntry>, songId: string)
    ensures forall h :: (multiset(EntriesFor(history, songId))[h] ==
      if h.songId == songId then multiset(history)[h] else 0)
  {
    forall h ensures multiset(EntriesFor(history, songId))[h] ==
      if h.songId == songId then multiset(history)[h] else 0
    {
      FilterCount(history, ForSong(songId), h);
    }
  }

  /** How often the song was played. */
  function Plays(history: seq<HistoryEntry>, songId: string): (n: nat)
    ensures n > 0 <==> exists j | 0 <= j < |history| :: history[j].songId == songId
    ensures n <= |history|
  {
    var entries := EntriesFor(history, songId);
    assert |entries| > 0 ==> entries[0] in history;
    |entries|
  }

  /** How many of the song's plays were listened to the end. */
  function Completions(history: seq<HistoryEntry>, songId: string): (n: nat)
    ensures n <= Plays(history, songId)
  {
    |Filter(EntriesFor(history, songId), IsCompleted)|
  }

  /** `Filter` over a one-entry history. */
  lemma FilterOne(h: HistoryEntry, p: HistoryEntry -> bool)
    ensures Filter([h], p) == if p(h) then [h] else []
  {
    assert [h][1..] == [];
  }

  /** Plays count history entries: none in an empty history, and appending
      an entry adds one play exactly for the song it names. */
  lemma PlaysAppend(history: seq<HistoryEntry>, h: HistoryEntry, songId: string)
    ensures Plays([], songId) == 0
    ensures Plays(history + [h], songId) == Plays(history, songId) + (if h.songId == songId then 1 else 0)
  {
    FilterAppend(history, [h], ForSong(songId));
    FilterOne(h, ForSong(songId));
  }

  /** Completions count the completed plays: appending an entry adds one
      exactly when it names the song and was listened to the end. */
  lemma CompletionsAppend(history: seq<HistoryEntry>, h: HistoryEntry, songId: string)
    ensures Completions([], songId) == 0
    ensures Completions(history + [h], songId) ==
      Completions(history, songId) + (if h.songId == songId && h.completed then 1 else 0)
  {
    var a := EntriesFor(history, songId);
    FilterAppend(history, [h], ForSong(songId));
    FilterOne(h, ForSong(songId));
    assert EntriesFor(history + [h], songId) == a + (if h.songId == songId then [h] else []);
    if h.songId == songId {
      FilterAppend(a, [h], IsCompleted);
      FilterOne(h, IsCompleted);
    } else {
      assert a + [] == a;
    }
  }

  /** The largest play count over the catalog, and at least 1. */
  function MaxPlays(songs: seq<Song>, history: seq<HistoryEntry>): (m: nat)
    ensures m >= 1
    ensures forall i | 0 <= i < |songs| :: Plays(history, songs[i].id) <= m
    ensures m == 1 || exists i | 0 <= i < |songs| :: Plays(history, songs[i].id) == m
  {
    if |songs| == 0 then 1
    else
      var rest := MaxPlays(songs[1..], history);
      var p := Plays(history, songs[0].id);
      assert forall i | 1 <= i < |songs| :: songs[i] == songs[1..][i - 1];
      if p > rest then p else rest
  }

  /** Plays relative to the catalog's most played song. */
  function PlayFrequency(e: Engine, songId: string): (r: real)
    ensures 0.0 <= r
    ensures HasId(e.songs, songId) ==> r <= 1.0
    ensures r == Plays(e.history, songId) as real / MaxPlays(e.songs, e.history) as real
  {
    var m := MaxPlays(e.songs, e.history);
    var p := Plays(e.history, songId);
    assert HasId(e.songs, songId) ==> p <= m;
    Ratio(p, m)
  }

  /** The catalog's most played song has play frequency exactly 1. */
  lemma MostPlayedHasFrequencyOne(e: Engine, i: nat)
    requires i < |e.songs|
    requires Plays(e.history, e.songs[i].id) >= 1
    requires forall j | 0 <= j < |e.songs| :: Plays(e.history, e.songs[j].id) <= Plays(e.history, e.songs[i].id)
    ensures PlayFrequency(e, e.songs[i].id) == 1.0
  {
    var m := MaxPlays(e.songs, e.history);
    assert m == Plays(e.history, e.songs[i].id);
  }

  /** The share of plays that were listened to the end; 0.5 when unplayed. */
  function CompletionRate(e: Engine, songId: string): (r: real)
    ensures 0.0 <= r <= 1.0
    ensures Plays(e.history, songId) == 0 ==> r == 0.5
    ensures Plays(e.history, songId) > 0 ==>
      r == Completions(e.history, songId) as real / Plays(e.history, songId) as real
  {
    var entries := EntriesFor(e.history, songId);
    if |entries| == 0 then 0.5
    else
      var completed := Filter(entries, IsCompleted);
      Ratio(|completed|, |entries|)
  }

  /** The latest timestamp among the entries. */
  function MostRecent(entries: seq<HistoryEntry>): (t: int)
    requires |entries| > 0
    ensures forall i | 0 <= i < |entries| :: entries[i].timestamp <= t
    ensures exists i | 0 <= i < |entries| :: entries[i].timestamp == t
  {
    if |entries| == 1 then entries[0].timestamp
    else
      var rest := MostRecent(entries[1..]);
      assert forall i | 1 <= i < |entries| :: entries[i] == entries[1..][i - 1];
      if entries[0].timestamp > rest then entries[0].timestamp else rest
  }

  /** Every recorded play lies at or before `now`. */
  predicate AllBefore(history: seq<HistoryEntry>, now: int) {
    forall i | 0 <= i < |history| :: history[i].timestamp <= now
  }

  /** Recency decays linearly from 1 (played just now) to 0 after 30 days;
      0.3 for a song never played. */
  function Recency(e: Engine, songId: string, now: int): (r: real)
    ensures 0.0 <= r
    ensures Plays(e.history, songId) == 0 ==> r == 0.3
    ensures AllBefore(e.history, now) ==> r <= 1.0
    ensures Plays(e.history, songId) > 0 ==>
      var decay := 1.0 - (now - MostRecent(EntriesFor(e.history, songId))) as real / (30.0 * MillisPerDay);
      decay <= r && (r == 0.0 || r == decay)
  {
    var entries := EntriesFor(e.history, songId);
    if |entries| == 0 then 0.3
    else
      var mostRecent := MostRecent(entries);
      assert AllBefore(e.history, now) ==> mostRecent <= now;
      var daysSincePlay := (now - mostRecent) as real / MillisPerDay;
      var decayed := 1.0 - daysSincePlay / 30.0;
      if decayed > 0.0 then decayed else 0.0
  }

  /** A play at `now` gives recency 1; one 30 or more days back gives 0. */
  lemma RecencyEndpoints(e: Engine, songId: string, now: int)
    requires Plays(e.history, songId) > 0
    ensures MostRecent(EntriesFor(e.history, songId)) == now ==> Recency(e, songId, now) == 1.0
    ensures now - MostRecent(EntriesFor(e.history, songId)) >= 30 * 86400000 ==>
      Recency(e, songId, now) == 0.0
  {
  }

  /** Similarity to the recently played songs: 0.6 for a recent artist plus
      0.4 for a recent source, capped at 1; 0.5 when nothing was played
      recently. */
  function GenreSimilarity(song: Song, recentSongs: seq<Song>): (r: real)
    ensures r == 0.5 <==> |recentSongs| == 0
    ensures |recentSongs| > 0 ==>
      (r == 1.0 <==> ArtistSeen(song, recentSongs) && SourceSeen(song, recentSongs))
    ensures |recentSongs| > 0 && ArtistSeen(song, recentSongs) && !SourceSeen(song, recentSongs) ==> r == 0.6
    ensures |recentSongs| > 0 && !ArtistSeen(song, recentSongs) && SourceSeen(song, recentSongs) ==> r == 0.4
    ensures |recentSongs| > 0 && !ArtistSeen(song, recentSongs) && !SourceSeen(song, recentSongs) ==> r == 0.0
    ensures 0.0 <= r <= 1.0
  {
    if |recentSongs| == 0 then 0.5
    else
      var artistSeen := ArtistSeen(song, recentSongs);
      var sourceSeen := SourceSeen(song, recentSongs);
      var score := (if artistSeen then 0.6 else 0.0) + (if sourceSeen then 0.4 else 0.0);
      if score < 1.0 then score else 1.0
  }

  /** Some recently played song has the song's artist. */
  predicate ArtistSeen(song: Song, recentSongs: seq<Song>) {
    exists i | 0 <= i < |recentSongs| :: recentSongs[i].artist == song.artist
  }

  /** Some recently played song has the song's source. */
  predicate SourceSeen(song: Song, recentSongs: seq<Song>) {
    exists i | 0 <= i < |recentSongs| :: recentSongs[i].source == song.source
  }

  /** The time-of-day fit: short songs in the morning, long ones in the
      evening and at night. */
  function TimeContext(song: Song, hour: int): (r: real)
    ensures r in {0.3, 0.4, 0.5, 0.6, 0.8, 0.9}
    ensures 12 <= hour < 18 ==> r == 0.6
    ensures 6 <= hour < 12 ==> (r == 0.8 <==> song.duration < 180)
    ensures 6 <= hour < 12 ==> (r == 0.4 <==> song.duration >= 180)
    ensures 18 <= hour < 22 ==> (r == 0.8 <==> song.duration > 240)
    ensures 18 <= hour < 22 ==> (r == 0.5 <==> song.duration <= 240)
    ensures (hour < 6 || hour >= 22) ==> (r == 0.9 <==> song.duration > 240)
    ensures (hour < 6 || hour >= 22) ==> (r == 0.3 <==> song.duration <= 240)
  {
    var isLongSong := song.duration > 240;
    var isShortSong := song.duration < 180;
    if hour >= 6 && hour < 12 then (if isShortSong then 0.8 else 0.4)
    else if hour >= 12 && hour < 18 then 0.6
    else if hour >= 18 && hour < 22 then (if isLongSong then 0.8 else 0.5)
    else (if isLongSong then 0.9 else 0.3)
  }

  /** The weights add up to 1. */
  lemma WeightsSumToOne()
    ensures PlayFrequencyWeight + CompletionRateWeight + RecencyWeight +
            GenreSimilarityWeight + TimeContextWeight == 1.0
  {
  }

  function Weighted(pf: real, cr: real, rc: real, gs: real, tc: real): real {
    pf * PlayFrequencyWeight + cr * CompletionRateWeight + rc * RecencyWeight +
    gs * GenreSimilarityWeight + tc * TimeContextWeight
  }

  /** A weighted sum of values in [0, 1] is in [0, 1]. */
  lemma WeightedInUnitInterval(pf: real, cr: real, rc: real, gs: real, tc: real)
    requires 0.0 <= pf <= 1.0 && 0.0 <= cr <= 1.0 && 0.0 <= rc <= 1.0
    requires 0.0 <= gs <= 1.0 && 0.0 <= tc <= 1.0
    ensures 0.0 <= Weighted(pf, cr, rc, gs, tc) <= 1.0
  {
    WeightsSumToOne();
  }

  // ---------------------------------------------------------------------------
  // getRecommendations

  /** One scored candidate: its combined score and the reasons it triggered,
      in the fixed order the engine checks them. */
  datatype Scored = Scored(song: Song, score: real, reasons: seq<Reason>)

  /** The song id appears among the first 20 history entries (the history
      is kept latest first). */
  predicate PlayedRecently(history: seq<HistoryEntry>, id: string) {
    exists j | 0 <= j < |history| && j < 20 :: history[j].songId == id
  }

  /** The catalog songs that appear among the 20 latest history entries. */
  function RecentSongs(e: Engine): (r: seq<Song>)
    ensures forall i | 0 <= i < |r| :: r[i] in e.songs && PlayedRecently(e.history, r[i].id)
    ensures forall i | 0 <= i < |e.songs| && PlayedRecently(e.history, e.songs[i].id) :: e.songs[i] in r
  {
    var recent := Slice(e.history, 0, 20);
    Filter(e.songs, (s: Song) => exists j | 0 <= j < |recent| :: recent[j].songId == s.id)
  }

  /** The reasons a candidate can trigger, in the order the engine checks
      them. */
  datatype Reason = PlaysOften | UsuallyFinished | RecentlyPlayed | SimilarToFavorites | PerfectTime

  /** The text shown for each reason. */
  function ReasonText(reason: Reason): string {
    match reason
    case PlaysOften => "You play this often"
    case UsuallyFinished => "You usually finish this song"
    case RecentlyPlayed => "Recently played"
    case SimilarToFavorites => "Similar to your favorites"
    case PerfectTime => "Perfect for this time of day"
  }

  /** The position of a reason in the order the engine checks them. */
  function ReasonRank(reason: Reason): nat {
    match reason
    case PlaysOften => 0
    case UsuallyFinished => 1
    case RecentlyPlayed => 2
    case SimilarToFavorites => 3
    case PerfectTime => 4
  }

  /** The reason of each rank. */
  function RankedReason(k: nat): (reason: Reason)
    requires k < 5
    ensures ReasonRank(reason) == k
  {
    [PlaysOften, UsuallyFinished, RecentlyPlayed, SimilarToFavorites, PerfectTime][k]
  }

  /** The reason's sub-score passes its threshold. */
  predicate Passes(reason: Reason, pf: real, cr: real, rc: real, gs: real, tc: real) {
    match reason
    case PlaysOften => pf > 0.5
    case UsuallyFinished => cr > 0.7
    case RecentlyPlayed => rc > 0.7
    case SimilarToFavorites => gs > 0.5
    case PerfectTime => tc > 0.6
  }

  /** Strictly increasing ranks: each reason at most once, in the fixed
      order. */
  predicate InRankOrder(r: seq<Reason>) {
    forall i, j | 0 <= i < j < |r| :: ReasonRank(r[i]) < ReasonRank(r[j])
  }

  /** Each reason is present exactly when its sub-score passes its
      threshold, and the reasons present appear once each, in the fixed
      order. */
  function Reasons(pf: real, cr: real, rc: real, gs: real, tc: real): (r: seq<Reason>)
    ensures |r| <= 5
    ensures |r| == 0 <==> pf <= 0.5 && cr <= 0.7 && rc <= 0.7 && gs <= 0.5 && tc <= 0.6
    ensures PlaysOften in r <==> pf > 0.5
    ensures UsuallyFinished in r <==> cr > 0.7
    ensures RecentlyPlayed in r <==> rc > 0.7
    ensures SimilarToFavorites in r <==> gs > 0.5
    ensures PerfectTime in r <==> tc > 0.6
    ensures InRankOrder(r)
  {
    var r := ReasonsFrom(0, pf, cr, rc, gs, tc);
    assert |r| > 0 ==> r[0] in r;
    r
  }

  /** The passing reasons of rank `k` and above, in rank order. */
  function ReasonsFrom(k: nat, pf: real, cr: real, rc: real, gs: real, tc: real): (r: seq<Reason>)
    requires k <= 5
    ensures |r| <= 5 - k
    ensures forall y :: y in r <==> k <= ReasonRank(y) && Passes(y, pf, cr, rc, gs, tc)
    ensures forall i | 0 <= i < |r| :: k <= ReasonRank(r[i])
    ensures InRankOrder(r)
    decreases 5 - k
  {
    if k == 5 then []
    else
      var t := ReasonsFrom(k + 1, pf, cr, rc, gs, tc);
      var x := RankedReason(k);
      if Passes(x, pf, cr, rc, gs, tc) then [x] + t else t
  }

  function ScoreSong(e: Engine, song: Song, recentSongs: seq<Song>, now: int, hour: int): (r: Scored)
    requires song in e.songs
    ensures r.song == song
    ensures AllBefore(e.history, now) ==> 0.0 <= r.score <= 1.0
    ensures r.score == Weighted(PlayFrequency(e, song.id), CompletionRate(e, song.id), Recency(e, song.id, now),
                                GenreSimilarity(song, recentSongs), TimeContext(song, hour))
    ensures r.reasons == Reasons(PlayFrequency(e, song.id), CompletionRate(e, song.id), Recency(e, song.id, now),
                                 GenreSimilarity(song, recentSongs), TimeContext(song, hour))
  {
    assert HasId(e.songs, song.id);
    var pf := PlayFrequency(e, song.id);
    var cr := CompletionRate(e, song.id);
    var rc := Recency(e, song.id, now);
    var gs := GenreSimilarity(song, recentSongs);
    var tc := TimeContext(song, hour);
    assert AllBefore(e.history, now) ==> 0.0 <= Weighted(pf, cr, rc, gs, tc) <= 1.0 by {
      if AllBefore(e.history, now) { WeightedInUnitInterval(pf, cr, rc, gs, tc); }
    }
    Scored(song, Weighted(pf, cr, rc, gs, tc), Reasons(pf, cr, rc, gs, tc))
  }

  /** The catalog songs whose ids are not excluded. */
  function Candidates(e: Engine, excludeIds: seq<string>): (r: seq<Song>)
    ensures forall i | 0 <= i < |r| :: r[i] in e.songs && r[i].id !in excludeIds
    ensures forall i | 0 <= i < |e.songs| && e.songs[i].id !in excludeIds :: e.songs[i] in r
  {
    Filter(e.songs, (s: Song) => s.id !in excludeIds)
  }

  /** Each of `songs` scored against the same recent songs. */
  function ScoreEach(e: Engine, songs: seq<Song>, recentSongs: seq<Song>, now: int, hour: int): (r: seq<Scored>)
    requires forall i | 0 <= i < |songs| :: songs[i] in e.songs
    ensures |r| == |songs|
    ensures forall i | 0 <= i < |r| :: r[i] == ScoreSong(e, songs[i], recentSongs, now, hour)
    ensures forall i | 0 <= i < |r| :: r[i].song == songs[i]
    ensures AllBefore(e.history, now) ==> forall i | 0 <= i < |r| :: 0.0 <= r[i].score <= 1.0
  {
    seq(|songs|, i requires 0 <= i < |songs| => ScoreSong(e, songs[i], recentSongs, now, hour))
  }

  function ScoreAll(e: Engine, excludeIds: seq<string>, now: int, hour: int): (r: seq<Scored>)
    ensures |r| == |Candidates(e, excludeIds)|
    ensures forall i | 0 <= i < |r| :: r[i].song == Candidates(e, excludeIds)[i]
    ensures forall i | 0 <= i < |r| :: r[i] == ScoreSong(e, Candidates(e, excludeIds)[i], RecentSongs(e), now, hour)
    ensures forall i | 0 <= i < |r| :: r[i].song in e.songs && r[i].song.id !in excludeIds
    ensures AllBefore(e.history, now) ==> forall i | 0 <= i < |r| :: 0.0 <= r[i].score <= 1.0
  {
    ScoreEach(e, Candidates(e, excludeIds), RecentSongs(e), now, hour)
  }


  /** `this.songs.find(s => s.id === id)` for an id known to be there. */
  function FindById(songs: seq<Song>, id: string): (s: Song)
    requires HasId(songs, id)
    ensures s in songs && s.id == id
  {
    songs[IndexOfId(songs, id)]
  }

  function ToRecommendation(songs: seq<Song>, sd: Scored): (r: Recommendation)
    requires sd.song in songs
    ensures r.song.id == sd.song.id && r.score == sd.score
    ensures r.confidence <= 95
    ensures r.confidence == 95 <==> sd.score * 100.0 >= 94.5
    ensures r.confidence < 95 ==> r.confidence as real <= sd.score * 100.0 + 0.5 < r.confidence as real + 1.0
    ensures r.reason == (if |sd.reasons| > 0 then ReasonText(sd.reasons[0]) else DefaultReason)
  {
    assert HasId(songs, sd.song.id);
    var r := Round(sd.score * 100.0);
    Recommendation(FindById(songs, sd.song.id), sd.score,
                   if |sd.reasons| > 0 then ReasonText(sd.reasons[0]) else DefaultReason,
                   if r < 95 then r else 95)
  }

  function ScoreKey(sd: Scored): real {
    sd.score
  }

  /** The scored entries, best first, cut to `count`. */
  function TopOf(all: seq<Scored>, count: int): (r: seq<Scored>)
    ensures r <= SortDesc(all, ScoreKey)
    ensures |r| <= |all|
    ensures count >= 0 ==> |r| <= count
    ensures count >= 0 ==> |r| == if count < |all| then count else |all|
    ensures forall i | 0 <= i < |r| :: r[i] in all
    ensures forall i, j | 0 <= i < j < |r| :: r[i].score >= r[j].score
  {
    Top(all, ScoreKey, count)
  }

  /** A scored entry the ranking may return: a catalog song that is not
      excluded, scored in [0, 1] when the history lies in the past. */
  predicate Eligible(e: Engine, excludeIds: seq<string>, now: int, sd: Scored) {
    && sd.song in e.songs
    && sd.song.id !in excludeIds
    && (AllBefore(e.history, now) ==> 0.0 <= sd.score <= 1.0)
  }

  /** The ranked entries are scored catalog songs that are not excluded. */
  lemma TopOfScoreAll(e: Engine, count: int, excludeIds: seq<string>, now: int, hour: int)
    ensures var top := TopOf(ScoreAll(e, excludeIds, now, hour), count);
      forall i | 0 <= i < |top| :: Eligible(e, excludeIds, now, top[i])
  {
    var all := ScoreAll(e, excludeIds, now, hour);
    assert forall i | 0 <= i < |all| :: Eligible(e, excludeIds, now, all[i]);
    ElementsKeep(all, TopOf(all, count), (sd: Scored) => Eligible(e, excludeIds, now, sd));
  }

  /** Each ranked entry turned into a recommendation. */
  function ToRecommendations(songs: seq<Song>, top: seq<Scored>): (r: seq<Recommendation>)
    requires forall i | 0 <= i < |top| :: top[i].song in songs
    ensures |r| == |top|
    ensures forall i | 0 <= i < |r| :: r[i] == ToRecommendation(songs, top[i])
    ensures forall i | 0 <= i < |r| ::
      r[i].song in songs && r[i].song.id == top[i].song.id && r[i].score == top[i].score && r[i].confidence <= 95
  {
    seq(|top|, i requires 0 <= i < |top| => ToRecommendation(songs, top[i]))
  }

  /** `getRecommendations(count, excludeIds)`. */
  function GetRecommendations(e: Engine, count: int, excludeIds: seq<string>, now: int, hour: int): (r: seq<Recommendation>)
    ensures |r| <= |Candidates(e, excludeIds)|
    ensures count >= 0 ==> |r| <= count
    ensures count >= 0 ==> |r| == if count < |Candidates(e, excludeIds)| then count else |Candidates(e, excludeIds)|
    ensures forall i | 0 <= i < |r| :: r[i].song in e.songs && r[i].song.id !in excludeIds
    ensures forall i, j | 0 <= i < j < |r| :: r[i].score >= r[j].score
    ensures forall i | 0 <= i < |r| :: r[i].confidence <= 95
    ensures AllBefore(e.history, now) ==> forall i | 0 <= i < |r| :: 0.0 <= r[i].score <= 1.0
  {
    var all := ScoreAll(e, excludeIds, now, hour);
    var top := TopOf(all, count);
    TopOfScoreAll(e, count, excludeIds, now, hour);
    RecommendRanked(e, excludeIds, now, top)
  }

  /** The ranked entries turned into recommendations, in rank order. */
  function RecommendRanked(e: Engine, excludeIds: seq<string>, now: int, top: seq<Scored>): (r: seq<Recommendation>)
    requires forall i | 0 <= i < |top| :: Eligible(e, excludeIds, now, top[i])
    requires forall i, j | 0 <= i < j < |top| :: top[i].score >= top[j].score
    ensures |r| == |top|
    ensures forall i | 0 <= i < |r| :: r[i].song.id == top[i].song.id && r[i].score == top[i].score
    ensures forall i | 0 <= i < |r| :: r[i].song in e.songs && r[i].song.id !in excludeIds
    ensures forall i, j | 0 <= i < j < |r| :: r[i].score >= r[j].score
    ensures forall i | 0 <= i < |r| :: r[i].confidence <= 95
    ensures AllBefore(e.history, now) ==> forall i | 0 <= i < |r| :: 0.0 <= r[i].score <= 1.0
  {
    forall i | 0 <= i < |top| ensures top[i].song in e.songs {
      assert Eligible(e, excludeIds, now, top[i]);
    }
    var r := ToRecommendations(e.songs, top);
    forall i | 0 <= i < |r|
      ensures r[i].song.id !in excludeIds && r[i].song.id == top[i].song.id && r[i].score == top[i].score
      ensures AllBefore(e.history, now) ==> 0.0 <= r[i].score <= 1.0
    {
      assert Eligible(e, excludeIds, now, top[i]);
    }
    r
  }


  /** A scored entry that the ranking drops scores no higher than any it
      keeps. */
  lemma TopOfKeepsBest(all: seq<Scored>, count: int, i: nat)
    requires i < |all|
    ensures var top := TopOf(all, count);
      all[i] in top || forall j | 0 <= j < |top| :: all[i].score <= top[j].score
  {
    var top := TopOf(all, count);
    SortDescPrefixIsBest(all, ScoreKey, |top|);
    assert top == SortDesc(all, ScoreKey)[..|top|];
    assert all[i] in all;
    forall j | 0 <= j < |top| && all[i] !in top ensures all[i].score <= top[j].score {
      assert top[j] in top;
    }
  }

  /** Turning the ranked entries into recommendations keeps the best: an
      entry that is not recommended scores no higher than any that is. */
  lemma RecommendationsKeepBest(songs: seq<Song>, all: seq<Scored>, count: int, i: nat)
    requires i < |all|
    requires forall k | 0 <= k < |TopOf(all, count)| :: TopOf(all, count)[k].song in songs
    ensures var r := ToRecommendations(songs, TopOf(all, count));
      (exists j | 0 <= j < |r| :: r[j].song.id == all[i].song.id) ||
      forall j | 0 <= j < |r| :: all[i].score <= r[j].score
  {
    var top := TopOf(all, count);
    var r := ToRecommendations(songs, top);
    TopOfKeepsBest(all, count, i);
    if all[i] in top {
      var j :| 0 <= j < |top| && top[j] == all[i];
      assert r[j].song.id == top[j].song.id;
    } else {
      forall j | 0 <= j < |r| ensures all[i].score <= r[j].score {
        assert r[j].score == top[j].score;
      }
    }
  }

  /** Only the best-scoring candidates are returned: a candidate that is not
      recommended scores no higher than any recommendation given. */
  lemma GetRecommendationsKeepsBest(e: Engine, count: int, excludeIds: seq<string>, now: int, hour: int, i: nat)
    requires i < |Candidates(e, excludeIds)|
    ensures var r := GetRecommendations(e, count, excludeIds, now, hour);
      (exists j | 0 <= j < |r| :: r[j].song.id == Candidates(e, excludeIds)[i].id) ||
      forall j | 0 <= j < |r| :: ScoreAll(e, excludeIds, now, hour)[i].score <= r[j].score
  {
    var all := ScoreAll(e, excludeIds, now, hour);
    TopOfScoreAll(e, count, excludeIds, now, hour);
    RecommendationsKeepBest(e.songs, all, count, i);
  }

  /** Every recommendation carries the combined score of the candidate it
      recommends. */
  lemma GetRecommendationsScored(e: Engine, count: int, excludeIds: seq<string>, now: int, hour: int, i: nat)
    requires i < |GetRecommendations(e, count, excludeIds, now, hour)|
    ensures var rec := GetRecommendations(e, count, excludeIds, now, hour)[i];
      exists k | 0 <= k < |Candidates(e, excludeIds)| ::
        Candidates(e, excludeIds)[k].id == rec.song.id &&
        rec.score == ScoreSong(e, Candidates(e, excludeIds)[k], RecentSongs(e), now, hour).score
  {
    var all := ScoreAll(e, excludeIds, now, hour);
    var top := TopOf(all, count);
    TopOfScoreAll(e, count, excludeIds, now, hour);
    var r := RecommendRanked(e, excludeIds, now, top);
    assert r == GetRecommendations(e, count, excludeIds, now, hour);
    assert top[i] in all;
    var k :| 0 <= k < |all| && all[k] == top[i];
    assert all[k] == ScoreSong(e, Candidates(e, excludeIds)[k], RecentSongs(e), now, hour);
  }

  /** The reasons agree with the score: a candidate that triggers no reason
      scores at most 0.6 and is shown with the default reason and a
      confidence of at most 60, and one that triggers all five scores above
      0.6. */
  lemma ReasonsBoundScore(e: Engine, song: Song, recentSongs: seq<Song>, now: int, hour: int)
    requires song in e.songs
    ensures var sd := ScoreSong(e, song, recentSongs, now, hour);
      |sd.reasons| == 0 ==>
        sd.score <= 0.6 && ToRecommendation(e.songs, sd).reason == DefaultReason &&
        ToRecommendation(e.songs, sd).confidence <= 60
    ensures var sd := ScoreSong(e, song, recentSongs, now, hour);
      (forall reason: Reason :: reason in sd.reasons) ==> sd.score > 0.6
  {
    var sd := ScoreSong(e, song, recentSongs, now, hour);
    if forall reason: Reason :: reason in sd.reasons {
      assert PlaysOften in sd.reasons && UsuallyFinished in sd.reasons && RecentlyPlayed in sd.reasons;
      assert SimilarToFavorites in sd.reasons && PerfectTime in sd.reasons;
    }
  }

  /** The score is monotone in the play count: the more played of two
      songs has the higher play frequency, and of two catalogue songs that
      agree on every other sub-score it scores at least as high. */
  lemma MorePlaysScoreHigher(e: Engine, a: Song, b: Song, recentSongs: seq<Song>, now: int, hour: int)
    requires a in e.songs && b in e.songs
    requires Plays(e.history, a.id) <= Plays(e.history, b.id)
    ensures PlayFrequency(e, a.id) <= PlayFrequency(e, b.id)
    ensures (CompletionRate(e, a.id) == CompletionRate(e, b.id) && Recency(e, a.id, now) == Recency(e, b.id, now) &&
             GenreSimilarity(a, recentSongs) == GenreSimilarity(b, recentSongs) &&
             TimeContext(a, hour) == TimeContext(b, hour)) ==>
      ScoreSong(e, a, recentSongs, now, hour).score <= ScoreSong(e, b, recentSongs, now, hour).score
  {
    RatioMonotone(Plays(e.history, a.id), Plays(e.history, b.id), MaxPlays(e.songs, e.history));
    WeightedMonotoneInPlays(PlayFrequency(e, a.id), PlayFrequency(e, b.id), CompletionRate(e, a.id),
                            Recency(e, a.id, now), GenreSimilarity(a, recentSongs), TimeContext(a, hour));
  }

  /** A larger count over the same total is a larger ratio. */
  lemma RatioMonotone(a1: nat, a2: nat, b: nat)
    requires 0 < b && a1 <= a2
    ensures a1 as real / b as real <= a2 as real / b as real
  {
    var q1 := a1 as real / b as real;
    var q2 := a2 as real / b as real;
    assert (q2 - q1) * b as real == a2 as real - a1 as real;
  }

  /** The weighted sum grows with the play-frequency sub-score. */
  lemma WeightedMonotoneInPlays(pf1: real, pf2: real, cr: real, rc: real, gs: real, tc: real)
    requires pf1 <= pf2
    ensures Weighted(pf1, cr, rc, gs, tc) <= Weighted(pf2, cr, rc, gs, tc)
  {
  }

  /** With room for all candidates, every candidate is recommended. */
  lemma GetRecommendationsComplete(e: Engine, count: nat, excludeIds: seq<string>, now: int, hour: int)
    requires count >= |Candidates(e, excludeIds)|
    ensures |GetRecommendations(e, count, excludeIds, now, hour)| == |Candidates(e, excludeIds)|
  {
  }

  // ---------------------------------------------------------------------------
  // Mood, similar and discovery rankings

  /** The mood heuristics; an unknown mood scores every song 0.5. */
  function MoodScore(mood: string, song: Song): (r: real)
    ensures r in {0.4, 0.5, 0.7, 0.8}
    ensures mood == "energetic" ==> (r == 0.8 <==> song.duration < 200) && (r == 0.4 <==> song.duration >= 200)
    ensures mood == "chill" ==> (r == 0.8 <==> song.duration > 240) && (r == 0.4 <==> song.duration <= 240)
    ensures mood == "focus" ==> (r == 0.7 <==> song.source == OnlineSource) && (r == 0.5 <==> song.source != OnlineSource)
    ensures mood == "party" ==> (r == 0.7 <==> song.source == YouTubeSource) && (r == 0.5 <==> song.source != YouTubeSource)
    ensures mood == "sad" ==> (r == 0.7 <==> song.duration > 250) && (r == 0.4 <==> song.duration <= 250)
    ensures mood == "happy" ==> (r == 0.7 <==> song.duration < 220) && (r == 0.4 <==> song.duration >= 220)
    ensures mood !in {"energetic", "chill", "focus", "party", "sad", "happy"} ==> r == 0.5
  {
    if mood == "energetic" then (if song.duration < 200 then 0.8 else 0.4)
    else if mood == "chill" then (if song.duration > 240 then 0.8 else 0.4)
    else if mood == "focus" then (if song.source == OnlineSource then 0.7 else 0.5)
    else if mood == "party" then (if song.source == YouTubeSource then 0.7 else 0.5)
    else if mood == "sad" then (if song.duration > 250 then 0.7 else 0.4)
    else if mood == "happy" then (if song.duration < 220 then 0.7 else 0.4)
    else 0.5
  }

  function MoodRecommendation(mood: string, song: Song): (r: Recommendation)
    ensures r.song == song && r.score == MoodScore(mood, song)
    ensures r.confidence as real == r.score * 100.0
    ensures r.confidence in {40, 50, 70, 80}
    ensures r.reason == "Matches your " + mood + " mood"
  {
    var score := MoodScore(mood, song);
    Recommendation(song, score, "Matches your " + mood + " mood", Round(score * 100.0))
  }

  /** `getMoodRecommendations(mood, count)`: the whole catalog ranked by the
      mood's heuristic, best first, cut to `count`. */
  function GetMoodRecommendations(e: Engine, mood: string, count: int): (r: seq<Recommendation>)
    ensures |r| <= |e.songs|
    ensures count >= 0 ==> |r| <= count
    ensures count >= 0 ==> |r| == if count < |e.songs| then count else |e.songs|
    ensures forall i | 0 <= i < |r| :: r[i].song in e.songs && r[i].score == MoodScore(mood, r[i].song)
    ensures forall i, j | 0 <= i < j < |r| :: r[i].score >= r[j].score
    ensures forall i | 0 <= i < |r| :: r[i].confidence in {40, 50, 70, 80}
  {
    var all := MoodCandidates(e, mood);
    MoodCandidatesFit(e, mood);
    Top(all, RecScore, count)
  }

  function RecScore(rec: Recommendation): real {
    rec.score
  }

  /** A catalog song left out of the mood ranking fits the mood no better
      than any song on it. */
  lemma MoodKeepsBest(e: Engine, mood: string, count: int, i: nat)
    requires i < |e.songs|
    ensures var r := GetMoodRecommendations(e, mood, count);
      (exists j | 0 <= j < |r| :: r[j].song == e.songs[i]) ||
      forall j | 0 <= j < |r| :: MoodScore(mood, e.songs[i]) <= r[j].score
  {
    var all := MoodCandidates(e, mood);
    var r := GetMoodRecommendations(e, mood, count);
    SortDescPrefixIsBest(all, RecScore, |r|);
    assert r == SortDesc(all, RecScore)[..|r|];
    assert all[i] in all;
    if all[i] in r {
      var j :| 0 <= j < |r| && r[j] == all[i];
      assert r[j].song == e.songs[i];
    } else {
      forall j | 0 <= j < |r| ensures MoodScore(mood, e.songs[i]) <= r[j].score {
        assert r[j] in r;
      }
    }
  }

  /** Every catalog song with its mood score. */
  function MoodCandidates(e: Engine, mood: string): (r: seq<Recommendation>)
    ensures |r| == |e.songs|
    ensures forall i | 0 <= i < |r| :: r[i] == MoodRecommendation(mood, e.songs[i])
  {
    seq(|e.songs|, i requires 0 <= i < |e.songs| => MoodRecommendation(mood, e.songs[i]))
  }

  /** A catalog song scored by the mood heuristic. */
  predicate MoodFit(e: Engine, mood: string, rec: Recommendation) {
    && rec.song in e.songs
    && rec.score == MoodScore(mood, rec.song)
    && rec.confidence in {40, 50, 70, 80}
  }

  /** Every mood candidate is a catalog song with its mood score. */
  lemma MoodCandidatesFit(e: Engine, mood: string)
    ensures forall rec | rec in MoodCandidates(e, mood) :: MoodFit(e, mood, rec)
  {
    var all := MoodCandidates(e, mood);
    forall rec | rec in all ensures MoodFit(e, mood, rec) {
      var i :| 0 <= i < |all| && all[i] == rec;
    }
  }

  /** Likeness to a song: same artist 0.5, same source 0.3, durations less
      than a minute apart 0.2. */
  function Similarity(s: Song, song: Song): (r: real)
    ensures r == 0.5 * Indicator(s.artist == song.artist) + 0.3 * Indicator(s.source == song.source) +
                 0.2 * Indicator(-60 < s.duration - song.duration < 60)
    ensures 0.0 <= r <= 1.0
    ensures r == 1.0 <==> s.artist == song.artist && s.source == song.source &&
                          -60 < s.duration - song.duration < 60
  {
    (if s.artist == song.artist then 0.5 else 0.0) +
    (if s.source == song.source then 0.3 else 0.0) +
    (if -60 < s.duration - song.duration < 60 then 0.2 else 0.0)
  }

  /** 1 for a true condition and 0 for a false one. */
  function Indicator(b: bool): real {
    if b then 1.0 else 0.0
  }

  /** Likeness is symmetric, and a song is fully like itself. */
  lemma SimilaritySymmetric(s: Song, song: Song)
    ensures Similarity(s, song) == Similarity(song, s)
    ensures Similarity(song, song) == 1.0
  {
  }

  /** The catalog songs other than `song`. */
  function OtherSongs(e: Engine, song: Song): (r: seq<Song>)
    ensures forall i | 0 <= i < |r| :: r[i] in e.songs && r[i].id != song.id
    ensures forall i | 0 <= i < |e.songs| && e.songs[i].id != song.id :: e.songs[i] in r
  {
    Filter(e.songs, (s: Song) => s.id != song.id)
  }

  /** `getSimilarSongs(song, count)`: the other catalog songs, most similar
      first, cut to `count`. */
  function GetSimilarSongs(e: Engine, song: Song, count: int): (r: seq<Song>)
    ensures |r| <= |e.songs|
    ensures count >= 0 ==> |r| <= count
    ensures count >= 0 ==> |r| == if count < |OtherSongs(e, song)| then count else |OtherSongs(e, song)|
    ensures forall i | 0 <= i < |r| :: r[i] in e.songs && r[i].id != song.id
    ensures forall i, j | 0 <= i < j < |r| :: Similarity(r[i], song) >= Similarity(r[j], song)
  {
    Top(OtherSongs(e, song), (s: Song) => Similarity(s, song), count)
  }

  /** A song left out of the similar list is no more similar than any song
      on it. */
  lemma SimilarSongsKeepsBest(e: Engine, song: Song, count: nat, s: Song)
    requires s in e.songs && s.id != song.id
    requires s !in GetSimilarSongs(e, song, count)
    ensures forall j | 0 <= j < |GetSimilarSongs(e, song, count)| ::
      Similarity(s, song) <= Similarity(GetSimilarSongs(e, song, count)[j], song)
  {
    var others := OtherSongs(e, song);
    var key := (x: Song) => Similarity(x, song);
    var r := GetSimilarSongs(e, song, count);
    SortDescPrefixIsBest(others, key, |r|);
    assert r == SortDesc(others, key)[..|r|];
    forall j | 0 <= j < |r| ensures Similarity(s, song) <= Similarity(r[j], song) {
      assert r[j] in r;
    }
  }

  function DiscoveryRecommendation(e: Engine, song: Song): (r: Recommendation)
    requires Plays(e.history, song.id) < 2
    ensures r.song == song
    ensures Plays(e.history, song.id) == 0 ==>
      r.score == 0.8 && r.confidence == 85 && r.reason == "You haven't played this yet"
    ensures Plays(e.history, song.id) == 1 ==>
      r.score == 0.5 && r.confidence == 60 && r.reason == "Give this another listen"
  {
    var played := exists j | 0 <= j < |e.history| :: e.history[j].songId == song.id;
    if played then Recommendation(song, 0.5, "Give this another listen", 60)
    else Recommendation(song, 0.8, "You haven't played this yet", 85)
  }

  /** `getDiscoveryRecommendations(count)`: catalog songs played fewer than
      twice, in catalog order, cut to `count`. */
  function GetDiscoveryRecommendations(e: Engine, count: int): (r: seq<Recommendation>)
    ensures count >= 0 ==> |r| <= count
    ensures count >= 0 ==>
      r == DiscoveryCandidates(e)[..if count < |DiscoveryCandidates(e)| then count else |DiscoveryCandidates(e)|]
    ensures forall i | 0 <= i < |r| :: r[i].song in e.songs && Plays(e.history, r[i].song.id) < 2
    ensures forall i | 0 <= i < |r| :: r[i] == DiscoveryRecommendation(e, r[i].song)
  {
    var all := DiscoveryCandidates(e);
    DiscoveryCandidatesFit(e);
    Slice(all, 0, count)
  }

  /** The songs played fewer than twice, in catalog order. */
  function RareSongs(e: Engine): (r: seq<Song>)
    ensures forall i | 0 <= i < |r| :: r[i] in e.songs && Plays(e.history, r[i].id) < 2
    ensures forall i | 0 <= i < |e.songs| && Plays(e.history, e.songs[i].id) < 2 :: e.songs[i] in r
  {
    Filter(e.songs, (s: Song) => Plays(e.history, s.id) < 2)
  }

  /** Every rarely played song with its discovery reason. */
  function DiscoveryCandidates(e: Engine): (r: seq<Recommendation>)
    ensures |r| == |RareSongs(e)|
    ensures forall i | 0 <= i < |r| :: r[i] == DiscoveryRecommendation(e, RareSongs(e)[i])
  {
    var rare := RareSongs(e);
    seq(|rare|, i requires 0 <= i < |rare| => DiscoveryRecommendation(e, rare[i]))
  }

  /** A rarely played catalog song with its discovery reason. */
  predicate DiscoveryFit(e: Engine, rec: Recommendation) {
    && rec.song in e.songs
    && Plays(e.history, rec.song.id) < 2
    && rec == DiscoveryRecommendation(e, rec.song)
  }

  /** Every discovery candidate is a rarely played catalog song. */
  lemma DiscoveryCandidatesFit(e: Engine)
    ensures forall rec | rec in DiscoveryCandidates(e) :: DiscoveryFit(e, rec)
  {
    var all := DiscoveryCandidates(e);
    forall rec | rec in all ensures DiscoveryFit(e, rec) {
      var i :| 0 <= i < |all| && all[i] == rec;
    }
  }

  /** With room for all of them, every song played fewer than twice is
      offered. */
  lemma DiscoveryComplete(e: Engine, count: nat, i: nat)
    requires count >= |e.songs| && i < |e.songs|
    requires Plays(e.history, e.songs[i].id) < 2
    ensures exists j | 0 <= j < |GetDiscoveryRecommendations(e, count)| ::
      GetDiscoveryRecommendations(e, count)[j].song == e.songs[i]
  {
    var rare := RareSongs(e);
    assert e.songs[i] in rare;
    var j :| 0 <= j < |rare| && rare[j] == e.songs[i];
    assert GetDiscoveryRecommendations(e, count)[j].song == e.songs[i];
  }
}

=== FILE: settings.dfy ===
/** The app-wide settings: the defaults, the partial updates the settings
    page makes, loading the saved record at start-up, and the theme class
    and colour variables derived from them. */
module Settings {
  import opened Wrappers

  datatype Theme = Dark | Light | System
  datatype BackgroundKind = Solid | Gradient | Blur | Particles
  datatype LayoutStyle = DefaultLayout | Compact | Minimal | Immersive
  datatype ArtSize = Small | Medium | Large
  datatype Quality = Low | MediumQuality | High

  datatype ThemeColors = ThemeColors(primary: string, accent: string, background: string)
  datatype BackgroundStyle = BackgroundStyle(kind: BackgroundKind, intensity: int)
  datatype PlayerLayout = PlayerLayout(
    style: LayoutStyle, showWaveform: bool, showLyrics: bool, albumArtSize: ArtSize)

  datatype AppSettings = AppSettings(
    theme: Theme,
    themeColors: ThemeColors,
    backgroundStyle: BackgroundStyle,
    playerLayout: PlayerLayout,
    audioQuality: Quality,
    autoDownload: bool,
    offlineMode: bool,
    notifications: bool,
    hapticFeedback: bool)

  const DefaultSettings: AppSettings := AppSettings(
    Dark,
    ThemeColors("187 100% 50%", "280 100% 65%", "240 15% 4%"),
    BackgroundStyle(Gradient, 50),
    PlayerLayout(DefaultLayout, true, true, Large),
    High, false, false, true, true)

  // ---------------------------------------------------------------------
  // Partial updates: a `None` field is a key the update leaves out
  // ---------------------------------------------------------------------

  datatype SettingsPatch = SettingsPatch(
    theme: Option<Theme>,
    themeColors: Option<ThemeColors>,
    backgroundStyle: Option<BackgroundStyle>,
    playerLayout: Option<PlayerLayout>,
    audioQuality: Option<Quality>,
    autoDownload: Option<bool>,
    offlineMode: Option<bool>,
    notifications: Option<bool>,
    hapticFeedback: Option<bool>)

  datatype ColorsPatch = ColorsPatch(primary: Option<string>, accent: Option<string>, background: Option<string>)
  datatype BackgroundPatch = BackgroundPatch(kind: Option<BackgroundKind>, intensity: Option<int>)
  datatype LayoutPatch = LayoutPatch(
    style: Option<LayoutStyle>, showWaveform: Option<bool>, showLyrics: Option<bool>,
    albumArtSize: Option<ArtSize>)

  const NoChange: SettingsPatch := SettingsPatch(None, None, None, None, None, None, None, None, None)

  /** The patch that sets every key: what the saved JSON of a settings
      record reads back as. */
  function Full(s: AppSettings): SettingsPatch {
    SettingsPatch(Some(s.theme), Some(s.themeColors), Some(s.backgroundStyle), Some(s.playerLayout),
                  Some(s.audioQuality), Some(s.autoDownload), Some(s.offlineMode),
                  Some(s.notifications), Some(s.hapticFeedback))
  }

  /** `{ ...prev, ...updates }`: a shallow merge, keys of the update win. */
  function Merge(prev: AppSettings, u: SettingsPatch): (r: AppSettings)
    ensures r.theme == u.theme.GetOr(prev.theme)
    ensures r.themeColors == u.themeColors.GetOr(prev.themeColors)
    ensures r.backgroundStyle == u.backgroundStyle.GetOr(prev.backgroundStyle)
    ensures r.playerLayout == u.playerLayout.GetOr(prev.playerLayout)
    ensures r.audioQuality == u.audioQuality.GetOr(prev.audioQuality)
    ensures r.autoDownload == u.autoDownload.GetOr(prev.autoDownload)
    ensures r.offlineMode == u.offlineMode.GetOr(prev.offlineMode)
    ensures r.notifications == u.notifications.GetOr(prev.notifications)
    ensures r.hapticFeedback == u.hapticFeedback.GetOr(prev.hapticFeedback)
  {
    AppSettings(
      u.theme.GetOr(prev.theme),
      u.themeColors.GetOr(prev.themeColors),
      u.backgroundStyle.GetOr(prev.backgroundStyle),
      u.playerLayout.GetOr(prev.playerLayout),
      u.audioQuality.GetOr(prev.audioQuality),
      u.autoDownload.GetOr(prev.autoDownload),
      u.offlineMode.GetOr(prev.offlineMode),
      u.notifications.GetOr(prev.notifications),
      u.hapticFeedback.GetOr(prev.hapticFeedback))
  }

  /** Merge laws: the empty update changes nothing, a full record replaces
      everything, and applying the same update twice is applying it once. */
  lemma MergeLaws(prev: AppSettings, u: SettingsPatch, s: AppSettings)
    ensures Merge(prev, NoChange) == prev
    ensures Merge(prev, Full(s)) == s
    ensures Merge(Merge(prev, u), u) == Merge(prev, u)
  {
  }

  /** `updateSettings`. */
  function UpdateSettings(prev: AppSettings, u: SettingsPatch): (r: AppSettings)
    ensures u.theme.None? ==> r.theme == prev.theme
    ensures u.themeColors.None? ==> r.themeColors == prev.themeColors
    ensures u.backgroundStyle.None? ==> r.backgroundStyle == prev.backgroundStyle
    ensures u.playerLayout.None? ==> r.playerLayout == prev.playerLayout
    ensures u.audioQuality.None? ==> r.audioQuality == prev.audioQuality
    ensures u.autoDownload.None? ==> r.autoDownload == prev.autoDownload
    ensures u.offlineMode.None? ==> r.offlineMode == prev.offlineMode
    ensures u.notifications.None? ==> r.notifications == prev.notifications
    ensures u.hapticFeedback.None? ==> r.hapticFeedback == prev.hapticFeedback
    ensures u.theme.Some? ==> r.theme == u.theme.value
    ensures u.autoDownload.Some? ==> r.autoDownload == u.autoDownload.value
    ensures u.offlineMode.Some? ==> r.offlineMode == u.offlineMode.value
    ensures u.themeColors.Some? ==> r.themeColors == u.themeColors.value
    ensures u.backgroundStyle.Some? ==> r.backgroundStyle == u.backgroundStyle.value
    ensures u.playerLayout.Some? ==> r.playerLayout == u.playerLayout.value
    ensures u.audioQuality.Some? ==> r.audioQuality == u.audioQuality.value
    ensures u.notifications.Some? ==> r.notifications == u.notifications.value
    ensures u.hapticFeedback.Some? ==> r.hapticFeedback == u.hapticFeedback.value
  {
    Merge(prev, u)
  }

  /** `updateThemeColors`: merges into the colours and touches nothing else. */
  function UpdateThemeColors(prev: AppSettings, c: ColorsPatch): (r: AppSettings)
    ensures r == prev.(themeColors := r.themeColors)
    ensures r.themeColors.primary == c.primary.GetOr(prev.themeColors.primary)
    ensures r.themeColors.accent == c.accent.GetOr(prev.themeColors.accent)
    ensures r.themeColors.background == c.background.GetOr(prev.themeColors.background)
  {
    var was := prev.themeColors;
    prev.(themeColors := ThemeColors(c.primary.GetOr(was.primary), c.accent.GetOr(was.accent),
                                     c.background.GetOr(was.background)))
  }

  /** `updateBackgroundStyle`: merges into the background and touches
      nothing else. */
  function UpdateBackgroundStyle(prev: AppSettings, b: BackgroundPatch): (r: AppSettings)
    ensures r == prev.(backgroundStyle := r.backgroundStyle)
    ensures r.backgroundStyle.kind == b.kind.GetOr(prev.backgroundStyle.kind)
    ensures r.backgroundStyle.intensity == b.intensity.GetOr(prev.backgroundStyle.intensity)
  {
    var was := prev.backgroundStyle;
    prev.(backgroundStyle := BackgroundStyle(b.kind.GetOr(was.kind), b.intensity.GetOr(was.intensity)))
  }

  /** `updatePlayerLayout`: merges into the layout and touches nothing else. */
  function UpdatePlayerLayout(prev: AppSettings, l: LayoutPatch): (r: AppSettings)
    ensures r == prev.(playerLayout := r.playerLayout)
    ensures r.playerLayout.style == l.style.GetOr(prev.playerLayout.style)
    ensures r.playerLayout.showWaveform == l.showWaveform.GetOr(prev.playerLayout.showWaveform)
    ensures r.playerLayout.showLyrics == l.showLyrics.GetOr(prev.playerLayout.showLyrics)
    ensures r.playerLayout.albumArtSize == l.albumArtSize.GetOr(prev.playerLayout.albumArtSize)
  {
    var was := prev.playerLayout;
    prev.(playerLayout := PlayerLayout(l.style.GetOr(was.style), l.showWaveform.GetOr(was.showWaveform),
                                       l.showLyrics.GetOr(was.showLyrics),
                                       l.albumArtSize.GetOr(was.albumArtSize)))
  }

  /** The three sub-record updates commute: they write disjoint parts. */
  lemma SubUpdatesCommute(s: AppSettings, c: ColorsPatch, b: BackgroundPatch, l: LayoutPatch)
    ensures UpdateBackgroundStyle(UpdateThemeColors(s, c), b) == UpdateThemeColors(UpdateBackgroundStyle(s, b), c)
    ensures UpdatePlayerLayout(UpdateThemeColors(s, c), l) == UpdateThemeColors(UpdatePlayerLayout(s, l), c)
    ensures UpdatePlayerLayout(UpdateBackgroundStyle(s, b), l) == UpdateBackgroundStyle(UpdatePlayerLayout(s, l), b)
  {
  }

  // ---------------------------------------------------------------------
  // Saved record
  // ---------------------------------------------------------------------

  /** The settings at start-up. `stored` is what local storage holds under
      the settings key; `parse` stands for `JSON.parse`, `None` when it
      throws. A non-empty saved record is merged over the defaults at the
      top level only. */
  function Load(stored: Option<string>, parse: string -> Option<SettingsPatch>): (r: AppSettings)
    ensures (stored.None? || stored.value == "") ==> r == DefaultSettings
    ensures stored.Some? && stored.value != "" && parse(stored.value).None? ==> r == DefaultSettings
    ensures stored.Some? && stored.value != "" && parse(stored.value).Some? ==> (
      var u := parse(stored.value).value;
      && (u.theme.Some? ==> r.theme == u.theme.value)
      && (u.theme.None? ==> r.theme == DefaultSettings.theme)
      && (u.themeColors.Some? ==> r.themeColors == u.themeColors.value)
      && (u.themeColors.None? ==> r.themeColors == DefaultSettings.themeColors)
      && (u.backgroundStyle.Some? ==> r.backgroundStyle == u.backgroundStyle.value)
      && (u.backgroundStyle.None? ==> r.backgroundStyle == DefaultSettings.backgroundStyle)
      && (u.playerLayout.Some? ==> r.playerLayout == u.playerLayout.value)
      && (u.playerLayout.None? ==> r.playerLayout == DefaultSettings.playerLayout)
      && (u.audioQuality.Some? ==> r.audioQuality == u.audioQuality.value)
      && (u.audioQuality.None? ==> r.audioQuality == DefaultSettings.audioQuality)
      && (u.autoDownload.Some? ==> r.autoDownload == u.autoDownload.value)
      && (u.autoDownload.None? ==> r.autoDownload == DefaultSettings.autoDownload)
      && (u.offlineMode.Some? ==> r.offlineMode == u.offlineMode.value)
      && (u.offlineMode.None? ==> r.offlineMode == DefaultSettings.offlineMode)
      && (u.notifications.Some? ==> r.notifications == u.notifications.value)
      && (u.notifications.None? ==> r.notifications == DefaultSettings.notifications)
      && (u.hapticFeedback.Some? ==> r.hapticFeedback == u.hapticFeedback.value)
      && (u.hapticFeedback.None? ==> r.hapticFeedback == DefaultSettings.hapticFeedback))
  {
    if stored.Some? && stored.value != "" then
      match parse(stored.value)
      case Some(u) => Merge(DefaultSettings, u)
      case None => DefaultSettings
    else DefaultSettings
  }

  /** Whatever was saved as a whole record is what the next start-up loads,
      provided the parser reads the saved text back. */
  lemma SavedSettingsReload(s: AppSettings, text: string, parse: string -> Option<SettingsPatch>)
    requires text != ""
    requires parse(text) == Some(Full(s))
    ensures Load(Some(text), parse) == s
  {
    MergeLaws(DefaultSettings, NoChange, s);
  }

  /** `resetSettings`: back to the defaults, and the saved record is
      removed. */
  function Reset(s: AppSettings): (r: (AppSettings, Option<string>))
    ensures r.0 == DefaultSettings
    ensures r.1.None?
  {
    (DefaultSettings, None)
  }

  /** After a reset the next start-up, with nothing saved, loads the same
      defaults. */
  lemma ResetSurvivesReload(s: AppSettings, parse: string -> Option<SettingsPatch>)
    ensures Load(Reset(s).1, parse) == Reset(s).0
    ensures Reset(s).0.theme == Dark
    ensures Reset(s).0.backgroundStyle == BackgroundStyle(Gradient, 50)
    ensures Reset(s).0.audioQuality == High
    ensures !Reset(s).0.autoDownload && !Reset(s).0.offlineMode
  {
  }

  // ---------------------------------------------------------------------
  // Effects on the document
  // ---------------------------------------------------------------------

  datatype ThemeClass = LightClass | DarkClass

  /** The class put on the document root: the theme itself, or for
      "system" whatever the colour-scheme media query prefers. */
  function ThemeClassOf(theme: Theme, prefersDark: bool): (r: ThemeClass)
    ensures theme == Dark ==> r == DarkClass
    ensures theme == Light ==> r == LightClass
    ensures theme == System ==> (r == DarkClass <==> prefersDark)
  {
    match theme
    case Dark => DarkClass
    case Light => LightClass
    case System => if prefersDark then DarkClass else LightClass
  }

  /** Only the "system" theme depends on the media query. */
  lemma OnlySystemFollowsMediaQuery(theme: Theme)
    ensures theme != System <==> ThemeClassOf(theme, true) == ThemeClassOf(theme, false)
  {
  }

  /** The CSS variables set from the theme colours, in the order they are
      set, as name and value. */
  function CssVariables(c: ThemeColors): (r: seq<(string, string)>)
    ensures |r| == 9
    ensures forall i | 0 <= i < |r| :: r[i].1 == c.primary || r[i].1 == c.accent
    ensures ("--primary", c.primary) in r && ("--accent", c.accent) in r
  {
    var r := [
      ("--primary", c.primary),
      ("--accent", c.accent),
      ("--glow-primary", c.primary),
      ("--glow-accent", c.accent),
      ("--gradient-start", c.primary),
      ("--gradient-end", c.accent),
      ("--ring", c.primary),
      ("--sidebar-primary", c.primary),
      ("--sidebar-ring", c.primary)];
    assert r[0] == ("--primary", c.primary) && r[1] == ("--accent", c.accent);
    r
  }

  /** The background colour of the theme is stored but never applied: the
      variables do not depend on it. */
  lemma BackgroundColorIsNotApplied(c: ThemeColors, background: string)
    ensures CssVariables(c.(background := background)) == CssVariables(c)
  {
  }
}

=== FILE: sleep_timer.dfy ===
/** The sleep timer: a once-a-second countdown that pauses playback when it
    runs out, with pause, resume and cancel. */
module SleepTimer {
  import opened Wrappers
  import opened Text
  import Player

  /** The preset durations offered, in minutes. */
  const PresetMinutes: seq<nat> := [5, 15, 30, 45, 60, 120]

  datatype Timer = Timer(selected: Option<nat>, remaining: int, active: bool, paused: bool)

  const Idle: Timer := Timer(None, 0, false, false)

  /** The count never goes below zero. */
  predicate Valid(t: Timer) {
    t.remaining >= 0
  }

  /** The one-second interval runs only while this holds. */
  predicate Ticking(t: Timer) {
    t.active && !t.paused && t.remaining > 0
  }

  /** Choosing a duration starts a fresh, unpaused countdown of that many
      minutes. */
  function Start(t: Timer, minutes: nat): (r: Timer)
    ensures Valid(r)
    ensures r.remaining == 60 * minutes && r.selected == Some(minutes)
    ensures r.active && !r.paused
    ensures minutes > 0 ==> Ticking(r)
  {
    Timer(Some(minutes), minutes * 60, true, false)
  }

  /** One second of the interval. The last second sets the count to zero,
      ends the timer, clears the selection and pauses the player; any other
      second takes one off the count. Without a running interval nothing
      happens. */
  function Tick(t: Timer, p: Player.PlayerState): (r: (Timer, Player.PlayerState))
    requires Valid(t)
    ensures Valid(r.0)
    ensures !Ticking(t) ==> r == (t, p)
    ensures Ticking(t) && t.remaining > 1 ==> r == (t.(remaining := t.remaining - 1), p)
    ensures Ticking(t) && t.remaining <= 1 ==> (
      && r.0.remaining == 0 && !r.0.active && r.0.selected.None?
      && r.1 == Player.PauseSong(p))
  {
    if !Ticking(t) then (t, p)
    else if t.remaining <= 1 then
      (t.(remaining := 0, active := false, selected := None), Player.PauseSong(p))
    else (t.(remaining := t.remaining - 1), p)
  }

  /** `n` seconds of the interval. */
  function Ticks(t: Timer, p: Player.PlayerState, n: nat): (r: (Timer, Player.PlayerState))
    requires Valid(t)
    ensures Valid(r.0)
    decreases n
  {
    if n == 0 then (t, p)
    else
      var s := Tick(t, p);
      Ticks(s.0, s.1, n - 1)
  }

  /** Before the count reaches its last second, each second only counts
      down: the player is left alone. */
  lemma {:induction false} CountsDown(t: Timer, p: Player.PlayerState, n: nat)
    requires Valid(t) && Ticking(t) && n < t.remaining
    ensures Ticks(t, p, n) == (t.(remaining := t.remaining - n), p)
    decreases n
  {
    if n > 0 {
      CountsDown(t.(remaining := t.remaining - 1), p, n - 1);
    }
  }

  /** A timer started for `m` minutes, left unpaused, pauses playback after
      exactly 60·m seconds, and not a second earlier. */
  lemma {:induction false} PausesAfterExactly(t: Timer, p: Player.PlayerState, minutes: nat)
    requires minutes > 0
    requires p.isPlaying
    ensures var s := Start(t, minutes);
            Ticks(s, p, 60 * minutes - 1).1 == p
    ensures var s := Start(t, minutes);
            var e := Ticks(s, p, 60 * minutes);
            !e.1.isPlaying && !e.0.active && e.0.remaining == 0 && e.0.selected.None?
  {
    var s := Start(t, minutes);
    var k := 60 * minutes - 1;
    CountsDown(s, p, k);
    var last := s.(remaining := 1);
    assert Ticks(s, p, k) == (last, p);
    TicksSplit(s, p, k);
  }

  /** Running `n + 1` seconds is running `n` and then one more. */
  lemma {:induction false} TicksSplit(t: Timer, p: Player.PlayerState, n: nat)
    requires Valid(t)
    ensures var s := Ticks(t, p, n);
            Ticks(t, p, n + 1) == Tick(s.0, s.1)
    decreases n
  {
    if n > 0 {
      var s := Tick(t, p);
      TicksSplit(s.0, s.1, n - 1);
    }
  }

  /** While paused the clock stands still, whatever the number of seconds. */
  lemma {:induction false} PausedTimerStandsStill(t: Timer, p: Player.PlayerState, n: nat)
    requires Valid(t) && t.paused
    ensures Ticks(t, p, n) == (t, p)
  {
    if n > 0 {
      PausedTimerStandsStill(t, p, n - 1);
    }
  }

  /** Cancelling returns to the idle timer. */
  function Cancel(t: Timer): (r: Timer)
    ensures Valid(r) && !Ticking(r)
    ensures !r.active && r.remaining == 0 && !r.paused && r.selected.None?
  {
    Idle
  }

  /** Pause/resume flips only the paused flag. */
  function TogglePause(t: Timer): (r: Timer)
    ensures r.paused != t.paused
    ensures r.(paused := t.paused) == t
  {
    t.(paused := !t.paused)
  }

  /** Toggling twice gives back the same timer, and a paused timer that is
      resumed ticks again if it has time left. */
  lemma ToggleTwiceIsIdentity(t: Timer)
    ensures TogglePause(TogglePause(t)) == t
    ensures t.paused && t.active && t.remaining > 0 ==> Ticking(TogglePause(t))
  {
  }

  /** The remaining-time label (`h:mm:ss` from an hour up, `m:ss` below). */
  function Label(t: Timer): (r: string)
    requires Valid(t)
    ensures ParseClock(r) == Some(t.remaining)
  {
    FormatClockRoundTrip(t.remaining);
    FormatClock(t.remaining)
  }
}

=== FILE: sound_controller.dfy ===
/** The sound controller: the bridge from the player state to the one audio
    element. It picks an audio source when the song changes, maps the volume,
    mirrors the element's clock into `progress`, and moves on (recording
    history) when a track ends. The database, the edge-function call and
    the element's `play()` outcome are parameters. */
module SoundController {

  import opened Wrappers
  import opened Text
  import opened Music
  import Player
  import YouTubeApi
  import StreamingClient
  import LocalDb

  // ---------------------------------------------------------------------------
  // Choosing the audio source

  /** The video id the controller streams: the song's `youtubeId` when it is
      non-empty, else the id with its "yt-" prefix dropped, else whatever
      `youtubeId` held. */
  function DerivedVideoId(song: Song): (r: Option<string>)
    ensures Truthy(song.youtubeId) ==> r == song.youtubeId
    ensures (!Truthy(song.youtubeId) && YouTubeApi.YtPrefix <= song.id) ==>
      r.Some? && YouTubeApi.YtSongId(r.value) == song.id
    ensures (!Truthy(song.youtubeId) && !(YouTubeApi.YtPrefix <= song.id)) ==> !Truthy(r)
  {
    if Truthy(song.youtubeId) then song.youtubeId
    else if YouTubeApi.YtPrefix <= song.id then Some(song.id[|YouTubeApi.YtPrefix|..])
    else song.youtubeId
  }

  /** Songs built from search results keep their video recoverable, even
      once their `youtubeId` is lost. */
  lemma DerivedIdOfSearchResult(res: YouTubeApi.SearchResult)
    ensures DerivedVideoId(YouTubeApi.ConvertToSong(res)) == Some(res.videoId)
    ensures DerivedVideoId(YouTubeApi.ConvertToSong(res).(youtubeId := None)) == Some(res.videoId)
  {
    var s := YouTubeApi.ConvertToSong(res);
    if !Truthy(s.youtubeId) {
      YouTubeApi.YtSongIdInjective(DerivedVideoId(s).value, res.videoId);
    }
    YouTubeApi.YtSongIdInjective(DerivedVideoId(s.(youtubeId := None)).value, res.videoId);
  }

  /** The same holds for songs built from stream info. */
  lemma DerivedIdOfStreamedSong(info: StreamingClient.StreamInfo)
    ensures DerivedVideoId(StreamingClient.SongFromStream(info)) == Some(info.videoId)
    ensures DerivedVideoId(StreamingClient.SongFromStream(info).(youtubeId := None)) == Some(info.videoId)
  {
    var s := StreamingClient.SongFromStream(info);
    if !Truthy(s.youtubeId) {
      YouTubeApi.YtSongIdInjective(DerivedVideoId(s).value, info.videoId);
    }
    YouTubeApi.YtSongIdInjective(DerivedVideoId(s.(youtubeId := None)).value, info.videoId);
  }

  /** Where the element's `src` comes from. */
  datatype AudioSource = OfflineBlob(blob: Blob) | Remote(url: string) | NoSource

  /** The blob the local database holds for a song, if the lookup succeeds. */
  function StoredBlob(db: LocalDb.Db, dbFails: bool, id: string): (r: Option<Blob>)
    ensures r.Some? <==> (!dbFails && LocalDb.GetSongData(db, id).Some? && LocalDb.GetSongData(db, id).value.blob.Some?)
  {
    if dbFails then None
    else match LocalDb.GetSongData(db, id)
      case None => None
      case Some(rec) => rec.blob
  }

  /** The `src` chosen by `loadSong`: the stored blob of a song marked
      downloaded; otherwise its non-empty `streamUrl`; otherwise the audio
      URL the edge function gives for its derived video id. `fetch(id)` is
      that answer's `audioUrl` (`None` when the call failed). */
  function LoadSource(song: Song, db: LocalDb.Db, dbFails: bool, fetch: string -> Option<string>): (r: AudioSource)
    ensures r.OfflineBlob? <==> song.isDownloaded && StoredBlob(db, dbFails, song.id).Some?
    ensures r.OfflineBlob? ==> Some(r.blob) == StoredBlob(db, dbFails, song.id)
    ensures (!r.OfflineBlob? && Truthy(song.streamUrl)) ==> r == Remote(song.streamUrl.value)
    ensures (!r.OfflineBlob? && !Truthy(song.streamUrl)) ==>
      (r.Remote? <==> Truthy(DerivedVideoId(song)) && Truthy(fetch(DerivedVideoId(song).value)))
    ensures (!r.OfflineBlob? && !Truthy(song.streamUrl) && r.Remote?) ==>
      r.url == fetch(DerivedVideoId(song).value).value
    ensures r.Remote? ==> r.url != ""
  {
    var offline := if song.isDownloaded then StoredBlob(db, dbFails, song.id) else None;
    if offline.Some? then OfflineBlob(offline.value)
    else if Truthy(song.streamUrl) then Remote(song.streamUrl.value)
    else
      var videoId := DerivedVideoId(song);
      if Truthy(videoId) && Truthy(fetch(videoId.value)) then Remote(fetch(videoId.value).value)
      else NoSource
  }

  /** A song saved with its audio plays from the database, whatever the
      network would say. */
  lemma SavedAudioPlaysOffline(db: LocalDb.Db, song: Song, blob: Blob, now: int, fetch: string -> Option<string>)
    requires LocalDb.Valid(db) && song.isDownloaded
    ensures LoadSource(song, LocalDb.SaveSongData(db, song, Some(blob), now), false, fetch) == OfflineBlob(blob)
  {
  }

  /** A song with a stream URL and no stored audio never needs the edge
      function: any two answers give the same source. */
  lemma StreamUrlNeedsNoFetch(song: Song, db: LocalDb.Db, dbFails: bool, f: string -> Option<string>, g: string -> Option<string>)
    requires Truthy(song.streamUrl)
    ensures LoadSource(song, db, dbFails, f) == LoadSource(song, db, dbFails, g)
  {
  }

  /** What the song-change effect leaves behind: the player state and the
      element's new source (`None` when nothing was loaded at all). */
  datatype Loaded = Loaded(player: Player.PlayerState, source: Option<AudioSource>)

  /** `loadSong`: with a source the element starts (when the player is
      playing), and a rejected `play()` pauses the player; without one a
      playing player is paused. `playRejected` is that promise's outcome. */
  function LoadSong(st: Player.PlayerState, db: LocalDb.Db, dbFails: bool, fetch: string -> Option<string>,
                    playRejected: bool): (r: Loaded)
    ensures st.currentSong.None? ==> r == Loaded(st, None)
    ensures st.currentSong.Some? ==> r.source == Some(LoadSource(st.currentSong.value, db, dbFails, fetch))
    ensures r.player == st || r.player == Player.PauseSong(st)
    ensures st.currentSong.Some? && r.player.isPlaying ==> r.source.Some? && !r.source.value.NoSource? && !playRejected
  {
    if st.currentSong.None? then Loaded(st, None)
    else
      var src := LoadSource(st.currentSong.value, db, dbFails, fetch);
      if st.isPlaying && (src.NoSource? || playRejected) then Loaded(Player.PauseSong(st), Some(src))
      else Loaded(st, Some(src))
  }

  /** The play/pause effect: a rejected `play()` pauses the player, for a
      blocked autoplay as for any other failure. */
  function SyncPlaying(st: Player.PlayerState, playRejected: bool): (r: Player.PlayerState)
    ensures r.isPlaying <==> st.isPlaying && !playRejected
    ensures r == st || r == Player.PauseSong(st)
  {
    if st.isPlaying && playRejected then Player.PauseSong(st) else st
  }

  /** The element's `error` listener: whatever went wrong with the source,
      the player is paused and nothing else changes. */
  function OnError(st: Player.PlayerState): (r: Player.PlayerState)
    ensures !r.isPlaying
    ensures r == st.(isPlaying := false)
  {
    Player.PauseSong(st)
  }

  /** After an error the play/pause effect makes no `play()` call that could
      change the state, and a second error changes nothing more. */
  lemma ErrorLeavesPlayerPaused(st: Player.PlayerState, playRejected: bool)
    ensures SyncPlaying(OnError(st), playRejected) == OnError(st)
    ensures OnError(OnError(st)) == OnError(st)
  {
  }

  // ---------------------------------------------------------------------------
  // Volume

  /** The element's volume: the player's 0..100 scale divided by 100. */
  function ElementVolume(volume: real): (v: real)
    ensures 0.0 <= volume <= 100.0 ==> 0.0 <= v <= 1.0
    ensures v * 100.0 == volume
  {
    volume / 100.0
  }

  // ---------------------------------------------------------------------------
  // Progress mirroring

  /** The time-update handler as written. It is registered once, at mount,
      so it compares the element's time with `mountProgress`, the `progress`
      of the first render, rather than the current one; it stores the time
      when the two are more than a second apart. */
  function TimeUpdateAsWritten(st: Player.PlayerState, mountProgress: real, currentTime: real, seeking: bool): (r: Player.PlayerState)
    ensures (!seeking && Distance(currentTime, mountProgress) > 1.0) ==> r == Player.SetProgress(st, currentTime)
    ensures (seeking || Distance(currentTime, mountProgress) <= 1.0) ==> r == st
  {
    if !seeking && Distance(currentTime, mountProgress) > 1.0 then Player.SetProgress(st, currentTime)
    else st
  }

  /** Absolute difference of two reals. */
  function Distance(a: real, b: real): (d: real)
    ensures d >= 0.0 && (d == a - b || d == b - a)
  {
    if a >= b then a - b else b - a
  }

  /** The evidently intended handler: compare with the current `progress`,
      so the displayed time never drifts more than a second from the
      element's. */
  function TimeUpdate(st: Player.PlayerState, currentTime: real, seeking: bool): (r: Player.PlayerState)
    ensures !seeking ==> Distance(r.progress, currentTime) <= 1.0
    ensures Distance(st.progress, currentTime) <= 1.0 || seeking ==> r == st
    ensures r == st || r == Player.SetProgress(st, currentTime)
  {
    if !seeking && Distance(currentTime, st.progress) > 1.0 then Player.SetProgress(st, currentTime)
    else st
  }

  /** A displayed time far from an element near the start stays wrong as
      written: progress 100 with the element at half a second. */
  lemma StaleProgressIsNotCorrected(st: Player.PlayerState, demoSongs: seq<Song>)
    requires st.progress == 100.0
    ensures TimeUpdateAsWritten(st, Player.Initial(demoSongs).progress, 0.5, false).progress == 100.0
    ensures TimeUpdate(st, 0.5, false).progress == 0.5
  {
  }

  // ---------------------------------------------------------------------------
  // End of track

  /** The ended handler as written. It is registered once, at mount, so the
      song it records is `mountSong`, the `currentSong` of the first render;
      the player still moves on through the provider's own state. */
  function OnEndedAsWritten(st: Player.PlayerState, mountSong: Option<Song>, db: LocalDb.Db, r: real, now: int): (out: (Player.PlayerState, LocalDb.Db))
    requires 0.0 <= r < 1.0
    ensures out.0 == Player.NextSong(st, r)
    ensures mountSong.Some? ==> out.1.history == db.history + [LocalDb.HistoryRecord(mountSong.value, now)]
    ensures mountSong.None? ==> out.1 == db
  {
    var db' := if mountSong.Some? then LocalDb.SaveHistory(db, mountSong.value, now) else db;
    (Player.NextSong(st, r), db')
  }

  /** The evidently intended handler: record the song that just ended, then
      move on. */
  function OnEnded(st: Player.PlayerState, db: LocalDb.Db, r: real, now: int): (out: (Player.PlayerState, LocalDb.Db))
    requires 0.0 <= r < 1.0
    ensures out.0 == Player.NextSong(st, r)
    ensures st.currentSong.Some? ==> out.1.history == db.history + [LocalDb.HistoryRecord(st.currentSong.value, now)]
    ensures st.currentSong.None? ==> out.1 == db
    ensures out.1.songs == db.songs && out.1.favorites == db.favorites
  {
    var db' := if st.currentSong.Some? then LocalDb.SaveHistory(db, st.currentSong.value, now) else db;
    (Player.NextSong(st, r), db')
  }

  /** The handler is mounted while the provider's first state plays nothing,
      so as written no finished song ever reaches the history; the intended
      handler records it. */
  lemma EndedSongIsNotRecorded(st: Player.PlayerState, demoSongs: seq<Song>, db: LocalDb.Db, r: real, now: int)
    requires 0.0 <= r < 1.0 && st.currentSong.Some?
    ensures OnEndedAsWritten(st, Player.Initial(demoSongs).currentSong, db, r, now).1 == db
    ensures |OnEnded(st, db, r, now).1.history| == |db.history| + 1
    ensures OnEnded(st, db, r, now).1.history[|db.history|].song == st.currentSong.value
  {
  }
}

=== FILE: stream_resolver.dfy ===
/** The `youtube-audio` edge function: video metadata from oEmbed with a
    fallback that never fails, an ordered search over Invidious and then
    Piped mirrors for an audio stream, and the request handler. Every
    network answer is an input: the oEmbed outcome, and for each mirror host
    what it answered. */
module StreamResolver {

  import opened Wrappers
  import opened Text
  import opened Lists
  import VideoId

  // ---------------------------------------------------------------------------
  // Video metadata

  datatype VideoInfo = VideoInfo(
    videoId: string,
    title: string,
    author: string,
    thumbnail: string,
    duration: nat)

  /** What the oEmbed endpoint gave: an error (non-2xx status, network or
      JSON failure) or a body with possibly missing title and author. */
  datatype OEmbed = OEmbedFailed | OEmbedOk(title: Option<string>, authorName: Option<string>)

  const ThumbnailPrefix := "https://img.youtube.com/vi/"
  const MaxResSuffix := "/maxresdefault.jpg"
  const HqSuffix := "/hqdefault.jpg"

  /** `getVideoInfo`: on success the reported title and author, defaulted
      when missing or empty, and the max-resolution thumbnail; on any error
      a fixed placeholder with the high-quality thumbnail. It never fails
      and never knows the duration. */
  function GetVideoInfo(videoId: string, answer: OEmbed): (r: VideoInfo)
    ensures r.videoId == videoId && r.duration == 0 && r.author != ""
    ensures answer.OEmbedFailed? ==>
      r.title == "YouTube Video" && r.author == "Unknown Artist" &&
      r.thumbnail == ThumbnailPrefix + videoId + HqSuffix
    ensures answer.OEmbedOk? ==>
      r.thumbnail == ThumbnailPrefix + videoId + MaxResSuffix &&
      (Truthy(answer.title) ==> r.title == answer.title.value) &&
      (!Truthy(answer.title) ==> r.title == "Unknown Title") &&
      (Truthy(answer.authorName) ==> r.author == answer.authorName.value) &&
      (!Truthy(answer.authorName) ==> r.author == "Unknown Artist")
  {
    match answer
    case OEmbedFailed =>
      VideoInfo(videoId, "YouTube Video", "Unknown Artist", ThumbnailPrefix + videoId + HqSuffix, 0)
    case OEmbedOk(title, authorName) =>
      VideoInfo(videoId, OrElse(title, "Unknown Title"), OrElse(authorName, "Unknown Artist"),
                ThumbnailPrefix + videoId + MaxResSuffix, 0)
  }

  /** The thumbnail URL names the video: cutting the fixed prefix and the
      suffix of either kind gives the id back. */
  lemma ThumbnailNamesVideo(videoId: string, answer: OEmbed)
    ensures var t := GetVideoInfo(videoId, answer).thumbnail;
      var suffix := if answer.OEmbedFailed? then HqSuffix else MaxResSuffix;
      |t| == |ThumbnailPrefix| + |videoId| + |suffix| &&
      t[|ThumbnailPrefix|..|t| - |suffix|] == videoId
  {
    var t := GetVideoInfo(videoId, answer).thumbnail;
    var suffix := if answer.OEmbedFailed? then HqSuffix else MaxResSuffix;
    assert t == ThumbnailPrefix + videoId + suffix;
    assert t[|ThumbnailPrefix|..|t| - |suffix|] == videoId;
  }

  // ---------------------------------------------------------------------------
  // Stream formats

  /** One entry of a mirror's format list; every field may be missing. */
  datatype Format = Format(
    kind: Option<string>,
    mimeType: Option<string>,
    bitrate: Option<int>,
    url: Option<string>,
    container: Option<string>)

  /** `s?.includes(sub)` on an optional field: false when missing. */
  predicate Mentions(field: Option<string>, sub: string) {
    field.Some? && Contains(field.value, sub)
  }

  /** An adaptive format whose type or MIME type mentions audio. */
  predicate IsAudioFormat(f: Format) {
    Mentions(f.kind, "audio") || Mentions(f.mimeType, "audio")
  }

  /** A muxed stream acceptable as a fallback: its type mentions audio or
      its container is exactly mp4 (the MIME type is not consulted here). */
  predicate IsAudioStream(f: Format) {
    Mentions(f.kind, "audio") || f.container == Some("mp4")
  }

  /** `(f.bitrate || 0)`: a missing bitrate sorts as 0. */
  function BitrateKey(f: Format): real {
    if f.bitrate.Some? then f.bitrate.value as real else 0.0
  }

  /** The first of a list sorted by descending bitrate. */
  function BestByBitrate(fs: seq<Format>): (best: Format)
    requires |fs| > 0
    ensures best in fs
    ensures forall i | 0 <= i < |fs| :: BitrateKey(fs[i]) <= BitrateKey(best)
  {
    var sorted := SortDesc(fs, BitrateKey);
    assert sorted[0] in multiset(fs);
    assert forall i | 0 <= i < |fs| :: BitrateKey(fs[i]) <= BitrateKey(sorted[0]) by {
      forall i | 0 <= i < |fs| ensures BitrateKey(fs[i]) <= BitrateKey(sorted[0]) {
        assert fs[i] in multiset(sorted);
        var j :| 0 <= j < |sorted| && sorted[j] == fs[i];
      }
    }
    sorted[0]
  }

  /** The index of the first element satisfying `p`, if any
      (`Array.prototype.find`). */
  function FindFirst(fs: seq<Format>, p: Format -> bool): (r: Option<nat>)
    ensures r.Some? ==> r.value < |fs| && p(fs[r.value])
    ensures r.Some? ==> forall j | 0 <= j < r.value :: !p(fs[j])
    ensures r.None? ==> forall j | 0 <= j < |fs| :: !p(fs[j])
  {
    if |fs| == 0 then None
    else if p(fs[0]) then Some(0)
    else match FindFirst(fs[1..], p)
      case None => None
      case Some(k) => Some(k + 1)
  }

  // ---------------------------------------------------------------------------
  // Mirror answers

  /** What one mirror answered: nothing usable (network error, timeout,
      non-2xx status) or a body. Missing lists are `None`. */
  datatype Answer<T> = Unreachable | NotOk | Body(data: T)

  datatype InvidiousData = InvidiousData(adaptiveFormats: Option<seq<Format>>, formatStreams: Option<seq<Format>>)
  datatype PipedData = PipedData(audioStreams: Option<seq<Format>>)

  /** What the search does after one mirror: go on to the next one, or stop
      and return the given URL, which may itself be missing when the chosen
      format carries none. */
  datatype Step = Continue | Stop(url: Option<string>)

  const InvidiousHosts := [
    "https://inv.tux.pizza",
    "https://invidious.flokinet.to",
    "https://invidious.projectsegfau.lt",
    "https://vid.puffyan.us",
    "https://invidious.kavin.rocks",
    "https://yewtu.be"]

  const PipedHosts := [
    "https://pipedapi.kavin.rocks",
    "https://api.piped.yt",
    "https://pa.il.ax",
    "https://pipedapi.moomoo.me"]

  /** The answer lists some adaptive format with audio. */
  predicate HasAudioFormat(d: InvidiousData) {
    d.adaptiveFormats.Some? &&
    exists i | 0 <= i < |d.adaptiveFormats.value| :: IsAudioFormat(d.adaptiveFormats.value[i])
  }

  /** Muxed stream `i` is the first with audio or an mp4 container. */
  predicate FirstAudioStreamAt(d: InvidiousData, i: nat) {
    d.formatStreams.Some? && i < |d.formatStreams.value| && IsAudioStream(d.formatStreams.value[i]) &&
    forall j | 0 <= j < i :: !IsAudioStream(d.formatStreams.value[j])
  }

  /** One Invidious answer: the highest-bitrate audio-only format if there
      is any (its URL returned even when missing), else the first muxed
      stream with audio or an mp4 container, used only when it has a URL. */
  function InvidiousStep(a: Answer<InvidiousData>): (r: Step)
    ensures !a.Body? ==> r == Continue
    ensures a.Body? && HasAudioFormat(a.data) ==>
      r.Stop? &&
      exists f | f in a.data.adaptiveFormats.value :: IsAudioFormat(f) && r.url == f.url &&
        forall g | g in a.data.adaptiveFormats.value && IsAudioFormat(g) :: BitrateKey(g) <= BitrateKey(f)
    ensures a.Body? && !HasAudioFormat(a.data) ==> r == MuxedFallback(a.data)
  {
    match a
    case Unreachable => Continue
    case NotOk => Continue
    case Body(data) =>
      var audio := if data.adaptiveFormats.Some? then Filter(data.adaptiveFormats.value, IsAudioFormat) else [];
      if |audio| > 0 then
        var best := BestByBitrate(audio);
        assert forall g | g in data.adaptiveFormats.value && IsAudioFormat(g) :: g in audio;
        Stop(best.url)
      else
        assert !HasAudioFormat(data);
        MuxedFallback(data)
  }

  /** The muxed-stream fallback: the first stream with audio or an mp4
      container, when it has a URL; otherwise the next mirror. */
  function MuxedFallback(d: InvidiousData): (r: Step)
    ensures r.Stop? ==>
      exists i: nat | FirstAudioStreamAt(d, i) ::
        Truthy(d.formatStreams.value[i].url) && r.url == d.formatStreams.value[i].url
    ensures (exists i: nat | FirstAudioStreamAt(d, i) :: Truthy(d.formatStreams.value[i].url)) ==> r.Stop?
  {
    if d.formatStreams.None? then Continue
    else match FindFirst(d.formatStreams.value, IsAudioStream)
      case None => Continue
      case Some(i) =>
        var f := d.formatStreams.value[i];
        assert FirstAudioStreamAt(d, i);
        assert forall j: nat | FirstAudioStreamAt(d, j) :: j == i;
        if Truthy(f.url) then Stop(f.url) else Continue
  }

  /** Audio-only formats take precedence: while one is listed, the muxed
      streams do not affect the answer; without one, the adaptive list does
      not either. */
  lemma AdaptiveWins(d: InvidiousData, streams: Option<seq<Format>>, adaptive: Option<seq<Format>>)
    ensures HasAudioFormat(d) ==>
      InvidiousStep(Body(d)) == InvidiousStep(Body(d.(formatStreams := streams)))
    ensures !HasAudioFormat(d) && !HasAudioFormat(d.(adaptiveFormats := adaptive)) ==>
      InvidiousStep(Body(d)) == InvidiousStep(Body(d.(adaptiveFormats := adaptive)))
  {
  }

  /** One Piped answer: the highest-bitrate audio stream if there is any. */
  function PipedStep(a: Answer<PipedData>): (r: Step)
    ensures r.Stop? <==> a.Body? && a.data.audioStreams.Some? && |a.data.audioStreams.value| > 0
    ensures r.Stop? ==> exists f | f in a.data.audioStreams.value ::
      (r.url == f.url && forall g | g in a.data.audioStreams.value :: BitrateKey(g) <= BitrateKey(f))
  {
    match a
    case Body(PipedData(Some(streams))) =>
      if |streams| > 0 then
        var best := BestByBitrate(streams);
        Stop(best.url)
      else Continue
    case _ => Continue
  }

  /** The first `Stop` decides; when every mirror says `Continue` the search
      gives nothing. */
  function FirstStop(steps: seq<Step>): (r: Option<string>)
    ensures (forall i | 0 <= i < |steps| :: steps[i].Continue?) ==> r.None?
    ensures forall i | 0 <= i < |steps| && steps[i].Stop? ::
      (forall j | 0 <= j < i :: steps[j].Continue?) ==> r == steps[i].url
  {
    if |steps| == 0 then None
    else if steps[0].Stop? then steps[0].url
    else
      var rest := FirstStop(steps[1..]);
      assert forall i | 1 <= i < |steps| :: steps[i] == steps[1..][i - 1];
      rest
  }

  /** Searching a concatenation: the second list is consulted only when
      every mirror of the first said `Continue`. */
  lemma {:induction false} FirstStopAppend(a: seq<Step>, b: seq<Step>)
    ensures (forall i | 0 <= i < |a| :: a[i].Continue?) ==> FirstStop(a + b) == FirstStop(b)
    ensures (exists i | 0 <= i < |a| :: a[i].Stop?) ==> FirstStop(a + b) == FirstStop(a)
  {
    if |a| > 0 {
      assert (a + b)[0] == a[0];
      assert (a + b)[1..] == a[1..] + b;
      FirstStopAppend(a[1..], b);
      if a[0].Continue? && exists i | 0 <= i < |a| :: a[i].Stop? {
        var i :| 0 <= i < |a| && a[i].Stop?;
        assert a[1..][i - 1].Stop?;
      }
    } else {
      assert a + b == b;
    }
  }

  /** The steps of one host list, in the listed order. */
  function Steps<T>(hosts: seq<string>, answers: string -> Answer<T>, step: Answer<T> -> Step): (r: seq<Step>)
    ensures |r| == |hosts|
    ensures forall i | 0 <= i < |hosts| :: r[i] == step(answers(hosts[i]))
  {
    seq(|hosts|, i requires 0 <= i < |hosts| => step(answers(hosts[i])))
  }

  /** `getAudioStreamUrl`: every Invidious host in order, then every Piped
      host in order, until one yields an answer. */
  function GetAudioStreamUrl(invidious: string -> Answer<InvidiousData>, piped: string -> Answer<PipedData>): (r: Option<string>)
    ensures ((forall i | 0 <= i < |InvidiousHosts| :: InvidiousStep(invidious(InvidiousHosts[i])).Continue?) &&
             (forall i | 0 <= i < |PipedHosts| :: PipedStep(piped(PipedHosts[i])).Continue?)) ==> r.None?
  {
    FirstStop(Steps(InvidiousHosts, invidious, InvidiousStep) + Steps(PipedHosts, piped, PipedStep))
  }

  /** A URL from the first Invidious host that stops the search is the
      answer, whatever the later hosts and all Piped hosts say. */
  lemma InvidiousFirst(invidious: string -> Answer<InvidiousData>, piped: string -> Answer<PipedData>, i: nat)
    requires i < |InvidiousHosts| && InvidiousStep(invidious(InvidiousHosts[i])).Stop?
    requires forall j | 0 <= j < i :: InvidiousStep(invidious(InvidiousHosts[j])).Continue?
    ensures GetAudioStreamUrl(invidious, piped) == InvidiousStep(invidious(InvidiousHosts[i])).url
  {
    var a := Steps(InvidiousHosts, invidious, InvidiousStep);
    var b := Steps(PipedHosts, piped, PipedStep);
    FirstStopAppend(a, b);
    assert a[i].Stop?;
  }

  /** The Piped hosts are consulted only when no Invidious host stopped the
      search, and then the first Piped host that stops decides. */
  lemma PipedOnlyAfterInvidious(invidious: string -> Answer<InvidiousData>, piped: string -> Answer<PipedData>, i: nat)
    requires forall j | 0 <= j < |InvidiousHosts| :: InvidiousStep(invidious(InvidiousHosts[j])).Continue?
    requires i < |PipedHosts| && PipedStep(piped(PipedHosts[i])).Stop?
    requires forall j | 0 <= j < i :: PipedStep(piped(PipedHosts[j])).Continue?
    ensures GetAudioStreamUrl(invidious, piped) == PipedStep(piped(PipedHosts[i])).url
  {
    var a := Steps(InvidiousHosts, invidious, InvidiousStep);
    var b := Steps(PipedHosts, piped, PipedStep);
    FirstStopAppend(a, b);
  }

  // ---------------------------------------------------------------------------
  // Request handler

  /** The JSON body's fields; each may be missing. */
  datatype Request = Request(videoId: Option<string>, url: Option<string>, action: Option<string>)

  datatype Response =
    | Preflight
    | BadRequest(error: string)
    | InfoResponse(info: VideoInfo)
    | StreamResponse(info: VideoInfo, audioUrl: Option<string>, streamAvailable: bool)
    | ServerError(error: string, details: string)

  function Status(r: Response): int {
    match r
    case BadRequest(_) => 400
    case ServerError(_, _) => 500
    case _ => 200
  }

  /** The id the handler works with: `videoId` when truthy, else the id
      parsed from `url` when that is truthy, else none. */
  function ResolveVideoId(req: Request): (r: Option<string>)
    ensures Truthy(req.videoId) ==> r == req.videoId
    ensures !Truthy(req.videoId) && Truthy(req.url) ==> r == VideoId.ExtractVideoId(req.url.value)
    ensures !Truthy(req.videoId) && !Truthy(req.url) ==> !Truthy(r)
  {
    if Truthy(req.url) && !Truthy(req.videoId) then VideoId.ExtractVideoId(req.url.value)
    else req.videoId
  }

  /** The handler. `verb` is the HTTP method; `body` is the parsed JSON or the message of the error
      parsing raised; the oEmbed and mirror answers are inputs. */
  function Handle(verb: string, body: Result<Request, string>, oembed: OEmbed,
                  invidious: string -> Answer<InvidiousData>, piped: string -> Answer<PipedData>): (r: Response)
    ensures verb == "OPTIONS" <==> r == Preflight
    ensures (verb != "OPTIONS" && body.Success? && Truthy(ResolveVideoId(body.value)) &&
             body.value.action != Some("info")) ==> r.StreamResponse?
    ensures verb != "OPTIONS" && body.Failure? ==>
      r == ServerError(body.error, "Failed to process YouTube audio request")
    ensures verb != "OPTIONS" && body.Success? ==>
      (Status(r) == 400 <==> !Truthy(ResolveVideoId(body.value)))
    ensures r.BadRequest? ==> r.error == "Invalid video ID or URL"
    ensures r.InfoResponse? || r.StreamResponse? ==>
      body.Success? && Truthy(ResolveVideoId(body.value)) &&
      r.info == GetVideoInfo(ResolveVideoId(body.value).value, oembed)
    ensures r.InfoResponse? <==>
      (verb != "OPTIONS" && body.Success? &&
       Truthy(ResolveVideoId(body.value)) && body.value.action == Some("info"))
    ensures r.StreamResponse? ==>
      (r.streamAvailable == Truthy(r.audioUrl) && r.audioUrl == GetAudioStreamUrl(invidious, piped))
  {
    if verb == "OPTIONS" then Preflight
    else match body
      case Failure(msg) => ServerError(msg, "Failed to process YouTube audio request")
      case Success(req) =>
        var id := ResolveVideoId(req);
        if !Truthy(id) then BadRequest("Invalid video ID or URL")
        else
          var info := GetVideoInfo(id.value, oembed);
          if req.action == Some("info") then InfoResponse(info)
          else
            var audioUrl := GetAudioStreamUrl(invidious, piped);
            StreamResponse(info, audioUrl, Truthy(audioUrl))
  }

  /** When no mirror yields a stream, a stream request still succeeds with
      status 200, carrying the video's details, no URL and
      `streamAvailable` false. */
  lemma NoMirrorAnswers(verb: string, req: Request, oembed: OEmbed,
                        invidious: string -> Answer<InvidiousData>, piped: string -> Answer<PipedData>)
    requires verb != "OPTIONS" && Truthy(ResolveVideoId(req)) && req.action != Some("info")
    requires forall i | 0 <= i < |InvidiousHosts| :: InvidiousStep(invidious(InvidiousHosts[i])).Continue?
    requires forall i | 0 <= i < |PipedHosts| :: PipedStep(piped(PipedHosts[i])).Continue?
    ensures var r := Handle(verb, Success(req), oembed, invidious, piped);
      Status(r) == 200 &&
      r == StreamResponse(GetVideoInfo(ResolveVideoId(req).value, oembed), None, false)
  {
  }

  /** When the first Invidious host offers an audio URL, a stream request
      returns that URL with `streamAvailable` true, whatever the other hosts
      say. */
  lemma FirstHostAnswers(verb: string, req: Request, oembed: OEmbed,
                         invidious: string -> Answer<InvidiousData>, piped: string -> Answer<PipedData>, u: string)
    requires verb != "OPTIONS" && Truthy(ResolveVideoId(req)) && req.action != Some("info")
    requires InvidiousStep(invidious(InvidiousHosts[0])) == Stop(Some(u)) && u != ""
    ensures Handle(verb, Success(req), oembed, invidious, piped) ==
      StreamResponse(GetVideoInfo(ResolveVideoId(req).value, oembed), Some(u), true)
  {
    InvidiousFirst(invidious, piped, 0);
  }

  /** A truthy `videoId` wins: the `url` field is then never looked at. */
  lemma VideoIdTakesPrecedence(verb: string, req: Request, otherUrl: Option<string>, oembed: OEmbed,
                               invidious: string -> Answer<InvidiousData>, piped: string -> Answer<PipedData>)
    requires Truthy(req.videoId)
    ensures Handle(verb, Success(req), oembed, invidious, piped) ==
            Handle(verb, Success(req.(url := otherUrl)), oembed, invidious, piped)
  {
  }

  /** The "stream" action and any other action that is not "info" answer
      alike. */
  lemma StreamIsDefault(verb: string, req: Request, other: Option<string>, oembed: OEmbed,
                        invidious: string -> Answer<InvidiousData>, piped: string -> Answer<PipedData>)
    requires req.action == Some("stream") && other != Some("info")
    ensures Handle(verb, Success(req), oembed, invidious, piped) ==
            Handle(verb, Success(req.(action := other)), oembed, invidious, piped)
  {
  }

  /** A bare 11-character id sent as `url` resolves to itself. */
  lemma BareUrlResolves(id: string)
    requires VideoId.IsBareId(id)
    ensures ResolveVideoId(Request(None, Some(id), None)) == Some(id)
  {
    VideoId.BareIdRoundTrip(id);
  }
}

=== FILE: streaming_client.dfy ===
/** The client side of streaming (`useYouTubeStreaming`): resolve a video id
    locally, ask the edge function for stream info, and build a song from
    it. The edge-function call is an input: what it answered for an id. */
module StreamingClient {

  import opened Wrappers
  import opened Text
  import opened Music
  import VideoId
  import YouTubeApi

  /** The `data` record of a successful "stream" answer. */
  datatype StreamInfo = StreamInfo(
    videoId: string,
    title: string,
    author: string,
    thumbnail: string,
    duration: nat,
    audioUrl: Option<string>,
    streamAvailable: bool)

  /** What `supabase.functions.invoke` returned: an error object (with an
      optional message), or a body that may be missing or report failure. */
  datatype Invoked =
    | FnError(message: Option<string>)
    | NoBody
    | Body(success: bool, error: Option<string>, data: StreamInfo)

  /** `getStreamInfo`: `Failure` carries the message stored in the hook's
      `error` (the caller then sees `null`). */
  function GetStreamInfo(input: string, invoke: string -> Invoked): (r: Result<StreamInfo, string>)
    ensures VideoId.ExtractVideoId(input).None? ==> r == Failure("Invalid YouTube URL or video ID")
    ensures VideoId.ExtractVideoId(input).Some? ==>
      var answer := invoke(VideoId.ExtractVideoId(input).value);
      (answer.FnError? ==> r == Failure(OrElse(answer.message, "Failed to fetch stream info"))) &&
      (answer.NoBody? ==> r == Failure("Failed to get stream info")) &&
      (answer.Body? && !answer.success ==> r == Failure(OrElse(answer.error, "Failed to get stream info"))) &&
      (answer.Body? && answer.success ==> r == Success(answer.data))
    ensures r.Failure? ==> r.error != ""
  {
    match VideoId.ExtractVideoId(input)
    case None => Failure("Invalid YouTube URL or video ID")
    case Some(videoId) =>
      match invoke(videoId)
      case FnError(message) => Failure(OrElse(message, "Failed to fetch stream info"))
      case NoBody => Failure("Failed to get stream info")
      case Body(success, error, data) =>
        if !success then Failure(OrElse(error, "Failed to get stream info")) else Success(data)
  }

  /** The stream URL a song may carry: only an available, non-empty one. */
  function PlayableUrl(info: StreamInfo): (r: Option<string>)
    ensures r.Some? <==> Truthy(info.audioUrl) && info.streamAvailable
    ensures r.Some? ==> r == info.audioUrl && r.value != ""
  {
    if Truthy(info.audioUrl) && info.streamAvailable then info.audioUrl else None
  }

  /** The song `playYouTubeVideo` builds from stream info. */
  function SongFromStream(info: StreamInfo): (s: Song)
    ensures s.id == YouTubeApi.YtSongId(info.videoId) && s.youtubeId == Some(info.videoId)
    ensures s.title == info.title && s.artist == info.author && s.thumbnail == info.thumbnail
    ensures s.album == "YouTube" && s.source == YouTubeSource && !s.isDownloaded
    ensures s.duration == YouTubeApi.DurationOrDefault(info.duration)
    ensures s.streamUrl == PlayableUrl(info)
  {
    Song(YouTubeApi.YtSongId(info.videoId), info.title, info.author, "YouTube",
         YouTubeApi.DurationOrDefault(info.duration), info.thumbnail, YouTubeSource,
         Some(info.videoId), false, PlayableUrl(info))
  }

  /** `playYouTubeVideo`: a song exactly when stream info was obtained. */
  function PlayYouTubeVideo(input: string, invoke: string -> Invoked): (r: Option<Song>)
    ensures r.None? <==> GetStreamInfo(input, invoke).Failure?
    ensures r.Some? ==> r.value == SongFromStream(GetStreamInfo(input, invoke).value)
  {
    match GetStreamInfo(input, invoke)
    case Failure(_) => None
    case Success(info) => Some(SongFromStream(info))
  }

  /** When the edge function answers with the info of the requested video,
      the song is that video's: id `yt-` + id and the same YouTube id. A
      bare id is passed through unchanged, so it names the song. */
  lemma PlayedSongIsRequestedVideo(id: string, invoke: string -> Invoked)
    requires VideoId.IsBareId(id)
    requires invoke(id).Body? && invoke(id).success && invoke(id).data.videoId == id
    ensures PlayYouTubeVideo(id, invoke).Some?
    ensures PlayYouTubeVideo(id, invoke).value.id == YouTubeApi.YtSongId(id)
    ensures PlayYouTubeVideo(id, invoke).value.youtubeId == Some(id)
  {
    VideoId.BareIdRoundTrip(id);
  }

  /** An input that names no video never reaches the edge function. */
  lemma UnresolvableInputFails(input: string, invoke: string -> Invoked)
    requires VideoId.NoMatchIn(VideoId.FullMarkers, input, 0, |input|) && !VideoId.IsBareId(input)
    ensures PlayYouTubeVideo(input, invoke).None?
    ensures GetStreamInfo(input, invoke) == Failure("Invalid YouTube URL or video ID")
  {
  }
}

=== FILE: text.dfy ===
/** String helpers with the meaning JavaScript gives them in the player:
    `includes`, `startsWith`, `trim`, `toLowerCase`, decimal rendering of a
    number and `padStart(2, "0")`, and the `m:ss` / `h:mm:ss` clock labels
    that the queue, the search page and the sleep timer print. */
module Text {

  import opened Wrappers

  // ---------------------------------------------------------------------
  // Optional strings
  // ---------------------------------------------------------------------

  /** An optional string JavaScript treats as true: present and non-empty. */
  predicate Truthy(o: Option<string>) {
    o.Some? && o.value != ""
  }

  /** `o || fallback` on an optional string. */
  function OrElse(o: Option<string>, fallback: string): (r: string)
    ensures Truthy(o) ==> r == o.value
    ensures !Truthy(o) ==> r == fallback
  {
    if Truthy(o) then o.value else fallback
  }

  // ---------------------------------------------------------------------
  // Substrings
  // ---------------------------------------------------------------------

  /** `s.includes(sub)`. */
  predicate Contains(s: string, sub: string) {
    exists i | 0 <= i <= |s| - |sub| :: sub <= s[i..]
  }

  lemma ContainsPrefix(s: string, sub: string)
    requires sub <= s
    ensures Contains(s, sub)
  {
    assert sub <= s[0..];
  }

  lemma ContainsSuffix(s: string, c: char, sub: string)
    requires Contains(s, sub)
    ensures Contains([c] + s, sub)
  {
    var i :| 0 <= i <= |s| - |sub| && sub <= s[i..];
    assert ([c] + s)[i + 1..] == s[i..];
  }

  /** The position of the first occurrence of `c`, or -1 (`s.indexOf(c)`). */
  function IndexOf(s: string, c: char): (r: int)
    ensures -1 <= r < |s|
    ensures r >= 0 ==> s[r] == c && c !in s[..r]
    ensures r == -1 <==> c !in s
  {
    if |s| == 0 then -1
    else if s[0] == c then 0
    else
      var k := IndexOf(s[1..], c);
      assert s[1..][..k + 1] == s[1..k + 2] || k == -1;
      if k == -1 then -1 else k + 1
  }

  /** `s.split(c)`: the pieces between the occurrences of `c`. */
  function Split(s: string, c: char): (r: seq<string>)
    ensures |r| >= 1
    ensures forall i | 0 <= i < |r| :: c !in r[i]
    decreases |s|
  {
    var k := IndexOf(s, c);
    if k < 0 then [s] else [s[..k]] + Split(s[k + 1..], c)
  }

  /** A text holding `c` splits into the piece before its first `c` and
      the pieces of the rest. */
  lemma {:induction false} SplitAtFirst(s: string, c: char, k: nat)
    requires k == IndexOf(s, c)
    ensures Split(s, c) == [s[..k]] + Split(s[k + 1..], c)
  {
  }

  /** The first `c` of `a + [c] + b` is the one after `a` when `a` has none. */
  lemma {:induction false} IndexOfJoin(a: string, b: string, c: char)
    requires c !in a
    ensures IndexOf(a + [c] + b, c) == |a|
  {
    if |a| > 0 {
      assert (a + [c] + b)[1..] == a[1..] + [c] + b;
      IndexOfJoin(a[1..], b, c);
    }
  }

  lemma SplitJoin(a: string, b: string, c: char)
    requires c !in a
    ensures Split(a + [c] + b, c) == [a] + Split(b, c)
  {
    var s := a + [c] + b;
    IndexOfJoin(a, b, c);
    assert s[..|a|] == a;
    assert s[|a| + 1..] == b;
  }

  lemma SplitNone(a: string, c: char)
    requires c !in a
    ensures Split(a, c) == [a]
  {
  }

  // ---------------------------------------------------------------------
  // Whitespace and case
  // ---------------------------------------------------------------------

  /** The characters `String.prototype.trim` removes: the ECMAScript
      WhiteSpace and LineTerminator code points. */
  predicate IsWhitespace(c: char) {
    || c == '\t' || c == '\n' || c == '\U{000B}' || c == '\U{000C}' || c == '\r'
    || c == ' ' || c == '\U{00A0}' || c == '\U{1680}'
    || ('\U{2000}' <= c <= '\U{200A}')
    || c == '\U{2028}' || c == '\U{2029}' || c == '\U{202F}' || c == '\U{205F}'
    || c == '\U{3000}' || c == '\U{FEFF}'
  }

  function TrimStart(s: string): (r: string)
    ensures |r| <= |s| && r == s[|s| - |r|..]
    ensures |r| > 0 ==> !IsWhitespace(r[0])
    ensures forall i | 0 <= i < |s| - |r| :: IsWhitespace(s[i])
  {
    if |s| > 0 && IsWhitespace(s[0]) then TrimStart(s[1..]) else s
  }

  function TrimEnd(s: string): (r: string)
    ensures |r| <= |s| && r == s[..|r|]
    ensures |r| > 0 ==> !IsWhitespace(r[|r| - 1])
    ensures forall i | |r| <= i < |s| :: IsWhitespace(s[i])
  {
    if |s| > 0 && IsWhitespace(s[|s| - 1]) then TrimEnd(s[..|s| - 1]) else s
  }

  /** `s.trim()`. */
  function Trim(s: string): string {
    TrimEnd(TrimStart(s))
  }

  /** `!s.trim()`: the string is empty or made only of whitespace. */
  predicate IsBlank(s: string) {
    Trim(s) == ""
  }

  /** A string is blank exactly when every character is whitespace. */
  lemma BlankIffAllWhitespace(s: string)
    ensures IsBlank(s) <==> forall i | 0 <= i < |s| :: IsWhitespace(s[i])
  {
    var t := TrimStart(s);
    if !IsBlank(s) {
      var r := Trim(s);
      assert |r| > 0 && !IsWhitespace(r[|r| - 1]);
      assert r[|r| - 1] == s[|s| - |t| + |r| - 1];
    }
  }

  /** Trimming an already trimmed string changes nothing. */
  lemma TrimIdempotent(s: string)
    ensures Trim(Trim(s)) == Trim(s)
  {
    var r := Trim(s);
    TrimmedHasNoOuterWhitespace(s);
    assert TrimStart(r) == r;
  }

  /** Trimming leaves no whitespace at either end and keeps the inner text. */
  lemma TrimmedHasNoOuterWhitespace(s: string)
    ensures var r := Trim(s); |r| > 0 ==> !IsWhitespace(r[0]) && !IsWhitespace(r[|r| - 1])
    ensures Contains(s, Trim(s))
  {
    var t := TrimStart(s);
    var r := Trim(s);
    assert r <= t;
    assert t == s[|s| - |t|..];
    assert r <= s[|s| - |t|..];
  }

  /** `toLowerCase` on the ASCII letters. */
  function LowerChar(c: char): (r: char)
    ensures 'A' <= c <= 'Z' ==> r as int == c as int + 32
    ensures !('A' <= c <= 'Z') ==> r == c
  {
    if 'A' <= c <= 'Z' then (c as int + 32) as char else c
  }

  function ToLower(s: string): (r: string)
    ensures |r| == |s|
    ensures forall i | 0 <= i < |s| :: r[i] == LowerChar(s[i])
  {
    seq(|s|, i requires 0 <= i < |s| => LowerChar(s[i]))
  }

  // ---------------------------------------------------------------------
  // Decimal numbers
  // ---------------------------------------------------------------------

  predicate IsDigit(c: char) {
    '0' <= c <= '9'
  }

  predicate AllDigits(s: string) {
    forall i | 0 <= i < |s| :: IsDigit(s[i])
  }

  function DigitChar(d: nat): (c: char)
    requires d < 10
  {
    ('0' as int + d) as char
  }

  function DigitValue(c: char): nat
    requires IsDigit(c)
  {
    c as int - '0' as int
  }

  /** `n.toString()` for a natural number. */
  function NatToString(n: nat): (r: string)
    ensures |r| >= 1
    ensures AllDigits(r)
  {
    if n < 10 then [DigitChar(n)] else NatToString(n / 10) + [DigitChar(n % 10)]
  }

  /** Reads a string of decimal digits back into a number (`parseInt`). */
  function ParseNat(s: string): nat
    requires AllDigits(s)
  {
    if |s| == 0 then 0 else ParseNat(s[..|s| - 1]) * 10 + DigitValue(s[|s| - 1])
  }

  /** Rendering a number in decimal and reading it back gives the number. */
  lemma {:induction false} ParseNatToString(n: nat)
    ensures ParseNat(NatToString(n)) == n
  {
    if n >= 10 {
      var s := NatToString(n);
      assert s[..|s| - 1] == NatToString(n / 10);
      ParseNatToString(n / 10);
    }
  }

  /** `s.padStart(2, "0")`. */
  function Pad2(s: string): (r: string)
    ensures |r| == if |s| < 2 then 2 else |s|
  {
    if |s| == 0 then "00" else if |s| == 1 then "0" + s else s
  }

  /** A number below 100, rendered and padded, is two digits that read back
      as the number. */
  lemma Pad2Digits(n: nat)
    requires n < 100
    ensures var p := Pad2(NatToString(n));
            |p| == 2 && AllDigits(p) && ParseNat(p) == n
  {
    var p := Pad2(NatToString(n));
    ParseNatToString(n);
    if n < 10 {
      assert p == ['0', DigitChar(n)];
      assert p[..1] == ['0'];
    } else {
      assert NatToString(n / 10) == [DigitChar(n / 10)];
    }
  }

  // ---------------------------------------------------------------------
  // Clock labels
  // ---------------------------------------------------------------------

  /** `${Math.floor(s / 60)}:${(s % 60).toString().padStart(2, "0")}`:
      the duration label of the queue panel and the search page. */
  function FormatMinSec(seconds: nat): string {
    NatToString(seconds / 60) + ":" + Pad2(NatToString(seconds % 60))
  }

  /** One more base-60 place: `high` units of sixty and `low` units. */
  function Sexagesimal(high: nat, low: nat): nat {
    high * 60 + low
  }

  /** Reads an `m:ss` or `h:mm:ss` label back into seconds; `None` when the
      label has another shape or a field is not decimal. */
  function ParseClock(clock: string): Option<nat> {
    var f := Split(clock, ':');
    if |f| == 2 && AllDigits(f[0]) && AllDigits(f[1]) then
      Some(Sexagesimal(ParseNat(f[0]), ParseNat(f[1])))
    else if |f| == 3 && AllDigits(f[0]) && AllDigits(f[1]) && AllDigits(f[2]) then
      Some(Sexagesimal(Sexagesimal(ParseNat(f[0]), ParseNat(f[1])), ParseNat(f[2])))
    else None
  }

  lemma NoColonInDigits(s: string)
    requires AllDigits(s)
    ensures ':' !in s
  {
  }

  /** The `m:ss` label names exactly `seconds`: reading it back as a clock
      gives minutes * 60 + seconds-within-the-minute. */
  lemma FormatMinSecRoundTrip(seconds: nat)
    ensures ParseClock(FormatMinSec(seconds)) == Some(seconds)
  {
    assert FormatMinSec(seconds) == NatToString(seconds / 60) + [':'] + Pad2(NatToString(seconds % 60));
    MsRoundTrip(seconds / 60, seconds % 60);
  }

  /** The sleep timer's label: `h:mm:ss` when at least an hour remains,
      `m:ss` otherwise. */
  function FormatClock(seconds: nat): string {
    var hrs := seconds / 3600;
    var mins := (seconds % 3600) / 60;
    var secs := seconds % 60;
    if hrs > 0 then
      NatToString(hrs) + ":" + Pad2(NatToString(mins)) + ":" + Pad2(NatToString(secs))
    else
      NatToString(mins) + ":" + Pad2(NatToString(secs))
  }

  /** Two colon-free fields joined by a colon split back into the two. */
  lemma SplitTwoFields(m: string, s: string)
    requires ':' !in m && ':' !in s
    ensures Split(m + [':'] + s, ':') == [m, s]
  {
    SplitJoin(m, s, ':');
    SplitNone(s, ':');
  }

  /** Three colon-free fields joined by colons split back into the three. */
  lemma SplitThreeFields(h: string, m: string, s: string)
    requires ':' !in h && ':' !in m && ':' !in s
    ensures Split(h + [':'] + (m + [':'] + s), ':') == [h, m, s]
  {
    SplitJoin(h, m + [':'] + s, ':');
    SplitTwoFields(m, s);
  }

  /** A label that splits into two digit fields reads as minutes and
      seconds. */
  lemma ParseTwoFields(clock: string, m: string, s: string)
    requires AllDigits(m) && AllDigits(s) && Split(clock, ':') == [m, s]
    ensures ParseClock(clock) == Some(Sexagesimal(ParseNat(m), ParseNat(s)))
  {
    var f := Split(clock, ':');
    assert |f| == 2 && f[0] == m && f[1] == s;
  }

  /** A label that splits into three digit fields reads as hours, minutes
      and seconds. */
  lemma ParseThreeFields(clock: string, h: string, m: string, s: string)
    requires AllDigits(h) && AllDigits(m) && AllDigits(s) && Split(clock, ':') == [h, m, s]
    ensures ParseClock(clock) == Some(Sexagesimal(Sexagesimal(ParseNat(h), ParseNat(m)), ParseNat(s)))
  {
    var f := Split(clock, ':');
    assert |f| == 3 && f[0] == h && f[1] == m && f[2] == s;
  }

  /** The labels with and without hours, written as joined fields. */
  lemma FormatClockFields(seconds: nat)
    ensures seconds >= 3600 ==> (FormatClock(seconds) ==
      NatToString(seconds / 3600) + [':'] + (Pad2(NatToString((seconds % 3600) / 60)) + [':'] + Pad2(NatToString(seconds % 60))))
    ensures seconds < 3600 ==> (FormatClock(seconds) ==
      NatToString((seconds % 3600) / 60) + [':'] + Pad2(NatToString(seconds % 60)))
  {
  }

  /** Hours, minutes and seconds rendered as `h:mm:ss` read back as the
      same three places. */
  lemma HmsRoundTrip(hrs: nat, mins: nat, secs: nat)
    requires mins < 60 && secs < 60
    ensures var clock := NatToString(hrs) + [':'] + (Pad2(NatToString(mins)) + [':'] + Pad2(NatToString(secs)));
      && |Split(clock, ':')| == 3
      && ParseClock(clock) == Some(Sexagesimal(Sexagesimal(hrs, mins), secs))
  {
    var h := NatToString(hrs);
    var m := Pad2(NatToString(mins));
    var s := Pad2(NatToString(secs));
    Pad2Digits(mins);
    Pad2Digits(secs);
    ParseNatToString(hrs);
    NoColonInDigits(h);
    NoColonInDigits(m);
    NoColonInDigits(s);
    SplitThreeFields(h, m, s);
    ParseThreeFields(h + [':'] + (m + [':'] + s), h, m, s);
  }

  /** Minutes and seconds rendered as `m:ss` read back as the same two
      places. */
  lemma MsRoundTrip(mins: nat, secs: nat)
    requires secs < 60
    ensures var clock := NatToString(mins) + [':'] + Pad2(NatToString(secs));
      && |Split(clock, ':')| == 2
      && ParseClock(clock) == Some(Sexagesimal(mins, secs))
  {
    var m := NatToString(mins);
    var s := Pad2(NatToString(secs));
    Pad2Digits(secs);
    ParseNatToString(mins);
    NoColonInDigits(m);
    NoColonInDigits(s);
    SplitTwoFields(m, s);
    ParseTwoFields(m + [':'] + s, m, s);
  }

  /** Whole hours, minutes within the hour and seconds within the minute
      add back up to the duration. */
  lemma ClockArithmetic(seconds: nat)
    ensures Sexagesimal(Sexagesimal(seconds / 3600, (seconds % 3600) / 60), seconds % 60) == seconds
    ensures seconds < 3600 ==> Sexagesimal((seconds % 3600) / 60, seconds % 60) == seconds
  {
    var h := seconds / 3600;
    var r := seconds % 3600;
    assert seconds == h * 3600 + r;
    assert r == (r / 60) * 60 + r % 60;
    assert r % 60 == seconds % 60;
  }

  /** From an hour up the label has three fields and reads back exactly. */
  lemma ClockRoundTripHours(seconds: nat)
    requires seconds >= 3600
    ensures ParseClock(FormatClock(seconds)) == Some(seconds)
    ensures |Split(FormatClock(seconds), ':')| == 3
  {
    FormatClockFields(seconds);
    HmsRoundTrip(seconds / 3600, (seconds % 3600) / 60, seconds % 60);
    ClockArithmetic(seconds);
  }

  /** Below an hour the label has two fields and reads back exactly. */
  lemma ClockRoundTripMinutes(seconds: nat)
    requires seconds < 3600
    ensures ParseClock(FormatClock(seconds)) == Some(seconds)
    ensures |Split(FormatClock(seconds), ':')| == 2
  {
    FormatClockFields(seconds);
    MsRoundTrip((seconds % 3600) / 60, seconds % 60);
    ClockArithmetic(seconds);
  }

  /** The sleep-timer label names exactly the remaining seconds, and it has
      three fields exactly when an hour or more remains. */
  lemma FormatClockRoundTrip(seconds: nat)
    ensures ParseClock(FormatClock(seconds)) == Some(seconds)
    ensures |Split(FormatClock(seconds), ':')| == (if seconds >= 3600 then 3 else 2)
  {
    if seconds >= 3600 {
      ClockRoundTripHours(seconds);
    } else {
      ClockRoundTripMinutes(seconds);
    }
  }
}

=== FILE: url_downloader.dfy ===
/** The URL downloader dialog: classifying a pasted link by host, the
    length gate on input, the simulated analysis, and the download that
    saves one library song per detected track. URL parsing itself is an
    input: the browser's `URL` object, as host, path and query pairs, or
    `None` when the text is not a URL. */
module UrlDownloader {

  import opened Wrappers
  import opened Text
  import opened Music
  import OS = OrderedStore
  import LocalDb

  /** What `new URL(text)` yields. */
  datatype UrlParts = UrlParts(hostname: string, pathname: string, query: seq<(string, string)>)

  /** `searchParams.get(key)`: the first value given for `key`. */
  function QueryGet(query: seq<(string, string)>, key: string): (r: Option<string>)
    ensures r.None? <==> forall i | 0 <= i < |query| :: query[i].0 != key
    ensures r.Some? ==> exists i | 0 <= i < |query| :: query[i] == (key, r.value)
  {
    if |query| == 0 then None
    else if query[0].0 == key then Some(query[0].1)
    else
      var r := QueryGet(query[1..], key);
      assert r.Some? ==> exists i | 0 <= i < |query[1..]| :: query[1..][i] == (key, r.value);
      r
  }

  datatype Platform = YouTube | SoundCloud | Spotify | Other

  datatype Kind = Single | PlaylistKind

  datatype ParsedUrl = ParsedUrl(platform: Platform, kind: Kind, id: string)

  /** The last of the pieces. */
  function Last(pieces: seq<string>): string
    requires |pieces| > 0
  {
    pieces[|pieces| - 1]
  }

  /** `split("/").pop() || ""`: the last piece, which holds no "/"
      (`pop` on a split never meets an empty array, and an empty piece is
      already ""). */
  function LastSegment(p: string): (r: string)
    ensures '/' !in r
  {
    Last(Split(p, '/'))
  }

  /** `r` is the text after the last "/" of `p`, or all of `p` when it has
      none: a suffix of `p` that is either all of it or preceded by "/". */
  predicate SlashSuffix(r: string, p: string) {
    |r| <= |p| && r == p[|p| - |r|..] && (|r| < |p| ==> p[|p| - |r| - 1] == '/')
  }

  /** The segment is the text after the last "/" of the path, or the whole
      path when it has none. */
  lemma {:induction false} LastSegmentIsSuffix(p: string)
    ensures SlashSuffix(LastSegment(p), p)
    decreases |p|
  {
    var k := IndexOf(p, '/');
    if k >= 0 {
      var rest := p[k + 1..];
      LastSegmentIsSuffix(rest);
      SplitStep(p, k);
      SuffixAfterSlash(p, k, LastSegment(rest));
    } else {
      SplitNone(p, '/');
      assert p[0..] == p;
    }
  }

  /** A slash suffix of the text after a "/" is a slash suffix of the whole
      text. */
  lemma {:induction false} SuffixAfterSlash(p: string, k: nat, r: string)
    requires k < |p| && p[k] == '/'
    requires SlashSuffix(r, p[k + 1..])
    ensures SlashSuffix(r, p)
  {
    var rest := p[k + 1..];
    var j := |rest| - |r|;
    assert |p| - |r| == k + 1 + j;
    assert r == p[k + 1 + j..] by {
      assert rest[j..] == p[k + 1 + j..];
    }
    if j > 0 {
      assert rest[j - 1] == p[k + j];
    }
  }

  /** The last piece after the first "/" is the last piece of the whole. */
  lemma {:induction false} SplitStep(p: string, k: nat)
    requires k == IndexOf(p, '/')
    ensures Last(Split(p, '/')) == Last(Split(p[k + 1..], '/'))
  {
    SplitAtFirst(p, '/', k);
    LastAfterFirst(p[..k], Split(p[k + 1..], '/'));
  }

  /** A piece put in front does not change the last one. */
  lemma LastAfterFirst(x: string, t: seq<string>)
    requires |t| > 0
    ensures Last([x] + t) == Last(t)
  {
    assert ([x] + t)[|t|] == t[|t| - 1];
  }

  /** `parseURL`: hosts are checked for YouTube, then SoundCloud, then
      Spotify; anything else is a single "other" item named by the whole
      text. */
  function ParseUrl(url: string, parts: Option<UrlParts>): (r: Option<ParsedUrl>)
    ensures parts.None? <==> r.None?
    ensures r.Some? ==> (r.value.platform == YouTube <==>
      Contains(parts.value.hostname, "youtube.com") || Contains(parts.value.hostname, "youtu.be"))
    ensures (r.Some? && r.value.platform == YouTube) ==>
      (r.value.kind == PlaylistKind <==> QueryGet(parts.value.query, "list").Some?)
    ensures (r.Some? && r.value.platform == YouTube && r.value.kind == PlaylistKind) ==>
      r.value.id == QueryGet(parts.value.query, "list").value
    ensures (r.Some? && r.value.platform == YouTube && r.value.kind == Single) ==>
      r.value.id == OrElse(QueryGet(parts.value.query, "v"), if |parts.value.pathname| == 0 then "" else parts.value.pathname[1..])
    ensures (r.Some? && r.value.platform == SoundCloud) ==>
      Contains(parts.value.hostname, "soundcloud.com") && r.value.id == parts.value.pathname &&
      (r.value.kind == PlaylistKind <==> Contains(parts.value.pathname, "/sets/"))
    ensures (r.Some? && r.value.platform == Spotify) ==>
      Contains(parts.value.hostname, "spotify.com") && !Contains(parts.value.hostname, "soundcloud.com") &&
      r.value.id == LastSegment(parts.value.pathname) &&
      (r.value.kind == PlaylistKind <==> Contains(parts.value.pathname, "/playlist/"))
    ensures (r.Some? && r.value.platform == Other) ==> r.value == ParsedUrl(Other, Single, url)
    ensures r.Some? ==> (
      var h := parts.value.hostname;
      var yt := Contains(h, "youtube.com") || Contains(h, "youtu.be");
      && (r.value.platform == SoundCloud <==> !yt && Contains(h, "soundcloud.com"))
      && (r.value.platform == Spotify <==> !yt && !Contains(h, "soundcloud.com") && Contains(h, "spotify.com"))
      && (r.value.platform == Other <==>
            !yt && !Contains(h, "soundcloud.com") && !Contains(h, "spotify.com")))
  {
    match parts
    case None => None
    case Some(u) =>
      if Contains(u.hostname, "youtube.com") || Contains(u.hostname, "youtu.be") then
        var list := QueryGet(u.query, "list");
        var videoId := OrElse(QueryGet(u.query, "v"), if |u.pathname| == 0 then "" else u.pathname[1..]);
        Some(ParsedUrl(YouTube, if list.Some? then PlaylistKind else Single, if list.Some? then list.value else videoId))
      else if Contains(u.hostname, "soundcloud.com") then
        Some(ParsedUrl(SoundCloud, if Contains(u.pathname, "/sets/") then PlaylistKind else Single, u.pathname))
      else if Contains(u.hostname, "spotify.com") then
        Some(ParsedUrl(Spotify, if Contains(u.pathname, "/playlist/") then PlaylistKind else Single, LastSegment(u.pathname)))
      else Some(ParsedUrl(Other, Single, url))
  }

  /** A track the analysis reports. */
  datatype Track = Track(id: string, title: string, artist: string, thumbnail: string)

  datatype DownloaderState = DownloaderState(url: string, parsed: Option<ParsedUrl>, tracks: seq<Track>)

  const MinUrlLength := 10

  /** `handleURLChange`: longer inputs are parsed (the detected tracks are
      kept); shorter ones clear both the parse and the tracks. */
  function HandleUrlChange(st: DownloaderState, value: string, parts: Option<UrlParts>): (r: DownloaderState)
    ensures r.url == value
    ensures |value| > MinUrlLength ==> r.parsed == ParseUrl(value, parts) && r.tracks == st.tracks
    ensures |value| <= MinUrlLength ==> r.parsed.None? && r.tracks == []
  {
    if |value| > MinUrlLength then st.(url := value, parsed := ParseUrl(value, parts))
    else st.(url := value, parsed := None, tracks := [])
  }

  const PlaylistTracks := [
    Track("1", "Track 1", "Artist A", "https://picsum.photos/seed/track1/80/80"),
    Track("2", "Track 2", "Artist B", "https://picsum.photos/seed/track2/80/80"),
    Track("3", "Track 3", "Artist C", "https://picsum.photos/seed/track3/80/80"),
    Track("4", "Track 4", "Artist D", "https://picsum.photos/seed/track4/80/80"),
    Track("5", "Track 5", "Artist E", "https://picsum.photos/seed/track5/80/80")]

  const SingleTrack := Track("1", "Detected Track", "Unknown Artist", "https://picsum.photos/seed/single/80/80")

  /** `handleAnalyze`: the simulated analysis finds five tracks for a
      playlist and one for a single item; nothing happens without a parse. */
  function HandleAnalyze(st: DownloaderState): (r: DownloaderState)
    ensures st.parsed.None? ==> r == st
    ensures st.parsed.Some? ==> |r.tracks| == (if st.parsed.value.kind == PlaylistKind then 5 else 1)
    ensures r.url == st.url && r.parsed == st.parsed
  {
    if st.parsed.None? then st
    else if st.parsed.value.kind == PlaylistKind then st.(tracks := PlaylistTracks)
    else st.(tracks := [SingleTrack])
  }

  /** `download-${now}-${index}`. */
  function DownloadId(now: nat, index: nat): (id: string)
    ensures "download-" <= id
  {
    "download-" + NatToString(now) + "-" + NatToString(index)
  }

  /** Tracks saved in one download get distinct ids. */
  lemma DownloadIdInjective(now: nat, i: nat, j: nat)
    requires DownloadId(now, i) == DownloadId(now, j)
    ensures i == j
  {
    var prefix := "download-" + NatToString(now) + "-";
    assert DownloadId(now, i)[|prefix|..] == NatToString(i);
    assert DownloadId(now, j)[|prefix|..] == NatToString(j);
    ParseNatToString(i);
    ParseNatToString(j);
  }

  /** The simulated length: 180 plus a random whole number below 120, for a
      random `pick` in [0, 1). */
  function SimulatedDuration(pick: real): (d: nat)
    requires 0.0 <= pick < 1.0
    ensures 180 <= d <= 299
  {
    180 + (pick * 120.0).Floor
  }

  /** The library song saved for the track at `index`. */
  function DownloadedSong(t: Track, index: nat, now: nat, pick: real, platform: Option<Platform>): (s: Song)
    requires 0.0 <= pick < 1.0
    ensures s.id == DownloadId(now, index) && s.title == t.title && s.artist == t.artist
    ensures s.album == "Downloaded" && s.thumbnail == t.thumbnail && s.isDownloaded
    ensures 180 <= s.duration <= 299
    ensures s.source == YouTubeSource <==> platform == Some(YouTube)
    ensures s.source != YouTubeSource ==> s.source == LocalSource
    ensures s.youtubeId.None? && s.streamUrl.None?
  {
    Song(DownloadId(now, index), t.title, t.artist, "Downloaded", SimulatedDuration(pick), t.thumbnail,
         if platform == Some(YouTube) then YouTubeSource else LocalSource, None, true, None)
  }

  /** The songs of one download, one per detected track, in track order. */
  function DownloadedSongs(tracks: seq<Track>, now: nat, picks: seq<real>, platform: Option<Platform>): (r: seq<Song>)
    requires |picks| == |tracks| && forall i | 0 <= i < |picks| :: 0.0 <= picks[i] < 1.0
    ensures |r| == |tracks|
    ensures forall i | 0 <= i < |r| :: r[i] == DownloadedSong(tracks[i], i, now, picks[i], platform)
  {
    seq(|tracks|, i requires 0 <= i < |tracks| => DownloadedSong(tracks[i], i, now, picks[i], platform))
  }

  /** Saves each song without a blob, stamped `now`. */
  function SaveAll(db: LocalDb.Db, songs: seq<Song>, now: int): (r: LocalDb.Db)
    requires LocalDb.Valid(db)
    ensures LocalDb.Valid(r) && r.history == db.history && r.favorites == db.favorites
    decreases |songs|
  {
    if |songs| == 0 then db else SaveAll(LocalDb.SaveSongData(db, songs[0], None, now), songs[1..], now)
  }

  /** After saving songs with distinct ids, each is stored, without a blob,
      and every other key reads as before. */
  lemma {:induction false} SaveAllStoresEach(db: LocalDb.Db, songs: seq<Song>, now: int)
    requires LocalDb.Valid(db) && DistinctIds(songs)
    ensures forall i | 0 <= i < |songs| ::
      LocalDb.GetSongData(SaveAll(db, songs, now), songs[i].id) == Some(LocalDb.SongRecord(songs[i], None, now))
    ensures forall id | !HasId(songs, id) :: LocalDb.GetSongData(SaveAll(db, songs, now), id) == LocalDb.GetSongData(db, id)
    decreases |songs|
  {
    if |songs| > 0 {
      var db1 := LocalDb.SaveSongData(db, songs[0], None, now);
      var rest := songs[1..];
      assert DistinctIds(rest) by {
        forall i, j | 0 <= i < j < |rest| ensures rest[i].id != rest[j].id {
          assert rest[i] == songs[i + 1] && rest[j] == songs[j + 1];
        }
      }
      SaveAllStoresEach(db1, rest, now);
      forall i | 0 <= i < |songs|
        ensures LocalDb.GetSongData(SaveAll(db, songs, now), songs[i].id) == Some(LocalDb.SongRecord(songs[i], None, now))
      {
        if i == 0 {
          assert !HasId(rest, songs[0].id) by {
            forall k | 0 <= k < |rest| ensures rest[k].id != songs[0].id {
              assert rest[k] == songs[k + 1];
            }
          }
        } else {
          assert songs[i] == rest[i - 1];
        }
      }
      forall id | !HasId(songs, id)
        ensures LocalDb.GetSongData(SaveAll(db, songs, now), id) == LocalDb.GetSongData(db, id)
      {
        assert !HasId(rest, id) by {
          forall k | 0 <= k < |rest| ensures rest[k].id != id {
            assert rest[k] == songs[k + 1];
          }
        }
        assert songs[0].id != id;
        OS.GetAfterPutOther(db.songs, songs[0].id, LocalDb.SongRecord(songs[0], None, now), id);
      }
    }
  }

  /** The songs of one download have distinct ids. */
  lemma DownloadedSongsDistinct(tracks: seq<Track>, now: nat, picks: seq<real>, platform: Option<Platform>)
    requires |picks| == |tracks| && forall i | 0 <= i < |picks| :: 0.0 <= picks[i] < 1.0
    ensures DistinctIds(DownloadedSongs(tracks, now, picks, platform))
  {
    var songs := DownloadedSongs(tracks, now, picks, platform);
    forall i, j | 0 <= i < j < |songs| ensures songs[i].id != songs[j].id {
      if songs[i].id == songs[j].id {
        DownloadIdInjective(now, i, j);
      }
    }
  }

  /** `handleDownload`: nothing without detected tracks; otherwise one song
      per track is saved, marked downloaded but with no audio, and the saved
      songs are reported in track order. `picks` are the random draws for
      the durations. */
  function HandleDownload(st: DownloaderState, db: LocalDb.Db, now: nat, picks: seq<real>): (r: (LocalDb.Db, seq<Song>))
    requires LocalDb.Valid(db)
    requires |picks| == |st.tracks| && forall i | 0 <= i < |picks| :: 0.0 <= picks[i] < 1.0
    ensures |st.tracks| == 0 ==> r == (db, [])
    ensures |r.1| == |st.tracks| && LocalDb.Valid(r.0)
    ensures forall i | 0 <= i < |r.1| ::
      r.1[i].isDownloaded && r.1[i].title == st.tracks[i].title &&
      LocalDb.GetSongData(r.0, r.1[i].id) == Some(LocalDb.SongRecord(r.1[i], None, now))
    ensures forall id | !("download-" <= id) :: LocalDb.GetSongData(r.0, id) == LocalDb.GetSongData(db, id)
  {
    if |st.tracks| == 0 then (db, [])
    else
      var platform := if st.parsed.Some? then Some(st.parsed.value.platform) else None;
      var songs := DownloadedSongs(st.tracks, now, picks, platform);
      DownloadedSongsDistinct(st.tracks, now, picks, platform);
      SaveAllStoresEach(db, songs, now);
      assert forall id | !("download-" <= id) :: !HasId(songs, id);
      (SaveAll(db, songs, now), songs)
  }
}

=== FILE: video_id.dfy ===
/** Video-id extraction. Both the streaming edge function and the client hook
    try two regular expressions in order:
      1. one of the markers `youtube.com/watch?v=`, `youtu.be/`,
         `youtube.com/embed/`, anywhere in the input, followed by a run of
         characters other than `&`, `?`, `#` and newline, which is captured
         (leftmost match, greedy run);
      2. the whole input is exactly 11 characters from `[A-Za-z0-9_-]`.
    The URL tab of the YouTube page uses only the first two markers and no
    second pattern. */
module VideoId {

  import opened Wrappers

  const WatchMarker := "youtube.com/watch?v="
  const ShortMarker := "youtu.be/"
  const EmbedMarker := "youtube.com/embed/"

  /** The markers of the edge function and the client hook, in regex
      alternation order. */
  const FullMarkers := [WatchMarker, ShortMarker, EmbedMarker]
  /** The markers of the YouTube page's URL tab. */
  const NarrowMarkers := [WatchMarker, ShortMarker]

  /** `[^&\n?#]`. */
  predicate IdChar(c: char) {
    c != '&' && c != '\n' && c != '?' && c != '#'
  }

  /** `[a-zA-Z0-9_-]`. */
  predicate BareIdChar(c: char) {
    ('a' <= c <= 'z') || ('A' <= c <= 'Z') || ('0' <= c <= '9') || c == '_' || c == '-'
  }

  /** `^[a-zA-Z0-9_-]{11}$`: without the multiline flag `$` matches only at
      the end of the input. */
  predicate IsBareId(s: string) {
    |s| == 11 && forall i | 0 <= i < |s| :: BareIdChar(s[i])
  }

  /** Marker `m` occurs at `p` and at least one id character follows it. */
  predicate MatchesWith(m: string, s: string, p: nat) {
    p + |m| < |s| && s[p..p + |m|] == m && IdChar(s[p + |m|])
  }

  /** Some marker of the list matches at `p`. */
  predicate MatchesAt(markers: seq<string>, s: string, p: nat) {
    exists k | 0 <= k < |markers| :: MatchesWith(markers[k], s, p)
  }

  /** No alternative before index `j` matches at `p`. */
  predicate NoEarlierMarker(markers: seq<string>, s: string, p: nat, j: nat) {
    forall k | 0 <= k < j && k < |markers| :: !MatchesWith(markers[k], s, p)
  }

  /** No marker matches at any position of `[lo, hi)`. */
  predicate NoMatchIn(markers: seq<string>, s: string, lo: nat, hi: nat) {
    forall q | lo <= q < hi :: !MatchesAt(markers, s, q)
  }

  /** The first alternative that matches at `p`. */
  function FirstMarker(markers: seq<string>, s: string, p: nat): (r: Option<nat>)
    ensures r.Some? <==> MatchesAt(markers, s, p)
    ensures r.Some? ==> r.value < |markers| && MatchesWith(markers[r.value], s, p)
    ensures r.Some? ==> NoEarlierMarker(markers, s, p, r.value)
  {
    if |markers| == 0 then None
    else if MatchesWith(markers[0], s, p) then Some(0)
    else
      match FirstMarker(markers[1..], s, p)
      case None =>
        assert forall k | 1 <= k < |markers| :: markers[k] == markers[1..][k - 1];
        None
      case Some(k) => Some(k + 1)
  }

  /** The leftmost position at or after `p` where a marker matches. */
  function Leftmost(markers: seq<string>, s: string, p: nat): (r: Option<nat>)
    decreases |s| - p
    ensures r.None? <==> NoMatchIn(markers, s, p, |s|)
    ensures r.Some? ==> p <= r.value < |s| && MatchesAt(markers, s, r.value)
    ensures r.Some? ==> NoMatchIn(markers, s, p, r.value)
  {
    if p >= |s| then None
    else if FirstMarker(markers, s, p).Some? then Some(p)
    else Leftmost(markers, s, p + 1)
  }

  /** The length of the run of id characters starting at `i`. */
  function RunLength(s: string, i: nat): (n: nat)
    requires i <= |s|
    decreases |s| - i
    ensures i + n <= |s|
    ensures forall j | i <= j < i + n :: IdChar(s[j])
    ensures i + n == |s| || !IdChar(s[i + n])
  {
    if i == |s| || !IdChar(s[i]) then 0 else 1 + RunLength(s, i + 1)
  }

  /** The captured group when the match is at `p`: the greedy run after the
      first alternative that matches there. */
  function CaptureAt(markers: seq<string>, s: string, p: nat): (id: string)
    requires MatchesAt(markers, s, p)
    ensures |id| > 0 && forall i | 0 <= i < |id| :: IdChar(id[i])
    ensures var start := p + |markers[FirstMarker(markers, s, p).value]|;
      start + |id| <= |s| && id == s[start..start + |id|] && (start + |id| == |s| || !IdChar(s[start + |id|]))
  {
    var k := FirstMarker(markers, s, p).value;
    var start := p + |markers[k]|;
    s[start..start + RunLength(s, start)]
  }

  /** `p` is the leftmost position where some marker matches. */
  predicate LeftmostMatch(markers: seq<string>, s: string, p: nat) {
    p < |s| && MatchesAt(markers, s, p) && NoMatchIn(markers, s, 0, p)
  }

  /** The first pattern on its own. */
  function MatchMarkers(markers: seq<string>, s: string): (r: Option<string>)
    ensures r.None? <==> NoMatchIn(markers, s, 0, |s|)
    ensures r.Some? ==> |r.value| > 0 && forall i | 0 <= i < |r.value| :: IdChar(r.value[i])
    ensures r.Some? ==> exists p | LeftmostMatch(markers, s, p) :: r.value == CaptureAt(markers, s, p)
  {
    match Leftmost(markers, s, 0)
    case None => None
    case Some(p) => Some(CaptureAt(markers, s, p))
  }

  /** `extractVideoId` of the edge function and of the streaming hook. */
  function ExtractVideoId(s: string): (r: Option<string>)
    ensures r.None? <==> NoMatchIn(FullMarkers, s, 0, |s|) && !IsBareId(s)
    ensures r.Some? ==> |r.value| > 0 && forall i | 0 <= i < |r.value| :: IdChar(r.value[i])
    ensures MatchMarkers(FullMarkers, s).None? && IsBareId(s) ==> r == Some(s)
    ensures !NoMatchIn(FullMarkers, s, 0, |s|) ==>
      exists p | LeftmostMatch(FullMarkers, s, p) :: r == Some(CaptureAt(FullMarkers, s, p))
  {
    match MatchMarkers(FullMarkers, s)
    case Some(id) => Some(id)
    case None => if IsBareId(s) then Some(s) else None
  }

  /** The URL tab's narrower pattern: no embed form and no bare id. */
  function ExtractFromUrlTab(s: string): (r: Option<string>)
    ensures r.None? <==> NoMatchIn(NarrowMarkers, s, 0, |s|)
    ensures r.Some? ==> exists p | LeftmostMatch(NarrowMarkers, s, p) :: r.value == CaptureAt(NarrowMarkers, s, p)
  {
    MatchMarkers(NarrowMarkers, s)
  }

  // ---------------------------------------------------------------------------
  // Properties

  /** No marker fits inside an 11-character bare id: the two long markers
      do not fit at all and the short one would need a `.` there. */
  lemma NoMarkerInBareId(id: string, markers: seq<string>, q: nat)
    requires IsBareId(id)
    requires forall k | 0 <= k < |markers| :: markers[k] in FullMarkers
    ensures !MatchesAt(markers, id, q)
  {
    forall k | 0 <= k < |markers| ensures !MatchesWith(markers[k], id, q) {
      if markers[k] == ShortMarker && q + 9 < 11 {
        assert id[q..q + 9][5] == id[q + 5];
        assert BareIdChar(id[q + 5]);
      }
    }
  }

  /** An 11-character bare id comes back unchanged. */
  lemma BareIdRoundTrip(id: string)
    requires IsBareId(id)
    ensures ExtractVideoId(id) == Some(id)
    ensures ExtractFromUrlTab(id).None?
  {
    forall q | 0 <= q < |id| ensures !MatchesAt(FullMarkers, id, q) && !MatchesAt(NarrowMarkers, id, q) {
      NoMarkerInBareId(id, FullMarkers, q);
      NoMarkerInBareId(id, NarrowMarkers, q);
    }
  }

  /** When every character from `i` on is an id character the run reaches
      the end. */
  lemma {:induction false} RunToEnd(s: string, i: nat)
    requires i <= |s|
    requires forall j | i <= j < |s| :: IdChar(s[j])
    ensures RunLength(s, i) == |s| - i
    decreases |s| - i
  {
    if i < |s| {
      RunToEnd(s, i + 1);
    }
  }

  /** A marker does not match where one of its characters differs from the
      input. */
  lemma DiffersAt(m: string, s: string, p: nat, j: nat)
    requires j < |m| && p + j < |s| && s[p + j] != m[j]
    ensures !MatchesWith(m, s, p)
  {
    if p + |m| <= |s| {
      assert s[p..p + |m|][j] == s[p + j];
    }
  }

  /** A marker followed by an id character matches at the start. */
  lemma MatchesAtStart(m: string, id: string)
    requires |id| > 0 && IdChar(id[0])
    ensures MatchesWith(m, m + id, 0)
  {
    assert (m + id)[..|m|] == m && (m + id)[|m|] == id[0];
  }

  /** The short form differs from the watch form at index 5. */
  lemma ShortIsNotWatch(id: string)
    ensures NoEarlierMarker(FullMarkers, ShortMarker + id, 0, 1)
  {
    assert (ShortMarker + id)[5] == ShortMarker[5];
    DiffersAt(WatchMarker, ShortMarker + id, 0, 5);
    assert FullMarkers[0] == WatchMarker;
  }

  /** The embed form differs from the watch form at index 12 and from the
      short form at index 5. */
  lemma EmbedIsNeitherWatchNorShort(id: string)
    ensures NoEarlierMarker(FullMarkers, EmbedMarker + id, 0, 2)
  {
    assert (EmbedMarker + id)[12] == EmbedMarker[12];
    DiffersAt(WatchMarker, EmbedMarker + id, 0, 12);
    assert (EmbedMarker + id)[5] == EmbedMarker[5];
    DiffersAt(ShortMarker, EmbedMarker + id, 0, 5);
    assert FullMarkers[0] == WatchMarker && FullMarkers[1] == ShortMarker;
  }

  /** The alternative picked is the one that matches with none matching
      before it. */
  lemma FirstMarkerIs(markers: seq<string>, s: string, p: nat, k: nat)
    requires k < |markers| && MatchesWith(markers[k], s, p)
    requires NoEarlierMarker(markers, s, p, k)
    ensures FirstMarker(markers, s, p) == Some(k)
  {
  }

  /** At the start of a marker followed by an id, the alternative picked is
      that marker. */
  lemma FirstMarkerAtStart(k: nat, id: string)
    requires k < |FullMarkers| && |id| > 0 && IdChar(id[0])
    ensures FirstMarker(FullMarkers, FullMarkers[k] + id, 0) == Some(k)
  {
    MatchesAtStart(FullMarkers[k], id);
    if k == 1 {
      ShortIsNotWatch(id);
    } else if k == 2 {
      EmbedIsNeitherWatchNorShort(id);
    }
    FirstMarkerIs(FullMarkers, FullMarkers[k] + id, 0, k);
  }

  /** A marker followed by an id made of id characters yields that id. */
  lemma MarkerRoundTrip(k: nat, id: string)
    requires k < |FullMarkers|
    requires |id| > 0 && forall i | 0 <= i < |id| :: IdChar(id[i])
    ensures ExtractVideoId(FullMarkers[k] + id) == Some(id)
  {
    var m := FullMarkers[k];
    var s := m + id;
    FirstMarkerAtStart(k, id);
    assert Leftmost(FullMarkers, s, 0) == Some(0);
    RunAfterMarker(m, id);
  }

  /** The run stops at the first character that is not an id character. */
  lemma {:induction false} RunStops(s: string, i: nat, n: nat)
    requires i + n < |s| && !IdChar(s[i + n])
    requires forall j | i <= j < i + n :: IdChar(s[j])
    ensures RunLength(s, i) == n
    decreases n
  {
    if n > 0 {
      RunStops(s, i + 1, n - 1);
    }
  }

  /** A link of any of the three forms, with the id followed by a query or
      fragment (`&t=10`, `?si=x`, `#x`) or a new line, yields exactly the id. */
  lemma MarkerWithTailRoundTrip(k: nat, id: string, tail: string)
    requires k < |FullMarkers|
    requires |id| > 0 && forall i | 0 <= i < |id| :: IdChar(id[i])
    requires |tail| > 0 && !IdChar(tail[0])
    ensures ExtractVideoId(FullMarkers[k] + id + tail) == Some(id)
  {
    var m := FullMarkers[k];
    var s := m + id + tail;
    assert s == m + (id + tail);
    FirstMarkerAtStart(k, id + tail);
    assert Leftmost(FullMarkers, s, 0) == Some(0);
    assert forall j | |m| <= j < |m| + |id| :: s[j] == id[j - |m|];
    assert s[|m| + |id|] == tail[0];
    RunStops(s, |m|, |id|);
    assert s[|m|..|m| + |id|] == id;
  }

  /** After a marker, an id made of id characters is one whole run. */
  lemma RunAfterMarker(m: string, id: string)
    requires forall i | 0 <= i < |id| :: IdChar(id[i])
    ensures var s := m + id;
      RunLength(s, |m|) == |id| && s[|m|..|m| + RunLength(s, |m|)] == id
  {
    var s := m + id;
    assert forall j | |m| <= j < |s| :: s[j] == id[j - |m|];
    RunToEnd(s, |m|);
    assert s[|m|..] == id;
  }

  /** Every URL-tab alternative is an alternative of the full pattern, at
      the same index. */
  lemma NarrowIsPrefixOfFull()
    ensures |NarrowMarkers| == 2 && forall k | 0 <= k < 2 :: NarrowMarkers[k] == FullMarkers[k]
  {
  }

  /** At a position where the embed form does not match, the two patterns
      match alike. */
  lemma MatchesAlike(s: string, q: nat)
    requires !MatchesWith(EmbedMarker, s, q)
    ensures MatchesAt(FullMarkers, s, q) <==> MatchesAt(NarrowMarkers, s, q)
  {
    NarrowIsPrefixOfFull();
    if MatchesAt(NarrowMarkers, s, q) {
      var k :| 0 <= k < |NarrowMarkers| && MatchesWith(NarrowMarkers[k], s, q);
      assert MatchesWith(FullMarkers[k], s, q);
    }
    if MatchesAt(FullMarkers, s, q) {
      var k :| 0 <= k < |FullMarkers| && MatchesWith(FullMarkers[k], s, q);
      if k < 2 {
        assert MatchesWith(NarrowMarkers[k], s, q);
      }
    }
  }

  /** Every URL-tab match is also a match of the full pattern. */
  lemma UrlTabMatchIsFullMatch(s: string, q: nat)
    requires MatchesAt(NarrowMarkers, s, q)
    ensures MatchesAt(FullMarkers, s, q)
  {
    var k :| 0 <= k < |NarrowMarkers| && MatchesWith(NarrowMarkers[k], s, q);
    assert FullMarkers[k] == NarrowMarkers[k];
  }

  /** Whatever the URL tab accepts, the edge function accepts too. */
  lemma UrlTabNarrower(s: string)
    requires ExtractFromUrlTab(s).Some?
    ensures ExtractVideoId(s).Some?
  {
    var p :| 0 <= p < |s| && MatchesAt(NarrowMarkers, s, p);
    UrlTabMatchIsFullMatch(s, p);
  }

  /** Where the first URL-tab alternative matches, the full pattern picks
      the same alternative. */
  lemma FirstMarkerAlike(s: string, p: nat)
    requires MatchesAt(NarrowMarkers, s, p)
    ensures FirstMarker(FullMarkers, s, p) == FirstMarker(NarrowMarkers, s, p)
  {
    NarrowIsPrefixOfFull();
    var k := FirstMarker(NarrowMarkers, s, p).value;
    assert MatchesWith(FullMarkers[k], s, p);
  }

  /** Without an embed marker in the input the two agree. */
  lemma UrlTabAgreesWithoutEmbed(s: string)
    requires forall q | 0 <= q < |s| :: !MatchesWith(EmbedMarker, s, q)
    ensures ExtractVideoId(s).Some? && MatchMarkers(FullMarkers, s).Some? ==> ExtractVideoId(s) == MatchMarkers(FullMarkers, s)
    ensures ExtractFromUrlTab(s).Some? ==> ExtractVideoId(s) == ExtractFromUrlTab(s)
  {
    MatchMarkersAlike(s);
  }

  /** Without an embed marker the first patterns capture alike. */
  lemma MatchMarkersAlike(s: string)
    requires forall q | 0 <= q < |s| :: !MatchesWith(EmbedMarker, s, q)
    ensures MatchMarkers(FullMarkers, s) == MatchMarkers(NarrowMarkers, s)
  {
    LeftmostAlike(s);
    match Leftmost(NarrowMarkers, s, 0)
    case None =>
    case Some(p) => CaptureAlike(s, p);
  }

  /** Where a URL-tab alternative matches, both patterns capture the same
      run. */
  lemma CaptureAlike(s: string, p: nat)
    requires MatchesAt(NarrowMarkers, s, p)
    ensures MatchesAt(FullMarkers, s, p) && CaptureAt(FullMarkers, s, p) == CaptureAt(NarrowMarkers, s, p)
  {
    UrlTabMatchIsFullMatch(s, p);
    FirstMarkerAlike(s, p);
    NarrowIsPrefixOfFull();
  }

  /** Without an embed marker both patterns first match at the same place. */
  lemma LeftmostAlike(s: string)
    requires forall q | 0 <= q < |s| :: !MatchesWith(EmbedMarker, s, q)
    ensures Leftmost(FullMarkers, s, 0) == Leftmost(NarrowMarkers, s, 0)
  {
    forall q | 0 <= q < |s| ensures MatchesAt(FullMarkers, s, q) <==> MatchesAt(NarrowMarkers, s, q) {
      MatchesAlike(s, q);
    }
  }

  /** The embed link used below: neither narrow marker occurs in it. */
  lemma EmbedLinkLacksNarrowMarkers(q: nat)
    ensures var s := EmbedMarker + "abc";
      !MatchesWith(WatchMarker, s, q) && !MatchesWith(ShortMarker, s, q)
  {
    var s := EmbedMarker + "abc";
    assert s == "youtube.com/embed/abc";
    if q + 20 < |s| {
      assert s[q..q + 20][12] != WatchMarker[12];
    }
    if q + 9 < |s| {
      if q == 2 {
        assert s[q..q + 9][6] != ShortMarker[6];
      } else {
        assert s[q..q + 9][5] == s[q + 5] != '.';
      }
    }
  }

  /** The URL tab does not accept the embed form. */
  lemma UrlTabRejectsEmbed()
    ensures ExtractVideoId(EmbedMarker + "abc") == Some("abc")
    ensures ExtractFromUrlTab(EmbedMarker + "abc").None?
  {
    MarkerRoundTrip(2, "abc");
    var s := EmbedMarker + "abc";
    forall q | 0 <= q < |s| ensures !MatchesAt(NarrowMarkers, s, q) {
      EmbedLinkLacksNarrowMarkers(q);
    }
  }
}

=== FILE: wrappers.dfy ===
/** Failure-compatible wrappers shared by every module of the model.
    `Option` stands for a JavaScript value that may be `null`/`undefined`;
    `Result` for an operation that either yields a value or reports an error
    message to the user. */
module Wrappers {

  datatype Option<+T> = None | Some(value: T) {

    predicate IsFailure() {
      None?
    }

    function PropagateFailure<U>(): Option<U>
      requires None?
    {
      None
    }

    function Extract(): T
      requires Some?
    {
      value
    }

    /** The JavaScript `x ?? d` of a possibly-missing value. */
    function GetOr(default: T): T {
      match this
      case Some(v) => v
      case None => default
    }
  }

  datatype Result<+R, +E> = Success(value: R) | Failure(error: E) {

    predicate IsFailure() {
      Failure?
    }

    function PropagateFailure<U>(): Result<U, E>
      requires Failure?
    {
      Failure(error)
    }

    function Extract(): R
      requires Success?
    {
      value
    }

    function ToOption(): Option<R> {
      match this
      case Success(v) => Some(v)
      case Failure(_) => None
    }
  }
}

=== FILE: youtube_api.dfy ===
/** The YouTube Data API client and its search hook: results become songs
    whose id is the video id behind a `yt-` prefix. The HTTP calls are
    inputs: what each fetch produced. */
module YouTubeApi {

  import opened Wrappers
  import opened Text
  import opened Music

  /** One search or trending hit. `duration` is 0 when the API did not say. */
  datatype SearchResult = SearchResult(
    id: string,
    videoId: string,
    title: string,
    artist: string,
    thumbnail: string,
    duration: nat)

  /** What one API request produced: an error (network, non-2xx status or
      a malformed body) or the mapped items. */
  datatype Fetched = FetchFailed | Items(results: seq<SearchResult>)

  const YtPrefix := "yt-"

  /** The song id of a YouTube video. */
  function YtSongId(videoId: string): (id: string)
    ensures |id| == |YtPrefix| + |videoId| && YtPrefix <= id && id[|YtPrefix|..] == videoId
  {
    YtPrefix + videoId
  }

  /** Distinct videos get distinct song ids. */
  lemma YtSongIdInjective(a: string, b: string)
    requires YtSongId(a) == YtSongId(b)
    ensures a == b
  {
    assert a == YtSongId(a)[|YtPrefix|..];
  }

  /** `duration || 180`: the three-minute placeholder for an unknown length. */
  function DurationOrDefault(duration: nat): (r: nat)
    ensures r > 0
    ensures duration > 0 ==> r == duration
    ensures duration == 0 ==> r == 180
  {
    if duration > 0 then duration else 180
  }

  /** `convertToSong`: a streamable, not downloaded YouTube song. */
  function ConvertToSong(result: SearchResult): (s: Song)
    ensures s.id == YtSongId(result.videoId) && s.youtubeId == Some(result.videoId)
    ensures s.title == result.title && s.artist == result.artist && s.thumbnail == result.thumbnail
    ensures s.album == "YouTube Music" && s.source == YouTubeSource && !s.isDownloaded && s.streamUrl.None?
    ensures s.duration == DurationOrDefault(result.duration)
  {
    Song(YtSongId(result.videoId), result.title, result.artist, "YouTube Music",
         DurationOrDefault(result.duration), result.thumbnail, YouTubeSource,
         Some(result.videoId), false, None)
  }

  /** `search` and `getTrending`: nothing without an API key (no request is
      made), nothing when the request failed, the mapped items otherwise.
      `fetched` is what the request would produce. */
  function Query(apiKey: Option<string>, fetched: Fetched): (r: seq<SearchResult>)
    ensures !Truthy(apiKey) ==> r == []
    ensures fetched.FetchFailed? ==> r == []
    ensures Truthy(apiKey) && fetched.Items? ==> r == fetched.results
  {
    if !Truthy(apiKey) then []
    else match fetched
      case FetchFailed => []
      case Items(results) => results
  }

  /** Whether `search`/`getTrending` issues a request at all. */
  predicate Requests(apiKey: Option<string>) {
    Truthy(apiKey)
  }

  /** The hook's state after `search(query)`: the results shown and whether
      the API was asked. A blank query clears the list without asking. */
  datatype SearchOutcome = SearchOutcome(results: seq<SearchResult>, asked: bool)

  function SearchHook(query: string, apiKey: Option<string>, fetched: Fetched): (r: SearchOutcome)
    ensures IsBlank(query) ==> r == SearchOutcome([], false)
    ensures !IsBlank(query) ==> r.asked == Requests(apiKey) && r.results == Query(apiKey, fetched)
  {
    if IsBlank(query) then SearchOutcome([], false)
    else SearchOutcome(Query(apiKey, fetched), Requests(apiKey))
  }

  /** The hook can only show what the API returned: every result listed by
      a search came from the request's items. */
  lemma SearchShowsOnlyFetched(query: string, apiKey: Option<string>, fetched: Fetched)
    ensures var r := SearchHook(query, apiKey, fetched);
      |r.results| > 0 ==> r.asked && fetched.Items? && r.results == fetched.results
  {
  }

  /** Converting keeps the video: the song's YouTube id and the suffix of
      its song id are both the result's video id. */
  lemma ConvertKeepsVideo(result: SearchResult)
    ensures ConvertToSong(result).id[|YtPrefix|..] == ConvertToSong(result).youtubeId.value
  {
  }
}

=== FILE: youtube_page.dfy ===
/** The YouTube page's handlers: the search guard, playing or queueing a
    search result, analysing a pasted URL, playing or queueing the analysed
    video, and the download button. The edge-function call, the blob fetch
    and the clock are parameters. */
module YouTubePage {

  import opened Wrappers
  import opened Text
  import opened Music
  import Player
  import VideoId
  import YouTubeApi
  import StreamingClient
  import LocalDb
  import SoundController

  // ---------------------------------------------------------------------------
  // Search

  /** The page's search state: whether trending results are shown, and the
      query handed to the hook's `search` (`None` when none was issued). */
  datatype SearchStep = SearchStep(showTrending: bool, searched: Option<string>)

  /** `handleSearch`: a blank query does nothing; any other query hides the
      trending list and is searched as typed. */
  function HandleSearch(query: string, showTrending: bool): (r: SearchStep)
    ensures IsBlank(query) <==> r.searched.None?
    ensures IsBlank(query) ==> r.showTrending == showTrending
    ensures !IsBlank(query) ==> !r.showTrending && r.searched == Some(query)
  {
    if !IsBlank(query) then SearchStep(false, Some(query)) else SearchStep(showTrending, None)
  }

  /** `handlePlay`: the streamed song when stream info was obtained, else the
      search result's own song ("demo mode"); either way it plays. */
  function HandlePlay(st: Player.PlayerState, result: YouTubeApi.SearchResult, invoke: string -> StreamingClient.Invoked): (r: Player.PlayerState)
    ensures r.isPlaying && r.currentSong.Some? && r.queue == st.queue
    ensures StreamingClient.PlayYouTubeVideo(result.videoId, invoke).None? ==>
      r.currentSong == Some(YouTubeApi.ConvertToSong(result))
    ensures StreamingClient.PlayYouTubeVideo(result.videoId, invoke).Some? ==>
      r.currentSong == StreamingClient.PlayYouTubeVideo(result.videoId, invoke)
  {
    var song := match StreamingClient.PlayYouTubeVideo(result.videoId, invoke)
      case Some(s) => s
      case None => YouTubeApi.ConvertToSong(result);
    Player.PlaySong(st, song)
  }

  /** Whatever the edge function answers, the song played for a search
      result names the result's video. */
  lemma PlayedResultNamesVideo(st: Player.PlayerState, result: YouTubeApi.SearchResult, invoke: string -> StreamingClient.Invoked)
    requires VideoId.IsBareId(result.videoId)
    requires invoke(result.videoId).Body? ==> invoke(result.videoId).data.videoId == result.videoId
    ensures HandlePlay(st, result, invoke).currentSong.value.id == YouTubeApi.YtSongId(result.videoId)
    ensures SoundController.DerivedVideoId(HandlePlay(st, result, invoke).currentSong.value) == Some(result.videoId)
  {
    VideoId.BareIdRoundTrip(result.videoId);
    var song := HandlePlay(st, result, invoke).currentSong.value;
    if StreamingClient.PlayYouTubeVideo(result.videoId, invoke).Some? {
      SoundController.DerivedIdOfStreamedSong(StreamingClient.GetStreamInfo(result.videoId, invoke).value);
    } else {
      SoundController.DerivedIdOfSearchResult(result);
    }
  }

  // ---------------------------------------------------------------------------
  // Providers

  /** The two player states mounted while the YouTube page is open: the
      app's, the only one the sound controller reads, and the one the page
      mounts around its own content. */
  datatype Providers = Providers(app: Player.PlayerState, page: Player.PlayerState)

  /** `handlePlay` as mounted: it writes the page's own provider and leaves
      the app's state untouched. */
  function PlayOnPageAsWritten(m: Providers, result: YouTubeApi.SearchResult, invoke: string -> StreamingClient.Invoked): (r: Providers)
    ensures r.app == m.app
    ensures r.page.isPlaying && r.page.queue == m.page.queue
    ensures r.page.currentSong == HandlePlay(m.page, result, invoke).currentSong
  {
    m.(page := HandlePlay(m.page, result, invoke))
  }

  /** `handlePlay` with the page under the app's provider: the state the
      page shows is the state the sound controller reads. */
  function PlayOnPage(m: Providers, result: YouTubeApi.SearchResult, invoke: string -> StreamingClient.Invoked): (r: Providers)
    ensures r.page == r.app
    ensures r.app.isPlaying && r.app.queue == m.app.queue
    ensures r.app.currentSong == HandlePlay(m.app, result, invoke).currentSong
  {
    var s := HandlePlay(m.app, result, invoke);
    Providers(s, s)
  }

  /** As mounted, with no song in the app's player, a result played on the
      page shows as playing while the sound controller loads nothing. */
  lemma PagePlayNeverReachesController(m: Providers, result: YouTubeApi.SearchResult, invoke: string -> StreamingClient.Invoked,
                                       db: LocalDb.Db, dbFails: bool, fetch: string -> Option<string>, playRejected: bool)
    requires m.app.currentSong.None?
    ensures PlayOnPageAsWritten(m, result, invoke).page.isPlaying
    ensures PlayOnPageAsWritten(m, result, invoke).page.currentSong.Some?
    ensures SoundController.LoadSong(PlayOnPageAsWritten(m, result, invoke).app, db, dbFails, fetch, playRejected).source.None?
  {
  }

  /** Under one provider the sound controller loads the song the page
      played. */
  lemma PagePlayReachesController(m: Providers, result: YouTubeApi.SearchResult, invoke: string -> StreamingClient.Invoked,
                                  db: LocalDb.Db, dbFails: bool, fetch: string -> Option<string>, playRejected: bool)
    ensures SoundController.LoadSong(PlayOnPage(m, result, invoke).app, db, dbFails, fetch, playRejected).source ==
      Some(SoundController.LoadSource(HandlePlay(m.app, result, invoke).currentSong.value, db, dbFails, fetch))
  {
  }

  /** `handleAddToQueue`: the result's song goes to the end of the queue. */
  function HandleAddToQueue(st: Player.PlayerState, result: YouTubeApi.SearchResult): (r: Player.PlayerState)
    ensures r.queue == st.queue + [YouTubeApi.ConvertToSong(result)]
    ensures r.currentSong == st.currentSong && r.queueIndex == st.queueIndex
  {
    Player.AddToQueue(st, YouTubeApi.ConvertToSong(result))
  }

  // ---------------------------------------------------------------------------
  // The URL tab

  /** What the page keeps about an analysed video: no duration. */
  datatype AnalyzedVideo = AnalyzedVideo(videoId: string, title: string, author: string, thumbnail: string)

  /** The outcome of `handleAnalyzeUrl`: untouched for a blank input, a
      found video, or the error toast's message (the analysed video is then
      cleared). */
  datatype Analysis = Untouched | Found(video: AnalyzedVideo) | AnalyzeError(message: string)

  /** `handleAnalyzeUrl`: the URL tab's own pattern picks the id, which the
      streaming hook then resolves and fetches. */
  function HandleAnalyzeUrl(urlInput: string, invoke: string -> StreamingClient.Invoked): (r: Analysis)
    ensures IsBlank(urlInput) <==> r.Untouched?
    ensures (!IsBlank(urlInput) && VideoId.ExtractFromUrlTab(urlInput).None?) ==> r == AnalyzeError("Invalid YouTube URL")
    ensures r.Found? ==> Some(r.video.videoId) == VideoId.ExtractFromUrlTab(urlInput)
    ensures (!IsBlank(urlInput) && VideoId.ExtractFromUrlTab(urlInput).Some?) ==>
      (r.Found? <==> StreamingClient.PlayYouTubeVideo(VideoId.ExtractFromUrlTab(urlInput).value, invoke).Some?)
    ensures r.AnalyzeError? ==> r.message in {"Invalid YouTube URL", "Could not analyze video"}
  {
    if IsBlank(urlInput) then Untouched
    else match VideoId.ExtractFromUrlTab(urlInput)
      case None => AnalyzeError("Invalid YouTube URL")
      case Some(id) =>
        match StreamingClient.PlayYouTubeVideo(id, invoke)
        case None => AnalyzeError("Could not analyze video")
        case Some(song) => Found(AnalyzedVideo(id, song.title, song.artist, song.thumbnail))
  }

  /** An embed link, which the edge function would accept, is refused by the
      URL tab before the edge function is asked. */
  lemma EmbedLinkIsRefused(invoke: string -> StreamingClient.Invoked)
    ensures HandleAnalyzeUrl(VideoId.EmbedMarker + "abc", invoke) == AnalyzeError("Invalid YouTube URL")
  {
    VideoId.UrlTabRejectsEmbed();
    assert !IsBlank(VideoId.EmbedMarker + "abc") by {
      assert !IsWhitespace((VideoId.EmbedMarker + "abc")[0]);
      BlankIffAllWhitespace(VideoId.EmbedMarker + "abc");
    }
  }

  /** The song built from an analysed video when the edge function gives
      none, and for "Add to Queue". The record has no duration, so the
      three-minute default always applies. */
  function AnalyzedSong(v: AnalyzedVideo): (s: Song)
    ensures s.id == YouTubeApi.YtSongId(v.videoId) && s.youtubeId == Some(v.videoId)
    ensures s.title == v.title && s.artist == v.author && s.thumbnail == v.thumbnail
    ensures s.duration == 180 && s.album == "YouTube" && s.source == YouTubeSource
    ensures !s.isDownloaded && s.streamUrl.None?
  {
    Song(YouTubeApi.YtSongId(v.videoId), v.title, v.author, "YouTube", YouTubeApi.DurationOrDefault(0),
         v.thumbnail, YouTubeSource, Some(v.videoId), false, None)
  }

  /** `handlePlayAnalyzed`: nothing without an analysed video; otherwise the
      streamed song, or the analysed song when streaming fails, is played,
      so the "Failed to play video" branch is never reached. */
  function HandlePlayAnalyzed(st: Player.PlayerState, analyzed: Option<AnalyzedVideo>, invoke: string -> StreamingClient.Invoked): (r: Player.PlayerState)
    ensures analyzed.None? ==> r == st
    ensures analyzed.Some? ==> r.isPlaying && r.currentSong.Some? && r.queue == st.queue
    ensures (analyzed.Some? && StreamingClient.PlayYouTubeVideo(analyzed.value.videoId, invoke).None?) ==>
      r.currentSong == Some(AnalyzedSong(analyzed.value))
    ensures (analyzed.Some? && StreamingClient.PlayYouTubeVideo(analyzed.value.videoId, invoke).Some?) ==>
      r.currentSong == StreamingClient.PlayYouTubeVideo(analyzed.value.videoId, invoke)
  {
    if analyzed.None? then st
    else
      var song := match StreamingClient.PlayYouTubeVideo(analyzed.value.videoId, invoke)
        case Some(s) => s
        case None => AnalyzedSong(analyzed.value);
      Player.PlaySong(st, song)
  }

  /** "Add to Queue" on the analysed video. */
  function AddAnalyzedToQueue(st: Player.PlayerState, v: AnalyzedVideo): (r: Player.PlayerState)
    ensures r.queue == st.queue + [AnalyzedSong(v)]
    ensures r.currentSong == st.currentSong && r.queueIndex == st.queueIndex
  {
    Player.AddToQueue(st, AnalyzedSong(v))
  }

  /** An analysed song is recognisable by the sound controller as the
      analysed video, with or without its `youtubeId`. */
  lemma AnalyzedSongNamesVideo(v: AnalyzedVideo)
    ensures SoundController.DerivedVideoId(AnalyzedSong(v).(youtubeId := None)) == Some(v.videoId)
  {
    var s := AnalyzedSong(v).(youtubeId := None);
    YouTubeApi.YtSongIdInjective(SoundController.DerivedVideoId(s).value, v.videoId);
  }

  // ---------------------------------------------------------------------------
  // Download

  /** The toast a download ends with, and the database after it. */
  datatype Download = Download(db: LocalDb.Db, message: string)

  const DownloadedMessage := "Downloaded for offline play!"

  /** The download button: stream info for the result's video; with a
      non-empty audio URL the blob is fetched (`fetchBlob`, `None` when the
      browser refuses it) and saved with the song marked downloaded. */
  function DownloadResult(db: LocalDb.Db, result: YouTubeApi.SearchResult, invoke: string -> StreamingClient.Invoked,
                          fetchBlob: string -> Option<Blob>, now: int): (r: Download)
    requires LocalDb.Valid(db)
    ensures LocalDb.Valid(r.db)
    ensures r.message != DownloadedMessage ==> r.db == db
    ensures r.message == DownloadedMessage ==>
      var info := StreamingClient.GetStreamInfo(result.videoId, invoke);
      info.Success? && Truthy(info.value.audioUrl) && fetchBlob(info.value.audioUrl.value).Some? &&
      LocalDb.GetSongData(r.db, YouTubeApi.YtSongId(result.videoId)) ==
        Some(LocalDb.SongRecord(YouTubeApi.ConvertToSong(result).(isDownloaded := true),
                                fetchBlob(info.value.audioUrl.value), now))
    ensures r.message in {DownloadedMessage, "Download failed. CORS restricted.", "Stream not available for download"}
  {
    match StreamingClient.GetStreamInfo(result.videoId, invoke)
    case Failure(_) => Download(db, "Stream not available for download")
    case Success(info) =>
      if !Truthy(info.audioUrl) then Download(db, "Stream not available for download")
      else match fetchBlob(info.audioUrl.value)
        case None => Download(db, "Download failed. CORS restricted.")
        case Some(blob) =>
          var song := YouTubeApi.ConvertToSong(result).(isDownloaded := true, source := YouTubeSource);
          Download(LocalDb.SaveSongData(db, song, Some(blob), now), DownloadedMessage)
  }

  /** A downloaded result later plays from the stored blob, without asking
      the network. */
  lemma DownloadedResultPlaysOffline(db: LocalDb.Db, result: YouTubeApi.SearchResult, invoke: string -> StreamingClient.Invoked,
                                     fetchBlob: string -> Option<Blob>, now: int, fetch: string -> Option<string>)
    requires LocalDb.Valid(db)
    requires DownloadResult(db, result, invoke, fetchBlob, now).message == DownloadedMessage
    ensures var d := DownloadResult(db, result, invoke, fetchBlob, now);
      var song := YouTubeApi.ConvertToSong(result).(isDownloaded := true);
      SoundController.LoadSource(song, d.db, false, fetch).OfflineBlob?
  {
  }
}
